=== FILE: README.md ===
# rpc.hpp in Dafny

rpc.hpp is a header-only C++ library for remote procedure calls. This project is a Dafny model of its core, together with the Python script that generates its dispatch macros.

- A server binds functions by name and answers serialized call objects.
- A client sends a call and runs a receive loop, answering callback requests the server sends back.
- Adapters turn call objects into bytes (bitsery) or JSON (rapidjson, Boost.JSON).
- `dispatch_gen.py` writes `rpc_dispatch_helper.hpp`, a ladder of preprocessor macros that lets one macro call attach many functions to the server.

The repository mixes generations of the API. There are three exception enumerations: 0..13 in `include/rpc.hpp`, 0..12 in `include/impl/rpc_exceptions.hpp` and 0..9 in `include/rpc_common.hpp`. There are also two copies of `rpc_type`. Each file is modelled as written, in its own module, and the generations are not unified.

| file | module | what it holds |
|---|---|---|
| wrappers.dfy | `Wrappers` | `Option`, `Result` (returns or throws), `Checked` (returns, throws, or stops on an assertion) |
| values.dfy | `Values` | abstract argument and result values |
| cpp_int.dfy | `CppInt` | conversion of an integer to a C++ integer type of a given width (wrap-around modulo 2^bits) |
| seqs.dfy | `Seqs` | `Map`, applying a function to each element of a sequence |
| dispatch_gen.dfy | `DispatchGen` | the generator as a function from the depth N to structured `#define` records, the text they render to, macro expansion, and first-match dispatch |
| dispatch_helper.dfy | `DispatchHelper` | the checked-in header at depth 30, related to the generator |
| helper_text.dfy | `HelperText` | lines 3 to 71 of the checked-in header as literal text, with the level numbers open, and the proof that the generator renders exactly that text |
| rpc.dfy | `Rpc` | `include/rpc.hpp`: enums, validators, `rpc_throw`, `rpc_object` accessors, field schemas, `exec_func` |
| c_strings.dfy | `CStrings` | what a reader of a `const char*` (a `what()` or a `c_str()`) sees: the characters before the first NUL |
| impl_exceptions.dfy | `ImplExceptions` | `include/impl/rpc_exceptions.hpp` |
| impl_rpc_object.dfy | `ImplKinds`, `ImplObject` | `include/impl/rpc_object.hpp`: the rpc_type enumeration and the rpc_object accessors |
| impl_rpc_types.dfy | `ImplTypes` | `include/impl/detail/rpc_types.hpp` |
| impl_exec_func.dfy | `ImplExec` | `include/impl/detail/exec_func.hpp` |
| for_each.dfy | `ForEach` | `for_each_tuple` and `tuple_bind` |
| rpc_server.dfy | `RpcServer` | bind, dispatch, `handle_bytes`, callback objects |
| rpc_client.dfy | `RpcClient` | calls, the receive loop, the callback map |
| test_server.dfy | `TestServer` | the test server's callback registry |
| rpc_common.dfy | `RpcCommon` | `packed_func` and its exceptions |
| bytes.dfy | `Bytes` | little-endian reads and writes of `memcpy`'d integers |
| bitsery_adapter.dfy | `BitseryAdapter` | `include/adapters/rpc_bitsery.hpp`: size prefix, type header, name slice, hash |
| bitsery_legacy.dfy | `BitseryLegacy` | `include/rpc_adapters/rpc_bitsery.hpp`: helper conversion, in-place `set_err_mesg` |
| boost_json.dfy | `BoostJson` | `include/rpc_adapters/rpc_boost_json.hpp` over an abstract JSON value |
| rapidjson.dfy | `RapidJson` | `include/adapters/rpc_rapidjson.hpp` over an abstract JSON value |
| safe_strcpy.dfy | `SafeStrcpy` | `safe::strcpy` |
| array_adapter.dfy | `ArrayAdapter` | `container_adapter<std::array<T, N>>` |

Modelling conventions:
- A call that throws returns `Err(exception)`. An exception is its dynamic class, its `what()`, and its `get_type()` as an integer.
- `what()` returns a `const char*`. A message the code builds from it (an `rpc_error`'s `err_mesg`, or an exception constructed from another's `what()`) keeps only the characters before the first NUL (`CStrings.CStr`).
- Where the code relies on an assertion or on undefined behaviour, the model returns `AssertionFails` or states a `requires`.
- Exception types are stored as integers, because `static_cast` can produce any integer. Lemmas relate each enumerator to its number in both directions. The kind of a message (`rpc_type`) is the constructor of its record; only `Rpc.ParseBytes` sees the integer a serial object stores for it.
- Byte order is little-endian wherever the code uses `memcpy` or `reinterpret_cast`.
- A handler is the serial adapter's read of a request's tuple as the handler's parameter types, which may throw, together with an abstract outcome: its return value, the arguments after the call, or the exception it threw.
- A received byte stream is a given sequence of already-parsed objects, unparseable inputs, or failed receives.

## Model

| member | source | states |
|---|---|---|
| DispatchGen.Depth | dispatch_gen.py:35-79 | the depth is 20 unless the first command-line argument gives another |
| DispatchGen.Decimal | dispatch_gen.py:93-96 | level numbers are written as decimal numerals: digits only, no leading zero, one digit exactly below 10 |
| DispatchGen.DecimalRoundTrip | dispatch_gen.py:93-96 | reading a written numeral back gives the level, so the text names the level it was generated for |
| DispatchGen.DecimalInjective | dispatch_gen.py:93-96 | different levels get different numerals |
| DispatchGen.LadderNamesDistinct | dispatch_gen.py:89-106 | no two levels of either ladder share a macro name, so each level is defined once |
| DispatchGen.LadderItems | dispatch_gen.py:89-106 | line k of a ladder defines level k; RPC_FE_0/1 (RPC_FE2_0..2) are always written, and the loop adds levels up to N only when N reaches 2 (3) |
| DispatchGen.LadderRefersToPrevious | dispatch_gen.py:89-106 | the bodies of RPC_FE_0/1 and RPC_FE2_0..2 use no macro; every later level uses EXPAND and the level directly below, and nothing else |
| DispatchGen.GeneratedLadderWellFormed | dispatch_gen.py:89-106 | for every N, definition k of a ladder is level k, and each level forwards only to the one below it |
| DispatchGen.SingleLadderCallsEach | dispatch_gen.py:89-96 | RPC_FE_k expands to WHAT applied to each of its k arguments once, in order |
| DispatchGen.PairLadderPairsFirst | dispatch_gen.py:98-106 | RPC_FE2_k expands to WHAT(X, Y) for the fixed first argument X and each later argument Y, in order |
| DispatchGen.Placeholders | dispatch_gen.py:108-113 | RPC_GET_MACRO gets N + 1 placeholders, the i-th spelling `_` and the numeral of i, no two alike |
| DispatchGen.ForEachUsesExactly | dispatch_gen.py:115-127 | a for-each body uses EXPAND, RPC_GET_MACRO, then every ladder level from N down to 0 |
| DispatchGen.CandidatesDescending | dispatch_gen.py:115-127 | the candidate list is the levels N, N-1, ..., 0, each once, strictly descending |
| DispatchGen.SelectsLevel | dispatch_gen.py:108-127 | with m arguments, m at most N, the NAME slot receives ladder level m; with more it receives a user argument |
| DispatchGen.ForEachCallsEach | dispatch_gen.py:89-120 | RPC_FOR_EACH applies the action to each of its 1..N arguments in order; more than N arguments do not expand to a ladder call |
| DispatchGen.ForEach2PairsFirst | dispatch_gen.py:98-127 | RPC_FOR_EACH2 pairs its first argument with each later one, in order, up to N arguments |
| DispatchGen.AttachChainNamesEach | dispatch_gen.py:144-161 | RPC_ATTACH_FUNCS (plain or cached) yields one branch per name, comparing and dispatching that name, in order |
| DispatchGen.AliasChainTargetsFirst | dispatch_gen.py:163-185 | RPC_MULTI_ALIAS_FUNC yields one branch per alias, comparing the alias and dispatching the first argument |
| DispatchGen.FirstMatch | dispatch_gen.py:144-191 | the chain of ifs takes the first branch comparing equal, and no earlier one compares equal; no branch is taken exactly when none compares equal |
| DispatchGen.FirstMatchAt | dispatch_gen.py:144-191 | the branch taken is determined by the compared names alone |
| DispatchGen.ShadowedBranchIsDead | dispatch_gen.py:144-191 | a later branch comparing an already-compared name is never taken, and removing it changes no dispatch |
| DispatchGen.DefaultDispatchFindsListed | dispatch_gen.py:187-192 | RPC_DEFAULT_DISPATCH dispatches a listed name to itself and reaches the not-found throw only after the whole chain |
| DispatchGen.WrittenMessageIgnoresName | dispatch_gen.py:191 | as written, the not-found message is the same for every name and contains the literal text ` + func_name + ` |
| DispatchGen.IntendedMessageNamesFunction | dispatch_gen.py:191 | with the quotes escaped, the message quotes the missing name, so different names give different messages |
| DispatchGen.InOrderMeansEarlier | dispatch_gen.py:81-193 | the item-by-item order check means every macro a definition uses is defined on an earlier item |
| DispatchGen.LayoutDefinesBeforeUse | dispatch_gen.py:81-193 | for every N, no macro of the generated file is used before it is defined |
| DispatchGen.LayoutHeaderEnd | dispatch_gen.py:130-138 | the RPC_HEADER_FUNC block ends with the client definition followed by #endif |
| DispatchGen.WrittenEndifJoinsClientLine | dispatch_gen.py:134-138 | as written, the client definition has no newline, so `#endif` is glued to `= nullptr` and not every directive starts a line |
| DispatchGen.LayoutDirectivesStartLines | dispatch_gen.py:81-193 | once the client line ends with a newline, every directive of the file starts a line |
| DispatchGen.CorrectedDirectivesStartLines | dispatch_gen.py:136 | the file with the client line terminated has every directive at the start of a line |
| DispatchHelper.HelperLaddersAreGenerated | include/rpc_dispatch_helper.hpp:3-71 | the header's ladder section is the generator's section between its guard and its #endif |
| DispatchHelper.HelperSingleLadderRecurses | include/rpc_dispatch_helper.hpp:7-35 | each RPC_FE_k, k = 2..30, is the generated level k and uses only EXPAND and RPC_FE_{k-1} |
| DispatchHelper.HelperPairLadderRecurses | include/rpc_dispatch_helper.hpp:40-67 | each RPC_FE2_k, k = 3..30, keeps X fixed, recurses into RPC_FE2_{k-1} and uses nothing else |
| DispatchHelper.HelperSelectorsAtDepth30 | include/rpc_dispatch_helper.hpp:69-71 | RPC_GET_MACRO lists _0.._30 then NAME; RPC_FOR_EACH and RPC_FOR_EACH2 list levels 30 down to 0 |
| DispatchHelper.CachedAddsTrue | include/rpc_dispatch_helper.hpp:73-83 | a cached macro is its plain macro with `, true` added to the dispatch call |
| DispatchHelper.AliasComparesAliasDispatchesName | include/rpc_dispatch_helper.hpp:79-83 | the alias macros compare FUNC_ALIAS but dispatch FUNCNAME |
| DispatchHelper.HelperDispatchSetsErrorLast | include/rpc_dispatch_helper.hpp:85 | a listed name is dispatched; any other name falls through every branch and gets the error quoting it |
| DispatchHelper.HelperDefinesBeforeUse | include/rpc_dispatch_helper.hpp:1-85 | every macro a definition of the header uses is defined on an earlier line |
| HelperText.HelperLaddersRendered | include/rpc_dispatch_helper.hpp:3-71 | for every depth N >= 2, the text the generator writes between its `#if` guard and the `#endif` after the selectors is, character for character, the transcription of the header's lines 3 to 71, whose level numbers are written as functions of the depth (the checked-in header is depth 30) |
| HelperText.LadderRunRendered | dispatch_gen.py:88-104 | the lines written for levels 0 to m of either ladder are the header's `RPC_FE_k` / `RPC_FE2_k` lines for k = 0..m, in order |
| HelperText.LadderLineRendered | include/rpc_dispatch_helper.hpp:5-67 | level k of either ladder renders as the header's line for level k: the fixed lines for RPC_FE_0/1 and RPC_FE2_0..2, and the forwarding line naming k and k - 1 otherwise |
| HelperText.ExpandRendered | dispatch_gen.py:86 | the EXPAND definition renders as `#define EXPAND(x) x` followed by a blank line |
| HelperText.GetMacroRendered | dispatch_gen.py:107-112 | RPC_GET_MACRO renders as `#define RPC_GET_MACRO(_0, _1, ..., _N, NAME, ...) NAME` |
| HelperText.PlaceholdersJoined | dispatch_gen.py:109-110 | RPC_GET_MACRO's parameters from `_i` on, joined with `, ` and followed by NAME, are `_i, ..., _N, NAME` |
| HelperText.DescendingRendered | dispatch_gen.py:116-117 | a selector's candidate list reads `P_k, P_(k-1), ..., P_1, ` for the ladder's prefix P |
| HelperText.ForEachRendered | dispatch_gen.py:114-127 | RPC_FOR_EACH and RPC_FOR_EACH2 render as the header's lines 70 and 71: RPC_GET_MACRO applied to the arguments, then levels N down to 0 |
| Rpc.ExceptionCode | include/rpc.hpp:75-91 | each exception_type enumerator has its declared value, none = 0 up to callback_missing = 13; ExceptionTypeOf reads it back |
| Rpc.ExceptionTypeOf | include/rpc.hpp:75-91 | an integer in 0..13 names an enumerator, and that enumerator has this value |
| Rpc.ValidExceptionTypeIsEnumerator | include/rpc.hpp:93-97 | validate_exception_type holds exactly for the values of enumerators |
| Rpc.ExceptionCodeRoundTrip | include/rpc.hpp:75-91 | distinct enumerators have distinct values, and each value reads back as its enumerator |
| Rpc.ClassTag | include/rpc.hpp:122-148 | each derived class has a fixed type other than none; only the base class has none |
| Rpc.Raise | include/rpc.hpp:101-148 | a derived exception keeps its message and reports its class's type, which is valid |
| Rpc.MakeRpcException | include/rpc.hpp:101-120 | rpc_exception(mesg, type) reports that type and message; its postcondition demands a valid type |
| Rpc.RpcThrow | include/rpc.hpp:464-515 | rpc_throw raises the class whose type is except_type, with err_mesg; only none raises the base class |
| Rpc.RpcTypeCode | include/rpc.hpp:532-543 | each rpc_type enumerator has its declared value, callback_install_request = 0 up to func_result_w_bind = 8; RpcTypeOf reads it back |
| Rpc.RpcTypeOf | include/rpc.hpp:532-543 | an integer in 0..8 names an rpc_type with that value |
| Rpc.ValidRpcTypeIsEnumerator | include/rpc.hpp:545-549 | validate_rpc_type holds exactly for the values of rpc_type enumerators |
| Rpc.RpcTypeCodeRoundTrip | include/rpc.hpp:532-543 | rpc_type values are distinct and read back as their kinds |
| Rpc.ErrorOf | include/rpc.hpp:437-459 | an rpc_error built from an exception keeps name, callback flag and type, and stores its what() up to the first NUL; throwing it again gives the same type and that message, which is the original message when it holds no NUL |
| Rpc.Type | include/rpc.hpp:561-602 | an object's kind is a callback kind exactly for install requests and callback records |
| Rpc.Serialize | include/rpc.hpp:1205-1312 | every record writes "type" (its kind's value) and then "func_name" first |
| Rpc.Deserialize | include/rpc.hpp:1205-1312 | whatever field list is accepted is exactly the serialization of the record read |
| Rpc.SerializeRoundTrip | include/rpc.hpp:1205-1312 | every record reads back from the fields it writes |
| Rpc.ConstructorsYieldKind | include/rpc.hpp:561-602 | each rpc_object constructor yields type() equal to the payload's kind, with the callback variant chosen by IsCallback |
| Rpc.RequestFieldOrder | include/rpc.hpp:1205-1225 | a request writes type, func_name, bind_args, args in that order |
| Rpc.WBindFieldsExtendRequest | include/rpc.hpp:1252-1279 | a result_w_bind writes a request's fields with bind_args true, plus the result when R is not void |
| Rpc.VoidResultOmitsResult | include/rpc.hpp:1227-1250 | a void result writes only type and func_name |
| Rpc.ErrorFieldOrder | include/rpc.hpp:1281-1301 | an error writes type, func_name, except_type, err_mesg |
| Rpc.ParseBytes | include/rpc.hpp:604-620 | parse_bytes never throws; it is empty exactly when from_bytes throws, fails its postconditions on an empty object or a type integer that names no rpc_type, and otherwise wraps the object |
| Rpc.ParseBytesChecksStoredType | include/rpc.hpp:604-620 | an object a constructor wrote passes unchanged; a type integer past the last enumerator fails the postcondition |
| Rpc.GetResult | include/rpc.hpp:634-678 | get_result<R> returns nothing for void R and otherwise the adapter's read of the stored result as R, which may throw; it rethrows the stored error for the two error kinds and throws object_mismatch_error otherwise |
| Rpc.GetArgs | include/rpc.hpp:680-706 | get_args<Args...> gives the adapter's read of the stored tuple as the declared types, which may throw, on the request and result_w_bind kinds; object_mismatch_error on the rest |
| Rpc.IsCallbackUninstall | include/rpc.hpp:708-715 | is_callback_uninstall holds only for an install request, and then exactly when is_uninstall is set |
| Rpc.GetErrorType | include/rpc.hpp:717-743 | get_error_type returns the stored type exactly for the two error kinds |
| Rpc.GetErrorMesg | include/rpc.hpp:745-770 | get_error_mesg returns the stored message exactly for the two error kinds |
| Rpc.HasBoundArgs | include/rpc.hpp:772-797 | has_bound_args gives the flag for requests, true for result_w_bind, and throws otherwise |
| Rpc.IsError | include/rpc.hpp:799-806 | is_error holds exactly for func_error and callback_error |
| Rpc.AccessorTablesAgree | include/rpc.hpp:634-806 | get_args and has_bound_args are legal on the same kinds, the error accessors on the error kinds, and get_result never returns on an error |
| Rpc.ExecFunc | include/rpc.hpp:1153-1202 | exec_func lets the typed argument read's exception escape (it is outside the try); otherwise it keeps func_name, yields result_w_bind exactly when args were bound, carries the return value and post-call args, and turns a thrown std::exception into remote_exec_error built from its what() up to the first NUL |
| ImplExceptions.ExceptionCode | include/impl/rpc_exceptions.hpp:9-24 | each exception_type enumerator has its declared value, none = 0 up to callback_missing = 12 |
| ImplExceptions.ExceptionTypeOf | include/impl/rpc_exceptions.hpp:9-24 | an integer in 0..12 names an enumerator with that value |
| ImplExceptions.ExceptionNumbering | include/impl/rpc_exceptions.hpp:9-24 | the numbering is a bijection between the enumerators none..callback_missing and 0..12 |
| ImplExceptions.ClassTag | include/impl/rpc_exceptions.hpp:45-211 | each derived class passes a fixed type other than none to the base constructor; only the base class has no fixed type |
| ImplExceptions.ClassFor | include/impl/rpc_exceptions.hpp:45-211 | every type other than none is the fixed type of some derived class |
| ImplExceptions.ClassTagsDistinct | include/impl/rpc_exceptions.hpp:45-211 | each derived class is the class for its own type, so no two derived classes share a type |
| ImplExceptions.MakeRpcException | include/impl/rpc_exceptions.hpp:26-43 | get_type returns the type it was built with and what() the message |
| ImplExceptions.Raise | include/impl/rpc_exceptions.hpp:45-211 | a derived class keeps the message and reports its fixed tag |
| CStrings.CString | include/impl/rpc_exceptions.hpp:48-56 | a const char* names the characters before the first NUL: a NUL-free prefix of the buffer, followed in the buffer by a NUL unless it is the whole buffer |
| CStrings.CStr | include/impl/detail/rpc_types.hpp:166-175 | what() or c_str() of a string shows its longest NUL-free prefix, which is the whole string exactly when it holds no NUL |
| ImplExceptions.RaiseFromCString | include/impl/rpc_exceptions.hpp:48-56 | the const char* constructor is the std::string one applied to the characters before the NUL |
| ImplExceptions.CStringConstructorAgrees | include/impl/rpc_exceptions.hpp:48-56 | the std::string and const char* constructors give the same tag and message |
| ImplKinds.RpcTypeCodeRoundTrip | include/impl/rpc_object.hpp:14-25 | rpc_type runs callback_install_request = 0 .. func_result_w_bind = 8, distinct and readable back |
| ImplKinds.RpcTypeCode | include/impl/rpc_object.hpp:14-25 | each rpc_type enumerator has its declared value, callback_install_request = 0 up to func_result_w_bind = 8 |
| ImplKinds.RpcTypeOf | include/impl/rpc_object.hpp:14-25 | every integer 0..8 names an rpc_type, and the one named has that integer as its value |
| ImplObject.ParseBytes | include/impl/rpc_object.hpp:34-45 | parse_bytes is empty exactly when from_bytes throws and otherwise wraps its result |
| ImplObject.ParseBytesAfterToBytes | include/impl/rpc_object.hpp:34-45 | for an adapter whose from_bytes reads back its own to_bytes, parse_bytes of the written bytes gives the object back; bytes from_bytes refuses give nothing |
| ImplObject.GetResult | include/impl/rpc_object.hpp:86-125 | get_result<R> returns nothing for void R and otherwise the adapter's read of the stored result as R, which may throw; rethrows for error kinds; rpc_object_mismatch for the rest |
| ImplObject.GetArgs | include/impl/rpc_object.hpp:127-149 | get_args<Args...> gives the adapter's read of the stored tuple as the declared types, which may throw, on the request and result_w_bind kinds; rpc_object_mismatch on the rest |
| ImplObject.IsCallbackUninstall | include/impl/rpc_object.hpp:151-157 | false for every kind but an install request, whose flag it reports |
| ImplObject.GetErrorType | include/impl/rpc_object.hpp:159-180 | legal exactly for the two error kinds, else rpc_object_mismatch |
| ImplObject.GetErrorMesg | include/impl/rpc_object.hpp:182-204 | legal exactly for the two error kinds, else rpc_object_mismatch |
| ImplObject.HasBoundArgs | include/impl/rpc_object.hpp:206-227 | true for result_w_bind kinds, the flag for requests, throws otherwise |
| ImplObject.IsError | include/impl/rpc_object.hpp:229-234 | holds exactly for the error kinds |
| ImplObject.AccessorTablesAgree | include/impl/rpc_object.hpp:86-234 | get_args and has_bound_args apply to the same kinds, the error accessors to the error kinds, and get_result returns exactly on kinds that are neither errors, requests nor install requests |
| ImplTypes.MakeRequest | include/impl/detail/rpc_types.hpp:21-37 | rpc_request keeps its name, args and callback flag, and bind_args is what the caller passed |
| ImplTypes.RequestDefaultsUnbound | include/impl/detail/rpc_types.hpp:21-37 | bind_args defaults to false, is_uninstall defaults to false, and a default error has type none |
| ImplTypes.Type | include/impl/detail/rpc_types.hpp:39-278 | the kind a record is written under is a callback kind exactly for install requests and records built as callbacks |
| ImplTypes.Serialize | include/impl/detail/rpc_types.hpp:39-278 | every record writes its kind's value as "type" first, and "func_name" second |
| ImplTypes.InstallRequest | include/impl/detail/rpc_types.hpp:259-268 | a callback_install_request carries the name |
| ImplTypes.DefaultError | include/impl/detail/rpc_types.hpp:166-186 | a default rpc_error has no name and no message |
| ImplTypes.ErrorOf | include/impl/detail/rpc_types.hpp:166-186 | an rpc_error from an exception stores its get_type() and its what() up to the first NUL, so the whole message when it holds no NUL |
| ImplTypes.RpcThrow | include/impl/detail/rpc_types.hpp:188-233 | rpc_throw raises the class carrying except_type with the message; none and unknown values give rpc_exception(none) |
| ImplTypes.ErrorRethrowsSameException | include/impl/detail/rpc_types.hpp:166-233 | an exception of a derived class, or a plain one of type none, turned into an error and thrown again comes back with the same class and type and with its message up to the first NUL (the same exception when the message holds no NUL); a plain one with another type in the enumeration comes back as the class that carries it, and one outside the enumeration as a plain exception of type none |
| ImplTypes.Deserialize | include/impl/detail/rpc_types.hpp:39-278 | an accepted field list is exactly the serialization of the record read |
| ImplTypes.SerializeRoundTrip | include/impl/detail/rpc_types.hpp:39-278 | every record reads back from the fields it writes |
| ImplTypes.RequestFieldOrder | include/impl/detail/rpc_types.hpp:39-59 | a request writes type (by IsCallback), func_name, bind_args, args in order |
| ImplTypes.ResultFieldPresence | include/impl/detail/rpc_types.hpp:78-101 | a result writes "result" exactly when R is not void |
| ImplTypes.WBindFieldsExtendRequest | include/impl/detail/rpc_types.hpp:124-158 | result_w_bind always writes bind_args = true then args; a void one is a request with bind_args set, apart from the kind |
| ImplTypes.ErrorFieldOrder | include/impl/detail/rpc_types.hpp:235-254 | an error writes type, func_name, except_type, err_mesg |
| ImplExec.ExecFunc | include/impl/detail/exec_func.hpp:11-55 | args (read as the parameter types, outside the try), name and flag are read first, and a failing read escapes as it is; the reply keeps func_name, is result_w_bind exactly when bound, carries the return value and post-call args; std::exception becomes remote_exec_error built from its what() up to the first NUL, and the object is left as it was |
| ImplExec.RefusedArgumentsEscape | include/impl/detail/exec_func.hpp:11-18 | arguments the adapter refuses with function_mismatch escape exec_func with type signature_mismatch, and the function is not called |
| ImplExec.ExecFuncReplyReadsBack | include/impl/detail/exec_func.hpp:20-48 | get_result<R> on the reply reads the return value as R, and the reply stores the post-call args exactly when the request was bound |
| ForEach.ForEachVisitsInOrder | include/impl/detail/for_each.hpp:13-25 | for_each_tuple applies the function to each element once, in index order |
| ForEach.TupleBind | include/impl/detail/for_each.hpp:27-49 | destination i receives source i exactly when it is a writable reference, and keeps its value otherwise |
| ForEach.TupleBindIdempotent | include/impl/detail/for_each.hpp:27-49 | with no writable destination nothing changes, and binding twice changes nothing more |
| RpcServer.Bind | include/rpc_server.hpp:37-69 | bind adds the name; an already bound name keeps its handler and gives function_bind_error; other names are untouched |
| RpcServer.RunBound | include/rpc_server.hpp:137-175 | a std::exception other than rpc_exception thrown by the typed argument read escapes the stored wrapper with its what(); otherwise the wrapper answers with func_result, func_result_w_bind or func_error under the request's name, never as a callback; it is an error exactly when the read throws an rpc_exception (the reply keeps its type, and its message up to the first NUL) or the function throws (remote_exec, with the function's message up to the first NUL); otherwise the reply carries the return value, is result_w_bind exactly when the request bound its arguments, and then carries the arguments as the call left them |
| RpcServer.MismatchedArgumentsAnswered | include/rpc_server.hpp:146-159 | arguments that do not fit the bound types get a func_signature_mismatch func_error with the adapter's message up to the first NUL, which the client's get_result rethrows as function_mismatch_error |
| RpcServer.Dispatch | include/rpc_server.hpp:177-206 | a bound name gets its handler's reply, or, when a std::exception escapes the handler, a func_error with no name, type none and the exception's what() up to the first NUL; an unbound one gets func_error of type function_missing naming it; the reply is always a function reply under the request's name or that nameless error |
| RpcServer.NamelessError | include/rpc_server.hpp:202-205 | the error dispatch makes of a std::exception has no name, type none, and the exception's what() up to the first NUL |
| RpcServer.DispatchErrorReplies | include/rpc_server.hpp:146-206 | for a bound name: an rpc_exception from the argument read gives a func_error under the name with its type; a throwing call gives remote_exec under the name; any other std::exception from the read gives the nameless type-none func_error; each message is cut at its first NUL |
| RpcServer.BindThenDispatch | include/rpc_server.hpp:37-206 | after a successful bind, a request for the name runs the bound function, and what escapes it is caught as dispatch catches it |
| RpcServer.RebindKeepsFirst | include/rpc_server.hpp:137-175 | a failed bind leaves every dispatch as before |
| RpcServer.BaseCallbackReply | include/rpc_server.hpp:128-134 | the base handle_callback_object answers with an object-mismatch func_error |
| RpcServer.HandleCallbackObject | include/rpc_server.hpp:259-279 | a callback server sends an uninstall request to uninstall_callback (the state it leaves; the request echoed, or the callback_error of what it threw) and any other install request to install_callback (its state; its reply, or the callback_error of what it threw); other kinds and plain servers get the base reply and keep their state |
| RpcServer.CallbackCatch | include/rpc_server.hpp:272-279 | a failure while handling a callback object is answered by a nameless callback_error; an rpc_exception keeps its type and a std::exception gets type none; either way the message is what() up to the first NUL, so the whole message when it holds no NUL |
| RpcServer.HandleBytes | include/rpc_server.hpp:71-123 | unparseable input gets server_receive func_error with no name; requests are dispatched; the four callback kinds go to handle_callback_object; other kinds get object mismatch |
| RpcServer.PlainServerAnswersWithFunctionKinds | include/rpc_server.hpp:71-134 | a server without callbacks always answers with a function reply, a result only for a bound name |
| RpcServer.CallbackStateChangesOnlyOnInstall | include/rpc_server.hpp:71-279 | only an install request to a callback server changes the callback state |
| RpcClient.DispatchCallback | include/rpc_client.hpp:198-210 | an unknown name gets callback_error of type function_not_found naming it (its message cut at the first NUL, as what() is); a known one runs its handler |
| RpcClient.RecvLoop | include/rpc_client.hpp:213-267 | the loop answers requests in order and goes on, and ends on the first item it does not answer, with what Stop gives for that item; with no such item it is still waiting |
| RpcClient.Stop | include/rpc_client.hpp:215-264 | on an item the loop does not answer: a function result or error is the reply; a throwing receive gives client_receive_error with the receive's what() up to the first NUL; unparsable bytes client_receive_error "Invalid RPC object received"; any other kind rpc_object_mismatch |
| RpcClient.RecvLoopStopsAtFirstNonRequest | include/rpc_client.hpp:213-267 | the loop stops exactly at the first item it cannot answer, and replies only if that item ends the call |
| RpcClient.CallFunc | include/rpc_client.hpp:47-65 | call_func sends a request with bind_args false and returns the loop's outcome |
| RpcClient.CallFuncWBind | include/rpc_client.hpp:67-88 | call_func_w_bind sends bind_args true; a loop that fails or is still waiting comes back as it is; a reply goes through BindReply, so only a result_w_bind whose args read as the caller's types is returned, and its values are written into reference arguments only |
| RpcClient.BindReply | include/rpc_client.hpp:83-86 | a reply without arguments fails with object mismatch, and arguments the adapter cannot read as the caller's types fail with its exception, both leaving the arguments; a readable tuple binds into exactly the reference arguments |
| RpcClient.WBindErrorReplySurfacesAsMismatch | include/rpc_client.hpp:67-88 | a func_error answering a w_bind call surfaces as rpc_object_mismatch |
| RpcClient.CallHeaderFunc | include/rpc_client.hpp:90-104 | the w_bind path (call_func_w_bind) is taken exactly when some argument is a writable reference, and call_func otherwise |
| RpcClient.CallHeaderFuncReply | include/rpc_client.hpp:67-104 | once the loop ends with a reply: without reference arguments it is returned and nothing is bound; with them it is returned exactly when it is a result_w_bind whose args read back, and then bound; otherwise the call fails and leaves the arguments |
| RpcClient.CallHeaderFuncSingleReply | include/rpc_client.hpp:67-104 | a call answered at once by a function result or error sends only the request, and returns the reply as above |
| RpcClient.InstallCallback | include/rpc_client.hpp:159-196 | install keeps the first local handler per name, and succeeds only if the reply is a callback_install_request |
| RpcClient.UninstallCallback | include/rpc_client.hpp:136-148 | uninstall sets is_uninstall, sends, and leaves the local map as it is |
| RpcClient.ReinstallKeepsUninstalledHandler | include/rpc_client.hpp:136-196 | as written, after uninstall and a new install, calls still run the old handler |
| RpcClient.UninstallCallbackCorrected | include/rpc_client.hpp:136-148 | the corrected uninstall makes the same exchange and also removes the local handler |
| RpcClient.ReinstallAfterCorrectedUninstallRunsNewHandler | include/rpc_client.hpp:136-196 | with the corrected uninstall, a new install makes calls run the new handler |
| TestServer.InstallCallback | tests/test_server.hpp:223-235 | a new name joins the set and the request is echoed; for a name already present the set stays as it is and the reply is a callback_error of type callback_install |
| TestServer.UninstallCallback | tests/test_server.hpp:237-240 | the name leaves the set; an absent name is a no-op |
| TestServer.InstallTwiceThroughServer | tests/test_server.hpp:223-235 | through handle_bytes, the first install is echoed and a second gets a callback_error |
| TestServer.UninstallThroughServer | tests/test_server.hpp:237-240 | uninstalling through handle_bytes removes the name and echoes the request |
| TestServer.RecvImpl | tests/test_server.hpp:155-196 | only callback_result, callback_result_w_bind and callback_error are accepted; failed receives give server_receive_error with the receive's what() up to the first NUL, other kinds object_mismatch_error |
| TestServer.CallCallbackImpl | tests/test_server.hpp:198-221 | a name not installed gives callback_missing_error before anything is sent |
| TestServer.CallAfterUninstallFails | tests/test_server.hpp:198-240 | after uninstalling, calling the callback sends nothing and fails |
| RpcCommon.ExceptionCode | include/rpc_common.hpp:66-78 | each exception_type enumerator has its declared value, none = 0 up to server_receive = 9 |
| RpcCommon.ExceptionNumbering | include/rpc_common.hpp:66-78 | the numbering is a bijection between the enumerators and 0..9 |
| RpcCommon.ExceptionTypeOf | include/rpc_common.hpp:66-78 | every integer 0..9 names an enumerator, and the one named has that integer as its value |
| RpcCommon.ClassTag | include/rpc_common.hpp:99-223 | each derived class carries a fixed type other than none |
| RpcCommon.Raise | include/rpc_common.hpp:80-223 | a derived exception keeps its message and reports its class's type |
| RpcCommon.NewBase | include/rpc_common.hpp:376-379 | a pack starts with type none and no message |
| RpcCommon.SetException | include/rpc_common.hpp:386-390 | set_exception sets both type and message and leaves everything else; the pack is truthy afterwards exactly when the type is none and a needed result is present |
| RpcCommon.ThrowEx | include/rpc_common.hpp:402-437 | throw_ex throws the class carrying the type with the message; none and unknown types give rpc_exception(none) |
| RpcCommon.GetResult | include/rpc_common.hpp:464-473 | get_result returns exactly when the pack is truthy, and throws what throw_ex throws otherwise |
| RpcCommon.SetResult | include/rpc_common.hpp:475-483 | set_result stores the value; the pack is then truthy exactly when no exception is recorded |
| RpcCommon.ClearResult | include/rpc_common.hpp:485 | clear_result makes the pack falsy |
| RpcCommon.FreshPackReadsBack | include/rpc_common.hpp:453-462 | a fresh pack returns its result if it has one; a fresh void pack is truthy |
| RpcCommon.ExceptionSurvivesSetResult | include/rpc_common.hpp:386-485 | once an exception is set, a later set_result does not clear it, and get_result throws the class carrying it |
| RpcCommon.SetResultThenGet | include/rpc_common.hpp:459-485 | set_result then get_result returns the value; clear_result makes it throw |
| Bytes.LE32Signed | include/adapters/rpc_bitsery.hpp:480-495 | four bytes read as a two's-complement int lie in the int range, and a non-negative one equals the unsigned reading |
| Bytes.LE32RoundTrip | include/adapters/rpc_bitsery.hpp:480-495 | reading back the four bytes written for a non-negative int gives that int |
| Bytes.LE32Unique | include/adapters/rpc_bitsery.hpp:635-641 | four bytes read as n exactly when they are n's encoding |
| BitseryAdapter.ExtractLength | include/adapters/rpc_bitsery.hpp:607-632 | a first byte below 0x80 is the length and advances 1; with 0x80 and not 0x40, two bytes big-endian; with both, the 4-byte form advances only 3 |
| BitseryAdapter.ExtractLengthCorrected | include/adapters/rpc_bitsery.hpp:624-630 | the corrected 4-byte form advances past the whole word; everything else is as written |
| BitseryAdapter.ExtractLengthRoundTrip | include/adapters/rpc_bitsery.hpp:607-632 | the corrected decoder reads back every encoded length and stops right after it |
| BitseryAdapter.ExtractLengthFourByteFormStopsShort | include/adapters/rpc_bitsery.hpp:624-630 | as written, every length from 0x4000 up reads back with the index one short |
| BitseryAdapter.GetType | include/adapters/rpc_bitsery.hpp:480-495 | get_type reads the first 4 bytes as an int and throws deserialization_error unless it is 0..8 |
| BitseryAdapter.VerifyTypeAgreesWithGetType | include/adapters/rpc_bitsery.hpp:635-641 | verify_type holds exactly when get_type reads the kind, and every header reads back |
| BitseryAdapter.GetFuncName | include/adapters/rpc_bitsery.hpp:465-478 | get_func_name takes the length prefix at offset 4 and that many bytes, with the name ending before the buffer's end |
| BitseryAdapter.GetFuncNameCorrectedReadsName | include/adapters/rpc_bitsery.hpp:465-478 | with the corrected prefix reader, a buffer holding header, name and more yields that name, whatever its length |
| BitseryAdapter.GetFuncNameCorrected | include/adapters/rpc_bitsery.hpp:465-478 | the corrected get_func_name is empty exactly when the prefix cannot be read or the name would reach the end of the buffer, and otherwise it is the bytes after the whole prefix |
| BitseryAdapter.GetFuncNameLongNameShifted | include/adapters/rpc_bitsery.hpp:465-478 | as written, a name of 0x4000 bytes or more starts with a length byte and loses its last byte |
| BitseryAdapter.FromBytes | include/adapters/rpc_bitsery.hpp:440-452 | from_bytes returns the buffer unchanged exactly when the type is valid and a non-empty name can be read; a bad type or an empty name throws deserialization_error |
| BitseryAdapter.ToBytesFromBytes | include/adapters/rpc_bitsery.hpp:440-463 | from_bytes after to_bytes gives the buffer back whenever it accepts it |
| BitseryAdapter.HasBoundArgs | include/adapters/rpc_bitsery.hpp:580-587 | the decoded flag for requests, true for w_bind kinds, false otherwise; get_type's exception propagates |
| BitseryAdapter.HashFoldConcat | include/adapters/rpc_bitsery.hpp:75-87 | the hash folds the bytes left to right |
| BitseryAdapter.HashLoop | include/adapters/rpc_bitsery.hpp:75-87 | the accumulate loop from seed = size, with 64-bit wrap-around, computes the hash |
| BitseryLegacy.ToHelper | include/rpc_adapters/rpc_bitsery.hpp:140-161 | to_helper copies name and args, plus err_mesg when the pack failed or the result when it succeeded |
| BitseryLegacy.FromHelper | include/rpc_adapters/rpc_bitsery.hpp:163-198 | an empty err_mesg gives a pack with the result; a non-empty one sets the error and clears the result |
| BitseryLegacy.HelperRoundTrip | include/rpc_adapters/rpc_bitsery.hpp:140-198 | a successful pack survives the helper round trip; a failed one keeps name, args and message and loses its result |
| BitseryLegacy.BytesRoundTrip | include/rpc_adapters/rpc_bitsery.hpp:201-211 | to_bytes and from_bytes are identities and inverse to each other |
| BitseryLegacy.GetFuncName | include/rpc_adapters/rpc_bitsery.hpp:242-249 | byte 0 is the length L and the name is bytes 1..L |
| BitseryLegacy.GetFuncNameReadsSerializedName | include/rpc_adapters/rpc_bitsery.hpp:100 | a name of at most 50 bytes is written with a one-byte length, which get_func_name reads back |
| BitseryLegacy.SetErrMesg | include/rpc_adapters/rpc_bitsery.hpp:252-276 | the new length byte is the size as uint8, the region holds those bytes of mesg, the name and the bytes after the old region are kept, shifted by the size change |
| BitseryLegacy.ResizeErrRegion | include/rpc_adapters/rpc_bitsery.hpp:255-265 | the length byte becomes the new size, the region grows or shrinks to it, and the name before it and the bytes after it are kept |
| BitseryLegacy.SetErrMesgInPlace | include/rpc_adapters/rpc_bitsery.hpp:252-276 | the in-place resize and byte-by-byte copy give the buffer SetErrMesg describes |
| BitseryLegacy.SetErrMesgKeepsNameStoresMessage | include/rpc_adapters/rpc_bitsery.hpp:252-276 | a message below 256 bytes lands whole in the region and the name stays readable |
| BitseryLegacy.SetErrMesgLongMessageMisread | include/rpc_adapters/rpc_bitsery.hpp:255-270 | as written, a message of 128..191 bytes gets a length byte that bitsery reads as a two-byte prefix |
| BitseryLegacy.SetErrMesgCorrected | include/rpc_adapters/rpc_bitsery.hpp:252-276 | the corrected rewrite replaces prefix and message by the new message's bitsery prefix and bytes |
| BitseryLegacy.SetErrMesgCorrectedReadsBack | include/rpc_adapters/rpc_bitsery.hpp:252-276 | after the corrected rewrite, the size prefix reads back the full length, the region holds the whole message, and the name is kept |
| BoostJson.NullIsNeverValid | include/rpc_adapters/rpc_boost_json.hpp:61-88 | no C++ type accepts null |
| BoostJson.KindName | include/rpc_adapters/rpc_boost_json.hpp:90-124 | the reported kind is one of the eight names, null for anything else |
| BoostJson.MismatchStringNamesKind | include/rpc_adapters/rpc_boost_json.hpp:90-124 | for a fixed expected type, two messages are equal exactly when the values have the same kind |
| BoostJson.PushArg | include/rpc_adapters/rpc_boost_json.hpp:127-167 | a container becomes an array of the same length |
| BoostJson.StringWithNulIsCut | include/rpc_adapters/rpc_boost_json.hpp:127-159 | a string holding a NUL is cut short on its way into JSON |
| BoostJson.ParseArg | include/rpc_adapters/rpc_boost_json.hpp:169-208 | as written: a value validate_arg refuses gives function_mismatch with the mismatch string; success implies validity |
| BoostJson.ParseArgs | include/rpc_adapters/rpc_boost_json.hpp:210-227 | a non-array is parsed itself; an index at or past the size throws function_mismatch; otherwise the counter advances by one |
| BoostJson.ParseArgsFixed | include/rpc_adapters/rpc_boost_json.hpp:210-227 | with the intended parse_arg: an index at or past the size is function_mismatch with the count message, and success advances an array's counter by one |
| BoostJson.ParseArgFixed | include/rpc_adapters/rpc_boost_json.hpp:169-208 | as intended: the same checks, with each container element parsed as an element |
| BoostJson.ParseArgFixedRoundTrip | include/rpc_adapters/rpc_boost_json.hpp:127-208 | push_arg then the intended parse gives every representable value back |
| BoostJson.ParseArgFixedThenPush | include/rpc_adapters/rpc_boost_json.hpp:127-208 | whatever the intended parse accepts, push_arg writes back unchanged |
| BoostJson.ParseArgFlatRoundTrip | include/rpc_adapters/rpc_boost_json.hpp:169-208 | as written, scalars, strings, objects and containers of those still round-trip |
| BoostJson.ParseArgNestedFails | include/rpc_adapters/rpc_boost_json.hpp:184-199 | as written, a non-empty container of containers never parses |
| BoostJson.ParseArgFixedNestedRoundTrip | include/rpc_adapters/rpc_boost_json.hpp:184-199 | the intended parse reads nested containers back |
| BoostJson.ParseArgList | include/rpc_adapters/rpc_boost_json.hpp:335-339 | the arguments are parsed once per declared type, threading the counter; a failure is function_mismatch |
| BoostJson.ParseArgListRoundTrip | include/rpc_adapters/rpc_boost_json.hpp:302-339 | arguments pushed in order are read back in order |
| BoostJson.ParseArgListIgnoresExtra | include/rpc_adapters/rpc_boost_json.hpp:210-227 | elements after the declared arguments are ignored |
| BoostJson.ParseArgListTooFew | include/rpc_adapters/rpc_boost_json.hpp:210-227 | fewer elements than declared arguments is function_mismatch |
| BoostJson.FromBytesImpl | include/rpc_adapters/rpc_boost_json.hpp:235-298 | parse errors and non-objects are rejected; with except_type, it must be int64 and a non-zero one needs err_mesg; otherwise func_name must be a non-empty string and args an array |
| BoostJson.SerializePack | include/rpc_adapters/rpc_boost_json.hpp:302-329 | name and args always; a failing pack writes except_type and err_mesg and no result; a truthy non-void pack writes the result |
| BoostJson.SerializedPackAccepted | include/rpc_adapters/rpc_boost_json.hpp:235-329 | every serialized pack passes from_bytes_impl except a truthy one with an empty name |
| BoostJson.GetFuncNameImpl | include/rpc_adapters/rpc_boost_json.hpp:376-379 | the func_name string up to its first NUL |
| BoostJson.WithException | include/rpc_adapters/rpc_boost_json.hpp:346-370 | without except_type the pack is unchanged; with it, the call succeeds only when err_mesg is a string and except_type an int64, and records the message up to its NUL and the int64 cast to the int-based exception_type |
| BoostJson.DeserializePack | include/rpc_adapters/rpc_boost_json.hpp:331-374 | a pack comes back only when "args" parses against the declared types; it holds those arguments and the name up to its NUL, is void exactly for a void function, and a pack holding a result carries no exception; a missing "args" is an error |
| BoostJson.Sent | include/rpc_adapters/rpc_boost_json.hpp:302-374 | the trip through JSON keeps name, args, type and truthiness |
| BoostJson.SentKeepsResult | include/rpc_adapters/rpc_boost_json.hpp:302-374 | get_result gives the receiver what it gives the sender |
| BoostJson.PackRoundTrip | include/rpc_adapters/rpc_boost_json.hpp:302-374 | deserialize_pack_impl undoes serialize_pack_impl for a pack whose strings hold no NUL, whose exception type is an int and whose values the element types can hold: a truthy pack loses only an error message, a falsy one only its result |
| BoostJson.ExtractException | include/rpc_adapters/rpc_boost_json.hpp:381-385 | succeeds exactly when err_mesg is a string and except_type an int64, giving a plain rpc_exception with the message up to its NUL and the int64 cast to the int-based exception_type |
| BoostJson.SetExceptionImpl | include/rpc_adapters/rpc_boost_json.hpp:387-391 | adds except_type and err_mesg and keeps every other key |
| BoostJson.ExceptionRoundTrip | include/rpc_adapters/rpc_boost_json.hpp:381-391 | set then extract gives the message cut at a NUL and the type cast to int, in a plain rpc_exception; an exception whose message holds no NUL comes back with its type and message |
| RapidJson.KindName | include/adapters/rpc_rapidjson.hpp:565-630 | tested in source order, "int", "uint" and "float" are never reported, and a representable value is never "unknown" |
| RapidJson.MismatchMessageDeterminedByKind | include/adapters/rpc_rapidjson.hpp:565-630 | two messages for a fixed type are equal exactly when the kinds are |
| RapidJson.ParseArg | include/adapters/rpc_rapidjson.hpp:632-648 | a value validate_arg refuses throws function_mismatch naming the expected type |
| RapidJson.ParseArgs | include/adapters/rpc_rapidjson.hpp:650-671 | a non-array is parsed itself; an index at or past the size throws; otherwise element index is taken and the counter advances |
| RapidJson.TupleArgsReadsInOrder | include/adapters/rpc_rapidjson.hpp:650-671 | reading a tuple succeeds exactly when every element is accepted, and yields the elements in order |
| RapidJson.AsTuple | include/adapters/rpc_rapidjson.hpp:464-474 | an array whose length differs from the number of Args throws function_mismatch; otherwise the elements are parsed in order |
| RapidJson.TupleArgs | include/adapters/rpc_rapidjson.hpp:464-474 | one value is read per tuple element type, threading the counter; a failure is function_mismatch |
| CppInt.ToInt | include/rpc_adapters/rpc_boost_json.hpp:383-384 | static_cast of an int64 to an int-based enumeration gives an int that agrees with it modulo 2^32, and keeps values that already fit |
| CppInt.Narrow | include/adapters/rpc_rapidjson.hpp:352-375 | a static_cast to a narrower type lands in the type's range, agrees with the number modulo 2^bits, and keeps values already in range |
| RapidJson.AsInt | include/adapters/rpc_rapidjson.hpp:352-375 | as_int returns exactly when the getter for the type's width and sign (GetInt, GetUint, GetInt64, GetUint64) accepts the number, and otherwise stops on rapidjson's assertion; the value is in the type's range and agrees with the number modulo 2^bits |
| RapidJson.ParseInt | include/adapters/rpc_rapidjson.hpp:502-562 | an integer argument is validated then read; narrow types accept out-of-range ints and wrap them into the type's range, agreeing modulo 2^bits |
| RapidJson.ParseIntIsStaticCast | include/adapters/rpc_rapidjson.hpp:352-375 | an accepted integer arrives as static_cast makes it: wrapped by Narrow for types below 32 bits, unchanged for int and wider |
| CppInt.CongruentInRangeEqual | include/adapters/rpc_rapidjson.hpp:357-368 | two values of one type's range that agree modulo 2^bits are equal, so the cast has one result |
| RapidJson.IntRoundTrip | include/adapters/rpc_rapidjson.hpp:146-168 | an integer of the parameter's own type is read back as written |
| RapidJson.NarrowArgumentWraps | include/adapters/rpc_rapidjson.hpp:352-375 | 300 sent for a uint8_t parameter is accepted and arrives as 44 |
| RapidJson.AsArray | include/adapters/rpc_rapidjson.hpp:176-200 | pushing each converted element to the back, in iteration order, gives the array whose i-th element is the conversion of the container's i-th |
| RapidJson.ArrayRoundTrip | include/adapters/rpc_rapidjson.hpp:176-200 | a container written and read back with inverse element conversions is unchanged |
| RapidJson.AsStdArray | include/adapters/rpc_rapidjson.hpp:391-403 | std::array needs exactly N elements, else out_of_range |
| RapidJson.AsForwardList | include/adapters/rpc_rapidjson.hpp:405-419 | walking the array backwards with push_front gives the list whose i-th element is the conversion of the array's i-th, as every other container reads |
| RapidJson.DeserializeOptional | include/adapters/rpc_rapidjson.hpp:476-482 | null gives nullopt; anything else is parsed |
| RapidJson.OptionalRoundTrip | include/adapters/rpc_rapidjson.hpp:259-270 | an empty optional is written as null and read back empty; a value round-trips |
| RapidJson.NestedOptionalCollapses | include/adapters/rpc_rapidjson.hpp:259-270 | an optional holding an empty optional comes back empty |
| RapidJson.Lookup | include/adapters/rpc_rapidjson.hpp:456-462 | FindMember gives the value of a member with the name no earlier member has, and none exactly when there is none |
| RapidJson.SerializePair | include/adapters/rpc_rapidjson.hpp:238-247 | a pair becomes an object whose "first" and "second" members hold the converted halves |
| RapidJson.DeserializePair | include/adapters/rpc_rapidjson.hpp:456-462 | a non-object stops on rapidjson's assertion; a result means both members were present and parsed to its halves |
| RapidJson.PairRoundTrip | include/adapters/rpc_rapidjson.hpp:238-247 | a pair is written as first/second and read back as it was sent |
| RapidJson.SerializeMap | include/adapters/rpc_rapidjson.hpp:202-215 | one member per entry, named by the key's text |
| RapidJson.DeserializeMap | include/adapters/rpc_rapidjson.hpp:421-434 | a non-object stops on rapidjson's assertion; an object's members are inserted into an empty map |
| RapidJson.InsertMembers | include/adapters/rpc_rapidjson.hpp:421-434 | the key set grows by the members' keys; existing entries keep their values; a new key maps to the value of the first member that brings it |
| RapidJson.RepeatedMemberKeepsFirst | include/adapters/rpc_rapidjson.hpp:421-434 | of two members with the same name, the first value is kept |
| RapidJson.MapRoundTrip | include/adapters/rpc_rapidjson.hpp:202-215 | a map with distinct keys is read back with every key mapped to its value |
| RapidJson.AddPair | include/adapters/rpc_rapidjson.hpp:217-236 | a new key gets a new array at the end; an existing key's array is extended |
| RapidJson.GroupThenExpand | include/adapters/rpc_rapidjson.hpp:217-236 | grouping entries whose equal keys are adjacent and spreading the groups back gives the entries in order |
| RapidJson.DeserializeMultimap | include/adapters/rpc_rapidjson.hpp:436-454 | each member's array is expanded back, one entry per value |
| RapidJson.MultimapRoundTrip | include/adapters/rpc_rapidjson.hpp:217-236 | a multimap comes back with its entries in iteration order |
| RapidJson.FromBytes | include/adapters/rpc_rapidjson.hpp:714-732 | a parse error or a missing or non-string func_name throws deserialization_error |
| RapidJson.GetFuncName | include/adapters/rpc_rapidjson.hpp:750-753 | the func_name string up to its first NUL |
| RapidJson.FromBytesThenFuncName | include/adapters/rpc_rapidjson.hpp:714-753 | whatever from_bytes accepts has a function name to read |
| RapidJson.GetType | include/adapters/rpc_rapidjson.hpp:755-758 | the type member read with GetInt |
| RapidJson.HasBoundArgs | include/adapters/rpc_rapidjson.hpp:883-886 | the bind_args member read with GetBool |
| SafeStrcpy.StrLen | include/safe_strcpy.hpp:16 | strlen is the index of the first NUL |
| SafeStrcpy.Strcpy | include/safe_strcpy.hpp:14-29 | returns strlen(src); the prefix up to min(strlen, destSize-1) is copied and followed by NUL; nothing after that NUL is written; destSize 0 writes nothing |
| SafeStrcpy.StrcpyArray | include/safe_strcpy.hpp:39-55 | the array overload behaves like the pointer overload with destSize = N |
| SafeStrcpy.StrcpyReadsBack | include/safe_strcpy.hpp:14-29 | the destination read as a C string is the source cut to destSize-1 characters, and it is the whole source exactly when the returned size is below destSize |
| ArrayAdapter.New | include/container_adapters/array.hpp:54 | the cursor starts at begin |
| ArrayAdapter.AddElement | include/container_adapters/array.hpp:20-40 | at end it throws out_of_range and changes nothing; otherwise it writes at the cursor, advances it, and leaves the other positions alone |
| ArrayAdapter.NextElement | include/container_adapters/array.hpp:50 | returns the current cursor and advances it |
| ArrayAdapter.FillInOrder | include/container_adapters/array.hpp:20-40 | n adds succeed exactly when they fit, filling the next n positions in call order and leaving the rest unchanged |
| ArrayAdapter.FreshFillReplacesArray | include/container_adapters/array.hpp:20-54 | N adds to a fresh adapter rebuild the array from the added values |

## Left out

- Transport and I/O: sockets, send and receive, run loops and module loading. A received stream is a sequence of already-parsed objects, unparseable inputs or failed receives.
- Concurrency: the server, client and test-server state is passed from call to call as values.
- Third-party engines: JSON text parsing and writing, Boost.JSON's `value_to`/`serialize`, rapidjson's getters, and bitsery's Serializer and Deserializer. JSON is an abstract value, and a parse result is given as `Option` (None for a parse error). Bitsery buffers are byte sequences, inspected only where the adapter code reads them itself.
- Floating point: double and float values are opaque. `RapidJson` keeps only whether a double fits a float.
- `typeid(T).name()`: mismatch messages take the type name as a parameter.
- C++ type dispatch: `if constexpr` on argument types is modelled by type descriptors (`CppType`, `RType`). `is_ref_arg` is a boolean per argument.
- User-defined `serialize`/`deserialize` of custom types: these are the objects the JSON adapters hand on, and they are modelled as opaque leaves.
- rapidjson's `yield_value` and element conversions: these are parameters (`read`, `push`, `keyOf`, `keyText`).
- Order of evaluation: C++ leaves the order of function arguments unspecified. In deserialize_pack_impl the model reads func_name before the result, and err_mesg before except_type. BoostJson.ExtractException likewise reads err_mesg before except_type (extract_exception_impl), so when both are missing the first error reported is the one about err_mesg.
- BoostJson.DeserializePack: parses arguments, and a result, with the intended container parse (ParseArgFixed), so that PackRoundTrip states the intended behaviour. The as-written parse is modelled separately and compared in the findings.
- BitseryAdapter.Hash: requires the buffer size to be below 2^64. size_t cannot hold a larger size.
- BitseryAdapter.FromBytes and RapidJson.FromBytes: a failing library assertion is `AssertionFails`, not followed further.
- ImplObject.GetResult, ImplObject.GetArgs, ImplObject.GetErrorType, ImplObject.GetErrorMesg, ImplObject.HasBoundArgs: the kind of a message is the constructor of its record, so a type number outside the enumeration cannot be built, and the `default:` branches of impl/rpc_object.hpp that throw rpc_object_mismatch for one are not modelled. `Rpc.ParseBytes` is where the single header checks the stored number.
- BitseryAdapter.HasBoundArgs: the flag bitsery decodes from a request is a parameter, because bitsery's decoder is not modelled.
- RpcServer.HandleBytes: the outer catch clauses of handle_bytes (include/rpc_server.hpp:114-122) are not modelled. Every modelled step inside its try catches its own exceptions (dispatch, handle_callback_object); the steps that could still throw are the adapter's parse_bytes and get_func_name and the reply's to_bytes, and serialization is abstract here.
- ImplObject.GetArgs, ImplExec.ExecFunc, RpcClient.BindReply, RpcClient.CallFuncWBind: in the modular generation the adapter's read of an argument tuple is taken to throw only rpc_exceptions. A std::out_of_range from a container read would escape exec_func and call_func_w_bind as it is, and the client's `LoopEnd` has no case for it. The single header's reader (`Rpc.ArgsReader`) does model such exceptions, and `RpcServer.Dispatch` catches them.
- Rpc.GetArgs, Rpc.GetResult, ImplObject.GetArgs, ImplObject.GetResult: the serial adapter's typed reads (`get_request<Args...>`, `get_result<R>`) are parameters (`read`, `ResultType`); the JSON adapters' own reading rules are modelled in `RapidJson` and `BoostJson` but not plugged in.
- ArrayAdapter.NextElement: requires the cursor to be before the end, because incrementing an iterator at end is undefined. The copy and move overloads of add_element are one function.
- SafeStrcpy.Strcpy: requires src to hold a NUL and dest to have at least destSize characters, which the C function assumes. `srcSize + 1` is not wrapped, because strlen cannot reach SIZE_MAX.
- The server macros of the checked-in header (lines 73 to 85) are compared with the generator item by item, as `#define` records, not character by character. Lines 3 to 71 are compared as text (`HelperText`). The `#if` guard the generator writes on line 2 of its output is absent from the checked-in header; `DispatchHelper.HelperLaddersAreGenerated` drops it.
- The generator's licence banner, file handling and int() parsing of argv are not modelled; the model takes N as an already-parsed integer.
- `RPC_HPP_ASSERTION` variants: these are modelled as requires and ensures.
- The legacy `packed_func` in `include/rpc_adapters/rpc_bitsery.hpp` is reached only through its fields. Its helper struct is modelled by ToHelper and FromHelper.

## Findings

| source | as written | input that shows it | evidently intended | confidence | as-written member | corrected member |
|---|---|---|---|---|---|---|
| dispatch_gen.py:136 | the client RPC_HEADER_FUNC line is written without a newline | any N: the file holds `= nullptr#endif` | end the line with `\n` | not executed | DispatchGen.WrittenEndifJoinsClientLine | DispatchGen.CorrectedDirectivesStartLines |
| dispatch_gen.py:191 | the doubled quotes close and reopen the string literal, so `func_name` is never concatenated | any missing name gives `RPC error: Called function:  + func_name +  not found!` | `"\"" + func_name + "\""`, as in include/rpc_dispatch_helper.hpp:85 | not executed | DispatchGen.WrittenMessageIgnoresName | DispatchGen.IntendedMessageNamesFunction |
| include/adapters/rpc_bitsery.hpp:624-630 | the 4-byte length form moves the index by 3 in total | a function name of 0x4000 bytes | move the index past the whole 16-bit word (4 bytes) | not executed | BitseryAdapter.GetFuncNameLongNameShifted | BitseryAdapter.GetFuncNameCorrectedReadsName |
| include/rpc_client.hpp:136-148 | uninstall_callback leaves the handler in the local callback map, and install's try_emplace then keeps it | install f, uninstall, install g under the same name: calls run f | remove the local handler on uninstall | not executed | RpcClient.ReinstallKeepsUninstalledHandler | RpcClient.ReinstallAfterCorrectedUninstallRunsNewHandler |
| include/rpc_adapters/rpc_bitsery.hpp:255-270 | the new err_mesg length is stored as one byte | a 128-byte message starting with a zero byte reads back as empty | write bitsery's size prefix for the new length | not executed | BitseryLegacy.SetErrMesgLongMessageMisread | BitseryLegacy.SetErrMesgCorrectedReadsBack |
| include/rpc_adapters/rpc_boost_json.hpp:192-196 | each element of a container is parsed by parse_args with the shared counter | `std::vector<std::vector<int>>` holding `[[1, 2]]` throws function_mismatch | parse each element with `parse_arg<subvalue_t>(val)` | not executed | BoostJson.ParseArgNestedFails | BoostJson.ParseArgFixedNestedRoundTrip |

=== FILE: array_adapter.dfy ===
/**
 * include/container_adapters/array.hpp: container_adapter<std::array<T, N>>,
 * which lets a deserializer fill a fixed-size array one element at a time
 * through a cursor that starts at the array's beginning.
 */
module ArrayAdapter {
  import opened Wrappers

  /** The std::out_of_range thrown when an element is added past the end. */
  datatype OutOfRange = OutOfRange(what: string)

  const PastEndMessage: string := "Tried to add element past array size!"

  /** The referenced array and the cursor, as an index into it (N is the end). */
  datatype Adapter<T> = Adapter(cont: seq<T>, cursor: nat)
  {
    predicate Valid() { cursor <= |cont| }
  }

  /** The constructor: the cursor is at begin. */
  function New<T>(cont: seq<T>): (a: Adapter<T>)
    ensures a.Valid() && a.cont == cont && a.cursor == 0
  {
    Adapter(cont, 0)
  }

  /**
   * add_element (both the copying and the moving overload): at the end it
   * throws out_of_range and changes nothing; otherwise it writes at the
   * cursor and advances it.
   */
  function AddElement<T>(a: Adapter<T>, val: T): (r: Result<Adapter<T>, OutOfRange>)
    requires a.Valid()
    ensures r.Err? <==> a.cursor == |a.cont|
    ensures r.Err? ==> r.error == OutOfRange(PastEndMessage)
    ensures r.Ok? ==> r.value.Valid() && r.value.cursor == a.cursor + 1
    ensures r.Ok? ==> |r.value.cont| == |a.cont| && r.value.cont[a.cursor] == val
    ensures r.Ok? ==> forall i | 0 <= i < |a.cont| && i != a.cursor :: r.value.cont[i] == a.cont[i]
  {
    if a.cursor == |a.cont| then Err(OutOfRange(PastEndMessage))
    else Ok(Adapter(a.cont[a.cursor := val], a.cursor + 1))
  }

  /**
   * next_element: the position the cursor was at, and the adapter with the
   * cursor advanced. Incrementing an iterator already at end is undefined,
   * so the cursor must be before the end.
   */
  function NextElement<T>(a: Adapter<T>): (r: (nat, Adapter<T>))
    requires a.Valid() && a.cursor < |a.cont|
    ensures r.0 == a.cursor && r.0 < |a.cont|
    ensures r.1.Valid() && r.1.cont == a.cont && r.1.cursor == r.0 + 1
  {
    (a.cursor, a.(cursor := a.cursor + 1))
  }

  /** A run of add_element calls, stopping at the first that throws. */
  function AddAll<T>(a: Adapter<T>, vals: seq<T>): (r: Result<Adapter<T>, OutOfRange>)
    requires a.Valid()
    ensures r.Ok? ==> r.value.Valid()
    decreases |vals|
  {
    if |vals| == 0 then Ok(a)
    else
      match AddElement(a, vals[0])
      case Err(e) => Err(e)
      case Ok(next) => AddAll(next, vals[1..])
  }

  /**
   * Adding n elements to a fresh adapter over an array of N succeeds exactly
   * when n <= N; the first n positions then hold the elements in call order,
   * the rest of the array is untouched and the cursor stands at n.
   */
  lemma {:induction false} FillInOrder<T>(a: Adapter<T>, vals: seq<T>)
    requires a.Valid()
    ensures AddAll(a, vals).Ok? <==> a.cursor + |vals| <= |a.cont|
    ensures AddAll(a, vals).Err? ==> AddAll(a, vals).error == OutOfRange(PastEndMessage)
    ensures AddAll(a, vals).Ok? ==>
              var b := AddAll(a, vals).value;
              b.cursor == a.cursor + |vals| && |b.cont| == |a.cont|
              && b.cont[..a.cursor] == a.cont[..a.cursor]
              && b.cont[a.cursor..b.cursor] == vals
              && b.cont[b.cursor..] == a.cont[b.cursor..]
    decreases |vals|
  {
    if |vals| > 0 {
      var step := AddElement(a, vals[0]);
      if step.Ok? {
        var next := step.value;
        FillInOrder(next, vals[1..]);
        if AddAll(next, vals[1..]).Ok? {
          var b := AddAll(next, vals[1..]).value;
          assert b.cont[..a.cursor] == next.cont[..next.cursor][..a.cursor];
          assert next.cont[..a.cursor] == a.cont[..a.cursor];
          assert b.cont[a.cursor..b.cursor] == [vals[0]] + vals[1..] by {
            assert b.cont[a.cursor..b.cursor] == [b.cont[a.cursor]] + b.cont[next.cursor..b.cursor];
            assert b.cont[a.cursor] == next.cont[..next.cursor][a.cursor];
          }
          assert next.cont[b.cursor..] == a.cont[b.cursor..];
        }
      }
    }
  }

  /** Filling a fresh adapter with exactly N elements rebuilds the array from them. */
  lemma FreshFillReplacesArray<T>(cont: seq<T>, vals: seq<T>)
    requires |vals| == |cont|
    ensures AddAll(New(cont), vals) == Ok(Adapter(vals, |cont|))
  {
    FillInOrder(New(cont), vals);
    var b := AddAll(New(cont), vals).value;
    assert b.cont == b.cont[0..b.cursor];
  }
}

=== FILE: bitsery_adapter.dfy ===
/**
 * The code the bitsery adapter of the modular generation,
 * include/adapters/rpc_bitsery.hpp, runs on the raw buffer itself, without
 * bitsery's Serializer/Deserializer: the length-prefix decoder it borrows
 * from bitsery, the 4-byte type header, the function-name slice, the checks
 * of from_bytes, and the std::hash specialization for byte vectors.
 */
module BitseryAdapter {
  import opened Wrappers
  import opened Bytes
  import opened ImplExceptions
  import opened ImplKinds

  /** A decoded length and the index just past the bytes the decoder consumed. */
  datatype Extracted = Extracted(len: nat, next: nat)

  /** Bit 0x40 of a byte. */
  predicate Bit6(b: Byte)
  {
    (b / 0x40) % 2 == 1
  }

  /**
   * extract_length as written: a first byte below 0x80 is the length; with
   * bit 0x80 set a second byte follows, and with 0x40 set as well a 16-bit
   * word at the next offset supplies the low half, yet the index is moved
   * past only one of its two bytes. `None` where the source's assertions (or
   * the word read) would run past the end of the buffer.
   */
  function ExtractLength(bytes: seq<Byte>, index: nat): (r: Option<Extracted>)
    requires index < |bytes|
    ensures r.Some? && bytes[index] >= 0x80 ==> index + 1 < |bytes|
    ensures r.Some? && bytes[index] >= 0x80 && Bit6(bytes[index]) ==> index + 3 < |bytes|
    ensures r.Some? && bytes[index] < 0x80 ==> r.value == Extracted(bytes[index], index + 1)
    ensures r.Some? && bytes[index] >= 0x80 && !Bit6(bytes[index])
            ==> r.value == Extracted((bytes[index] as int % 0x80) * 0x100 + bytes[index + 1] as int, index + 2)
    ensures r.Some? && bytes[index] >= 0x80 && Bit6(bytes[index])
            ==> r.value == Extracted(((bytes[index] as int % 0x40) * 0x100 + bytes[index + 1] as int) * 0x1_0000
                                     + LE16(bytes, index + 2), index + 3)
    ensures r.None? <==> (bytes[index] >= 0x80 && (index + 1 >= |bytes| || (Bit6(bytes[index]) && index + 3 >= |bytes|)))
  {
    var high := bytes[index];
    if high < 0x80 then Some(Extracted(high, index + 1))
    else if index + 1 >= |bytes| then None
    else
      var low := bytes[index + 1];
      if Bit6(high) then
        if index + 3 >= |bytes| then None
        else Some(Extracted(((high as int % 0x40) * 0x100 + low as int) * 0x1_0000 + LE16(bytes, index + 2), index + 3))
      else Some(Extracted((high as int % 0x80) * 0x100 + low as int, index + 2))
  }

  /** extract_length corrected: the 4-byte form moves the index past the whole word. */
  function ExtractLengthCorrected(bytes: seq<Byte>, index: nat): (r: Option<Extracted>)
    requires index < |bytes|
    ensures r.None? <==> ExtractLength(bytes, index).None?
    ensures r.Some? ==> r.value.len == ExtractLength(bytes, index).value.len
    ensures r.Some? && !(bytes[index] >= 0x80 && Bit6(bytes[index])) ==> r == ExtractLength(bytes, index)
    ensures r.Some? && bytes[index] >= 0x80 && Bit6(bytes[index]) ==> r.value.next == index + 4
  {
    match ExtractLength(bytes, index)
    case None => None
    case Some(e) => if bytes[index] >= 0x80 && Bit6(bytes[index]) then Some(e.(next := index + 4)) else Some(e)
  }

  /**
   * bitsery's size prefix, the format the decoder reads: one byte below
   * 0x80, two bytes (big-endian, 0x80 set) below 0x4000, and otherwise four:
   * 0xC0 with the top six bits, the next eight bits, and the low 16 bits as
   * a little-endian word.
   */
  function EncodeLength(n: nat): (bytes: seq<Byte>)
    requires n < 0x4000_0000
    ensures |bytes| == (if n < 0x80 then 1 else if n < 0x4000 then 2 else 4)
  {
    if n < 0x80 then [n]
    else if n < 0x4000 then [0x80 + n / 0x100, n % 0x100]
    else
      var hi := n / 0x1_0000;
      var lo := n % 0x1_0000;
      [0xC0 + hi / 0x100, hi % 0x100, lo % 0x100, lo / 0x100]
  }

  /** The corrected decoder reads back every encoded length and stops right after it. */
  lemma ExtractLengthRoundTrip(prefix: seq<Byte>, n: nat, rest: seq<Byte>)
    requires n < 0x4000_0000
    ensures var bytes := prefix + EncodeLength(n) + rest;
            ExtractLengthCorrected(bytes, |prefix|) == Some(Extracted(n, |prefix| + |EncodeLength(n)|))
  {
    var bytes := prefix + EncodeLength(n) + rest;
    var i := |prefix|;
    var e := EncodeLength(n);
    assert forall k :: 0 <= k < |e| ==> bytes[i + k] == e[k];
    if n >= 0x4000 {
      var hi := n / 0x1_0000;
      var lo := n % 0x1_0000;
      assert bytes[i] == 0xC0 + hi / 0x100 && Bit6(bytes[i]);
      assert bytes[i] % 0x40 == hi / 0x100;
      assert LE16(bytes, i + 2) == lo;
    } else if n >= 0x80 {
      assert bytes[i] == 0x80 + n / 0x100 && !Bit6(bytes[i]);
    }
  }

  /**
   * As written, the four-byte form leaves the index on the last byte of the
   * length word: every length from 0x4000 up reads back with the index one
   * short of the end of its prefix.
   */
  lemma ExtractLengthFourByteFormStopsShort(prefix: seq<Byte>, n: nat, rest: seq<Byte>)
    requires 0x4000 <= n < 0x4000_0000
    ensures var bytes := prefix + EncodeLength(n) + rest;
            ExtractLength(bytes, |prefix|) == Some(Extracted(n, |prefix| + |EncodeLength(n)| - 1))
  {
    ExtractLengthRoundTrip(prefix, n, rest);
  }

  const InvalidType: string := "Bitsery: invalid type field detected"
  const NoFuncName: string := "Bitsery: func_name could not be extracted from bytes"

  /** get_type: the first four bytes as an int, which must be an rpc_type (0..8). */
  function GetType(bytes: seq<Byte>): (r: Result<RpcType, RpcException>)
    requires 4 <= |bytes|
    ensures r.Ok? <==> 0 <= LE32Signed(bytes) <= 8
    ensures r.Ok? ==> RpcTypeCode(r.value) == LE32Signed(bytes)
    ensures r.Err? ==> r.error == Raise(DeserializationError, InvalidType)
  {
    var n := LE32Signed(bytes);
    if n < 0 || n > 8 then Err(Raise(DeserializationError, InvalidType))
    else Ok(RpcTypeOf(n).value)
  }

  /** The header serialize_object writes for a kind. */
  function TypeHeader(t: RpcType): (bytes: seq<Byte>)
    ensures |bytes| == 4
  {
    EncodeLE32(RpcTypeCode(t))
  }

  /** verify_type: the first four bytes are the kind's in-memory representation. */
  predicate VerifyType(bytes: seq<Byte>, t: RpcType)
    requires 4 <= |bytes|
  {
    bytes[..4] == TypeHeader(t)
  }

  /** verify_type agrees with get_type, and get_type reads back every header. */
  lemma VerifyTypeAgreesWithGetType(bytes: seq<Byte>, t: RpcType, rest: seq<Byte>)
    requires 4 <= |bytes|
    ensures VerifyType(bytes, t) <==> GetType(bytes) == Ok(t)
    ensures GetType(TypeHeader(t) + rest) == Ok(t)
  {
    LE32Unique(RpcTypeCode(t), bytes);
    LE32RoundTrip(RpcTypeCode(t), rest);
    if GetType(bytes) == Ok(t) {
      RpcTypeCodeRoundTrip(t, t);
    }
  }

  /**
   * get_func_name: decode the length prefix at offset 4 and take that many
   * bytes; `None` where the source's assertions fail, including its
   * postcondition that the name ends before the end of the buffer.
   */
  function GetFuncName(bytes: seq<Byte>): (r: Option<seq<Byte>>)
    requires 4 < |bytes|
    ensures r.Some? <==> ExtractLength(bytes, 4).Some?
                         && ExtractLength(bytes, 4).value.next + ExtractLength(bytes, 4).value.len < |bytes|
    ensures r.Some? ==> var e := ExtractLength(bytes, 4).value;
                        |r.value| == e.len && r.value == bytes[e.next..e.next + e.len]
  {
    match ExtractLength(bytes, 4)
    case None => None
    case Some(e) => if e.next + e.len < |bytes| then Some(bytes[e.next..e.next + e.len]) else None
  }

  /** get_func_name corrected: the same slice, taken after the whole prefix. */
  function GetFuncNameCorrected(bytes: seq<Byte>): (r: Option<seq<Byte>>)
    requires 4 < |bytes|
    ensures r.None? <==> ExtractLengthCorrected(bytes, 4).None?
                         || ExtractLengthCorrected(bytes, 4).value.next + ExtractLengthCorrected(bytes, 4).value.len >= |bytes|
    ensures r.Some? ==> var e := ExtractLengthCorrected(bytes, 4).value;
                        |r.value| == e.len && r.value == bytes[e.next..e.next + e.len]
  {
    match ExtractLengthCorrected(bytes, 4)
    case None => None
    case Some(e) => if e.next + e.len < |bytes| then Some(bytes[e.next..e.next + e.len]) else None
  }

  /**
   * A buffer holding a header, a name and anything after it yields that
   * name through the corrected reader, whatever its length.
   */
  lemma GetFuncNameCorrectedReadsName(t: RpcType, name: seq<Byte>, rest: seq<Byte>)
    requires |name| < 0x4000_0000 && |rest| > 0
    ensures GetFuncNameCorrected(TypeHeader(t) + EncodeLength(|name|) + name + rest) == Some(name)
  {
    var bytes := TypeHeader(t) + EncodeLength(|name|) + name + rest;
    assert bytes == TypeHeader(t) + EncodeLength(|name|) + (name + rest);
    ExtractLengthRoundTrip(TypeHeader(t), |name|, name + rest);
    var start := 4 + |EncodeLength(|name|)|;
    assert bytes[start..start + |name|] == name;
  }

  /**
   * As written, a name of 0x4000 bytes or more is read one byte early: the
   * result starts with the high byte of the length word and loses the last
   * byte of the name.
   */
  lemma GetFuncNameLongNameShifted(t: RpcType, name: seq<Byte>, rest: seq<Byte>)
    requires 0x4000 <= |name| < 0x4000_0000 && |rest| > 0
    ensures var n := |name|;
            GetFuncName(TypeHeader(t) + EncodeLength(n) + name + rest)
            == Some([(n % 0x1_0000) / 0x100] + name[..n - 1])
  {
    var n := |name|;
    var bytes := TypeHeader(t) + EncodeLength(n) + name + rest;
    assert bytes == TypeHeader(t) + EncodeLength(n) + (name + rest);
    ExtractLengthFourByteFormStopsShort(TypeHeader(t), n, name + rest);
    assert bytes[7..7 + n] == [bytes[7]] + name[..n - 1];
  }

  /**
   * from_bytes: the buffer itself, once its type header is valid and a
   * non-empty function name can be read from it; otherwise
   * deserialization_error.
   */
  function FromBytes(bytes: seq<Byte>): (r: Checked<seq<Byte>, RpcException>)
    requires 4 <= |bytes|
    ensures r.Returns? ==> r.value == bytes && GetType(bytes).Ok?
    ensures r.Returns? <==> GetType(bytes).Ok? && 4 < |bytes| && GetFuncName(bytes).Some? && |GetFuncName(bytes).value| > 0
    ensures GetType(bytes).Err? ==> r == Throws(Raise(DeserializationError, InvalidType))
    ensures GetType(bytes).Ok? && 4 < |bytes| && GetFuncName(bytes) == Some([])
            ==> r == Throws(Raise(DeserializationError, NoFuncName))
  {
    match GetType(bytes)
    case Err(e) => Throws(e)
    case Ok(_) =>
      if |bytes| == 4 then AssertionFails
      else
        match GetFuncName(bytes)
        case None => AssertionFails
        case Some(name) => if |name| == 0 then Throws(Raise(DeserializationError, NoFuncName)) else Returns(bytes)
  }

  /** to_bytes: the buffer itself. */
  function ToBytes(serialObj: seq<Byte>): (r: seq<Byte>)
    ensures |r| == |serialObj| && forall i :: 0 <= i < |r| ==> r[i] == serialObj[i]
  {
    serialObj
  }

  /** from_bytes after to_bytes gives back the buffer whenever it accepts it at all. */
  lemma ToBytesFromBytes(bytes: seq<Byte>)
    requires 4 <= |bytes|
    ensures FromBytes(ToBytes(bytes)).Returns? ==> FromBytes(ToBytes(bytes)).value == bytes
  {
  }

  /**
   * has_bound_args: for the two request kinds the flag bitsery decodes from
   * the object (given here as `decodedFlag`), true for the two w_bind result
   * kinds and false for the rest; get_type's exception propagates.
   */
  function HasBoundArgs(bytes: seq<Byte>, decodedFlag: bool): (r: Result<bool, RpcException>)
    requires 4 <= |bytes|
    ensures r.Err? <==> GetType(bytes).Err?
    ensures r.Ok? && (GetType(bytes).value == CallbackRequest || GetType(bytes).value == FuncRequest) ==> r.value == decodedFlag
    ensures r.Ok? && !(GetType(bytes).value == CallbackRequest || GetType(bytes).value == FuncRequest)
            ==> (r.value <==> GetType(bytes).value == CallbackResultWBind || GetType(bytes).value == FuncResultWBind)
  {
    match GetType(bytes)
    case Err(e) => Err(e)
    case Ok(t) =>
      if t == CallbackRequest || t == FuncRequest then Ok(decodedFlag)
      else Ok(t == CallbackResultWBind || t == FuncResultWBind)
  }

  /** The seed std::accumulate starts from: the size, as a size_t. */
  function SizeSeed(n: nat): (seed: bv64)
    requires n < 0x1_0000_0000_0000_0000
  {
    n as bv64
  }

  /** One step of the hash fold, in 64-bit size_t arithmetic. */
  function HashStep(seed: bv64, v: Byte): bv64
  {
    seed ^ ((v as bv64) + 0x9E37_79B9 + (seed << 6) + (seed >> 2))
  }

  /** std::accumulate with HashStep: a left fold over the bytes. */
  function HashFold(seed: bv64, bytes: seq<Byte>): bv64
    decreases |bytes|
  {
    if |bytes| == 0 then seed else HashFold(HashStep(seed, bytes[0]), bytes[1..])
  }

  /** std::hash<std::vector<uint8_t>>: the fold seeded with the vector's size. */
  function Hash(bytes: seq<Byte>): bv64
    requires |bytes| < 0x1_0000_0000_0000_0000
  {
    HashFold(SizeSeed(|bytes|), bytes)
  }

  /** The fold visits the bytes left to right: folding a concatenation folds the second part from where the first ended. */
  lemma {:induction false} HashFoldConcat(seed: bv64, front: seq<Byte>, back: seq<Byte>)
    ensures HashFold(seed, front + back) == HashFold(HashFold(seed, front), back)
    decreases |front|
  {
    if |front| > 0 {
      assert (front + back)[1..] == front[1..] + back;
      HashFoldConcat(HashStep(seed, front[0]), front[1..], back);
    } else {
      assert front + back == back;
    }
  }

  /** The accumulate loop, one byte at a time from the size seed, computes Hash. */
  method HashLoop(bytes: seq<Byte>) returns (h: bv64)
    requires |bytes| < 0x1_0000_0000_0000_0000
    ensures h == Hash(bytes)
  {
    h := SizeSeed(|bytes|);
    var i := 0;
    while i < |bytes|
      invariant 0 <= i <= |bytes|
      invariant h == HashFold(SizeSeed(|bytes|), bytes[..i])
    {
      HashFoldConcat(SizeSeed(|bytes|), bytes[..i], [bytes[i]]);
      assert bytes[..i + 1] == bytes[..i] + [bytes[i]];
      h := HashStep(h, bytes[i]);
      i := i + 1;
    }
    assert bytes[..i] == bytes;
  }
}

=== FILE: bitsery_legacy.dfy ===
/**
 * The older bitsery adapter, include/rpc_adapters/rpc_bitsery.hpp (namespace
 * rpc): the pack_helper record bitsery serializes (func_name, err_mesg, the
 * result unless the function returns void, args), the conversions between
 * it and a packed_func, and the two functions that edit the serialized
 * buffer directly: get_func_name and set_err_mesg.
 *
 * The packed_func this adapter was written against (with set_err_mesg) is
 * not part of this model; a pack is its four fields, and its operator bool
 * is passed in where to_helper consults it.
 */
module BitseryLegacy {
  import opened Wrappers
  import opened Values
  import opened Bytes
  import BitseryAdapter

  /** pack_helper: `result` is None exactly for the void specialization. */
  datatype Helper = Helper(funcName: string, errMesg: string, result: Option<Value>, args: Args)

  /** A packed_func as this adapter sees it. */
  datatype Pack = Pack(funcName: string, errMesg: string, result: Option<Value>, args: Args)

  /**
   * to_helper: name and arguments always; the error message when the pack
   * is falsy, otherwise its result (the helper's result stays
   * default-constructed, `defaultResult`, for a failed pack).
   */
  function ToHelper(pack: Pack, truthy: bool, isVoid: bool, defaultResult: Value): (h: Helper)
    requires truthy && !isVoid ==> pack.result.Some?
    ensures h.funcName == pack.funcName && h.args == pack.args
    ensures h.errMesg == (if truthy then "" else pack.errMesg)
    ensures h.result.None? <==> isVoid
    ensures !isVoid && truthy ==> h.result == pack.result
    ensures !isVoid && !truthy ==> h.result == Some(defaultResult)
  {
    var result := if isVoid then None else if truthy then pack.result else Some(defaultResult);
    Helper(pack.funcName, if truthy then "" else pack.errMesg, result, pack.args)
  }

  /**
   * from_helper: an empty error message gives a pack holding the helper's
   * result; otherwise the error message is set and the result cleared.
   */
  function FromHelper(h: Helper): (p: Pack)
    ensures p.funcName == h.funcName && p.args == h.args && p.errMesg == h.errMesg
    ensures h.errMesg == "" ==> p.result == h.result
    ensures h.errMesg != "" ==> p.result.None?
  {
    if h.errMesg == "" then Pack(h.funcName, "", h.result, h.args)
    else Pack(h.funcName, h.errMesg, None, h.args)
  }

  /**
   * A truthy pack without an error message survives the helper round trip;
   * a failed one comes back with its name, arguments and message and no
   * result.
   */
  lemma HelperRoundTrip(pack: Pack, isVoid: bool, defaultResult: Value)
    requires isVoid <==> pack.result.None?
    ensures pack.errMesg == "" ==> FromHelper(ToHelper(pack, true, isVoid, defaultResult)) == pack
    ensures pack.errMesg != "" ==> FromHelper(ToHelper(pack, false, isVoid, defaultResult))
                                   == Pack(pack.funcName, pack.errMesg, None, pack.args)
  {
  }

  /** to_bytes: the buffer itself. */
  function ToBytes(serialObj: seq<Byte>): (r: seq<Byte>)
    ensures |r| == |serialObj|
  {
    serialObj
  }

  /** from_bytes: the buffer itself, like to_bytes in the other direction. */
  function FromBytes(bytes: seq<Byte>): (r: seq<Byte>)
    ensures |r| == |bytes|
  {
    bytes
  }

  /** The two conversions are inverse to each other. */
  lemma BytesRoundTrip(bytes: seq<Byte>)
    ensures FromBytes(ToBytes(bytes)) == bytes && ToBytes(FromBytes(bytes)) == bytes
  {
  }

  /**
   * get_func_name: byte 0 is the name's length L and bytes 1..L the name
   * (front() of an empty buffer and a slice past the end are undefined).
   */
  function GetFuncName(buf: seq<Byte>): (name: seq<Byte>)
    requires 0 < |buf| && 1 + buf[0] <= |buf|
    ensures |name| == buf[0]
    ensures forall i :: 0 <= i < |name| ==> name[i] == buf[1 + i]
  {
    buf[1..1 + buf[0]]
  }

  /**
   * Bitsery writes a name of at most 50 bytes (the limit the serializer
   * passes to text1b) as one length byte followed by the name, and
   * get_func_name reads exactly that name back.
   */
  lemma GetFuncNameReadsSerializedName(name: seq<Byte>, rest: seq<Byte>)
    requires |name| <= 50
    ensures BitseryAdapter.EncodeLength(|name|) == [|name|]
    ensures GetFuncName([|name|] + name + rest) == name
  {
    assert ([|name|] + name + rest)[1..1 + |name|] == name;
  }

  /** The err_mesg region a buffer's prefix bytes describe: the name, then a length byte, then the message. */
  predicate HasErrRegion(buf: seq<Byte>)
  {
    0 < |buf| && buf[0] as int + 1 < |buf| && buf[0] as int + 2 + buf[buf[0] as int + 1] <= |buf|
  }

  /**
   * set_err_mesg as written: read the name length and the old message length
   * from single bytes, store mesg.size() truncated to uint8 as the new
   * length, and replace the old message by that many bytes of mesg. `None`
   * when the buffer does not hold the region its bytes describe (at() throws
   * or erase runs past the end).
   */
  function SetErrMesg(buf: seq<Byte>, mesg: seq<Byte>): (r: Option<seq<Byte>>)
    requires 0 < |buf|
    ensures r.Some? <==> HasErrRegion(buf)
    ensures r.Some? ==> var nameLen := buf[0]; var oldLen := buf[nameLen + 1]; var newLen := |mesg| % 0x100;
                        && |r.value| == |buf| - oldLen + newLen
                        && r.value[..nameLen + 1] == buf[..nameLen + 1]
                        && r.value[nameLen + 1] == newLen
                        && r.value[nameLen + 2..nameLen + 2 + newLen] == mesg[..newLen]
                        && r.value[nameLen + 2 + newLen..] == buf[nameLen + 2 + oldLen..]
  {
    if !HasErrRegion(buf) then None
    else
      var nameLen := buf[0];
      var newLen := |mesg| % 0x100;
      var out := buf[..nameLen + 1] + [newLen] + mesg[..newLen] + buf[nameLen + 2 + buf[nameLen + 1]..];
      assert out[nameLen + 2..nameLen + 2 + newLen] == mesg[..newLen];
      Some(out)
  }

  /** Two buffers with the same length and the same name, length byte, message and tail are equal. */
  lemma SameLayoutSameBuffer(a: seq<Byte>, b: seq<Byte>, nameLen: nat, newLen: nat)
    requires |a| == |b| && nameLen + 2 + newLen <= |a|
    requires a[..nameLen + 1] == b[..nameLen + 1] && a[nameLen + 1] == b[nameLen + 1]
    requires a[nameLen + 2..nameLen + 2 + newLen] == b[nameLen + 2..nameLen + 2 + newLen]
    requires a[nameLen + 2 + newLen..] == b[nameLen + 2 + newLen..]
    ensures a == b
  {
    forall i | 0 <= i < |a|
      ensures a[i] == b[i]
    {
      if i < nameLen + 1 {
        assert a[i] == a[..nameLen + 1][i];
        assert b[i] == b[..nameLen + 1][i];
      } else if nameLen + 2 <= i < nameLen + 2 + newLen {
        assert a[i] == a[nameLen + 2..nameLen + 2 + newLen][i - nameLen - 2];
        assert b[i] == b[nameLen + 2..nameLen + 2 + newLen][i - nameLen - 2];
      } else if nameLen + 2 + newLen <= i {
        assert a[i] == a[nameLen + 2 + newLen..][i - nameLen - 2 - newLen];
        assert b[i] == b[nameLen + 2 + newLen..][i - nameLen - 2 - newLen];
      }
    }
  }

  /**
   * The first steps of set_err_mesg: overwrite the length byte and insert
   * zeros or erase bytes after it, so the region has room for `newLen` bytes.
   */
  method ResizeErrRegion(buf: seq<Byte>, newLen: nat) returns (out: seq<Byte>)
    requires HasErrRegion(buf) && newLen < 0x100
    ensures var nameLen := buf[0] as int; var oldLen := buf[nameLen + 1] as int;
            && |out| == |buf| - oldLen + newLen
            && out[..nameLen + 1] == buf[..nameLen + 1]
            && out[nameLen + 1] == newLen
            && out[nameLen + 2 + newLen..] == buf[nameLen + 2 + oldLen..]
  {
    var nameLen := buf[0] as int;
    var oldLen := buf[nameLen + 1] as int;
    out := buf;
    if newLen > oldLen {
      out := out[nameLen + 1 := newLen];
      out := out[..nameLen + 2] + seq(newLen - oldLen, _ => 0) + out[nameLen + 2..];
    } else if newLen < oldLen {
      out := out[nameLen + 1 := newLen];
      out := out[..nameLen + 2] + out[nameLen + 2 + (oldLen - newLen)..];
    }
  }

  /**
   * The in-place steps of set_err_mesg (resize the region, then copy the
   * message byte by byte) produce the buffer SetErrMesg describes.
   */
  method SetErrMesgInPlace(buf: seq<Byte>, mesg: seq<Byte>) returns (r: Option<seq<Byte>>)
    requires 0 < |buf|
    ensures r == SetErrMesg(buf, mesg)
  {
    if !HasErrRegion(buf) {
      return None;
    }
    var nameLen := buf[0] as int;
    var oldLen := buf[nameLen + 1] as int;
    var newLen := |mesg| % 0x100;
    var out := ResizeErrRegion(buf, newLen);
    var i := 0;
    while i < newLen
      invariant 0 <= i <= newLen
      invariant |out| == |buf| - oldLen + newLen
      invariant out[..nameLen + 1] == buf[..nameLen + 1]
      invariant out[nameLen + 1] == newLen
      invariant out[nameLen + 2..nameLen + 2 + i] == mesg[..i]
      invariant out[nameLen + 2 + newLen..] == buf[nameLen + 2 + oldLen..]
    {
      out := out[nameLen + 2 + i := mesg[i]];
      i := i + 1;
    }
    SameLayoutSameBuffer(out, SetErrMesg(buf, mesg).value, nameLen, newLen);
    return Some(out);
  }

  /** A message shorter than 256 bytes lands whole in the err_mesg region, and the name stays readable. */
  lemma SetErrMesgKeepsNameStoresMessage(buf: seq<Byte>, mesg: seq<Byte>)
    requires HasErrRegion(buf) && |mesg| < 0x100
    ensures var out := SetErrMesg(buf, mesg).value;
            GetFuncName(out) == GetFuncName(buf)
            && out[buf[0] as int + 2..buf[0] as int + 2 + |mesg|] == mesg
  {
    var out := SetErrMesg(buf, mesg).value;
    assert out[1..1 + buf[0]] == out[..buf[0] as int + 1][1..];
    assert buf[1..1 + buf[0]] == buf[..buf[0] as int + 1][1..];
  }

  /**
   * As written, a message of 128 to 191 bytes gets a length byte with bit
   * 0x80 set, which bitsery's size prefix reads as the first of two length
   * bytes: the message's own first byte becomes part of its length. A
   * 128-byte message starting with a zero byte reads back as empty.
   */
  lemma SetErrMesgLongMessageMisread(buf: seq<Byte>, mesg: seq<Byte>)
    requires HasErrRegion(buf) && 0x80 <= |mesg| < 0xC0
    ensures var out := SetErrMesg(buf, mesg).value;
            BitseryAdapter.ExtractLengthCorrected(out, buf[0] as int + 1)
            == Some(BitseryAdapter.Extracted((|mesg| - 0x80) * 0x100 + mesg[0], buf[0] as int + 3))
    ensures |mesg| == 0x80 && mesg[0] == 0
            ==> BitseryAdapter.ExtractLengthCorrected(SetErrMesg(buf, mesg).value, buf[0] as int + 1).value.len == 0
  {
    var out := SetErrMesg(buf, mesg).value;
    var nameLen := buf[0];
    assert out[nameLen + 2] == out[nameLen + 2..nameLen + 2 + |mesg|][0];
    assert out[nameLen + 1] == |mesg| && out[nameLen + 1] / 0x40 == 2;
  }

  /**
   * set_err_mesg corrected: find the old message through its bitsery size
   * prefix and replace prefix and message by the new message's prefix and
   * bytes. `None` when the buffer does not hold the region its bytes describe.
   */
  function SetErrMesgCorrected(buf: seq<Byte>, mesg: seq<Byte>): (r: Option<seq<Byte>>)
    requires 0 < |buf| && |mesg| < 0x4000_0000
    ensures r.Some? ==> buf[0] as int + 1 < |buf| && BitseryAdapter.ExtractLengthCorrected(buf, buf[0] as int + 1).Some?
    ensures r.Some? ==> var e := BitseryAdapter.ExtractLengthCorrected(buf, buf[0] as int + 1).value;
                        e.next + e.len <= |buf|
                        && r.value == buf[..buf[0] as int + 1] + BitseryAdapter.EncodeLength(|mesg|) + mesg + buf[e.next + e.len..]
    ensures r.None? <==> buf[0] as int + 1 >= |buf| || BitseryAdapter.ExtractLengthCorrected(buf, buf[0] as int + 1).None?
                         || BitseryAdapter.ExtractLengthCorrected(buf, buf[0] as int + 1).value.next
                            + BitseryAdapter.ExtractLengthCorrected(buf, buf[0] as int + 1).value.len > |buf|
  {
    var nameLen := buf[0];
    if nameLen + 1 >= |buf| then None
    else
      match BitseryAdapter.ExtractLengthCorrected(buf, nameLen + 1)
      case None => None
      case Some(e) =>
        if e.next + e.len > |buf| then None
        else Some(buf[..nameLen + 1] + BitseryAdapter.EncodeLength(|mesg|) + mesg + buf[e.next + e.len..])
  }

  /**
   * With the corrected set_err_mesg, bitsery's size prefix reads back the
   * message's full length, the region holds the whole message, and the name
   * and everything after the old message are kept.
   */
  lemma SetErrMesgCorrectedReadsBack(buf: seq<Byte>, mesg: seq<Byte>)
    requires 0 < |buf| && |mesg| < 0x4000_0000
    requires SetErrMesgCorrected(buf, mesg).Some?
    ensures var out := SetErrMesgCorrected(buf, mesg).value;
            var start := buf[0] as int + 1 + |BitseryAdapter.EncodeLength(|mesg|)|;
            BitseryAdapter.ExtractLengthCorrected(out, buf[0] as int + 1) == Some(BitseryAdapter.Extracted(|mesg|, start))
            && out[start..start + |mesg|] == mesg
            && out[..buf[0] as int + 1] == buf[..buf[0] as int + 1]
  {
    var e := BitseryAdapter.ExtractLengthCorrected(buf, buf[0] as int + 1).value;
    var out := SetErrMesgCorrected(buf, mesg).value;
    var tail := mesg + buf[e.next + e.len..];
    assert out == buf[..buf[0] as int + 1] + BitseryAdapter.EncodeLength(|mesg|) + tail;
    BitseryAdapter.ExtractLengthRoundTrip(buf[..buf[0] as int + 1], |mesg|, tail);
    var start := buf[0] as int + 1 + |BitseryAdapter.EncodeLength(|mesg|)|;
    assert out[start..start + |mesg|] == tail[..|mesg|];
  }
}

=== FILE: boost_json.dfy ===
/**
 * include/rpc_adapters/rpc_boost_json.hpp: the Boost.JSON adapter of the
 * rpc_common.hpp generation. A packed_func travels as a JSON object with the
 * members "func_name", "args" (an array, one element per argument),
 * "result", "except_type" and "err_mesg". The adapter checks each JSON value
 * against the C++ type it should become, turns containers into arrays and
 * back, and accepts or refuses a parsed document.
 *
 * JSON text (boost::json::parse and serialize) is not modelled: the adapter
 * is given the parsed value, or nothing when parsing failed.
 */
module BoostJson {
  import opened Wrappers
  import opened Values
  import opened RpcCommon
  import opened CStrings
  import opened CppInt
  import opened Seqs

  /**
   * A boost::json::value. A double is kept as an opaque number (floating
   * point is not modelled); an object maps each key to its value.
   */
  datatype JValue =
    | JNull
    | JBool(b: bool)
    | JInt64(i: int)
    | JUInt64(u: int)
    | JDouble(d: int)
    | JString(s: string)
    | JArray(items: seq<JValue>)
    | JObject(fields: map<string, JValue>)

  /**
   * The C++ types the adapter tells apart: bool, the other integral types,
   * floating point, std::string, containers (by their value_type), and
   * everything else, which travels as a JSON object.
   */
  datatype CppType = BoolT | IntegralT | FloatingT | StringT | ContainerT(elem: CppType) | ObjectT

  /**
   * A C++ argument or result as the adapter builds it: a scalar or a user
   * object (kept as the JSON value it converts from), a std::string, or a
   * container of elements.
   */
  datatype CVal = Scalar(j: JValue) | Text(s: string) | List(items: seq<CVal>)

  /** validate_arg: the JSON kind each C++ type accepts. */
  predicate ValidateArg(t: CppType, v: JValue)
  {
    match t
    case BoolT => v.JBool?
    case IntegralT => v.JInt64? || v.JUInt64?
    case FloatingT => v.JDouble?
    case StringT => v.JString?
    case ContainerT(_) => v.JArray?
    case ObjectT => v.JObject?
  }

  /** No C++ type accepts null. */
  lemma NullIsNeverValid(t: CppType)
    ensures !ValidateArg(t, JNull)
  {
  }

  /** The kind names mismatch_string reports (null for anything else). */
  function KindName(v: JValue): (name: string)
    ensures name in {"bool", "int64", "uint64", "double", "string", "array", "object", "null"}
  {
    match v
    case JBool(_) => "bool"
    case JInt64(_) => "int64"
    case JUInt64(_) => "uint64"
    case JDouble(_) => "double"
    case JString(_) => "string"
    case JArray(_) => "array"
    case JObject(_) => "object"
    case JNull => "null"
  }

  /** Two values have the same kind. */
  predicate SameKind(v: JValue, w: JValue)
  {
    (v.JNull? <==> w.JNull?) && (v.JBool? <==> w.JBool?) && (v.JInt64? <==> w.JInt64?)
    && (v.JUInt64? <==> w.JUInt64?) && (v.JDouble? <==> w.JDouble?)
    && (v.JString? <==> w.JString?) && (v.JArray? <==> w.JArray?)
  }

  /** mismatch_string: the expected type's name followed by the kind found. */
  function MismatchString(expectType: string, v: JValue): (mesg: string)
  {
    "Boost.JSON expected type: " + expectType + ", got type: " + KindName(v)
  }

  /** For a fixed expected type, the message tells exactly which kind was found. */
  lemma MismatchStringNamesKind(expectType: string, v: JValue, w: JValue)
    ensures MismatchString(expectType, v) == MismatchString(expectType, w) <==> SameKind(v, w)
  {
    var head := "Boost.JSON expected type: " + expectType + ", got type: ";
    if MismatchString(expectType, v) == MismatchString(expectType, w) {
      assert (head + KindName(v))[|head|..] == KindName(v);
      assert (head + KindName(w))[|head|..] == KindName(w);
    }
  }

  /** The exception parse_arg throws when validate_arg refuses a value. */
  function Mismatch(typeId: CppType -> string, t: CppType, v: JValue): (e: RpcException)
    ensures e.cls == FunctionMismatch && e.what == MismatchString(typeId(t), v)
  {
    Raise(FunctionMismatch, MismatchString(typeId(t), v))
  }

  const CountMismatchMessage := "Argument count mismatch"

  /** A validated scalar, string or object converts to the C++ value it holds. */
  function Leaf(t: CppType, v: JValue): (c: CVal)
    requires ValidateArg(t, v) && !t.ContainerT?
    ensures t == StringT ==> c == Text(v.s)
    ensures t != StringT ==> c == Scalar(v)
  {
    if t == StringT then Text(v.s) else Scalar(v)
  }

  /** push_arg: the JSON value a C++ value becomes (strings pass through c_str()). */
  function PushArg(c: CVal): (v: JValue)
    ensures c.List? ==> v.JArray? && |v.items| == |c.items|
  {
    match c
    case Scalar(j) => j
    case Text(s) => JString(CStr(s))
    case List(items) => JArray(seq(|items|, i requires 0 <= i < |items| => PushArg(items[i])))
  }

  /**
   * The C++ values of type t the adapter can send: scalars and objects of the
   * accepted kind, strings without NUL characters, and containers of such
   * values.
   */
  predicate Representable(t: CppType, c: CVal)
  {
    match t
    case StringT => c.Text? && '\0' !in c.s
    case ContainerT(e) => c.List? && forall i :: 0 <= i < |c.items| ==> Representable(e, c.items[i])
    case _ => c.Scalar? && ValidateArg(t, c.j)
  }

  /** A string holding a NUL is cut short on its way into JSON. */
  lemma StringWithNulIsCut(s: string)
    requires '\0' in s
    ensures PushArg(Text(s)) != JString(s)
  {
  }

  /** The result of parse_args: the value and the argument counter afterwards. */
  datatype Parsed = Parsed(c: CVal, next: nat)

  /**
   * parse_arg as written: validate, then convert; a container converts each
   * element of its array through parse_args with one shared counter.
   */
  function ParseArg(typeId: CppType -> string, t: CppType, v: JValue): (r: Result<CVal, RpcException>)
    ensures r.Err? ==> r.error.cls == FunctionMismatch
    ensures r.Ok? ==> ValidateArg(t, v)
    ensures !ValidateArg(t, v) ==> r == Err(Mismatch(typeId, t, v))
    decreases v, 1
  {
    if !ValidateArg(t, v) then Err(Mismatch(typeId, t, v))
    else match t
      case ContainerT(e) =>
        (match ParseElems(typeId, e, v, 0, 0)
         case Err(x) => Err(x)
         case Ok(items) => Ok(List(items)))
      case _ => Ok(Leaf(t, v))
  }

  /** The container loop of parse_arg as written, from element i on. */
  function ParseElems(typeId: CppType -> string, e: CppType, v: JValue, i: nat, counter: nat)
    : (r: Result<seq<CVal>, RpcException>)
    requires v.JArray? && i <= |v.items|
    ensures r.Err? ==> r.error.cls == FunctionMismatch
    ensures r.Ok? ==> |r.value| == |v.items| - i
    decreases v, 0, |v.items| - i
  {
    if i == |v.items| then Ok([])
    else match ParseArgs(typeId, e, v.items[i], counter)
      case Err(x) => Err(x)
      case Ok(p) =>
        match ParseElems(typeId, e, v, i + 1, p.next)
        case Err(x) => Err(x)
        case Ok(rest) => Ok([p.c] + rest)
  }

  /**
   * parse_args as written: a value that is not an array is parsed itself;
   * otherwise the element at the counter is, and the counter advances.
   */
  function ParseArgs(typeId: CppType -> string, t: CppType, arr: JValue, index: nat): (r: Result<Parsed, RpcException>)
    ensures r.Err? ==> r.error.cls == FunctionMismatch
    ensures arr.JArray? && index >= |arr.items| ==> r == Err(Raise(FunctionMismatch, CountMismatchMessage))
    ensures r.Ok? ==> r.value.next == (if arr.JArray? then index + 1 else index)
    decreases arr, 2
  {
    if !arr.JArray? then
      match ParseArg(typeId, t, arr)
      case Err(x) => Err(x)
      case Ok(c) => Ok(Parsed(c, index))
    else if index >= |arr.items| then Err(Raise(FunctionMismatch, CountMismatchMessage))
    else
      match ParseArg(typeId, t, arr.items[index])
      case Err(x) => Err(x)
      case Ok(c) => Ok(Parsed(c, index + 1))
  }

  /** parse_arg as intended: each element of a container is parsed as an element. */
  function ParseArgFixed(typeId: CppType -> string, t: CppType, v: JValue): (r: Result<CVal, RpcException>)
    ensures r.Err? ==> r.error.cls == FunctionMismatch
    ensures r.Ok? ==> ValidateArg(t, v)
    ensures !ValidateArg(t, v) ==> r == Err(Mismatch(typeId, t, v))
    decreases v, 1
  {
    if !ValidateArg(t, v) then Err(Mismatch(typeId, t, v))
    else match t
      case ContainerT(e) =>
        (match ParseElemsFixed(typeId, e, v, 0)
         case Err(x) => Err(x)
         case Ok(items) => Ok(List(items)))
      case _ => Ok(Leaf(t, v))
  }

  /** The intended container loop, from element i on. */
  function ParseElemsFixed(typeId: CppType -> string, e: CppType, v: JValue, i: nat)
    : (r: Result<seq<CVal>, RpcException>)
    requires v.JArray? && i <= |v.items|
    ensures r.Err? ==> r.error.cls == FunctionMismatch
    ensures r.Ok? ==> |r.value| == |v.items| - i
    decreases v, 0, |v.items| - i
  {
    if i == |v.items| then Ok([])
    else match ParseArgFixed(typeId, e, v.items[i])
      case Err(x) => Err(x)
      case Ok(c) =>
        match ParseElemsFixed(typeId, e, v, i + 1)
        case Err(x) => Err(x)
        case Ok(rest) => Ok([c] + rest)
  }

  /** parse_args over the intended parse_arg; this is what reads a call's arguments. */
  function ParseArgsFixed(typeId: CppType -> string, t: CppType, arr: JValue, index: nat): (r: Result<Parsed, RpcException>)
    ensures r.Err? ==> r.error.cls == FunctionMismatch
    ensures arr.JArray? && index >= |arr.items| ==> r == Err(Raise(FunctionMismatch, CountMismatchMessage))
    ensures r.Ok? ==> r.value.next == (if arr.JArray? then index + 1 else index)
  {
    if !arr.JArray? then
      match ParseArgFixed(typeId, t, arr)
      case Err(x) => Err(x)
      case Ok(c) => Ok(Parsed(c, index))
    else if index >= |arr.items| then Err(Raise(FunctionMismatch, CountMismatchMessage))
    else
      match ParseArgFixed(typeId, t, arr.items[index])
      case Err(x) => Err(x)
      case Ok(c) => Ok(Parsed(c, index + 1))
  }

  /** Pushing a representable value and parsing it back (intended parse) gives it back. */
  lemma {:induction false} ParseArgFixedRoundTrip(typeId: CppType -> string, t: CppType, c: CVal)
    requires Representable(t, c)
    ensures ParseArgFixed(typeId, t, PushArg(c)) == Ok(c)
    decreases c, 1
  {
    match t
    case ContainerT(e) =>
      ParseElemsFixedRoundTrip(typeId, e, c, 0);
      assert c.items[0..] == c.items;
    case _ =>
  }

  lemma {:induction false} ParseElemsFixedRoundTrip(typeId: CppType -> string, e: CppType, c: CVal, i: nat)
    requires c.List? && i <= |c.items|
    requires forall k :: 0 <= k < |c.items| ==> Representable(e, c.items[k])
    ensures ParseElemsFixed(typeId, e, PushArg(c), i) == Ok(c.items[i..])
    decreases c, 0, |c.items| - i
  {
    if i < |c.items| {
      assert PushArg(c).items[i] == PushArg(c.items[i]);
      ParseArgFixedRoundTrip(typeId, e, c.items[i]);
      ParseElemsFixedRoundTrip(typeId, e, c, i + 1);
      assert c.items[i..] == [c.items[i]] + c.items[i + 1..];
    } else {
      assert |PushArg(c).items| == i;
      assert c.items[i..] == [];
    }
  }

  /** JSON whose strings, at any depth of arrays, hold no NUL. */
  predicate NulFree(v: JValue)
  {
    match v
    case JString(s) => '\0' !in s
    case JArray(items) => forall i :: 0 <= i < |items| ==> NulFree(items[i])
    case _ => true
  }

  /** The other direction: whatever the intended parse accepts, push_arg writes back unchanged. */
  lemma {:induction false} ParseArgFixedThenPush(typeId: CppType -> string, t: CppType, v: JValue)
    requires NulFree(v) && ParseArgFixed(typeId, t, v).Ok?
    ensures PushArg(ParseArgFixed(typeId, t, v).value) == v
    ensures Representable(t, ParseArgFixed(typeId, t, v).value)
    decreases v, 1
  {
    match t
    case ContainerT(e) =>
      var cs := ParseElemsFixed(typeId, e, v, 0).value;
      ParseElemsFixedThenPush(typeId, e, v, 0);
      assert v.items[0..] == v.items;
      assert PushArg(List(cs)) == JArray(v.items);
    case _ =>
  }

  lemma {:induction false} ParseElemsFixedThenPush(typeId: CppType -> string, e: CppType, v: JValue, i: nat)
    requires v.JArray? && i <= |v.items| && NulFree(v)
    requires ParseElemsFixed(typeId, e, v, i).Ok?
    ensures var cs := ParseElemsFixed(typeId, e, v, i).value;
            |cs| == |v.items| - i
            && (forall k :: 0 <= k < |cs| ==> PushArg(cs[k]) == v.items[i + k] && Representable(e, cs[k]))
    decreases v, 0, |v.items| - i
  {
    if i < |v.items| {
      ParseArgFixedThenPush(typeId, e, v.items[i]);
      ParseElemsFixedThenPush(typeId, e, v, i + 1);
    }
  }

  /** A value of a type that is not a container never becomes an array. */
  lemma LeafNotArray(t: CppType, c: CVal)
    requires Representable(t, c) && !t.ContainerT?
    ensures !PushArg(c).JArray?
  {
  }

  /**
   * As written, parse_arg still round-trips a scalar, a string, an object or
   * a container of those: a non-array element is parsed by itself.
   */
  lemma {:induction false} ParseArgFlatRoundTrip(typeId: CppType -> string, t: CppType, c: CVal)
    requires Representable(t, c)
    requires t.ContainerT? ==> !t.elem.ContainerT?
    ensures ParseArg(typeId, t, PushArg(c)) == Ok(c)
  {
    match t
    case ContainerT(e) =>
      FlatElemsRoundTrip(typeId, e, c, 0);
      assert c.items[0..] == c.items;
    case _ =>
  }

  lemma {:induction false} FlatElemsRoundTrip(typeId: CppType -> string, e: CppType, c: CVal, i: nat)
    requires c.List? && i <= |c.items| && !e.ContainerT?
    requires forall k :: 0 <= k < |c.items| ==> Representable(e, c.items[k])
    ensures ParseElems(typeId, e, PushArg(c), i, 0) == Ok(c.items[i..])
    decreases |c.items| - i
  {
    if i < |c.items| {
      var v := PushArg(c);
      assert v.items[i] == PushArg(c.items[i]);
      LeafNotArray(e, c.items[i]);
      assert ParseArgs(typeId, e, v.items[i], 0) == Ok(Parsed(c.items[i], 0));
      FlatElemsRoundTrip(typeId, e, c, i + 1);
      assert c.items[i..] == [c.items[i]] + c.items[i + 1..];
    } else {
      assert |PushArg(c).items| == i;
      assert c.items[i..] == [];
    }
  }

  /**
   * As written, a non-empty container of containers never parses: the first
   * inner array is taken for an argument list, so either its first element
   * is checked against the inner container type (and is not an array) or,
   * when it is empty, the counter runs past its end.
   */
  lemma ParseArgNestedFails(typeId: CppType -> string, e: CppType, c: CVal)
    requires !e.ContainerT?
    requires Representable(ContainerT(ContainerT(e)), c) && |c.items| > 0
    ensures ParseArg(typeId, ContainerT(ContainerT(e)), PushArg(c)).Err?
  {
    var v := PushArg(c);
    var inner := v.items[0];
    assert inner == PushArg(c.items[0]);
    if |inner.items| > 0 {
      assert inner.items[0] == PushArg(c.items[0].items[0]);
      LeafNotArray(e, c.items[0].items[0]);
      assert ParseArg(typeId, ContainerT(e), inner.items[0]).Err?;
    }
    assert ParseArgs(typeId, ContainerT(e), inner, 0).Err?;
  }

  /** The intended parse reads the same nested containers back. */
  lemma ParseArgFixedNestedRoundTrip(typeId: CppType -> string, e: CppType, c: CVal)
    requires Representable(ContainerT(ContainerT(e)), c)
    ensures ParseArgFixed(typeId, ContainerT(ContainerT(e)), PushArg(c)) == Ok(c)
  {
    ParseArgFixedRoundTrip(typeId, ContainerT(ContainerT(e)), c);
  }

  /**
   * The arguments of a call: parse_args once per declared argument, in order,
   * threading the counter through.
   */
  function ParseArgList(typeId: CppType -> string, types: seq<CppType>, argsVal: JValue, counter: nat)
    : (r: Result<seq<CVal>, RpcException>)
    ensures r.Ok? ==> |r.value| == |types|
    ensures r.Err? ==> r.error.cls == FunctionMismatch
    decreases |types|
  {
    if types == [] then Ok([])
    else match ParseArgsFixed(typeId, types[0], argsVal, counter)
      case Err(x) => Err(x)
      case Ok(p) =>
        match ParseArgList(typeId, types[1..], argsVal, p.next)
        case Err(x) => Err(x)
        case Ok(rest) => Ok([p.c] + rest)
  }

  /** The array elements from position k on are the representable values cs. */
  predicate EncodesFrom(types: seq<CppType>, items: seq<JValue>, cs: seq<CVal>, k: nat)
  {
    |cs| == |types| && k + |types| <= |items|
    && forall i :: 0 <= i < |types| ==> Representable(types[i], cs[i]) && items[k + i] == PushArg(cs[i])
  }

  /** Arguments pushed in order are read back in order. */
  lemma {:induction false} ParseArgListRoundTrip(typeId: CppType -> string, types: seq<CppType>, items: seq<JValue>, cs: seq<CVal>, k: nat)
    requires EncodesFrom(types, items, cs, k)
    ensures ParseArgList(typeId, types, JArray(items), k) == Ok(cs)
    decreases |types|
  {
    if types != [] {
      assert items[k + 0] == PushArg(cs[0]);
      ParseArgFixedRoundTrip(typeId, types[0], cs[0]);
      forall i | 0 <= i < |types[1..]|
        ensures Representable(types[1..][i], cs[1..][i]) && items[k + 1 + i] == PushArg(cs[1..][i])
      {
        assert items[k + (i + 1)] == PushArg(cs[i + 1]);
      }
      ParseArgListRoundTrip(typeId, types[1..], items, cs[1..], k + 1);
      assert cs == [cs[0]] + cs[1..];
    }
  }

  /** Extra elements after the declared arguments are ignored. */
  lemma {:induction false} ParseArgListIgnoresExtra(typeId: CppType -> string, types: seq<CppType>, items: seq<JValue>, extra: seq<JValue>, k: nat)
    requires k + |types| <= |items|
    ensures ParseArgList(typeId, types, JArray(items + extra), k) == ParseArgList(typeId, types, JArray(items), k)
    decreases |types|
  {
    if types != [] {
      assert (items + extra)[k] == items[k];
      ParseArgListIgnoresExtra(typeId, types[1..], items, extra, k + 1);
    }
  }

  /** Fewer elements than declared arguments is a function_mismatch. */
  lemma {:induction false} ParseArgListTooFew(typeId: CppType -> string, types: seq<CppType>, items: seq<JValue>, k: nat)
    requires k <= |items| < k + |types|
    ensures ParseArgList(typeId, types, JArray(items), k).Err?
    ensures ParseArgList(typeId, types, JArray(items), k).error.cls == FunctionMismatch
    decreases |types|
  {
    if k < |items| {
      ParseArgListTooFew(typeId, types[1..], items, k + 1);
    }
  }

  /**
   * from_bytes_impl on a parsed document (None when parsing failed): an
   * object passes when it carries an int64 except_type (and, for a non-zero
   * one, an err_mesg), or else a non-empty string func_name and an array args.
   */
  function FromBytesImpl(parsed: Option<JValue>): (r: Option<map<string, JValue>>)
    ensures r.Some? ==> parsed == Some(JObject(r.value))
    ensures r.Some? && "except_type" in r.value ==>
              r.value["except_type"].JInt64? && (r.value["except_type"].i != 0 ==> "err_mesg" in r.value)
    ensures r.Some? && "except_type" !in r.value ==>
              "func_name" in r.value && r.value["func_name"].JString? && r.value["func_name"].s != ""
              && "args" in r.value && r.value["args"].JArray?
    ensures (parsed.Some? && parsed.value.JObject? && "except_type" in parsed.value.fields
             && parsed.value.fields["except_type"] == JInt64(0)) ==> r.Some?
  {
    if parsed.None? || !parsed.value.JObject? then None
    else
      var obj := parsed.value.fields;
      if "except_type" in obj then
        var ex := obj["except_type"];
        if !ex.JInt64? then None
        else if ex.i != 0 && "err_mesg" !in obj then None
        else Some(obj)
      else if "func_name" !in obj then None
      else if !obj["func_name"].JString? || obj["func_name"].s == "" then None
      else if "args" !in obj then None
      else if !obj["args"].JArray? then None
      else Some(obj)
  }


  /**
   * serialize_pack_impl: name and arguments always; then either the
   * exception (type and message) when the pack is falsy, or the result when
   * there is one.
   */
  function SerializePack(p: PackedFunc, enc: Value -> CVal): (obj: map<string, JValue>)
    ensures "func_name" in obj && "args" in obj
    ensures obj["func_name"] == JString(p.base.funcName)
    ensures obj["args"] == JArray(Map(Map(p.base.args, enc), PushArg))
    ensures "except_type" in obj <==> !Truthy(p)
    ensures "except_type" in obj ==> "err_mesg" in obj && obj["except_type"] == JInt64(p.base.exceptType) && obj["err_mesg"] == JString(p.base.errMesg)
    ensures "result" in obj <==> Truthy(p) && p.ValuePack?
    ensures "result" in obj ==> obj["result"] == PushArg(enc(p.result.value))
  {
    var obj := map["func_name" := JString(p.base.funcName), "args" := JArray(Map(Map(p.base.args, enc), PushArg))];
    if !Truthy(p) then obj["except_type" := JInt64(p.base.exceptType)]["err_mesg" := JString(p.base.errMesg)]
    else if p.ValuePack? then obj["result" := PushArg(enc(p.result.value))]
    else obj
  }

  /**
   * Every serialized pack passes from_bytes_impl except a truthy one with an
   * empty function name.
   */
  lemma SerializedPackAccepted(p: PackedFunc, enc: Value -> CVal)
    ensures var obj := SerializePack(p, enc);
            FromBytesImpl(Some(JObject(obj))) == (if Truthy(p) && p.base.funcName == "" then None else Some(obj))
  {
  }

  /**
   * What failed while reading a serialized pack: a thrown rpc exception, a
   * missing member (at() throws), a member of the wrong kind read with a
   * checked accessor (as_*() throws) or with an unchecked one (get_*(),
   * undefined behaviour).
   */
  datatype Failure = Threw(e: RpcException) | MissingKey(key: string) | WrongKind(key: string) | Unchecked(key: string)

  /** at(key).get_string(). */
  function GetString(obj: map<string, JValue>, key: string): (r: Result<string, Failure>)
    ensures r.Ok? <==> key in obj && obj[key].JString?
    ensures r.Ok? ==> r.value == obj[key].s
  {
    if key !in obj then Err(MissingKey(key))
    else if !obj[key].JString? then Err(Unchecked(key))
    else Ok(obj[key].s)
  }

  /** at(key).get_int64(). */
  function GetInt64(obj: map<string, JValue>, key: string): (r: Result<int, Failure>)
    ensures r.Ok? <==> key in obj && obj[key].JInt64?
    ensures r.Ok? ==> r.value == obj[key].i
  {
    if key !in obj then Err(MissingKey(key))
    else if !obj[key].JInt64? then Err(Unchecked(key))
    else Ok(obj[key].i)
  }

  /** get_func_name_impl: the function name up to its first NUL. */
  function GetFuncNameImpl(obj: map<string, JValue>): (r: Result<string, Failure>)
    ensures r.Ok? <==> "func_name" in obj && obj["func_name"].JString?
    ensures r.Ok? ==> r.value == CStr(obj["func_name"].s)
  {
    match GetString(obj, "func_name")
    case Err(f) => Err(f)
    case Ok(s) => Ok(CStr(s))
  }

  /**
   * The tail of deserialize_pack_impl: when except_type is present, record
   * it with err_mesg on the pack (err_mesg is read first). The int64 is cast
   * to exception_type, whose underlying type is int.
   */
  function WithException(obj: map<string, JValue>, p: PackedFunc): (r: Result<PackedFunc, Failure>)
    ensures "except_type" !in obj ==> r == Ok(p)
    ensures r.Ok? && "except_type" in obj ==>
              "err_mesg" in obj && obj["err_mesg"].JString? && obj["except_type"].JInt64?
    ensures r.Ok? && "except_type" in obj ==>
              r.value == SetException(p, CStr(obj["err_mesg"].s), ToInt(obj["except_type"].i))
  {
    if "except_type" !in obj then Ok(p)
    else match GetString(obj, "err_mesg")
      case Err(f) => Err(f)
      case Ok(mesg) =>
        match GetInt64(obj, "except_type")
        case Err(f) => Err(f)
        case Ok(t) => Ok(SetException(p, CStr(mesg), ToInt(t)))
  }

  /**
   * deserialize_pack_impl for a function with the given argument types and
   * result type (None for void). Arguments are parsed first; a result that
   * is present and not null makes a pack holding it and no exception;
   * otherwise the pack has no result and takes the exception when one is
   * recorded. Where C++ leaves the order of two reads open, func_name is read
   * before the result and err_mesg before except_type.
   */
  function DeserializePack(obj: map<string, JValue>, argTypes: seq<CppType>, resType: Option<CppType>,
                           typeId: CppType -> string, dec: CVal -> Value): (r: Result<PackedFunc, Failure>)
    ensures r.Ok? ==> (r.value.VoidPack? <==> resType.None?)
    ensures r.Ok? ==> "args" in obj && ParseArgList(typeId, argTypes, obj["args"], 0).Ok?
                      && r.value.base.args == Map(ParseArgList(typeId, argTypes, obj["args"], 0).value, dec)
    ensures r.Ok? ==> GetFuncNameImpl(obj) == Ok(r.value.base.funcName)
    ensures r.Ok? && r.value.ValuePack? && r.value.result.Some? ==> "result" in obj && BaseOk(r.value.base)
    ensures "args" !in obj ==> r == Err(MissingKey("args"))
  {
    if "args" !in obj then Err(MissingKey("args"))
    else match ParseArgList(typeId, argTypes, obj["args"], 0)
      case Err(e) => Err(Threw(e))
      case Ok(cs) =>
        var args := Map(cs, dec);
        match GetFuncNameImpl(obj)
        case Err(f) => Err(f)
        case Ok(name) =>
          match resType
          case None => WithException(obj, VoidPack(NewBase(name, args)))
          case Some(rt) =>
            if "result" in obj && obj["result"] != JNull then
              match ParseArgFixed(typeId, rt, obj["result"])
              case Err(e) => Err(Threw(e))
              case Ok(c) => Ok(ValuePack(NewBase(name, args), Some(dec(c))))
            else WithException(obj, ValuePack(NewBase(name, args), None))
  }

  /**
   * What a pack looks like after the trip through JSON: a truthy pack loses a
   * message recorded alongside type none, and a falsy one loses its result.
   */
  function Sent(p: PackedFunc): (q: PackedFunc)
    ensures q.base.funcName == p.base.funcName && q.base.args == p.base.args
    ensures q.base.exceptType == p.base.exceptType
    ensures Truthy(q) <==> Truthy(p)
  {
    if Truthy(p) then p.(base := p.base.(errMesg := ""))
    else if p.ValuePack? then p.(result := None)
    else p
  }

  /** get_result gives the receiver what it would give the sender. */
  lemma SentKeepsResult(p: PackedFunc)
    ensures GetResult(Sent(p)) == GetResult(p)
  {
  }

  /** The conditions under which a pack survives the trip. */
  predicate PackEncodable(p: PackedFunc, enc: Value -> CVal, dec: CVal -> Value,
                          argTypes: seq<CppType>, resType: Option<CppType>)
  {
    '\0' !in p.base.funcName && '\0' !in p.base.errMesg
    && -0x8000_0000 <= p.base.exceptType < 0x8000_0000
    && |p.base.args| == |argTypes|
    && (forall i :: 0 <= i < |argTypes| ==>
          Representable(argTypes[i], enc(p.base.args[i])) && dec(enc(p.base.args[i])) == p.base.args[i])
    && (resType.Some? <==> p.ValuePack?)
    && (p.ValuePack? && p.result.Some? ==>
          Representable(resType.value, enc(p.result.value)) && dec(enc(p.result.value)) == p.result.value)
  }

  /**
   * deserialize_pack_impl undoes serialize_pack_impl (with containers parsed
   * as intended): the pack comes back as Sent describes.
   */
  lemma PackRoundTrip(p: PackedFunc, enc: Value -> CVal, dec: CVal -> Value,
                      argTypes: seq<CppType>, resType: Option<CppType>, typeId: CppType -> string)
    requires PackEncodable(p, enc, dec, argTypes, resType)
    ensures DeserializePack(SerializePack(p, enc), argTypes, resType, typeId, dec) == Ok(Sent(p))
  {
    var obj := SerializePack(p, enc);
    var cs := Map(p.base.args, enc);
    ParseArgListRoundTrip(typeId, argTypes, Map(cs, PushArg), cs, 0);
    assert Map(cs, dec) == p.base.args;
    var b := NewBase(p.base.funcName, p.base.args);
    if p.ValuePack? && Truthy(p) {
      NullIsNeverValid(resType.value);
      ParseArgFixedRoundTrip(typeId, resType.value, enc(p.result.value));
      assert Sent(p) == ValuePack(b, p.result);
    }
  }

  /**
   * extract_exception_impl: a plain rpc_exception with the message up to its
   * first NUL and the recorded type cast to the int-based exception_type;
   * as_string and as_int64 throw on the wrong kind.
   */
  function ExtractException(obj: map<string, JValue>): (r: Result<RpcException, Failure>)
    ensures r.Ok? <==> "err_mesg" in obj && obj["err_mesg"].JString? && "except_type" in obj && obj["except_type"].JInt64?
    ensures r.Ok? ==> r.value.cls == RpcExceptionClass && r.value.what == CStr(obj["err_mesg"].s)
                      && r.value.etype == ToInt(obj["except_type"].i)
  {
    if "err_mesg" !in obj then Err(MissingKey("err_mesg"))
    else if !obj["err_mesg"].JString? then Err(WrongKind("err_mesg"))
    else if "except_type" !in obj then Err(MissingKey("except_type"))
    else if !obj["except_type"].JInt64? then Err(WrongKind("except_type"))
    else Ok(RpcException(RpcExceptionClass, CStr(obj["err_mesg"].s), ToInt(obj["except_type"].i)))
  }

  /** set_exception_impl: record the exception's type and what() on the object. */
  function SetExceptionImpl(obj: map<string, JValue>, ex: RpcException): (r: map<string, JValue>)
    ensures r.Keys == obj.Keys + {"except_type", "err_mesg"}
    ensures forall k :: k in obj && k != "except_type" && k != "err_mesg" ==> r[k] == obj[k]
  {
    obj["except_type" := JInt64(ex.etype)]["err_mesg" := JString(CStr(ex.what))]
  }

  /**
   * Reading back a recorded exception gives its type and message (cut at a
   * NUL) but not its class: the receiver sees a plain rpc_exception. A type
   * outside int, which no C++ exception_type holds, comes back wrapped.
   */
  lemma ExceptionRoundTrip(obj: map<string, JValue>, ex: RpcException)
    ensures ExtractException(SetExceptionImpl(obj, ex)) == Ok(RpcException(RpcExceptionClass, CStr(ex.what), ToInt(ex.etype)))
    ensures '\0' !in ex.what && -0x8000_0000 <= ex.etype < 0x8000_0000 ==>
              ExtractException(SetExceptionImpl(obj, ex)) == Ok(ex.(cls := RpcExceptionClass))
  {
    var s := CStr(ex.what);
    assert CStr(s) == s;
  }
}

=== FILE: bytes.dfy ===
/**
 * Byte buffers as the bitsery adapters see them: std::vector<uint8_t> is a
 * sequence of bytes, and a multi-byte integer read with memcpy or through a
 * reinterpret_cast pointer is read little-endian.
 */
module Bytes {

  type Byte = x: int | 0 <= x < 0x100

  /** The uint16_t stored at offset i. */
  function LE16(bytes: seq<Byte>, i: nat): (w: nat)
    requires i + 2 <= |bytes|
    ensures w < 0x1_0000
  {
    bytes[i] as int + 0x100 * (bytes[i + 1] as int)
  }

  /** The uint32_t stored in the first four bytes. */
  function LE32(bytes: seq<Byte>): (w: nat)
    requires 4 <= |bytes|
    ensures w < 0x1_0000_0000
  {
    LE16(bytes, 0) + 0x1_0000 * LE16(bytes, 2)
  }

  /** The int stored in the first four bytes (two's complement). */
  function LE32Signed(bytes: seq<Byte>): (n: int)
    requires 4 <= |bytes|
    ensures -0x8000_0000 <= n < 0x8000_0000
    ensures 0 <= n ==> n == LE32(bytes)
  {
    var u := LE32(bytes);
    if u < 0x8000_0000 then u else u - 0x1_0000_0000
  }

  /** The four bytes memcpy writes for a non-negative int below 2^31. */
  function EncodeLE32(n: nat): (bytes: seq<Byte>)
    requires n < 0x8000_0000
    ensures |bytes| == 4
  {
    [n % 0x100, (n / 0x100) % 0x100, (n / 0x1_0000) % 0x100, n / 0x100_0000]
  }

  /** Reading back what was written gives the same int. */
  lemma LE32RoundTrip(n: nat, rest: seq<Byte>)
    requires n < 0x8000_0000
    ensures LE32Signed(EncodeLE32(n) + rest) == n
  {
    var b := EncodeLE32(n) + rest;
    var lo := n % 0x1_0000;
    var hi := n / 0x1_0000;
    assert LE16(b, 0) == lo;
    assert LE16(b, 2) == hi;
  }

  /** A 16-bit word splits uniquely into its low and high bytes. */
  lemma SplitWord(lo: int, hi: int, w: int)
    requires 0 <= lo < 0x100 && 0 <= hi && w == lo + 0x100 * hi
    ensures lo == w % 0x100 && hi == w / 0x100
  {
  }

  /** A 32-bit value splits uniquely into its low and high words. */
  lemma SplitDword(lo: int, hi: int, w: int)
    requires 0 <= lo < 0x1_0000 && 0 <= hi && w == lo + 0x1_0000 * hi
    ensures lo == w % 0x1_0000 && hi == w / 0x1_0000
  {
  }

  /** Four bytes encode a non-negative int exactly when they are its encoding. */
  lemma LE32Unique(n: nat, bytes: seq<Byte>)
    requires n < 0x8000_0000 && 4 <= |bytes|
    ensures LE32Signed(bytes) == n <==> bytes[..4] == EncodeLE32(n)
  {
    var e := EncodeLE32(n);
    if bytes[..4] == e {
      LE32RoundTrip(n, bytes[4..]);
      assert bytes == e + bytes[4..];
    }
    if LE32Signed(bytes) == n {
      SplitDword(LE16(bytes, 0), LE16(bytes, 2), n);
      SplitWord(bytes[0], bytes[1], n % 0x1_0000);
      SplitWord(bytes[2], bytes[3], n / 0x1_0000);
      assert n / 0x1_0000 % 0x100 == (n / 0x100) / 0x100 % 0x100;
      assert bytes[..4] == [bytes[0], bytes[1], bytes[2], bytes[3]];
    }
  }
}

=== FILE: c_strings.dfy ===
/**
 * C strings: what a reader of a const char* sees. The library passes
 * messages through what() and c_str(), so a message holding a NUL reaches
 * the next std::string only up to that NUL.
 */
module CStrings {
  /** The characters a const char* names: everything before the first NUL. */
  function CString(buf: seq<char>): (s: string)
    ensures |s| <= |buf| && s == buf[..|s|]
    ensures '\0' !in s
    ensures |s| < |buf| ==> buf[|s|] == '\0'
  {
    if |buf| == 0 || buf[0] == '\0' then [] else [buf[0]] + CString(buf[1..])
  }

  /**
   * What a reader that stops at the first NUL sees of a std::string's
   * c_str(), or of the what() of an exception holding that string.
   */
  function CStr(s: string): (r: string)
    ensures '\0' !in r
    ensures '\0' !in s ==> r == s
    ensures '\0' in s ==> r != s
  {
    CStringOfTerminated(if '\0' in s then [] else s);
    CString(s + ['\0'])
  }

  /**
   * What a reader sees is the string up to its first NUL: a prefix of it,
   * followed in it by a NUL unless it is the whole string.
   */
  lemma CStrIsFirstNulPrefix(s: string)
    ensures |CStr(s)| <= |s| && CStr(s) == s[..|CStr(s)|]
    ensures |CStr(s)| < |s| ==> s[|CStr(s)|] == '\0'
  {
    assert (s + ['\0'])[|s|] == '\0';
  }

  lemma {:induction false} CStringOfTerminated(s: string)
    requires '\0' !in s
    ensures CString(s + ['\0']) == s
  {
    if |s| > 0 {
      assert (s + ['\0'])[1..] == s[1..] + ['\0'];
      CStringOfTerminated(s[1..]);
    }
  }
}

=== FILE: cpp_int.dfy ===
/**
 * C++ integer types as the adapters meet them: the range of a type of a given
 * signedness and width, and static_cast from a wider integer. int is taken to
 * be 32 bits wide.
 */
module CppInt {

  /** The range of a C++ integer type of the given signedness and width. */
  predicate InTypeRange(signed: bool, bits: nat, n: int)
    requires bits > 0
  {
    var half: int := Pow2(bits - 1);
    if signed then -half <= n < half else 0 <= n < 2 * half
  }

  function Pow2(k: nat): (p: nat)
    ensures p >= 1
  {
    if k == 0 then 1 else 2 * Pow2(k - 1)
  }

  /**
   * static_cast to a narrower type: the value of the type's range that
   * agrees with n modulo 2^bits (C++20's rule for signed types, and the
   * unsigned rule of every standard).
   */
  function Narrow(signed: bool, bits: nat, n: int): (r: int)
    requires bits > 0
    ensures InTypeRange(signed, bits, r)
    ensures InTypeRange(signed, bits, n) ==> r == n
    ensures (r - n) % Pow2(bits) == 0
  {
    var half: int := Pow2(bits - 1);
    if signed then
      ModRange(n + half, 2 * half);
      ModCongruent(n + half, 2 * half);
      (n + half) % (2 * half) - half
    else
      ModRange(n, 2 * half);
      ModCongruent(n, 2 * half);
      n % (2 * half)
  }

  /**
   * Two numbers of one type's range that agree modulo 2^bits are equal, so
   * a cast into that range has exactly one result.
   */
  lemma CongruentInRangeEqual(signed: bool, bits: nat, a: int, b: int)
    requires bits > 0 && InTypeRange(signed, bits, a) && InTypeRange(signed, bits, b)
    requires (a - b) % Pow2(bits) == 0
    ensures a == b
  {
    assert Pow2(bits) == 2 * Pow2(bits - 1);
    SmallMultipleIsZero(a - b, Pow2(bits));
  }

  /** The only multiple of m strictly between -m and m is 0. */
  lemma SmallMultipleIsZero(d: int, m: int)
    requires m > 0 && -m < d < m && d % m == 0
    ensures d == 0
  {
    var q := d / m;
    assert d == q * m;
    MultipleBounds(q, m);
  }

  lemma MultipleBounds(q: int, m: int)
    requires m > 0
    ensures q >= 1 ==> q * m >= m
    ensures q <= -1 ==> q * m <= -m
  {
  }

  /** Two numbers that each agree with n modulo m agree with each other. */
  lemma CongruentDifference(a: int, b: int, n: int, m: int)
    requires m > 0 && (a - n) % m == 0 && (b - n) % m == 0
    ensures (a - b) % m == 0
  {
    var qa := (a - n) / m;
    var qb := (b - n) / m;
    assert a - n == qa * m;
    assert b - n == qb * m;
    assert a - b == (qa - qb) * m;
    MultipleMod(qa - qb, m);
  }

  /** Reducing modulo m changes a number by a multiple of m. */
  lemma ModCongruent(x: int, m: int)
    requires m > 0
    ensures (x % m - x) % m == 0
  {
    var q := x / m;
    assert x % m - x == (-q) * m;
    MultipleMod(-q, m);
  }

  lemma MultipleMod(k: int, m: int)
    requires m > 0
    ensures (k * m) % m == 0
  {
    var r := (k * m) % m;
    var d := k - (k * m) / m;
    assert k * m == ((k * m) / m) * m + r;
    assert r == d * m by {
      assert d * m == k * m - ((k * m) / m) * m;
    }
  }

  lemma ModRange(x: int, m: int)
    requires m > 0
    ensures 0 <= x % m < m
    ensures 0 <= x < m ==> x % m == x
  {
  }

  lemma Pow2Of8()
    ensures Pow2(8) == 0x100
  {
    assert Pow2(8) == 0x100;
  }

  lemma Pow2Of16()
    ensures Pow2(16) == 0x1_0000
  {
    Pow2Of8();
    Pow2Add(8, 8);
  }

  lemma Pow2Of32()
    ensures Pow2(32) == 0x1_0000_0000
  {
    Pow2Of16();
    Pow2Add(16, 16);
  }

  lemma Pow2Of64()
    ensures Pow2(64) == 0x1_0000_0000_0000_0000
  {
    Pow2Of32();
    Pow2Add(32, 32);
  }

  lemma {:induction false} Pow2Add(a: nat, b: nat)
    ensures Pow2(a + b) == Pow2(a) * Pow2(b)
    decreases a
  {
    if a > 0 {
      Pow2Add(a - 1, b);
    }
  }

  /**
   * static_cast of a wider integer to int, or to an enumeration whose
   * underlying type is int: the int that agrees with n modulo 2^32.
   */
  function ToInt(n: int): (r: int)
    ensures -0x8000_0000 <= r < 0x8000_0000
    ensures -0x8000_0000 <= n < 0x8000_0000 ==> r == n
    ensures (r - n) % 0x1_0000_0000 == 0
  {
    Pow2Of32();
    Narrow(true, 32, n)
  }
}

=== FILE: dispatch_gen.dfy ===
/**
 * The generator of the preprocessor header that lets a server list its
 * functions in one macro call (dispatch_gen.py).
 *
 * The generated file is a sequence of items: directive lines, comment lines,
 * blank lines and #define records.  A #define record keeps its macro's name,
 * its formal parameters and a body in which every reference to another
 * generated macro is a structured `Use` instead of text, so the ladder's
 * references to its own lower levels can be followed by index.  Rendering the
 * items gives the characters the generator writes after its licence banner.
 */
module DispatchGen {
  import opened Wrappers

  // ------------------------------------------------------------------
  // Configuration
  // ------------------------------------------------------------------

  /** Ladder depth used when the command line gives none. */
  const DefaultDepth: int := 20

  /** The ladder depth: the first command-line argument (already read as an integer) or the default. */
  function Depth(arg: Option<int>): (n: int)
    ensures arg.Some? ==> n == arg.value
    ensures arg.None? ==> n == DefaultDepth
  {
    arg.UnwrapOr(DefaultDepth)
  }

  // ------------------------------------------------------------------
  // Decimal numerals, as an f-string writes an integer
  // ------------------------------------------------------------------

  function Digit(d: nat): (c: char)
    requires d < 10
    ensures '0' <= c <= '9'
    ensures c as int - '0' as int == d
  {
    ('0' as int + d) as char
  }

  predicate AllDigits(s: string)
  {
    forall i :: 0 <= i < |s| ==> '0' <= s[i] <= '9'
  }

  /** The decimal numeral of `n`: digits only, no leading zero. */
  function Decimal(n: nat): (s: string)
    ensures 1 <= |s|
    ensures AllDigits(s)
    ensures n > 0 ==> s[0] != '0'
    ensures (n < 10) == (|s| == 1)
  {
    if n < 10 then [Digit(n)] else Decimal(n / 10) + [Digit(n % 10)]
  }

  /** The value a numeral denotes (the reading direction of `Decimal`). */
  function DecimalValue(s: string): nat
    requires AllDigits(s)
  {
    if |s| == 0 then 0
    else 10 * DecimalValue(s[..|s| - 1]) + (s[|s| - 1] as int - '0' as int)
  }

  /** Reading back a written numeral gives the number written. */
  lemma {:induction false} DecimalRoundTrip(n: nat)
    ensures DecimalValue(Decimal(n)) == n
  {
    if n >= 10 {
      var s := Decimal(n);
      assert s[..|s| - 1] == Decimal(n / 10);
      DecimalRoundTrip(n / 10);
    }
  }

  /** Distinct levels get distinct numerals. */
  lemma DecimalInjective(a: nat, b: nat)
    ensures Decimal(a) == Decimal(b) ==> a == b
  {
    DecimalRoundTrip(a);
    DecimalRoundTrip(b);
  }

  // ------------------------------------------------------------------
  // Macro names
  // ------------------------------------------------------------------

  /** RPC_FE_k (one argument per call) or RPC_FE2_k (a fixed first argument paired with each other one). */
  datatype Family = Single | Pair

  /** The four attach macros: plain, cached, aliased, aliased and cached. */
  datatype AttachKind = Plain | Cached | Alias | AliasCached
  {
    predicate IsAlias() { Alias? || AliasCached? }
    predicate IsCached() { Cached? || AliasCached? }
  }

  datatype MacroId =
    | Expand
    | Ladder(family: Family, level: nat)
    | GetMacro
    | ForEach(family: Family)
    | HeaderFunc
    | Attach(kind: AttachKind)
    | AttachAll(kind: AttachKind)
    | DefaultDispatch

  function LadderPrefix(f: Family): string
  {
    match f
    case Single => "RPC_FE_"
    case Pair => "RPC_FE2_"
  }

  function Name(id: MacroId): string
  {
    match id
    case Expand => "EXPAND"
    case Ladder(f, k) => LadderPrefix(f) + Decimal(k)
    case GetMacro => "RPC_GET_MACRO"
    case ForEach(Single) => "RPC_FOR_EACH"
    case ForEach(Pair) => "RPC_FOR_EACH2"
    case HeaderFunc => "RPC_HEADER_FUNC"
    case Attach(Plain) => "RPC_ATTACH_FUNC"
    case AttachAll(Plain) => "RPC_ATTACH_FUNCS"
    case Attach(Cached) => "RPC_ATTACH_CACHED_FUNC"
    case AttachAll(Cached) => "RPC_ATTACH_CACHED_FUNCS"
    case Attach(Alias) => "RPC_ALIAS_FUNC"
    case AttachAll(Alias) => "RPC_MULTI_ALIAS_FUNC"
    case Attach(AliasCached) => "RPC_ALIAS_CACHED_FUNC"
    case AttachAll(AliasCached) => "RPC_MULTI_ALIAS_CACHED_FUNC"
    case DefaultDispatch => "RPC_DEFAULT_DISPATCH"
  }

  /** No two ladder levels, of either ladder, are written under the same name. */
  lemma LadderNamesDistinct(a: MacroId, b: MacroId)
    requires a.Ladder? && b.Ladder?
    ensures Name(a) == Name(b) ==> a == b
  {
    if Name(a) == Name(b) {
      assert Decimal(a.level) == Name(a)[|LadderPrefix(a.family)|..];
      assert Decimal(b.level) == Name(b)[|LadderPrefix(b.family)|..];
      DecimalInjective(a.level, b.level);
    }
  }

  // ------------------------------------------------------------------
  // Define records and their text
  // ------------------------------------------------------------------

  /** How a parameter list ends: no variadic part, ", ..." or ",..." (no space). */
  datatype Variadic = NoRest | Rest | TightRest

  /** A piece of a macro body: literal text or the name of another generated macro. */
  datatype Piece = Text(text: string) | Use(id: MacroId)

  datatype Define = Define(id: MacroId, params: seq<string>, rest: Variadic, body: seq<Piece>)

  datatype Item =
    | Directive(line: string, after: string)
    | Comment(line: string)
    | Blank
    | Def(def: Define, after: string)

  function Join(xs: seq<string>, sep: string): string
  {
    if |xs| == 0 then "" else if |xs| == 1 then xs[0] else xs[0] + sep + Join(xs[1..], sep)
  }

  function ParamsText(params: seq<string>, rest: Variadic): string
  {
    Join(params, ", ") + (match rest case NoRest => "" case Rest => ", ..." case TightRest => ",...")
  }

  function BodyText(body: seq<Piece>): string
  {
    if |body| == 0 then ""
    else (match body[0] case Text(t) => t case Use(id) => Name(id)) + BodyText(body[1..])
  }

  /** The header-function macro is written with an indented directive. */
  function DefineKeyword(id: MacroId): string
  {
    if id == HeaderFunc then "#    define " else "#define "
  }

  function DefineText(d: Define): string
  {
    DefineKeyword(d.id) + Name(d.id) + "(" + ParamsText(d.params, d.rest) + ")"
      + (if |d.body| == 0 then "" else " " + BodyText(d.body))
  }

  function ItemText(it: Item): string
  {
    match it
    case Directive(line, after) => line + after
    case Comment(line) => line + "\n"
    case Blank => "\n"
    case Def(d, after) => DefineText(d) + after
  }

  function FileText(items: seq<Item>): string
  {
    if |items| == 0 then "" else ItemText(items[0]) + FileText(items[1..])
  }

  /** The macros a body refers to, in order. */
  function Uses(body: seq<Piece>): seq<MacroId>
  {
    if |body| == 0 then []
    else (if body[0].Use? then [body[0].id] else []) + Uses(body[1..])
  }

  /** The ladder levels among a list of macro references, in order. */
  function Levels(ids: seq<MacroId>, f: Family): seq<nat>
  {
    if |ids| == 0 then []
    else (if ids[0].Ladder? && ids[0].family == f then [ids[0].level] else []) + Levels(ids[1..], f)
  }

  // ------------------------------------------------------------------
  // The two ladders
  // ------------------------------------------------------------------

  /** The lowest level whose body forwards to the level below: 2 for RPC_FE_, 3 for RPC_FE2_. */
  function FirstForwarding(f: Family): nat
  {
    if f == Single then 2 else 3
  }

  function LadderDef(f: Family, k: nat): Define
  {
    var id := Ladder(f, k);
    match f
    case Single =>
      if k == 0 then Define(id, ["WHAT"], NoRest, [])
      else if k == 1 then Define(id, ["WHAT", "X"], NoRest, [Text("WHAT(X)")])
      else Define(id, ["WHAT", "X"], Rest,
                  [Use(Expand), Text("(WHAT(X)"), Use(Ladder(Single, k - 1)), Text("(WHAT, __VA_ARGS__))")])
    case Pair =>
      if k == 0 then Define(id, ["WHAT"], NoRest, [])
      else if k == 1 then Define(id, ["WHAT", "X"], NoRest, [])
      else if k == 2 then Define(id, ["WHAT", "X", "Y"], NoRest, [Text("WHAT(X, Y)")])
      else Define(id, ["WHAT", "X", "Y"], Rest,
                  [Use(Expand), Text("(WHAT(X, Y)"), Use(Ladder(Pair, k - 1)), Text("(WHAT, X, __VA_ARGS__))")])
  }

  /**
   * The highest level written.  The loops run up to the depth, but the levels
   * below the first forwarding one are written unconditionally.
   */
  function TopLevel(f: Family, n: int): nat
  {
    if n < FirstForwarding(f) - 1 then FirstForwarding(f) - 1 else n
  }

  /** Levels 0..m of a ladder, one line each. */
  function LadderRun(f: Family, m: nat): (items: seq<Item>)
    ensures |items| == m + 1
  {
    seq(m + 1, k requires 0 <= k => Def(LadderDef(f, k), "\n"))
  }

  /**
   * The lines one ladder loop writes: level k on line k, up to the depth, and
   * never fewer than the levels written before the loop starts.
   */
  function LadderItems(f: Family, n: int): (items: seq<Item>)
    ensures n >= FirstForwarding(f) - 1 ==> |items| == n + 1
    ensures n < FirstForwarding(f) - 1 ==> |items| == FirstForwarding(f)
    ensures forall k :: 0 <= k < |items| ==> items[k].Def? && items[k].def.id == Ladder(f, k)
  {
    LadderRun(f, TopLevel(f, n))
  }

  /** Line k of a ladder loop defines level k. */
  lemma LadderItemAt(f: Family, n: int, k: nat)
    requires k <= TopLevel(f, n)
    ensures k < |LadderItems(f, n)| && LadderItems(f, n)[k] == Def(LadderDef(f, k), "\n")
  {
  }

  /** The level a define forwards to, read from the ladder references in its body. */
  function Forward(d: Define, f: Family): Option<nat>
  {
    var ks := Levels(Uses(d.body), f);
    if |ks| == 0 then None else Some(ks[0])
  }

  function LadderDefs(f: Family, n: int): (defs: seq<Define>)
    ensures |defs| == TopLevel(f, n) + 1
  {
    seq(TopLevel(f, n) + 1, k requires 0 <= k => LadderDef(f, k))
  }

  /** Per level, the level its body forwards to, read from the records. */
  function ForwardTable(defs: seq<Define>, f: Family): (t: seq<Option<nat>>)
    ensures |t| == |defs|
  {
    seq(|defs|, k requires 0 <= k < |defs| => Forward(defs[k], f))
  }

  /** Level k forwards exactly to level k - 1, from the first forwarding level on, and below it to nothing. */
  predicate WellFormedLadder(t: seq<Option<nat>>, f: Family)
  {
    forall k :: 0 <= k < |t| ==> t[k] == (if k < FirstForwarding(f) then None else Some(k - 1))
  }

  /** Every ladder body refers to EXPAND and the level directly below, and to nothing else. */
  lemma LadderRefersToPrevious(f: Family, k: nat)
    ensures Uses(LadderDef(f, k).body)
              == (if k < FirstForwarding(f) then [] else [Expand, Ladder(f, k - 1)])
    ensures Forward(LadderDef(f, k), f) == (if k < FirstForwarding(f) then None else Some(k - 1))
  {
    if k >= FirstForwarding(f) {
      ForwardingLadderUses(f, k);
      var ids := [Expand, Ladder(f, k - 1)];
      assert ids[1..] == [Ladder(f, k - 1)] && ids[1..][1..] == [];
      assert Levels(ids[1..], f) == [k - 1];
    } else {
      LowLadderUses(f, k);
    }
  }

  lemma ForwardingLadderUses(f: Family, k: nat)
    requires k >= FirstForwarding(f)
    ensures Uses(LadderDef(f, k).body) == [Expand, Ladder(f, k - 1)]
  {
    if f == Single {
      UsesTwo(Expand, "(WHAT(X)", Ladder(Single, k - 1), "(WHAT, __VA_ARGS__))");
    } else {
      UsesTwo(Expand, "(WHAT(X, Y)", Ladder(Pair, k - 1), "(WHAT, X, __VA_ARGS__))");
    }
  }

  lemma LowLadderUses(f: Family, k: nat)
    requires k < FirstForwarding(f)
    ensures Uses(LadderDef(f, k).body) == []
  {
    var b := LadderDef(f, k).body;
    if |b| == 1 {
      UsesNone(b[0].text);
      assert b == [Text(b[0].text)];
    }
  }

  /** The generated ladders hold each level once, in order, and are well formed for every depth. */
  lemma GeneratedLadderWellFormed(f: Family, n: int)
    ensures forall k :: 0 <= k < |LadderDefs(f, n)| ==> LadderDefs(f, n)[k].id == Ladder(f, k)
    ensures WellFormedLadder(ForwardTable(LadderDefs(f, n), f), f)
  {
    var defs := LadderDefs(f, n);
    var t := ForwardTable(defs, f);
    forall k | 0 <= k < |t|
      ensures t[k] == (if k < FirstForwarding(f) then None else Some(k - 1))
    {
      LadderRefersToPrevious(f, k);
    }
  }

  // ------------------------------------------------------------------
  // What a ladder level expands to
  // ------------------------------------------------------------------

  /** One call of the user's action macro: ACTION(args). */
  datatype Invocation = Invoke(action: string, args: seq<string>)

  /**
   * Expanding ladder level k on k arguments.  The level's own body calls the
   * action on the first argument (RPC_FE_) or on the fixed first argument and
   * the second one (RPC_FE2_), then continues with the level it forwards to.
   */
  function ExpandLadder(t: seq<Option<nat>>, f: Family, k: nat, action: string, xs: seq<string>): seq<Invocation>
    requires WellFormedLadder(t, f)
    requires k < |t| && |xs| == k
    decreases k
  {
    match t[k]
    case None =>
      if k < FirstForwarding(f) - 1 then [] else [Invoke(action, xs)]
    case Some(j) =>
      if f == Single then [Invoke(action, xs[..1])] + ExpandLadder(t, f, j, action, xs[1..])
      else [Invoke(action, xs[..2])] + ExpandLadder(t, f, j, action, xs[..1] + xs[2..])
  }

  /** A well-formed RPC_FE_ level k calls the action once on each of its k arguments, in order. */
  lemma {:induction false} SingleLadderCallsEach(t: seq<Option<nat>>, k: nat, action: string, xs: seq<string>)
    requires WellFormedLadder(t, Single) && k < |t| && |xs| == k
    ensures ExpandLadder(t, Single, k, action, xs)
              == seq(k, i requires 0 <= i < k => Invoke(action, [xs[i]]))
    decreases k
  {
    if k >= 2 {
      SingleLadderCallsEach(t, k - 1, action, xs[1..]);
      assert xs[..1] == [xs[0]];
    } else if k == 1 {
      assert xs == [xs[0]];
    }
  }

  /** A well-formed RPC_FE2_ level k pairs its first argument with each of the other k - 1, in order. */
  lemma {:induction false} PairLadderPairsFirst(t: seq<Option<nat>>, k: nat, action: string, xs: seq<string>)
    requires WellFormedLadder(t, Pair) && 1 <= k < |t| && |xs| == k
    ensures ExpandLadder(t, Pair, k, action, xs)
              == seq(k - 1, i requires 0 <= i < k - 1 => Invoke(action, [xs[0], xs[i + 1]]))
    decreases k
  {
    if k >= 3 {
      var rest := xs[..1] + xs[2..];
      PairLadderPairsFirst(t, k - 1, action, rest);
      assert xs[..2] == [xs[0], xs[1]];
    } else if k == 2 {
      assert xs == [xs[0], xs[1]];
    }
  }

  // ------------------------------------------------------------------
  // Choosing the ladder level from the argument count
  // ------------------------------------------------------------------

  /** The placeholder parameters _0, ..., _N of RPC_GET_MACRO. */
  function Placeholders(n: int): (ps: seq<string>)
    ensures |ps| == if n < 0 then 0 else n + 1
    ensures forall i :: 0 <= i < |ps| ==> |ps[i]| >= 2 && ps[i][0] == '_' && AllDigits(ps[i][1..]) && DecimalValue(ps[i][1..]) == i
    ensures forall i, j :: 0 <= i < j < |ps| ==> ps[i] != ps[j]
  {
    var ps := seq(if n < 0 then 0 else n + 1, i requires 0 <= i => "_" + Decimal(i));
    assert forall i :: 0 <= i < |ps| ==> ps[i][1..] == Decimal(i) && DecimalValue(Decimal(i)) == i by {
      forall i | 0 <= i < |ps| { DecimalRoundTrip(i); }
    }
    ps
  }

  /** RPC_GET_MACRO(_0, ..., _N, NAME, ...) NAME */
  function GetMacroDef(n: int): Define
  {
    Define(GetMacro, Placeholders(n) + ["NAME"], Rest, [Text("NAME")])
  }

  /** The ", "-separated candidate list from level k down to level 1. */
  function Descending(f: Family, k: int): seq<Piece>
    decreases k
  {
    if k < 1 then [] else [Use(Ladder(f, k)), Text(", ")] + Descending(f, k - 1)
  }

  /** RPC_FOR_EACH / RPC_FOR_EACH2: hand the arguments followed by every level, top first, to RPC_GET_MACRO. */
  function ForEachDef(f: Family, n: int): Define
  {
    Define(ForEach(f), ["ACTION"], Rest,
           [Use(Expand), Text("("), Use(GetMacro), Text("(_0, __VA_ARGS__, ")]
           + Descending(f, n)
           + [Use(Ladder(f, 0)), Text(")(ACTION, __VA_ARGS__))")])
  }

  /** The ladder levels a for-each macro hands to the selector, in the order written. */
  function Candidates(d: Define, f: Family): seq<nat>
  {
    Levels(Uses(d.body), f)
  }

  lemma {:induction false} UsesAppend(a: seq<Piece>, b: seq<Piece>)
    ensures Uses(a + b) == Uses(a) + Uses(b)
    decreases |a|
  {
    if |a| == 0 {
      assert a + b == b;
    } else {
      assert (a + b)[1..] == a[1..] + b;
      UsesAppend(a[1..], b);
      var h := if a[0].Use? then [a[0].id] else [];
      assert Uses(a + b) == h + Uses(a[1..] + b);
      assert h + (Uses(a[1..]) + Uses(b)) == (h + Uses(a[1..])) + Uses(b);
    }
  }

  /** The candidate list names level k, then k - 1, ..., down to level 1. */
  lemma {:induction false} DescendingUses(f: Family, k: int)
    ensures Uses(Descending(f, k)) == seq(if k < 1 then 0 else k, i requires 0 <= i < k => Ladder(f, k - i))
    decreases k
  {
    if k >= 1 {
      var d := Descending(f, k);
      DescendingUses(f, k - 1);
      assert d[1..][1..] == Descending(f, k - 1);
      assert Uses(d) == [Ladder(f, k)] + Uses(Descending(f, k - 1));
    }
  }

  /** Every macro a for-each body names: EXPAND, the selector, then every level from the top down to 0. */
  lemma ForEachUsesExactly(f: Family, n: int)
    ensures var top := if n < 0 then 0 else n;
            Uses(ForEachDef(f, n).body)
              == [Expand, GetMacro] + seq(top + 1, i requires 0 <= i <= top => Ladder(f, top - i))
  {
    var top := if n < 0 then 0 else n;
    var head := [Use(Expand), Text("("), Use(GetMacro), Text("(_0, __VA_ARGS__, ")];
    var tail := [Use(Ladder(f, 0)), Text(")(ACTION, __VA_ARGS__))")];
    UsesAppend(head, Descending(f, n));
    UsesAppend(head + Descending(f, n), tail);
    assert head[1..][1..][1..][1..] == [];
    assert Uses(head) == [Expand, GetMacro];
    assert tail[1..][1..] == [];
    assert Uses(tail) == [Ladder(f, 0)];
    DescendingUses(f, n);
    assert seq(top + 1, i requires 0 <= i <= top => Ladder(f, top - i))
      == seq(if n < 1 then 0 else n, i requires 0 <= i < n => Ladder(f, n - i)) + [Ladder(f, 0)];
  }

  lemma {:induction false} LevelsOfLadders(ids: seq<MacroId>, f: Family)
    requires forall i :: 0 <= i < |ids| ==> ids[i].Ladder? && ids[i].family == f
    ensures |Levels(ids, f)| == |ids|
    ensures forall i :: 0 <= i < |ids| ==> Levels(ids, f)[i] == ids[i].level
    decreases |ids|
  {
    if |ids| > 0 {
      LevelsOfLadders(ids[1..], f);
    }
  }

  /** The candidates are every level from N down to 0, each once, strictly descending. */
  lemma CandidatesDescending(f: Family, n: int)
    ensures var c := Candidates(ForEachDef(f, n), f);
            var top := if n < 0 then 0 else n;
            c == seq(top + 1, i requires 0 <= i <= top => top - i)
  {
    var top := if n < 0 then 0 else n;
    var lad := seq(top + 1, i requires 0 <= i <= top => Ladder(f, top - i));
    ForEachUsesExactly(f, n);
    var u := [Expand, GetMacro] + lad;
    assert u[1..][1..] == lad;
    assert Levels(u, f) == Levels(lad, f);
    LevelsOfLadders(lad, f);
  }

  /** What ends up bound to a parameter of the selector: its first dummy argument, a user argument, or a ladder level. */
  datatype Arg = Dummy | UserArg(index: nat) | LevelArg(level: nat)

  function IndexOf(xs: seq<string>, x: string): (r: Option<nat>)
    ensures r.Some? ==> r.value < |xs| && xs[r.value] == x && x !in xs[..r.value]
    ensures r.None? ==> x !in xs
  {
    if |xs| == 0 then None
    else if xs[0] == x then Some(0)
    else match IndexOf(xs[1..], x)
      case None => None
      case Some(i) => assert xs[1..][..i] == xs[1..i + 1]; Some(i + 1)
  }

  /**
   * The argument RPC_GET_MACRO's NAME parameter receives when a for-each macro
   * is called with m user arguments: the actual list is the dummy `_0`, the m
   * user arguments, then the candidate levels.
   */
  function Selected(g: Define, e: Define, f: Family, m: nat): Option<Arg>
  {
    var c := Candidates(e, f);
    var actual := [Dummy] + seq(m, i requires 0 <= i => UserArg(i)) + seq(|c|, i requires 0 <= i < |c| => LevelArg(c[i]));
    match IndexOf(g.params, "NAME")
    case None => None
    case Some(p) => if p < |actual| then Some(actual[p]) else None
  }

  /** With m arguments, m at most the depth, the selector picks ladder level m; with more it picks a user argument. */
  lemma SelectsLevel(f: Family, n: int, m: nat)
    requires n >= 0
    ensures m <= n ==> Selected(GetMacroDef(n), ForEachDef(f, n), f, m) == Some(LevelArg(m))
    ensures m > n ==> Selected(GetMacroDef(n), ForEachDef(f, n), f, m) == Some(UserArg(n))
  {
    var ps := Placeholders(n) + ["NAME"];
    forall i | 0 <= i < |Placeholders(n)| ensures ps[i] != "NAME" {
      assert ps[i][0] == '_';
    }
    assert "NAME" !in ps[..n + 1];
    assert IndexOf(ps, "NAME") == Some(n + 1);
    CandidatesDescending(f, n);
  }

  /**
   * The full expansion of RPC_FOR_EACH(action, xs...) or RPC_FOR_EACH2, or
   * None when the selector does not land on a ladder level of that arity.
   */
  function ForEachExpansion(f: Family, n: int, action: string, xs: seq<string>): Option<seq<Invocation>>
  {
    var t := ForwardTable(LadderDefs(f, n), f);
    match Selected(GetMacroDef(n), ForEachDef(f, n), f, |xs|)
    case Some(LevelArg(k)) =>
      if k == |xs| && k < |t| then
        GeneratedLadderWellFormed(f, n);
        Some(ExpandLadder(t, f, k, action, xs))
      else None
    case _ => None
  }

  /** Up to the depth, a for-each call expands the ladder from the level of its arity. */
  lemma ExpansionAtLevel(f: Family, n: int, action: string, xs: seq<string>)
    requires n >= 0 && |xs| <= n
    ensures var t := ForwardTable(LadderDefs(f, n), f);
            |xs| < |t| && WellFormedLadder(t, f)
            && ForEachExpansion(f, n, action, xs) == Some(ExpandLadder(t, f, |xs|, action, xs))
  {
    SelectsLevel(f, n, |xs|);
    GeneratedLadderWellFormed(f, n);
  }

  /** Beyond the depth, the selector lands on a user argument and nothing expands. */
  lemma ExpansionBeyondDepth(f: Family, n: int, action: string, xs: seq<string>)
    requires n >= 0 && |xs| > n
    ensures ForEachExpansion(f, n, action, xs).None?
  {
    SelectsLevel(f, n, |xs|);
  }

  /** RPC_FOR_EACH applies the action to each of 1..N arguments, in order; more arguments than the depth do not expand. */
  lemma ForEachCallsEach(n: int, action: string, xs: seq<string>)
    requires n >= 0
    ensures |xs| <= n ==>
      ForEachExpansion(Single, n, action, xs)
        == Some(seq(|xs|, i requires 0 <= i < |xs| => Invoke(action, [xs[i]])))
    ensures |xs| > n ==> ForEachExpansion(Single, n, action, xs).None?
  {
    if |xs| <= n {
      ExpansionAtLevel(Single, n, action, xs);
      SingleLadderCallsEach(ForwardTable(LadderDefs(Single, n), Single), |xs|, action, xs);
    } else {
      ExpansionBeyondDepth(Single, n, action, xs);
    }
  }

  /** RPC_FOR_EACH2 pairs its first argument with each later one; more arguments than the depth do not expand. */
  lemma ForEach2PairsFirst(n: int, action: string, xs: seq<string>)
    requires n >= 0 && 1 <= |xs|
    ensures |xs| <= n ==>
      ForEachExpansion(Pair, n, action, xs)
        == Some(seq(|xs| - 1, i requires 0 <= i < |xs| - 1 => Invoke(action, [xs[0], xs[i + 1]])))
    ensures |xs| > n ==> ForEachExpansion(Pair, n, action, xs).None?
  {
    if |xs| <= n {
      ExpansionAtLevel(Pair, n, action, xs);
      PairLadderPairsFirst(ForwardTable(LadderDefs(Pair, n), Pair), |xs|, action, xs);
    } else {
      ExpansionBeyondDepth(Pair, n, action, xs);
    }
  }

  // ------------------------------------------------------------------
  // Dispatch macros
  // ------------------------------------------------------------------

  /** One `if (func_name == "<compare>") { return dispatch(<target>); }` statement. */
  datatype Branch = Branch(compare: string, target: string, cached: bool)

  function Compared(k: AttachKind): string
  {
    if k.IsAlias() then "FUNC_ALIAS" else "FUNCNAME"
  }

  function Dispatcher(k: AttachKind): string
  {
    if k.IsCached() then "dispatch_cached_func" else "dispatch_func"
  }

  function AttachParams(k: AttachKind): seq<string>
  {
    if k.IsAlias() then ["FUNCNAME", "FUNC_ALIAS"] else ["FUNCNAME"]
  }

  function AttachDef(k: AttachKind): Define
  {
    Define(Attach(k), AttachParams(k), NoRest,
           [Text("if (func_name == #" + Compared(k) + ") { return this->" + Dispatcher(k) + "(FUNCNAME, serial_obj); }")])
  }

  function AttachAllDef(k: AttachKind): Define
  {
    if k.IsAlias() then
      Define(AttachAll(k), AttachParams(k), TightRest,
             [Use(Expand), Text("("), Use(ForEach(Pair)), Text("("), Use(Attach(k)), Text(", FUNCNAME, FUNC_ALIAS, __VA_ARGS__))")])
    else
      Define(AttachAll(k), AttachParams(k), Rest,
             [Use(Expand), Text("("), Use(ForEach(Single)), Text("("), Use(Attach(k)), Text(", FUNCNAME, __VA_ARGS__))")])
  }

  /** The statement RPC_ATTACH_...(args) stands for: FUNC_ALIAS (when present) is compared, FUNCNAME is dispatched. */
  function BranchOf(k: AttachKind, args: seq<string>): Option<Branch>
  {
    if |args| != |AttachParams(k)| then None
    else Some(Branch(if k.IsAlias() then args[1] else args[0], args[0], k.IsCached()))
  }

  function BranchesOf(k: AttachKind, invs: seq<Invocation>): Option<seq<Branch>>
  {
    if |invs| == 0 then Some([])
    else if invs[0].action != Name(Attach(k)) then None
    else match (BranchOf(k, invs[0].args), BranchesOf(k, invs[1..]))
      case (Some(b), Some(bs)) => Some([b] + bs)
      case _ => None
  }

  /** The chain of statements RPC_ATTACH_FUNCS(args...) and its siblings expand to. */
  function AttachChain(k: AttachKind, n: int, args: seq<string>): Option<seq<Branch>>
  {
    var f := if k.IsAlias() then Pair else Single;
    match ForEachExpansion(f, n, Name(Attach(k)), args)
    case None => None
    case Some(invs) => BranchesOf(k, invs)
  }

  /** RPC_ATTACH_FUNCS(F1, ..., Fm) compares and dispatches each name under its own name, in order. */
  lemma AttachChainNamesEach(k: AttachKind, n: int, names: seq<string>)
    requires !k.IsAlias() && n >= 0 && 1 <= |names| <= n
    ensures AttachChain(k, n, names)
              == Some(seq(|names|, i requires 0 <= i < |names| => Branch(names[i], names[i], k.IsCached())))
  {
    ForEachCallsEach(n, Name(Attach(k)), names);
    var invs := seq(|names|, i requires 0 <= i < |names| => Invoke(Name(Attach(k)), [names[i]]));
    BranchesOfEach(k, invs, names);
  }

  lemma {:induction false} BranchesOfEach(k: AttachKind, invs: seq<Invocation>, names: seq<string>)
    requires !k.IsAlias() && |invs| == |names|
    requires forall i :: 0 <= i < |invs| ==> invs[i] == Invoke(Name(Attach(k)), [names[i]])
    ensures BranchesOf(k, invs)
              == Some(seq(|names|, i requires 0 <= i < |names| => Branch(names[i], names[i], k.IsCached())))
    decreases |invs|
  {
    var want := seq(|names|, i requires 0 <= i < |names| => Branch(names[i], names[i], k.IsCached()));
    if |invs| > 0 {
      BranchesOfEach(k, invs[1..], names[1..]);
      assert seq(|names| - 1, i requires 0 <= i < |names| - 1 => Branch(names[1..][i], names[1..][i], k.IsCached()))
        == want[1..];
      assert BranchOf(k, invs[0].args) == Some(want[0]);
      assert want == [want[0]] + want[1..];
    }
  }

  /** RPC_MULTI_ALIAS_FUNC(F, A1, ..., Ak) compares each alias and always dispatches F. */
  lemma AliasChainTargetsFirst(k: AttachKind, n: int, target: string, aliases: seq<string>)
    requires k.IsAlias() && n >= 0 && 1 <= |aliases| && |aliases| + 1 <= n
    ensures AttachChain(k, n, [target] + aliases)
              == Some(seq(|aliases|, i requires 0 <= i < |aliases| => Branch(aliases[i], target, k.IsCached())))
  {
    var xs := [target] + aliases;
    ForEach2PairsFirst(n, Name(Attach(k)), xs);
    var invs := seq(|xs| - 1, i requires 0 <= i < |xs| - 1 => Invoke(Name(Attach(k)), [xs[0], xs[i + 1]]));
    BranchesOfAliases(k, invs, target, aliases);
  }

  lemma {:induction false} BranchesOfAliases(k: AttachKind, invs: seq<Invocation>, target: string, aliases: seq<string>)
    requires k.IsAlias() && |invs| == |aliases|
    requires forall i :: 0 <= i < |invs| ==> invs[i] == Invoke(Name(Attach(k)), [target, aliases[i]])
    ensures BranchesOf(k, invs)
              == Some(seq(|aliases|, i requires 0 <= i < |aliases| => Branch(aliases[i], target, k.IsCached())))
    decreases |invs|
  {
    var want := seq(|aliases|, i requires 0 <= i < |aliases| => Branch(aliases[i], target, k.IsCached()));
    if |invs| > 0 {
      BranchesOfAliases(k, invs[1..], target, aliases[1..]);
      assert seq(|aliases| - 1, i requires 0 <= i < |aliases| - 1 => Branch(aliases[1..][i], target, k.IsCached()))
        == want[1..];
      assert BranchOf(k, invs[0].args) == Some(want[0]);
      assert want == [want[0]] + want[1..];
    }
  }

  /** The first branch whose compared name equals the called one: the chain of ifs runs top to bottom and returns. */
  function FirstMatch(bs: seq<Branch>, name: string): (r: Option<nat>)
    ensures r.Some? ==> r.value < |bs| && bs[r.value].compare == name
    ensures r.Some? ==> forall j :: 0 <= j < r.value ==> bs[j].compare != name
    ensures r.None? <==> forall j :: 0 <= j < |bs| ==> bs[j].compare != name
  {
    if |bs| == 0 then None
    else if bs[0].compare == name then Some(0)
    else match FirstMatch(bs[1..], name)
      case None => None
      case Some(i) => Some(i + 1)
  }

  /** The first-match position is determined by the compared names alone. */
  lemma FirstMatchAt(bs: seq<Branch>, name: string, p: nat)
    requires p < |bs| && bs[p].compare == name
    requires forall q :: 0 <= q < p ==> bs[q].compare != name
    ensures FirstMatch(bs, name) == Some(p)
  {
  }

  /** A later branch comparing a name an earlier one already compares is never taken: removing it changes nothing. */
  lemma ShadowedBranchIsDead(bs: seq<Branch>, i: nat, j: nat, name: string)
    requires i < j < |bs| && bs[i].compare == bs[j].compare
    ensures var rest := bs[..j] + bs[j + 1..];
            (FirstMatch(bs, name).Some? <==> FirstMatch(rest, name).Some?)
            && (FirstMatch(bs, name).Some? ==> bs[FirstMatch(bs, name).value] == rest[FirstMatch(rest, name).value])
  {
    var rest := bs[..j] + bs[j + 1..];
    assert forall q :: 0 <= q < j ==> rest[q] == bs[q];
    assert forall q :: j <= q < |rest| ==> rest[q] == bs[q + 1];
    match FirstMatch(bs, name)
    case Some(p) =>
      assert p != j;
      if p < j {
        FirstMatchAt(rest, name, p);
      } else {
        FirstMatchAt(rest, name, p - 1);
      }
    case None =>
      assert forall q :: 0 <= q < |rest| ==> rest[q].compare != name;
  }

  // ------------------------------------------------------------------
  // The not-found message of RPC_DEFAULT_DISPATCH
  // ------------------------------------------------------------------

  /** Tokens of a C++ string expression: string literals, `+`, identifiers. */
  datatype Token = StrLit(contents: string) | Plus | Ident(name: string)

  function Escape(s: string): string
  {
    if |s| == 0 then ""
    else (if s[0] == '"' then "\\\"" else [s[0]]) + Escape(s[1..])
  }

  function TokenText(t: Token): string
  {
    match t
    case StrLit(c) => "\"" + Escape(c) + "\""
    case Plus => " + "
    case Ident(x) => x
  }

  function TokensText(ts: seq<Token>): string
  {
    if |ts| == 0 then "" else TokenText(ts[0]) + TokensText(ts[1..])
  }

  /** What one token contributes to the value when `func_name` holds `funcName`. */
  function TokenValue(t: Token, funcName: string): string
  {
    match t
    case StrLit(c) => c
    case Plus => ""
    case Ident(x) => if x == "func_name" then funcName else ""
  }

  /** The string the expression evaluates to; adjacent literals are joined as by the compiler. */
  function Evaluate(ts: seq<Token>, funcName: string): string
  {
    if |ts| == 0 then "" else TokenValue(ts[0], funcName) + Evaluate(ts[1..], funcName)
  }

  /** The message as written: the doubled quotes turn it into three adjacent literals. */
  const WrittenMessage: seq<Token> :=
    [StrLit("RPC error: Called function: "), StrLit(" + func_name + "), StrLit(" not found!")]

  /** The message as evidently intended: the name is concatenated between escaped quotes. */
  const IntendedMessage: seq<Token> :=
    [StrLit("RPC error: Called function: \""), Plus, Ident("func_name"), Plus, StrLit("\" not found!")]

  /** As written, every missing name produces the same message, which spells out the text " + func_name + ". */
  lemma WrittenMessageIgnoresName(a: string, b: string)
    ensures Evaluate(WrittenMessage, a) == Evaluate(WrittenMessage, b)
    ensures Evaluate(WrittenMessage, a) == "RPC error: Called function: " + " + func_name + " + " not found!"
  {
    var w := WrittenMessage;
    forall x: string
      ensures Evaluate(w, x) == "RPC error: Called function: " + " + func_name + " + " not found!"
    {
      assert w[1..][1..][1..] == [];
      assert Evaluate(w[1..][1..], x) == " not found!" + "";
      assert Evaluate(w[1..], x) == " + func_name + " + (" not found!" + "");
    }
  }

  /** As intended, the message quotes the missing name, so different names give different messages. */
  lemma IntendedMessageNamesFunction(a: string, b: string)
    ensures Evaluate(IntendedMessage, a) == "RPC error: Called function: \"" + a + "\" not found!"
    ensures Evaluate(IntendedMessage, a) == Evaluate(IntendedMessage, b) ==> a == b
  {
    var t := IntendedMessage;
    var pre := "RPC error: Called function: \"";
    var post := "\" not found!";
    forall x: string ensures Evaluate(t, x) == pre + x + post {
      assert t[1..][1..][1..][1..][1..] == [];
      assert Evaluate(t[1..][1..][1..][1..], x) == post + "";
      assert Evaluate(t[1..][1..][1..], x) == "" + (post + "");
      assert Evaluate(t[1..][1..], x) == x + ("" + (post + ""));
      assert Evaluate(t[1..], x) == "" + (x + ("" + (post + "")));
    }
    if Evaluate(t, a) == Evaluate(t, b) {
      SameContext(pre, a, b, post);
    }
  }

  lemma SameContext(pre: string, a: string, b: string, post: string)
    requires pre + a + post == pre + b + post
    ensures a == b
  {
    var m := pre + a + post;
    assert |a| == |b|;
    assert a == m[|pre|..|pre| + |a|];
  }

  function DefaultDispatchDef(message: seq<Token>): Define
  {
    Define(DefaultDispatch, ["FUNCNAME"], Rest,
           [Use(Expand),
            Text(DispatchOpen),
            Use(AttachAll(Plain)),
            Text(DispatchThrow + TokensText(message) + ");)")])
  }

  /** What the generated dispatch function does with a called name. */
  datatype DispatchOutcome = Dispatched(target: string, cached: bool) | NotFound(message: string)

  /**
   * RPC_DEFAULT_DISPATCH(names...) run on a called name: the attach chain, then
   * the throw.  None when the names do not expand at this depth.
   */
  function DefaultDispatchRun(message: seq<Token>, n: int, names: seq<string>, called: string): Option<DispatchOutcome>
  {
    match AttachChain(Plain, n, names)
    case None => None
    case Some(bs) =>
      match FirstMatch(bs, called)
      case Some(i) => Some(Dispatched(bs[i].target, bs[i].cached))
      case None => Some(NotFound(Evaluate(message, called)))
  }

  /** A listed name is dispatched to itself; any other name reaches the throw, and only after the whole chain. */
  lemma DefaultDispatchFindsListed(message: seq<Token>, n: int, names: seq<string>, called: string)
    requires n >= 0 && 1 <= |names| <= n
    ensures called in names ==> DefaultDispatchRun(message, n, names, called) == Some(Dispatched(called, false))
    ensures called !in names ==> DefaultDispatchRun(message, n, names, called) == Some(NotFound(Evaluate(message, called)))
  {
    AttachChainNamesEach(Plain, n, names);
    NamedBranchesMatch(names, called, false);
  }

  /** In the branches comparing and dispatching each name under itself, a name matches exactly when it is listed, and then dispatches to itself. */
  lemma NamedBranchesMatch(names: seq<string>, called: string, cached: bool)
    ensures var bs := seq(|names|, i requires 0 <= i < |names| => Branch(names[i], names[i], cached));
            (FirstMatch(bs, called).Some? <==> called in names)
            && (FirstMatch(bs, called).Some? ==> bs[FirstMatch(bs, called).value] == Branch(called, called, cached))
  {
    var bs := seq(|names|, i requires 0 <= i < |names| => Branch(names[i], names[i], cached));
    if called in names {
      var i :| 0 <= i < |names| && names[i] == called;
      assert bs[i].compare == called;
    } else {
      forall j | 0 <= j < |bs| ensures bs[j].compare != called {
        assert names[j] in names;
      }
    }
  }

  // ------------------------------------------------------------------
  // The generated file
  // ------------------------------------------------------------------

  // The longer fixed lines of the generated file, named once.  (Spellings,
  // "funciton" included, are the generator's own.)
  const ModuleGuard: string := "#if !defined(RPC_HPP_DOXYGEN_GEN) && (defined(RPC_HPP_SERVER_IMPL) || defined(RPC_HPP_MODULE_IMPL))"
  const ClientGuard: string := "#elif defined(RPC_HPP_CLIENT_IMPL)"
  const ServerHeaderBody: string := "extern RETURN (*FUNCNAME)(__VA_ARGS__)"
  const ClientHeaderBody: string := "RETURN (*FUNCNAME)(__VA_ARGS__) = nullptr"
  const PlainBrief: string := "///@brief Attaches function (provided by FUNCNAME) to the server dispatch function"
  const CachedBrief: string := "///@brief Attaches function (provided by FUNCNAME) to the server dispatch funciton with server-side caching"
  const AliasBrief: string := "///@brief Attaches function (provided by FUNCNAME) to the server dispatch function with a different function name (provided by FUNC_ALIAS)"
  const AliasCachedBrief: string := "///@brief Attaches function (provided by FUNCNAME) to the server dispatch function with a different function name (provided by FUNC_ALIAS) and server-side caching"
  const PlainAllBrief: string := "///@brief Attaches multiple functions to the server dispatch function"
  const CachedAllBrief: string := "///@brief Attaches multiple functions to the server dispatch function with server-side caching"
  const AliasAllBrief: string := "///@brief Attaches function (provided by FUNCNAME) to the server dispatch function with multiple different function names"
  const AliasCachedAllBrief: string := "///@brief Attaches function (provided by FUNCNAME) to the server dispatch function with multiple different function names and server-side caching"
  const DispatchBrief: string := "///@brief Implements the @ref rpc::server::dispatch_impl function for you and attaches the listed functions"
  const DispatchOpen: string := "(const auto func_name = rpc::pack_adapter<adapter_t>::get_func_name(serial_obj); "
  const DispatchThrow: string := "(FUNCNAME, __VA_ARGS__) throw std::runtime_error("

  const ServerGuard: string := "#if defined(RPC_HPP_SERVER_IMPL) || defined(RPC_HPP_MODULE_IMPL)"

  function HeaderFuncServer(): Define
  {
    Define(HeaderFunc, ["RETURN", "FUNCNAME"], Rest, [Text(ServerHeaderBody)])
  }

  function HeaderFuncClient(): Define
  {
    Define(HeaderFunc, ["RETURN", "FUNCNAME"], Rest, [Text(ClientHeaderBody)])
  }

  function Prologue(): seq<Item>
  {
    [ Directive("#pragma once", "\n\n"),
      Directive(ModuleGuard, "\n"),
      ExpandItem() ]
  }

  /** The RPC_EXPAND definition, followed by a blank line. */
  function ExpandItem(): Item
  {
    Def(Define(Expand, ["x"], NoRest, [Text("x")]), "\n\n")
  }

  /** The selector definitions, under a blank line, without the closing #endif. */
  function SelectorDefs(n: int): seq<Item>
  {
    [Blank, Def(GetMacroDef(n), "\n"), Def(ForEachDef(Single, n), "\n"), Def(ForEachDef(Pair, n), "\n")]
  }

  lemma SelectorsSplit(n: int)
    ensures Selectors(n) == SelectorDefs(n) + [Directive("#endif", "\n\n")]
  {
  }

  function Selectors(n: int): seq<Item>
  {
    [ Blank,
      Def(GetMacroDef(n), "\n"),
      Def(ForEachDef(Single, n), "\n"),
      Def(ForEachDef(Pair, n), "\n"),
      Directive("#endif", "\n\n") ]
  }

  /** The RPC_HEADER_FUNC block; `clientEnd` is what follows the client definition. */
  function HeaderBlock(clientEnd: string): seq<Item>
  {
    [ Directive(ServerGuard, "\n"),
      Def(HeaderFuncServer(), "\n"),
      Directive(ClientGuard, "\n"),
      Def(HeaderFuncClient(), clientEnd),
      Directive("#endif", "\n\n") ]
  }

  /** The documentation line written above an attach macro. */
  function AttachBrief(k: AttachKind): string
  {
    match k
    case Plain => PlainBrief
    case Cached => CachedBrief
    case Alias => AliasBrief
    case AliasCached => AliasCachedBrief
  }

  /** The documentation line written above a list-taking attach macro. */
  function AttachAllBrief(k: AttachKind): string
  {
    match k
    case Plain => PlainAllBrief
    case Cached => CachedAllBrief
    case Alias => AliasAllBrief
    case AliasCached => AliasCachedAllBrief
  }

  /** An attach macro and its list-taking form, each under its documentation line. */
  function AttachGroup(k: AttachKind): seq<Item>
  {
    Group(AttachBrief(k), AttachDef(k), AttachAllBrief(k), AttachAllDef(k))
  }

  /** Two definitions, each under its documentation line and followed by a blank line. */
  function Group(brief1: string, d1: Define, brief2: string, d2: Define): seq<Item>
  {
    [ Comment(brief1), Def(d1, "\n\n"), Comment(brief2), Def(d2, "\n\n") ]
  }

  function DispatchTail(message: seq<Token>): seq<Item>
  {
    [ Comment(DispatchBrief),
      Def(DefaultDispatchDef(message), "\n"),
      Directive("#endif", "") ]
  }

  /** The guard and the four attach groups. */
  function AttachGroups(): seq<Item>
  {
    [Directive(ServerGuard, "\n")]
      + AttachGroup(Plain) + AttachGroup(Cached) + AttachGroup(Alias) + AttachGroup(AliasCached)
  }

  function DispatchBlock(message: seq<Token>): seq<Item>
  {
    AttachGroups() + DispatchTail(message)
  }

  /** Everything up to the #endif closing the ladder section. */
  function Front(n: int): (items: seq<Item>)
    ensures |items| == 3 + (TopLevel(Single, n) + 1) + 1 + (TopLevel(Pair, n) + 1) + 5
  {
    Prologue() + LadderItems(Single, n) + [Blank] + LadderItems(Pair, n) + Selectors(n)
  }

  /** The items in the order a generator run with this message and client-line ending writes them. */
  function Layout(n: int, clientEnd: string, message: seq<Token>): seq<Item>
  {
    Front(n) + HeaderBlock(clientEnd) + DispatchBlock(message)
  }

  /** The file as the generator writes it (after the licence banner). */
  function File(n: int): seq<Item>
  {
    Layout(n, "", WrittenMessage)
  }

  /** The file with the client line terminated and the message built from the name. */
  function CorrectedFile(n: int): seq<Item>
  {
    Layout(n, "\n", IntendedMessage)
  }

  /** The characters written after the banner. */
  function GeneratedText(n: int): string
  {
    FileText(File(n))
  }


  // ------------------------------------------------------------------
  // File-level properties
  // ------------------------------------------------------------------

  function DefinedIds(items: seq<Item>): set<MacroId>
  {
    if |items| == 0 then {}
    else (if items[0].Def? then {items[0].def.id} else {}) + DefinedIds(items[1..])
  }

  function IdOf(it: Item): set<MacroId>
  {
    if it.Def? then {it.def.id} else {}
  }

  predicate UsesKnown(it: Item, known: set<MacroId>)
  {
    it.Def? ==> forall id :: id in Uses(it.def.body) ==> id in known
  }

  /** Reading the items in order, each definition names only macros already known or defined above it. */
  predicate DefinedInOrder(items: seq<Item>, known: set<MacroId>)
    decreases |items|
  {
    |items| == 0
    || (UsesKnown(items[0], known) && DefinedInOrder(items[1..], known + IdOf(items[0])))
  }

  predicate DefinedBefore(items: seq<Item>, i: int, id: MacroId)
  {
    exists j :: 0 <= j < i && j < |items| && items[j].Def? && items[j].def.id == id
  }

  /** Every generated macro a definition refers to is defined by an earlier item. */
  predicate UsesDefinedEarlier(items: seq<Item>)
  {
    forall i, id :: 0 <= i < |items| && items[i].Def? && id in Uses(items[i].def.body)
      ==> DefinedBefore(items, i, id)
  }

  lemma InOrderCons(it: Item, rest: seq<Item>, known: set<MacroId>)
    requires UsesKnown(it, known)
    requires DefinedInOrder(rest, known + IdOf(it))
    ensures DefinedInOrder([it] + rest, known)
    ensures DefinedIds([it] + rest) == IdOf(it) + DefinedIds(rest)
  {
    assert ([it] + rest)[0] == it;
    assert ([it] + rest)[1..] == rest;
  }

  lemma InOrderNil(known: set<MacroId>)
    ensures DefinedInOrder([], known) && DefinedIds([]) == {}
  {
  }

  lemma {:induction false} DefinedIdsAppend(a: seq<Item>, b: seq<Item>)
    ensures DefinedIds(a + b) == DefinedIds(a) + DefinedIds(b)
    decreases |a|
  {
    if |a| == 0 {
      assert a + b == b;
    } else {
      assert (a + b)[0] == a[0];
      assert (a + b)[1..] == a[1..] + b;
      DefinedIdsAppend(a[1..], b);
    }
  }

  lemma {:induction false} InOrderMonotone(items: seq<Item>, k1: set<MacroId>, k2: set<MacroId>)
    requires k1 <= k2 && DefinedInOrder(items, k1)
    ensures DefinedInOrder(items, k2)
    decreases |items|
  {
    if |items| > 0 {
      InOrderMonotone(items[1..], k1 + IdOf(items[0]), k2 + IdOf(items[0]));
    }
  }

  lemma {:induction false} InOrderAppend(a: seq<Item>, b: seq<Item>, known: set<MacroId>)
    requires DefinedInOrder(a, known)
    requires DefinedInOrder(b, known + DefinedIds(a))
    ensures DefinedInOrder(a + b, known)
    ensures DefinedIds(a + b) == DefinedIds(a) + DefinedIds(b)
    decreases |a|
  {
    DefinedIdsAppend(a, b);
    if |a| == 0 {
      assert a + b == b;
      assert known + DefinedIds(a) == known;
    } else {
      assert (a + b)[0] == a[0];
      assert (a + b)[1..] == a[1..] + b;
      assert known + DefinedIds(a) == (known + IdOf(a[0])) + DefinedIds(a[1..]);
      InOrderAppend(a[1..], b, known + IdOf(a[0]));
    }
  }

  /** Checking the order item by item establishes that every use has an earlier definition. */
  lemma {:induction false} InOrderMeansEarlier(items: seq<Item>, known: set<MacroId>)
    requires DefinedInOrder(items, known)
    ensures forall i, id :: 0 <= i < |items| && items[i].Def? && id in Uses(items[i].def.body)
              ==> id in known || DefinedBefore(items, i, id)
    decreases |items|
  {
    if |items| > 0 {
      var add := IdOf(items[0]);
      InOrderMeansEarlier(items[1..], known + add);
      forall i, id | 0 < i < |items| && items[i].Def? && id in Uses(items[i].def.body)
        ensures id in known || DefinedBefore(items, i, id)
      {
        assert items[1..][i - 1] == items[i];
        if id !in known && id !in add {
          var j :| 0 <= j < i - 1 && j < |items[1..]| && items[1..][j].Def? && items[1..][j].def.id == id;
          assert items[j + 1] == items[1..][j];
        } else if id !in known {
          assert items[0].Def? && items[0].def.id == id;
        }
      }
    }
  }

  lemma {:induction false} LadderRunInOrder(f: Family, m: nat, known: set<MacroId>)
    requires Expand in known
    ensures DefinedInOrder(LadderRun(f, m), known)
    decreases m
  {
    var item := Def(LadderDef(f, m), "\n");
    LadderRefersToPrevious(f, m);
    if m == 0 {
      InOrderNil(known + IdOf(item));
      assert LadderRun(f, 0) == [item] + [];
      InOrderCons(item, [], known);
    } else {
      LadderRunInOrder(f, m - 1, known);
      LadderRunDefines(f, m - 1);
      assert LadderRun(f, m) == LadderRun(f, m - 1) + [item];
      var before := known + DefinedIds(LadderRun(f, m - 1));
      InOrderNil(before + IdOf(item));
      assert UsesKnown(item, before);
      InOrderCons(item, [], before);
      assert [item] + [] == [item];
      InOrderAppend(LadderRun(f, m - 1), [item], known);
    }
  }

  /** The lines of a ladder loop up to level m define exactly the levels 0 to m. */
  lemma {:induction false} LadderRunDefines(f: Family, m: nat)
    ensures forall k :: 0 <= k <= m ==> Ladder(f, k) in DefinedIds(LadderRun(f, m))
    decreases m
  {
    var item := Def(LadderDef(f, m), "\n");
    if m == 0 {
      InOrderNil({});
      InOrderCons(item, [], {});
      assert LadderRun(f, 0) == [item] + [];
    } else {
      LadderRunDefines(f, m - 1);
      assert LadderRun(f, m) == LadderRun(f, m - 1) + [item];
      DefinedIdsAppend(LadderRun(f, m - 1), [item]);
      assert [item][1..] == [];
      assert DefinedIds([item]) == {Ladder(f, m)};
    }
  }

  lemma UsesNone(t: string)
    ensures Uses([Text(t)]) == []
  {
    assert [Text(t)][1..] == [];
  }

  lemma UsesCons(p: Piece, rest: seq<Piece>)
    ensures Uses([p] + rest) == (if p.Use? then [p.id] else []) + Uses(rest)
  {
    assert ([p] + rest)[0] == p;
    assert ([p] + rest)[1..] == rest;
  }

  lemma UsesThree(a: MacroId, t1: string, b: MacroId, t2: string, c: MacroId, t3: string)
    ensures Uses([Use(a), Text(t1), Use(b), Text(t2), Use(c), Text(t3)]) == [a, b, c]
  {
    UsesNone(t3);
    UsesCons(Use(c), [Text(t3)]);
    UsesCons(Text(t2), [Use(c), Text(t3)]);
    UsesCons(Use(b), [Text(t2), Use(c), Text(t3)]);
    UsesCons(Text(t1), [Use(b), Text(t2), Use(c), Text(t3)]);
    UsesCons(Use(a), [Text(t1), Use(b), Text(t2), Use(c), Text(t3)]);
    assert [Use(c)] + [Text(t3)] == [Use(c), Text(t3)];
    assert [Text(t2)] + [Use(c), Text(t3)] == [Text(t2), Use(c), Text(t3)];
    assert [Use(b)] + [Text(t2), Use(c), Text(t3)] == [Use(b), Text(t2), Use(c), Text(t3)];
    assert [Text(t1)] + [Use(b), Text(t2), Use(c), Text(t3)] == [Text(t1), Use(b), Text(t2), Use(c), Text(t3)];
    assert [Use(a)] + [Text(t1), Use(b), Text(t2), Use(c), Text(t3)] == [Use(a), Text(t1), Use(b), Text(t2), Use(c), Text(t3)];
  }

  lemma UsesTwo(a: MacroId, t1: string, b: MacroId, t2: string)
    ensures Uses([Use(a), Text(t1), Use(b), Text(t2)]) == [a, b]
  {
    UsesNone(t2);
    UsesCons(Use(b), [Text(t2)]);
    UsesCons(Text(t1), [Use(b), Text(t2)]);
    UsesCons(Use(a), [Text(t1), Use(b), Text(t2)]);
    assert [Use(b)] + [Text(t2)] == [Use(b), Text(t2)];
    assert [Text(t1)] + [Use(b), Text(t2)] == [Text(t1), Use(b), Text(t2)];
    assert [Use(a)] + [Text(t1), Use(b), Text(t2)] == [Use(a), Text(t1), Use(b), Text(t2)];
  }

  lemma ForEachKnown(f: Family, n: int, known: set<MacroId>)
    requires Expand in known && GetMacro in known
    requires forall k :: 0 <= k <= TopLevel(f, n) ==> Ladder(f, k) in known
    ensures UsesKnown(Def(ForEachDef(f, n), "\n"), known)
  {
    var top := if n < 0 then 0 else n;
    ForEachUsesExactly(f, n);
    var u := Uses(ForEachDef(f, n).body);
    forall id | id in u ensures id in known
    {
      var i :| 0 <= i < |u| && u[i] == id;
      if i >= 2 {
        assert u[i] == Ladder(f, top - (i - 2));
      }
    }
  }

  lemma SelectorsInOrder(n: int, known: set<MacroId>)
    requires Expand in known
    requires forall k :: 0 <= k <= TopLevel(Single, n) ==> Ladder(Single, k) in known
    requires forall k :: 0 <= k <= TopLevel(Pair, n) ==> Ladder(Pair, k) in known
    ensures DefinedInOrder(Selectors(n), known)
    ensures ForEach(Single) in DefinedIds(Selectors(n)) && ForEach(Pair) in DefinedIds(Selectors(n))
  {
    var a := Def(GetMacroDef(n), "\n");
    var b := Def(ForEachDef(Single, n), "\n");
    var c := Def(ForEachDef(Pair, n), "\n");
    var e := Directive("#endif", "\n\n");
    var k1 := known + {GetMacro};
    var k2 := k1 + {ForEach(Single)};
    var k3 := k2 + {ForEach(Pair)};
    UsesNone("NAME");
    ForEachKnown(Single, n, k1);
    ForEachKnown(Pair, n, k2);
    InOrderNil(k3);
    InOrderCons(e, [], k3);
    InOrderCons(c, [e], k2);
    InOrderCons(b, [c] + [e], k1);
    InOrderCons(a, [b] + ([c] + [e]), known);
    assert known + IdOf(Blank) == known;
    InOrderCons(Blank, [a] + ([b] + ([c] + [e])), known);
    assert Selectors(n) == [Blank] + ([a] + ([b] + ([c] + [e])));
  }

  lemma HeaderBlockInOrder(clientEnd: string, known: set<MacroId>)
    ensures DefinedInOrder(HeaderBlock(clientEnd), known)
  {
    var a := Directive(ServerGuard, "\n");
    var b := Def(HeaderFuncServer(), "\n");
    var c := Directive(ClientGuard, "\n");
    var d := Def(HeaderFuncClient(), clientEnd);
    var e := Directive("#endif", "\n\n");
    var k1 := known + {HeaderFunc};
    UsesNone(ServerHeaderBody);
    UsesNone(ClientHeaderBody);
    InOrderNil(k1);
    InOrderCons(e, [], k1);
    InOrderCons(d, [e], k1);
    InOrderCons(c, [d] + [e], k1);
    InOrderCons(b, [c] + ([d] + [e]), known);
    assert known + IdOf(a) == known;
    assert k1 + IdOf(c) == k1 && k1 + IdOf(e) == k1;
    InOrderCons(a, [b] + ([c] + ([d] + [e])), known);
    assert HeaderBlock(clientEnd) == [a] + ([b] + ([c] + ([d] + [e])));
  }

  lemma AttachAllUses(k: AttachKind)
    ensures Uses(AttachAllDef(k).body) == [Expand, ForEach(if k.IsAlias() then Pair else Single), Attach(k)]
  {
    if k.IsAlias() {
      UsesThree(Expand, "(", ForEach(Pair), "(", Attach(k), ", FUNCNAME, FUNC_ALIAS, __VA_ARGS__))");
    } else {
      UsesThree(Expand, "(", ForEach(Single), "(", Attach(k), ", FUNCNAME, __VA_ARGS__))");
    }
  }

  /** An attach group in the abstract: two documented definitions, the second using the first. */
  lemma GroupInOrder(b1: string, d1: Define, b2: string, d2: Define, known: set<MacroId>)
    requires Uses(d1.body) == []
    requires forall id :: id in Uses(d2.body) ==> id in known + {d1.id}
    ensures DefinedInOrder(Group(b1, d1, b2, d2), known)
    ensures d2.id in DefinedIds(Group(b1, d1, b2, d2))
  {
    var g := Group(b1, d1, b2, d2);
    var k1 := known + {d1.id};
    var k2 := k1 + {d2.id};
    assert known + IdOf(g[0]) == known && k1 + IdOf(g[2]) == k1 && k1 + IdOf(g[3]) == k2;
    InOrderNil(k2);
    InOrderCons(g[3], [], k1);
    InOrderCons(g[2], [g[3]], k1);
    InOrderCons(g[1], [g[2]] + [g[3]], known);
    InOrderCons(g[0], [g[1]] + ([g[2]] + [g[3]]), known);
    assert g == [g[0]] + ([g[1]] + ([g[2]] + [g[3]]));
  }

  lemma AttachUsesNone(k: AttachKind)
    ensures Uses(AttachDef(k).body) == [] && AttachDef(k).id == Attach(k)
  {
    var d1 := AttachDef(k);
    UsesNone(d1.body[0].text);
    assert d1.body == [Text(d1.body[0].text)];
  }

  lemma AttachAllUsesKnown(k: AttachKind, known: set<MacroId>)
    requires Expand in known && ForEach(if k.IsAlias() then Pair else Single) in known
    ensures forall id :: id in Uses(AttachAllDef(k).body) ==> id in known + {AttachDef(k).id}
  {
    AttachUsesNone(k);
    AttachAllUses(k);
  }

  lemma AttachGroupIsGroup(k: AttachKind)
    ensures AttachGroup(k) == Group(AttachBrief(k), AttachDef(k), AttachAllBrief(k), AttachAllDef(k))
  {
  }

  lemma AttachAllId(k: AttachKind)
    ensures AttachAllDef(k).id == AttachAll(k)
  {
  }

  /**
   * An attach group is in order once RPC_EXPAND and the for-each macro it
   * applies are known; the proof goes one fact per step, since the literal
   * documentation lines make every combined step expensive.
   */
  lemma AttachGroupInOrder(k: AttachKind, known: set<MacroId>)
    requires Expand in known && ForEach(if k.IsAlias() then Pair else Single) in known
    ensures DefinedInOrder(AttachGroup(k), known)
    ensures AttachAll(k) in DefinedIds(AttachGroup(k))
  {
    AttachUsesNone(k);
    AttachAllUsesKnown(k, known);
    GroupInOrder(AttachBrief(k), AttachDef(k), AttachAllBrief(k), AttachAllDef(k), known);
    AttachAllId(k);
    AttachGroupIsGroup(k);
  }

  lemma DispatchTailInOrder(message: seq<Token>, known: set<MacroId>)
    requires Expand in known && AttachAll(Plain) in known
    ensures DefinedInOrder(DispatchTail(message), known)
  {
    var a := Comment(DispatchBrief);
    var b := Def(DefaultDispatchDef(message), "\n");
    var c := Directive("#endif", "");
    UsesTwo(Expand, DispatchOpen,
            AttachAll(Plain), DispatchThrow + TokensText(message) + ");)");
    assert known + IdOf(a) == known && known + IdOf(b) == known + {DefaultDispatch};
    InOrderNil(known + {DefaultDispatch});
    InOrderCons(c, [], known + {DefaultDispatch});
    InOrderCons(b, [c], known);
    InOrderCons(a, [b] + [c], known);
    assert DispatchTail(message) == [a] + ([b] + [c]);
  }

  lemma DispatchBlockInOrder(message: seq<Token>, known: set<MacroId>)
    requires Expand in known && ForEach(Single) in known && ForEach(Pair) in known
    ensures DefinedInOrder(DispatchBlock(message), known)
  {
    var head := [Directive(ServerGuard, "\n")];
    InOrderNil(known);
    InOrderCons(head[0], [], known);
    assert head == [head[0]] + [];
    var acc := head;
    AttachGroupInOrder(Plain, known + DefinedIds(acc));
    InOrderAppend(acc, AttachGroup(Plain), known);
    acc := acc + AttachGroup(Plain);
    AttachGroupInOrder(Cached, known + DefinedIds(acc));
    InOrderAppend(acc, AttachGroup(Cached), known);
    acc := acc + AttachGroup(Cached);
    AttachGroupInOrder(Alias, known + DefinedIds(acc));
    InOrderAppend(acc, AttachGroup(Alias), known);
    acc := acc + AttachGroup(Alias);
    AttachGroupInOrder(AliasCached, known + DefinedIds(acc));
    InOrderAppend(acc, AttachGroup(AliasCached), known);
    acc := acc + AttachGroup(AliasCached);
    DispatchTailInOrder(message, known + DefinedIds(acc));
    InOrderAppend(acc, DispatchTail(message), known);
  }

  lemma FrontInOrder(n: int)
    ensures DefinedInOrder(Front(n), {})
    ensures Expand in DefinedIds(Front(n))
    ensures ForEach(Single) in DefinedIds(Front(n)) && ForEach(Pair) in DefinedIds(Front(n))
  {
    var acc := Prologue() + LadderItems(Single, n) + [Blank] + LadderItems(Pair, n);
    FrontLaddersInOrder(n);
    SelectorsInOrder(n, {} + DefinedIds(acc));
    InOrderAppend(acc, Selectors(n), {});
    assert acc + Selectors(n) == Front(n);
  }

  /** The prologue defines RPC_EXPAND and uses nothing. */
  lemma PrologueInOrder()
    ensures DefinedInOrder(Prologue(), {})
    ensures DefinedIds(Prologue()) == {Expand}
  {
    var pro := Prologue();
    var x := ExpandItem();
    UsesNone("x");
    InOrderNil({Expand});
    InOrderCons(x, [], {});
    InOrderCons(pro[1], [x], {});
    InOrderCons(pro[0], [pro[1]] + [x], {});
    assert pro == [pro[0]] + ([pro[1]] + [x]);
  }

  /** A ladder loop's lines are in order once RPC_EXPAND is known, and define every level they write. */
  lemma LadderSectionInOrder(f: Family, n: int, known: set<MacroId>)
    requires Expand in known
    ensures DefinedInOrder(LadderItems(f, n), known)
    ensures forall k :: 0 <= k <= TopLevel(f, n) ==> Ladder(f, k) in DefinedIds(LadderItems(f, n))
  {
    LadderRunInOrder(f, TopLevel(f, n), known);
    LadderRunDefines(f, TopLevel(f, n));
  }

  lemma BlankInOrder(known: set<MacroId>)
    ensures DefinedInOrder([Blank], known) && DefinedIds([Blank]) == {}
  {
    InOrderNil(known);
    InOrderCons(Blank, [], known);
    assert [Blank] + [] == [Blank];
  }

  /** The prologue and both ladder loops: in order, defining RPC_EXPAND and every ladder level. */
  lemma FrontLaddersInOrder(n: int)
    ensures var acc := Prologue() + LadderItems(Single, n) + [Blank] + LadderItems(Pair, n);
            DefinedInOrder(acc, {}) && Expand in DefinedIds(acc)
            && (forall k :: 0 <= k <= TopLevel(Single, n) ==> Ladder(Single, k) in DefinedIds(acc))
            && (forall k :: 0 <= k <= TopLevel(Pair, n) ==> Ladder(Pair, k) in DefinedIds(acc))
  {
    var pro := Prologue();
    PrologueInOrder();
    LadderSectionInOrder(Single, n, {} + DefinedIds(pro));
    InOrderAppend(pro, LadderItems(Single, n), {});
    var a1 := pro + LadderItems(Single, n);
    BlankInOrder({} + DefinedIds(a1));
    InOrderAppend(a1, [Blank], {});
    var a2 := a1 + [Blank];
    LadderSectionInOrder(Pair, n, {} + DefinedIds(a2));
    InOrderAppend(a2, LadderItems(Pair, n), {});
  }

  /** No macro is used before it is defined, for every depth and either variant of the file. */
  lemma LayoutDefinesBeforeUse(n: int, clientEnd: string, message: seq<Token>)
    ensures UsesDefinedEarlier(Layout(n, clientEnd, message))
  {
    LayoutInOrder(n, clientEnd, message);
    InOrderMeansEarlier(Layout(n, clientEnd, message), {});
  }

  lemma LayoutInOrder(n: int, clientEnd: string, message: seq<Token>)
    ensures DefinedInOrder(Layout(n, clientEnd, message), {})
  {
    var acc := Front(n) + HeaderBlock(clientEnd);
    FrontHeaderInOrder(n, clientEnd);
    DispatchBlockInOrder(message, {} + DefinedIds(acc));
    InOrderAppend(acc, DispatchBlock(message), {});
  }

  /** The ladder section and the header-function block, in order, leave RPC_EXPAND and both for-each macros defined. */
  lemma FrontHeaderInOrder(n: int, clientEnd: string)
    ensures var acc := Front(n) + HeaderBlock(clientEnd);
            DefinedInOrder(acc, {})
            && Expand in DefinedIds(acc) && ForEach(Single) in DefinedIds(acc) && ForEach(Pair) in DefinedIds(acc)
  {
    var f := Front(n);
    FrontInOrder(n);
    HeaderBlockInOrder(clientEnd, {} + DefinedIds(f));
    InOrderAppend(f, HeaderBlock(clientEnd), {});
  }

  predicate EndsLine(s: string)
  {
    |s| > 0 && s[|s| - 1] == '\n'
  }

  /** Directive lines must start a line: the item before each one ends with a newline. */
  predicate DirectivesStartLines(items: seq<Item>)
  {
    forall i :: 0 < i < |items| && items[i].Directive? ==> EndsLine(ItemText(items[i - 1]))
  }

  /** Index of the #endif that closes the RPC_HEADER_FUNC block. */
  function HeaderEndIndex(n: int): nat
  {
    |Front(n)| + 4
  }

  lemma ClientLineEnd(clientEnd: string)
    ensures EndsLine(ItemText(Def(HeaderFuncClient(), clientEnd))) <==> EndsLine(clientEnd)
  {
    ClientTextEnd();
    EndsLineAppend(DefineText(HeaderFuncClient()), clientEnd);
  }

  /** Appending to text that does not end a line ends one exactly when the appended part does. */
  lemma EndsLineAppend(t: string, e: string)
    requires |t| > 0 && t[|t| - 1] != '\n'
    ensures EndsLine(t + e) <==> EndsLine(e)
  {
    if |e| > 0 {
      LastOfAppend(t, e);
    } else {
      assert t + e == t;
    }
  }

  /** The client definition's text ends with the last character of "= nullptr". */
  lemma ClientTextEnd()
    ensures var t := DefineText(HeaderFuncClient()); |t| > 0 && t[|t| - 1] == 'r'
  {
    var d := HeaderFuncClient();
    assert [Text(ClientHeaderBody)][1..] == [];
    assert BodyText(d.body) == ClientHeaderBody;
    LastOfAppend(DefineKeyword(d.id) + Name(d.id) + "(" + ParamsText(d.params, d.rest) + ") ", ClientHeaderBody);
  }

  lemma LastOfAppend<T>(x: seq<T>, y: seq<T>)
    requires |y| > 0
    ensures |x + y| > 0 && (x + y)[|x + y| - 1] == y[|y| - 1]
  {
  }

  /** Where the header block's last two items sit, whatever the client line ending and message. */
  lemma LayoutHeaderEnd(n: int, clientEnd: string, message: seq<Token>)
    ensures var items := Layout(n, clientEnd, message);
            HeaderEndIndex(n) < |items|
            && items[HeaderEndIndex(n)] == Directive("#endif", "\n\n")
            && items[HeaderEndIndex(n) - 1] == Def(HeaderFuncClient(), clientEnd)
  {
    HeaderBlockEnd(clientEnd);
    MiddleIndex(Front(n), HeaderBlock(clientEnd), DispatchBlock(message), 3);
    MiddleIndex(Front(n), HeaderBlock(clientEnd), DispatchBlock(message), 4);
  }

  lemma HeaderBlockEnd(clientEnd: string)
    ensures |HeaderBlock(clientEnd)| == 5
    ensures HeaderBlock(clientEnd)[3] == Def(HeaderFuncClient(), clientEnd)
    ensures HeaderBlock(clientEnd)[4] == Directive("#endif", "\n\n")
  {
  }

  /** Position |a| + i of a + h + c holds h[i]. */
  lemma MiddleIndex<T>(a: seq<T>, h: seq<T>, c: seq<T>, i: int)
    requires 0 <= i < |h|
    ensures |a| + i < |a + h + c| && (a + h + c)[|a| + i] == h[i]
  {
    assert (a + h)[|a| + i] == h[i];
  }

  /** As written, the #endif closing the header block is glued to the client definition ("= nullptr#endif"). */
  lemma WrittenEndifJoinsClientLine(n: int)
    ensures var items := File(n);
            HeaderEndIndex(n) < |items|
            && items[HeaderEndIndex(n)] == Directive("#endif", "\n\n")
            && items[HeaderEndIndex(n) - 1] == Def(HeaderFuncClient(), "")
            && !EndsLine(ItemText(items[HeaderEndIndex(n) - 1]))
    ensures !DirectivesStartLines(File(n))
  {
    LayoutHeaderEnd(n, "", WrittenMessage);
    JoinedEndifBreaks(File(n), HeaderEndIndex(n));
  }

  /** An #endif right after the unterminated client definition does not start a line. */
  lemma JoinedEndifBreaks(items: seq<Item>, i: int)
    requires 0 < i < |items| && items[i] == Directive("#endif", "\n\n") && items[i - 1] == Def(HeaderFuncClient(), "")
    ensures !EndsLine(ItemText(items[i - 1]))
    ensures !DirectivesStartLines(items)
  {
    ClientLineEnd("");
    BrokenAt(items, i);
  }

  /** One directive that follows an unterminated item is enough to break the rule. */
  lemma BrokenAt(items: seq<Item>, i: int)
    requires 0 < i < |items| && items[i].Directive? && !EndsLine(ItemText(items[i - 1]))
    ensures !DirectivesStartLines(items)
  {
  }

  lemma ItemEndsLine(it: Item)
    requires it.Directive? ==> EndsLine(it.after)
    requires it.Def? ==> EndsLine(it.after)
    ensures EndsLine(ItemText(it))
  {
    match it
    case Directive(l, a) =>
      var w := l + a;
      assert w[|w| - 1] == a[|a| - 1];
    case Comment(l) =>
      var w := l + "\n";
      assert w[|w| - 1] == '\n';
    case Blank =>
    case Def(d, a) =>
      var w := DefineText(d) + a;
      assert w[|w| - 1] == a[|a| - 1];
  }

  /** Each directive and definition is followed by a newline; comments and blanks always end their line. */
  predicate AftersEndLines(items: seq<Item>)
  {
    forall i :: 0 <= i < |items| && (items[i].Directive? || items[i].Def?) ==> EndsLine(items[i].after)
  }

  lemma AftersMeanLines(items: seq<Item>, i: int)
    requires AftersEndLines(items) && 0 <= i < |items|
    ensures EndsLine(ItemText(items[i]))
  {
    ItemEndsLine(items[i]);
  }

  lemma AftersAppend(a: seq<Item>, b: seq<Item>)
    requires AftersEndLines(a) && AftersEndLines(b)
    ensures AftersEndLines(a + b)
  {
    forall i | 0 <= i < |a + b| && ((a + b)[i].Directive? || (a + b)[i].Def?)
      ensures EndsLine((a + b)[i].after)
    {
      if i < |a| { assert (a + b)[i] == a[i]; } else { assert (a + b)[i] == b[i - |a|]; }
    }
  }

  lemma FrontAftersEndLines(n: int)
    ensures AftersEndLines(Front(n))
  {
    var pro := Prologue();
    assert AftersEndLines(pro);
    assert AftersEndLines(LadderItems(Single, n));
    assert AftersEndLines([Blank]);
    assert AftersEndLines(LadderItems(Pair, n));
    assert AftersEndLines(Selectors(n));
    AftersAppend(pro, LadderItems(Single, n));
    AftersAppend(pro + LadderItems(Single, n), [Blank]);
    AftersAppend(pro + LadderItems(Single, n) + [Blank], LadderItems(Pair, n));
    AftersAppend(pro + LadderItems(Single, n) + [Blank] + LadderItems(Pair, n), Selectors(n));
  }

  lemma AttachGroupsAfters()
    ensures AftersEndLines(AttachGroups())
  {
    var head := [Directive(ServerGuard, "\n")];
    var g1 := AttachGroup(Plain);
    var g2 := AttachGroup(Cached);
    var g3 := AttachGroup(Alias);
    var g4 := AttachGroup(AliasCached);
    GroupAftersEndLines(Plain);
    GroupAftersEndLines(Cached);
    GroupAftersEndLines(Alias);
    GroupAftersEndLines(AliasCached);
    assert AftersEndLines(head);
    AftersAppend(head, g1);
    AftersAppend(head + g1, g2);
    AftersAppend(head + g1 + g2, g3);
    AftersAppend(head + g1 + g2 + g3, g4);
  }

  /** Every item of the dispatch block but the final #endif ends a line. */
  lemma DispatchBlockAftersEndLines(message: seq<Token>)
    ensures var d := DispatchBlock(message); |d| > 0 && AftersEndLines(d[..|d| - 1])
  {
    AttachGroupsAfters();
    TailAfters(message);
    InitAfters(AttachGroups(), DispatchTail(message));
  }

  lemma TailAfters(message: seq<Token>)
    ensures var tl := DispatchTail(message); |tl| == 3 && AftersEndLines(tl[..2])
  {
    var tl := DispatchTail(message);
    TwoAfters(tl[0].line, tl[1].def);
    assert tl[..2] == [Comment(tl[0].line), Def(tl[1].def, "\n")];
  }

  lemma InitAfters(g: seq<Item>, tl: seq<Item>)
    requires AftersEndLines(g) && |tl| > 0 && AftersEndLines(tl[..|tl| - 1])
    ensures var d := g + tl; AftersEndLines(d[..|d| - 1])
  {
    var d := g + tl;
    assert d[..|d| - 1] == g + tl[..|tl| - 1];
    AftersAppend(g, tl[..|tl| - 1]);
  }

  lemma GroupAftersEndLines(k: AttachKind)
    ensures AftersEndLines(AttachGroup(k))
  {
    FourAfters(AttachBrief(k), AttachDef(k), AttachAllBrief(k), AttachAllDef(k));
  }

  lemma TwoAfters(line: string, d: Define)
    ensures AftersEndLines([Comment(line), Def(d, "\n")])
  {
  }

  lemma HeaderAfters(clientEnd: string)
    requires EndsLine(clientEnd)
    ensures AftersEndLines(HeaderBlock(clientEnd))
  {
    FiveAfters(ServerGuard, HeaderFuncServer(), HeaderFuncClient(), clientEnd);
  }

  lemma FiveAfters(guard: string, server: Define, client: Define, clientEnd: string)
    requires EndsLine(clientEnd)
    ensures AftersEndLines([Directive(guard, "\n"), Def(server, "\n"), Directive(ClientGuard, "\n"),
                            Def(client, clientEnd), Directive("#endif", "\n\n")])
  {
  }

  lemma FourAfters(b1: string, d1: Define, b2: string, d2: Define)
    ensures AftersEndLines([Comment(b1), Def(d1, "\n\n"), Comment(b2), Def(d2, "\n\n")])
  {
  }

  /** If every item but the last ends its line, every directive starts one. */
  lemma AftersStartDirectives(items: seq<Item>)
    requires |items| > 0 && AftersEndLines(items[..|items| - 1])
    ensures DirectivesStartLines(items)
  {
    var init := items[..|items| - 1];
    forall i | 0 < i < |items| && items[i].Directive?
      ensures EndsLine(ItemText(items[i - 1]))
    {
      assert items[i - 1] == init[i - 1];
      AftersMeanLines(init, i - 1);
    }
  }

  /** Once the client line is terminated, every directive starts a line, whatever the message. */
  lemma LayoutDirectivesStartLines(n: int, clientEnd: string, message: seq<Token>)
    requires EndsLine(clientEnd)
    ensures DirectivesStartLines(Layout(n, clientEnd, message))
  {
    FrontAftersEndLines(n);
    HeaderAfters(clientEnd);
    DispatchBlockAftersEndLines(message);
    PartsStartDirectives(Front(n), HeaderBlock(clientEnd), DispatchBlock(message));
  }

  lemma PartsStartDirectives(a: seq<Item>, b: seq<Item>, c: seq<Item>)
    requires AftersEndLines(a) && AftersEndLines(b) && |c| > 0 && AftersEndLines(c[..|c| - 1])
    ensures DirectivesStartLines(a + b + c)
  {
    AftersAppend(a, b);
    InitAfters(a + b, c);
    AftersStartDirectives(a + b + c);
  }

  /** Terminating the client line makes every directive of the file start a line. */
  lemma CorrectedDirectivesStartLines(n: int)
    ensures DirectivesStartLines(CorrectedFile(n))
  {
    LayoutDirectivesStartLines(n, "\n", IntendedMessage);
  }
}

=== FILE: dispatch_helper.dfy ===
/**
 * The checked-in include/rpc_dispatch_helper.hpp: the macro ladders of a
 * generator run at depth 30, followed by an older set of server macros that
 * hand the serial object to `dispatch_func<Serial>` and record the not-found
 * error on the object instead of throwing.
 */
module DispatchHelper {
  import opened Wrappers
  import opened DispatchGen

  /** The depth the header was generated for. */
  const HelperDepth: int := 30

  // The longer fixed pieces of the header's server macros, named once.
  const HelperCall: string := ") { return dispatch_func<Serial>(FUNCNAME, serial_obj"
  const HelperDispatchOpen: string := "(template<typename Serial> void rpc::server::dispatch(typename Serial::doc_type& serial_obj) { const auto func_name = serial_adapter<Serial>::extract_func_name(serial_obj); "
  const HelperSetError: string := "(FUNCNAME, __VA_ARGS__) serial_adapter<Serial>::set_err_mesg(serial_obj, "

  /** The `, true` the cached kinds add to the dispatch_func call. */
  function CacheFlag(k: AttachKind): string
  {
    if k.IsCached() then ", true" else ""
  }

  /** RPC_ATTACH_FUNC and its three siblings as they appear in the header. */
  function HelperAttachDef(k: AttachKind): Define
  {
    Define(Attach(k), AttachParams(k), NoRest,
           [Text("if (func_name == #"), Text(Compared(k)),
            Text(HelperCall), Text(CacheFlag(k)), Text("); }")])
  }

  /** RPC_DEFAULT_DISPATCH: the whole server::dispatch definition, ending with set_err_mesg. */
  function HelperDispatchDef(): Define
  {
    Define(DefaultDispatch, ["FUNCNAME"], Rest,
           [Use(Expand),
            Text(HelperDispatchOpen),
            Use(AttachAll(Plain)),
            Text(HelperSetError + TokensText(IntendedMessage) + ");})")])
  }

  /** A macro and its list-taking form, followed by a blank line. */
  function HelperGroup(k: AttachKind): seq<Item>
  {
    [Def(HelperAttachDef(k), "\n"), Def(AttachAllDef(k), "\n\n")]
  }

  /** The ladder and selector part (lines 3 to 71 at depth 30). */
  function HelperLadders(n: int): seq<Item>
  {
    [ExpandItem()] + LadderItems(Single, n) + [Blank] + LadderItems(Pair, n) + SelectorDefs(n)
  }

  /** The four groups of server macros, in the header's order. */
  function HelperGroups(): seq<Item>
  {
    HelperGroup(Plain) + HelperGroup(Cached) + HelperGroup(Alias) + HelperGroup(AliasCached)
  }

  /** The header's lines for ladders of depth n; the checked-in file is depth 30. */
  function HelperItems(n: int): seq<Item>
  {
    [Directive("#pragma once", "\n\n")] + HelperLadders(n) + [Blank] + HelperGroups()
      + [Def(HelperDispatchDef(), "\n")]
  }

  /**
   * The ladder part is the generator's output between its #if guard and the
   * #endif closing the selectors (lines 3 to 71 at depth 30).
   */
  lemma HelperLaddersAreGenerated(n: int)
    ensures |HelperLadders(n)| == |Front(n)| - 3
    ensures HelperLadders(n) == Front(n)[2..|Front(n)| - 1]
    ensures Front(n)[1].Directive? && Front(n)[|Front(n)| - 1] == Directive("#endif", "\n\n")
  {
    var pro, sd, z := Prologue(), SelectorDefs(n), Directive("#endif", "\n\n");
    assert |pro| == 3 && pro[2] == ExpandItem();
    SelectorsSplit(n);
    assert Front(n) == pro + LadderItems(Single, n) + [Blank] + LadderItems(Pair, n) + (sd + [z]);
    InnerSlice(pro, LadderItems(Single, n), [Blank], LadderItems(Pair, n), sd, z);
  }

  /**
   * Dropping the first two and the last item of p + b + c + d + (e + [z]), p
   * of three items, leaves p's last, b, c, d and e.
   */
  lemma InnerSlice<T>(p: seq<T>, b: seq<T>, c: seq<T>, d: seq<T>, e: seq<T>, z: T)
    ensures var w := p + b + c + d + (e + [z]);
            |p| == 3 ==> |w| == |[p[2]] + b + c + d + e| + 3
                         && w[2..|w| - 1] == [p[2]] + b + c + d + e
                         && w[1] == p[1] && w[|w| - 1] == z
  {
    var w := p + b + c + d + (e + [z]);
    if |p| == 3 {
      var r := [p[2]] + b + c + d + e;
      assert |w[2..|w| - 1]| == |r|;
      forall i | 0 <= i < |r| ensures w[2..|w| - 1][i] == r[i] {
        if i == 0 {
        } else if i < 1 + |b| {
          assert r[i] == b[i - 1];
        } else if i < 1 + |b| + |c| {
          assert r[i] == c[i - 1 - |b|];
        } else if i < 1 + |b| + |c| + |d| {
          assert r[i] == d[i - 1 - |b| - |c|];
        } else {
          assert r[i] == e[i - 1 - |b| - |c| - |d|];
        }
      }
    }
  }

  /** Each RPC_FE_k (k >= 2) of the header refers to EXPAND and RPC_FE_{k-1} only. */
  lemma HelperSingleLadderRecurses(n: int, k: nat)
    requires 2 <= k <= n
    ensures HelperLadders(n)[1 + k] == Def(LadderDef(Single, k), "\n")
    ensures Uses(HelperLadders(n)[1 + k].def.body) == [Expand, Ladder(Single, k - 1)]
  {
    HelperSingleAt(n, k);
    LadderRefersToPrevious(Single, k);
  }

  lemma HelperSingleAt(n: int, k: nat)
    requires 2 <= k <= n
    ensures 1 + k < |HelperLadders(n)| && HelperLadders(n)[1 + k] == Def(LadderDef(Single, k), "\n")
  {
    LadderItemAt(Single, n, k);
    SecondPartIndex([ExpandItem()], LadderItems(Single, n), [Blank], LadderItems(Pair, n), SelectorDefs(n), k);
  }

  /** Position 1 + k of p + b + c + d + e, with p of length one, holds b[k]. */
  lemma SecondPartIndex<T>(p: seq<T>, b: seq<T>, c: seq<T>, d: seq<T>, e: seq<T>, k: int)
    requires |p| == 1 && 0 <= k < |b|
    ensures 1 + k < |p + b + c + d + e| && (p + b + c + d + e)[1 + k] == b[k]
  {
    FrontIndex(p + b + c + d, e, 1 + k);
    FrontIndex(p + b + c, d, 1 + k);
    FrontIndex(p + b, c, 1 + k);
  }

  /** Position i of a + b holds a[i] when i is inside a. */
  lemma FrontIndex<T>(a: seq<T>, b: seq<T>, i: int)
    requires 0 <= i < |a|
    ensures i < |a + b| && (a + b)[i] == a[i]
  {
  }

  /** Each RPC_FE2_k (k >= 3) of the header keeps X and refers to RPC_FE2_{k-1} only. */
  lemma HelperPairLadderRecurses(n: int, k: nat)
    requires 3 <= k <= n
    ensures HelperLadders(n)[n + 3 + k] == Def(LadderDef(Pair, k), "\n")
    ensures Uses(HelperLadders(n)[n + 3 + k].def.body) == [Expand, Ladder(Pair, k - 1)]
    ensures BodyText(HelperLadders(n)[n + 3 + k].def.body)
              == "EXPAND" + "(WHAT(X, Y)" + Name(Ladder(Pair, k - 1)) + "(WHAT, X, __VA_ARGS__))"
  {
    HelperPairAt(n, k);
    LadderRefersToPrevious(Pair, k);
    PairLevelText(k);
  }

  lemma HelperPairAt(n: int, k: nat)
    requires 3 <= k <= n
    ensures n + 3 + k < |HelperLadders(n)| && HelperLadders(n)[n + 3 + k] == Def(LadderDef(Pair, k), "\n")
  {
    var pre := [ExpandItem()] + LadderItems(Single, n) + [Blank];
    var lp := LadderItems(Pair, n);
    LadderItemAt(Pair, n, k);
    MiddleIndex(pre, lp, SelectorDefs(n), k);
  }

  lemma PairLevelText(k: nat)
    requires 3 <= k
    ensures BodyText(LadderDef(Pair, k).body)
              == "EXPAND" + "(WHAT(X, Y)" + Name(Ladder(Pair, k - 1)) + "(WHAT, X, __VA_ARGS__))"
  {
    var b := LadderDef(Pair, k).body;
    var t1 := "(WHAT(X, Y)";
    var t2 := "(WHAT, X, __VA_ARGS__))";
    var nm := Name(Ladder(Pair, k - 1));
    assert b == [Use(Expand), Text(t1), Use(Ladder(Pair, k - 1)), Text(t2)];
    assert b[1..][1..][1..][1..] == [];
    assert BodyText(b[1..][1..][1..]) == t2;
    assert BodyText(b[1..][1..]) == nm + t2;
    assert BodyText(b[1..]) == t1 + (nm + t2);
    assert BodyText(b) == "EXPAND" + (t1 + (nm + t2));
  }

  /** RPC_GET_MACRO lists _0.._30 then NAME; the two selectors list levels 30 down to 0. */
  lemma HelperSelectorsAtDepth30()
    ensures |GetMacroDef(30).params| == 32 && GetMacroDef(30).params[31] == "NAME"
    ensures forall i :: 0 <= i <= 30 ==> GetMacroDef(30).params[i] == "_" + Decimal(i)
    ensures Candidates(ForEachDef(Single, 30), Single) == seq(31, i requires 0 <= i < 31 => 30 - i)
    ensures Candidates(ForEachDef(Pair, 30), Pair) == seq(31, i requires 0 <= i < 31 => 30 - i)
  {
    CandidatesDescending(Single, 30);
    CandidatesDescending(Pair, 30);
  }

  /** A cached macro's statement is the plain one's with `, true` added to the call; both compare the same parameter. */
  lemma CachedAddsTrue(plain: AttachKind, cached: AttachKind)
    requires (plain, cached) == (Plain, Cached) || (plain, cached) == (Alias, AliasCached)
    ensures HelperAttachDef(plain).params == HelperAttachDef(cached).params
    ensures var pre := "if (func_name == #" + Compared(plain) + HelperCall;
            BodyText(HelperAttachDef(plain).body) == pre + "); }"
            && BodyText(HelperAttachDef(cached).body) == pre + ", true" + "); }"
  {
    TextOfFive("if (func_name == #", Compared(plain), HelperCall, "", "); }");
    TextOfFive("if (func_name == #", Compared(cached), HelperCall, ", true", "); }");
  }

  lemma TextOfFive(a: string, b: string, c: string, d: string, e: string)
    ensures BodyText([Text(a), Text(b), Text(c), Text(d), Text(e)]) == a + b + c + d + e
  {
    var s := [Text(a), Text(b), Text(c), Text(d), Text(e)];
    assert s[1..][1..][1..][1..][1..] == [];
    assert BodyText(s[1..][1..][1..][1..]) == e;
    assert BodyText(s[1..][1..][1..]) == d + e;
    assert BodyText(s[1..][1..]) == c + (d + e);
    assert BodyText(s[1..]) == b + (c + (d + e));
  }

  /** The alias macros compare FUNC_ALIAS but hand FUNCNAME to dispatch_func. */
  lemma AliasComparesAliasDispatchesName(k: AttachKind, target: string, alias: string)
    requires k.IsAlias()
    ensures HelperAttachDef(k).params == ["FUNCNAME", "FUNC_ALIAS"]
    ensures Compared(k) == "FUNC_ALIAS"
    ensures BranchOf(k, [target, alias]) == Some(Branch(alias, target, k.IsCached()))
  {
  }

  /**
   * The default dispatch of the header on a called name: the attach chain of
   * the listed names at depth 30, then the error recorded on the object.
   */
  function HelperDispatchRun(names: seq<string>, called: string): Option<DispatchOutcome>
  {
    DefaultDispatchRun(IntendedMessage, HelperDepth, names, called)
  }

  /** A listed name is dispatched; any other name falls through every branch and gets the error naming it. */
  lemma HelperDispatchSetsErrorLast(names: seq<string>, called: string)
    requires 1 <= |names| <= 30
    ensures called in names ==> HelperDispatchRun(names, called) == Some(Dispatched(called, false))
    ensures called !in names ==>
              HelperDispatchRun(names, called)
                == Some(NotFound("RPC error: Called function: \"" + called + "\" not found!"))
  {
    DefaultDispatchFindsListed(IntendedMessage, HelperDepth, names, called);
    IntendedMessageNamesFunction(called, called);
  }

  // ------------------------------------------------------------------
  // Definition order in the header
  // ------------------------------------------------------------------

  lemma HelperGroupInOrder(k: AttachKind, known: set<MacroId>)
    requires Expand in known && ForEach(if k.IsAlias() then Pair else Single) in known
    ensures DefinedInOrder(HelperGroup(k), known)
    ensures AttachAll(k) in DefinedIds(HelperGroup(k))
  {
    HelperAttachUsesNone(k);
    HelperAllUsesKnown(k, known);
    PairInOrder(HelperAttachDef(k), AttachAllDef(k), known);
    AttachAllId(k);
  }

  lemma HelperAttachUsesNone(k: AttachKind)
    ensures Uses(HelperAttachDef(k).body) == []
  {
    UsesOfTexts(HelperAttachDef(k).body);
  }

  lemma HelperAllUsesKnown(k: AttachKind, known: set<MacroId>)
    requires Expand in known && ForEach(if k.IsAlias() then Pair else Single) in known
    ensures forall id :: id in Uses(AttachAllDef(k).body) ==> id in known + {HelperAttachDef(k).id}
  {
    AttachAllUses(k);
  }

  lemma UsesOfTexts(body: seq<Piece>)
    requires forall i :: 0 <= i < |body| ==> body[i].Text?
    ensures Uses(body) == []
  {
    if |body| > 0 {
      UsesOfTexts(body[1..]);
    }
  }

  lemma PairInOrder(d1: Define, d2: Define, known: set<MacroId>)
    requires Uses(d1.body) == []
    requires forall id :: id in Uses(d2.body) ==> id in known + {d1.id}
    ensures DefinedInOrder([Def(d1, "\n"), Def(d2, "\n\n")], known)
    ensures d2.id in DefinedIds([Def(d1, "\n"), Def(d2, "\n\n")])
  {
    var a := Def(d1, "\n");
    var b := Def(d2, "\n\n");
    var k1 := known + {d1.id};
    InOrderNil(k1 + {d2.id});
    InOrderCons(b, [], k1);
    InOrderCons(a, [b], known);
    assert [a, b] == [a] + [b];
  }

  lemma HelperLaddersInOrder(n: int, known: set<MacroId>)
    ensures DefinedInOrder(HelperLadders(n), known)
    ensures Expand in DefinedIds(HelperLadders(n))
    ensures ForEach(Single) in DefinedIds(HelperLadders(n)) && ForEach(Pair) in DefinedIds(HelperLadders(n))
  {
    HelperLaddersAreGenerated(n);
    FrontInOrder(n);
    DropDirectives(Front(n), known);
  }

  /** Dropping a first two and a last item that define nothing keeps a sequence in order. */
  lemma DropDirectives(f: seq<Item>, known: set<MacroId>)
    requires |f| >= 3 && !f[0].Def? && !f[1].Def? && !f[|f| - 1].Def?
    requires DefinedInOrder(f, {})
    ensures DefinedInOrder(f[2..|f| - 1], known)
    ensures DefinedIds(f[2..|f| - 1]) == DefinedIds(f)
  {
    var m := f[2..|f| - 1];
    assert f == [f[0], f[1]] + (m + [f[|f| - 1]]);
    InOrderSplit([f[0], f[1]], m + [f[|f| - 1]], {});
    assert DefinedIds([f[0], f[1]]) == {} by {
      assert [f[1]][1..] == [];
      assert DefinedIds([f[1]]) == {};
      assert [f[0], f[1]][1..] == [f[1]];
    }
    InOrderSplit(m, [f[|f| - 1]], {});
    InOrderMonotone(m, {}, known);
    DefinedIdsAppend(m, [f[|f| - 1]]);
    assert DefinedIds([f[|f| - 1]]) == {} by { assert [f[|f| - 1]][1..] == []; }
    DefinedIdsAppend([f[0], f[1]], m + [f[|f| - 1]]);
  }

  /** The first part of a sequence read in order is itself in order, and leaves its definitions known. */
  lemma {:induction false} InOrderSplit(a: seq<Item>, b: seq<Item>, known: set<MacroId>)
    requires DefinedInOrder(a + b, known)
    ensures DefinedInOrder(a, known) && DefinedInOrder(b, known + DefinedIds(a))
    decreases |a|
  {
    if |a| == 0 {
      assert a + b == b;
      assert known + DefinedIds(a) == known;
    } else {
      assert (a + b)[0] == a[0];
      assert (a + b)[1..] == a[1..] + b;
      InOrderSplit(a[1..], b, known + IdOf(a[0]));
      assert known + DefinedIds(a) == (known + IdOf(a[0])) + DefinedIds(a[1..]);
    }
  }

  lemma HelperGroupsInOrder(known: set<MacroId>)
    requires Expand in known && ForEach(Single) in known && ForEach(Pair) in known
    ensures DefinedInOrder(HelperGroups(), known)
    ensures AttachAll(Plain) in DefinedIds(HelperGroups())
  {
    var acc := HelperGroup(Plain);
    HelperGroupInOrder(Plain, known);
    HelperGroupInOrder(Cached, known + DefinedIds(acc));
    InOrderAppend(acc, HelperGroup(Cached), known);
    acc := acc + HelperGroup(Cached);
    HelperGroupInOrder(Alias, known + DefinedIds(acc));
    InOrderAppend(acc, HelperGroup(Alias), known);
    acc := acc + HelperGroup(Alias);
    HelperGroupInOrder(AliasCached, known + DefinedIds(acc));
    InOrderAppend(acc, HelperGroup(AliasCached), known);
  }

  lemma HelperDispatchInOrder(known: set<MacroId>)
    requires Expand in known && AttachAll(Plain) in known
    ensures DefinedInOrder([Def(HelperDispatchDef(), "\n")], known)
  {
    var t1 := HelperDispatchOpen;
    var t2 := HelperSetError + TokensText(IntendedMessage) + ");})";
    DispatchShapeInOrder(t1, t2, known);
  }

  lemma DispatchShapeInOrder(t1: string, t2: string, known: set<MacroId>)
    requires Expand in known && AttachAll(Plain) in known
    ensures DefinedInOrder([Def(Define(DefaultDispatch, ["FUNCNAME"], Rest,
                                       [Use(Expand), Text(t1), Use(AttachAll(Plain)), Text(t2)]), "\n")], known)
  {
    var last := Def(Define(DefaultDispatch, ["FUNCNAME"], Rest, [Use(Expand), Text(t1), Use(AttachAll(Plain)), Text(t2)]), "\n");
    UsesTwo(Expand, t1, AttachAll(Plain), t2);
    InOrderNil(known + {DefaultDispatch});
    InOrderCons(last, [], known);
    assert [last] + [] == [last];
  }

  lemma Regroup(h: seq<Item>, l: seq<Item>, b: seq<Item>, g: seq<Item>, t: seq<Item>)
    ensures h + l + b + g + t == (h + (l + b)) + (g + t)
  {
  }

  lemma HelperFrontInOrder(n: int)
    ensures var a := [Directive("#pragma once", "\n\n")] + (HelperLadders(n) + [Blank]);
            DefinedInOrder(a, {}) && Expand in DefinedIds(a)
            && ForEach(Single) in DefinedIds(a) && ForEach(Pair) in DefinedIds(a)
  {
    var head := [Directive("#pragma once", "\n\n")];
    var l := HelperLadders(n);
    HelperLaddersInOrder(n, {});
    InOrderNil(DefinedIds(l));
    InOrderCons(Blank, [], {} + DefinedIds(l));
    assert [Blank] + [] == [Blank];
    InOrderAppend(l, [Blank], {});
    InOrderNil({});
    InOrderCons(head[0], [], {});
    assert head == [head[0]] + [];
    InOrderMonotone(l + [Blank], {}, {} + DefinedIds(head));
    InOrderAppend(head, l + [Blank], {});
  }

  /** Three parts, each in order given the definitions of the ones before it. */
  lemma PartsEarlier(a: seq<Item>, g: seq<Item>, t: seq<Item>)
    requires DefinedInOrder(a, {})
    requires DefinedInOrder(g, {} + DefinedIds(a))
    requires DefinedInOrder(t, {} + DefinedIds(a) + DefinedIds(g))
    ensures UsesDefinedEarlier(a + (g + t))
  {
    InOrderAppend(g, t, {} + DefinedIds(a));
    InOrderAppend(a, g + t, {});
    InOrderMeansEarlier(a + (g + t), {});
  }

  /** The server macros after any in-order prefix that defines EXPAND and both selectors. */
  lemma ServerPartAfter(a: seq<Item>)
    requires DefinedInOrder(a, {})
    requires Expand in DefinedIds(a) && ForEach(Single) in DefinedIds(a) && ForEach(Pair) in DefinedIds(a)
    ensures UsesDefinedEarlier(a + (HelperGroups() + [Def(HelperDispatchDef(), "\n")]))
  {
    var ka := {} + DefinedIds(a);
    HelperGroupsInOrder(ka);
    var kg := ka + DefinedIds(HelperGroups());
    HelperDispatchInOrder(kg);
    PartsEarlier(a, HelperGroups(), [Def(HelperDispatchDef(), "\n")]);
  }

  /** In the header too, every macro a definition refers to is defined on an earlier line. */
  lemma HelperDefinesBeforeUse(n: int)
    ensures UsesDefinedEarlier(HelperItems(n))
  {
    var a := [Directive("#pragma once", "\n\n")] + (HelperLadders(n) + [Blank]);
    HelperFrontInOrder(n);
    ServerPartAfter(a);
    Regroup([Directive("#pragma once", "\n\n")], HelperLadders(n), [Blank], HelperGroups(), [Def(HelperDispatchDef(), "\n")]);
  }
}

=== FILE: for_each.dfy ===
/**
 * include/impl/detail/for_each.hpp: for_each_tuple and tuple_bind.
 *
 * A tuple is a sequence of values; a destination argument carries, besides
 * its value, whether it is bound as a non-const, non-pointer reference
 * (traits.hpp's is_ref_arg), which is the only thing tuple_bind asks of its type.
 */
module ForEach {
  import opened Values

  /**
   * for_each_tuple with a function that folds a state over the elements: the
   * state after applying it to each element once, in index order
   * (ForEachVisitsInOrder states this).
   */
  function ForEachTuple<S>(tuple: seq<Value>, f: (S, Value) -> S, s: S): S
  {
    if |tuple| == 0 then s else ForEachTuple(tuple[1..], f, f(s, tuple[0]))
  }

  /** Applications, recorded as a log: element i is logged i-th. */
  function LogCall(log: seq<Value>, v: Value): seq<Value>
  {
    log + [v]
  }

  /**
   * for_each_tuple visits each element exactly once, in index order: a
   * function that appends what it sees logs exactly the tuple.
   */
  lemma {:induction false} ForEachVisitsInOrder(tuple: seq<Value>, log: seq<Value>)
    ensures ForEachTuple(tuple, LogCall, log) == log + tuple
  {
    if |tuple| > 0 {
      ForEachVisitsInOrder(tuple[1..], log + [tuple[0]]);
      assert log + [tuple[0]] + tuple[1..] == log + tuple;
    }
  }

  /** A destination argument of tuple_bind. */
  datatype Dest = Dest(value: Value, isRefArg: bool)

  /**
   * tuple_bind: destination i receives source element i when it is a
   * writable reference, and keeps its value otherwise; source and
   * destination are matched position by position.
   */
  function TupleBind(src: seq<Value>, dest: seq<Dest>): (out: seq<Dest>)
    requires |src| == |dest|
    ensures |out| == |dest|
    ensures forall i :: 0 <= i < |dest| ==> out[i].isRefArg == dest[i].isRefArg
    ensures forall i :: 0 <= i < |dest| && dest[i].isRefArg ==> out[i].value == src[i]
    ensures forall i :: 0 <= i < |dest| && !dest[i].isRefArg ==> out[i] == dest[i]
  {
    if |dest| == 0 then []
    else
      var d := if dest[0].isRefArg then dest[0].(value := src[0]) else dest[0];
      [d] + TupleBind(src[1..], dest[1..])
  }

  /** traits.hpp's has_ref_args: some argument is a writable reference. */
  predicate HasRefArgs(dest: seq<Dest>)
  {
    exists i :: 0 <= i < |dest| && dest[i].isRefArg
  }

  /**
   * tuple_bind changes nothing unless some destination is a writable
   * reference, and binding the same source a second time changes nothing
   * more. The tuple_bind modelled here has no static_assert against the
   * first case, and call_func_w_bind calls it whatever its arguments; only
   * the single header's copy of tuple_bind rejects it at compile time.
   */
  lemma TupleBindIdempotent(src: seq<Value>, dest: seq<Dest>)
    requires |src| == |dest|
    ensures !HasRefArgs(dest) ==> TupleBind(src, dest) == dest
    ensures TupleBind(src, TupleBind(src, dest)) == TupleBind(src, dest)
  {
    var once := TupleBind(src, dest);
    if !HasRefArgs(dest) {
      assert forall i :: 0 <= i < |dest| ==> once[i] == dest[i];
    }
    var twice := TupleBind(src, once);
    assert forall i :: 0 <= i < |once| ==> twice[i] == once[i];
  }
}

=== FILE: helper_text.dfy ===
/**
 * The ladder and selector lines of include/rpc_dispatch_helper.hpp (lines 3
 * to 71), transcribed as the header writes them: each line is its literal
 * text with the level numbers left open, so that the same transcription
 * covers a header generated for any depth (the checked-in one is depth 30).
 * The lemmas show that the generator's rendering of those lines is exactly
 * this text.
 */
module HelperText {
  import opened DispatchGen
  import opened DispatchHelper

  /** Line 3 and the blank line under it. */
  const ExpandLine: string := "#define EXPAND(x) x\n\n"

  // The longer fixed stretches of the ladder and selector lines.
  const FeMiddle: string := "(WHAT, X, ...) EXPAND(WHAT(X)RPC_FE_"
  const FeEnd: string := "(WHAT, __VA_ARGS__))\n"
  const Fe2Middle: string := "(WHAT, X, Y, ...) EXPAND(WHAT(X, Y)RPC_FE2_"
  const Fe2End: string := "(WHAT, X, __VA_ARGS__))\n"
  const ForEachParams: string := "(ACTION, ...) "
  const ForEachCall: string := "EXPAND(" + "RPC_GET_MACRO(_0, __VA_ARGS__, "
  const ForEachClose: string := "0)(ACTION, __VA_ARGS__))\n"

  /** The line of level k of the first ladder (lines 5 to 35 at depth 30). */
  function FeLine(k: nat): string
  {
    if k == 0 then "#define RPC_FE_0" + "(WHAT)\n"
    else if k == 1 then "#define RPC_FE_1" + "(WHAT, X) WHAT(X)\n"
    else "#define RPC_FE_" + Decimal(k) + FeMiddle + Decimal(k - 1) + FeEnd
  }

  /** The line of level k of the pair ladder (lines 37 to 67 at depth 30). */
  function Fe2Line(k: nat): string
  {
    if k == 0 then "#define RPC_FE2_0" + "(WHAT)\n"
    else if k == 1 then "#define RPC_FE2_1" + "(WHAT, X)\n"
    else if k == 2 then "#define RPC_FE2_2" + "(WHAT, X, Y) WHAT(X, Y)\n"
    else "#define RPC_FE2_" + Decimal(k) + Fe2Middle + Decimal(k - 1) + Fe2End
  }

  /** The line of level k of a ladder. */
  function LadderLine(f: Family, k: nat): string
  {
    if f == Single then FeLine(k) else Fe2Line(k)
  }

  /** Levels 0 to m of a ladder, one line each. */
  function Lines(f: Family, m: nat): string
  {
    if m == 0 then LadderLine(f, 0) else Lines(f, m - 1) + LadderLine(f, m)
  }

  /** `_i, _(i+1), ..., _n, ` as RPC_GET_MACRO's parameter list spells it. */
  function Placeholder(i: nat, n: nat): string
    decreases n - i
  {
    if i > n then "" else "_" + Decimal(i) + ", " + Placeholder(i + 1, n)
  }

  /** `Pk, P(k-1), ..., P1, ` for a ladder prefix P. */
  function Downward(prefix: string, k: nat): string
  {
    if k == 0 then "" else prefix + Decimal(k) + ", " + Downward(prefix, k - 1)
  }

  /** Line 69. */
  function GetMacroLine(n: nat): string
  {
    "#define RPC_GET_MACRO(" + Placeholder(0, n) + "NAME, ...) NAME\n"
  }

  /** Lines 70 and 71: the selector of each ladder, top level first. */
  function ForEachLine(name: string, prefix: string, n: nat): string
  {
    "#define " + name + ForEachParams + ForEachCall + Downward(prefix, n) + prefix + ForEachClose
  }

  /** Lines 3 to 71 of a header generated for depth n. */
  function LadderText(n: nat): string
  {
    ExpandLine + Lines(Single, n) + "\n" + Lines(Pair, n) + "\n"
      + GetMacroLine(n) + ForEachLine("RPC_FOR_EACH", "RPC_FE_", n) + ForEachLine("RPC_FOR_EACH2", "RPC_FE2_", n)
  }


  /** The generator renders each forwarding level (k >= 2) of the first ladder as the header's line. */
  lemma FeForwardRendered(k: nat)
    requires k >= 2
    ensures ItemText(Def(LadderDef(Single, k), "\n")) == LadderLine(Single, k)
  {
    var d := LadderDef(Single, k);
    FeForwardPieces(k);
    LineShape("#define ", "RPC_FE_", Decimal(k), ParamsText(d.params, d.rest), "EXPAND", "(WHAT(X)",
              "RPC_FE_", Decimal(k - 1), "(WHAT, __VA_ARGS__))", "\n");
    FeJoins();
  }

  /** The parameter list and body of a forwarding level of the first ladder, as text. */
  lemma FeForwardPieces(k: nat)
    requires k >= 2
    ensures var d := LadderDef(Single, k);
            ParamsText(d.params, d.rest) == "WHAT, X, ..."
            && BodyText(d.body) == "EXPAND" + ("(WHAT(X)" + (("RPC_FE_" + Decimal(k - 1)) + ("(WHAT, __VA_ARGS__))" + "")))
  {
    var d := LadderDef(Single, k);
    var b := d.body;
    assert b[1..][1..][1..][1..] == [];
    assert BodyText(b[1..][1..][1..]) == "(WHAT, __VA_ARGS__))" + "";
    assert BodyText(b[1..][1..]) == ("RPC_FE_" + Decimal(k - 1)) + ("(WHAT, __VA_ARGS__))" + "");
    assert "WHAT" + ", " == "WHAT, ";
    assert "WHAT, " + "X" == "WHAT, X";
    assert "WHAT, X" + ", ..." == "WHAT, X, ...";
  }

  lemma FeJoins()
    ensures "#define " + "RPC_FE_" == "#define RPC_FE_"
    ensures "(" + "WHAT, X, ..." + ")" + " " + "EXPAND" + "(WHAT(X)" + "RPC_FE_" == FeMiddle
    ensures "(WHAT, __VA_ARGS__))" + "\n" == FeEnd
  {
    assert "(" + "WHAT, X, ..." == "(WHAT, X, ...";
    assert "(WHAT, X, ..." + ")" == "(WHAT, X, ...)";
    assert "(WHAT, X, ...)" + " " == "(WHAT, X, ...) ";
    assert "(WHAT, X, ...) " + "EXPAND" == "(WHAT, X, ...) EXPAND";
    assert "(WHAT, X, ...) EXPAND" + "(WHAT(X)" == "(WHAT, X, ...) EXPAND(WHAT(X)";
    assert "(WHAT, X, ...) EXPAND(WHAT(X)" + "RPC_FE_" == "(WHAT, X, ...) EXPAND(WHAT(X)RPC_FE_";
  }

  // The lowest levels of each ladder, which do not forward, one line each.

  lemma FeLine0Rendered()
    ensures ItemText(Def(LadderDef(Single, 0), "\n")) == LadderLine(Single, 0)
  {
    var d := LadderDef(Single, 0);
    assert Name(d.id) == "RPC_FE_0" by {
      assert Decimal(0) == "0";
      assert "RPC_FE_" + "0" == "RPC_FE_0";
    }
    assert ParamsText(d.params, d.rest) == "WHAT";
    assert |d.body| == 0;
    FeLine0Text();
  }

  lemma FeLine0Text()
    ensures "#define " + "RPC_FE_0" + "(" + "WHAT" + ")" + "" + "\n" == "#define RPC_FE_0" + "(WHAT)\n"
  {
    BaseShape("#define ", "RPC_FE_0", "WHAT", "", "\n");
    assert "#define " + "RPC_FE_0" == "#define RPC_FE_0";
    assert "(" + "WHAT" == "(WHAT";
    assert "(WHAT" + ")" == "(WHAT)";
    assert "(WHAT)" + "\n" == "(WHAT)\n";
  }

  lemma FeLine1Rendered()
    ensures ItemText(Def(LadderDef(Single, 1), "\n")) == LadderLine(Single, 1)
  {
    var d := LadderDef(Single, 1);
    assert Name(d.id) == "RPC_FE_1" by {
      assert Decimal(1) == "1";
      assert "RPC_FE_" + "1" == "RPC_FE_1";
    }
    assert ParamsText(d.params, d.rest) == "WHAT, X";
    assert BodyText(d.body) == "WHAT(X)";
    assert " " + BodyText(d.body) == " WHAT(X)";
    FeLine1Text();
  }

  lemma FeLine1Text()
    ensures "#define " + "RPC_FE_1" + "(" + "WHAT, X" + ")" + " WHAT(X)" + "\n" == "#define RPC_FE_1" + "(WHAT, X) WHAT(X)\n"
  {
    BaseShape("#define ", "RPC_FE_1", "WHAT, X", " WHAT(X)", "\n");
    assert "#define " + "RPC_FE_1" == "#define RPC_FE_1";
    assert "(" + "WHAT, X" == "(WHAT, X";
    assert "(WHAT, X" + ")" == "(WHAT, X)";
    assert "(WHAT, X)" + " WHAT(X)" == "(WHAT, X) WHAT(X)";
    assert "(WHAT, X) WHAT(X)" + "\n" == "(WHAT, X) WHAT(X)\n";
  }

  lemma Fe2Line0Rendered()
    ensures ItemText(Def(LadderDef(Pair, 0), "\n")) == LadderLine(Pair, 0)
  {
    var d := LadderDef(Pair, 0);
    assert Name(d.id) == "RPC_FE2_0" by {
      assert Decimal(0) == "0";
      assert "RPC_FE2_" + "0" == "RPC_FE2_0";
    }
    assert ParamsText(d.params, d.rest) == "WHAT";
    assert |d.body| == 0;
    Fe2Line0Text();
  }

  lemma Fe2Line0Text()
    ensures "#define " + "RPC_FE2_0" + "(" + "WHAT" + ")" + "" + "\n" == "#define RPC_FE2_0" + "(WHAT)\n"
  {
    BaseShape("#define ", "RPC_FE2_0", "WHAT", "", "\n");
    assert "#define " + "RPC_FE2_0" == "#define RPC_FE2_0";
    assert "(" + "WHAT" == "(WHAT";
    assert "(WHAT" + ")" == "(WHAT)";
    assert "(WHAT)" + "\n" == "(WHAT)\n";
  }

  lemma Fe2Line1Rendered()
    ensures ItemText(Def(LadderDef(Pair, 1), "\n")) == LadderLine(Pair, 1)
  {
    var d := LadderDef(Pair, 1);
    assert Name(d.id) == "RPC_FE2_1" by {
      assert Decimal(1) == "1";
      assert "RPC_FE2_" + "1" == "RPC_FE2_1";
    }
    assert ParamsText(d.params, d.rest) == "WHAT, X";
    assert |d.body| == 0;
    Fe2Line1Text();
  }

  lemma Fe2Line1Text()
    ensures "#define " + "RPC_FE2_1" + "(" + "WHAT, X" + ")" + "" + "\n" == "#define RPC_FE2_1" + "(WHAT, X)\n"
  {
    BaseShape("#define ", "RPC_FE2_1", "WHAT, X", "", "\n");
    assert "#define " + "RPC_FE2_1" == "#define RPC_FE2_1";
    assert "(" + "WHAT, X" == "(WHAT, X";
    assert "(WHAT, X" + ")" == "(WHAT, X)";
    assert "(WHAT, X)" + "\n" == "(WHAT, X)\n";
  }

  lemma Fe2Line2Rendered()
    ensures ItemText(Def(LadderDef(Pair, 2), "\n")) == LadderLine(Pair, 2)
  {
    var d := LadderDef(Pair, 2);
    assert Name(d.id) == "RPC_FE2_2" by {
      assert Decimal(2) == "2";
      assert "RPC_FE2_" + "2" == "RPC_FE2_2";
    }
    Fe2Line2Pieces();
    assert " " + BodyText(d.body) == " WHAT(X, Y)";
    Fe2Line2Text();
  }

  lemma Fe2Line2Text()
    ensures "#define " + "RPC_FE2_2" + "(" + "WHAT, X, Y" + ")" + " WHAT(X, Y)" + "\n" == "#define RPC_FE2_2" + "(WHAT, X, Y) WHAT(X, Y)\n"
  {
    BaseShape("#define ", "RPC_FE2_2", "WHAT, X, Y", " WHAT(X, Y)", "\n");
    assert "#define " + "RPC_FE2_2" == "#define RPC_FE2_2";
    assert "(" + "WHAT, X, Y" == "(WHAT, X, Y";
    assert "(WHAT, X, Y" + ")" == "(WHAT, X, Y)";
    assert "(WHAT, X, Y)" + " WHAT(X, Y)" == "(WHAT, X, Y) WHAT(X, Y)";
    assert "(WHAT, X, Y) WHAT(X, Y)" + "\n" == "(WHAT, X, Y) WHAT(X, Y)\n";
  }

  /** A rendered define line, split after the macro's name. */
  lemma BaseShape(k1: string, name: string, pt: string, tail: string, nl: string)
    ensures k1 + name + "(" + pt + ")" + tail + nl == (k1 + name) + ("(" + pt + ")" + tail + nl)
  {
  }

  lemma Fe2Line2Pieces()
    ensures var d := LadderDef(Pair, 2);
            ParamsText(d.params, d.rest) == "WHAT, X, Y" && BodyText(d.body) == "WHAT(X, Y)"
  {
    assert "WHAT" + ", " == "WHAT, ";
    assert "X" + ", " == "X, ";
    assert "X, " + "Y" == "X, Y";
    assert "WHAT, " + "X, Y" == "WHAT, X, Y";
  }

  /** The generator renders each forwarding level (k >= 3) of the pair ladder as the header's line. */
  lemma Fe2ForwardRendered(k: nat)
    requires k >= 3
    ensures ItemText(Def(LadderDef(Pair, k), "\n")) == LadderLine(Pair, k)
  {
    var d := LadderDef(Pair, k);
    Fe2ForwardPieces(k);
    LineShape("#define ", "RPC_FE2_", Decimal(k), ParamsText(d.params, d.rest), "EXPAND", "(WHAT(X, Y)",
              "RPC_FE2_", Decimal(k - 1), "(WHAT, X, __VA_ARGS__))", "\n");
    Fe2Joins();
  }

  /** The parameter list and body of a forwarding level of the pair ladder, as text. */
  lemma Fe2ForwardPieces(k: nat)
    requires k >= 3
    ensures var d := LadderDef(Pair, k);
            ParamsText(d.params, d.rest) == "WHAT, X, Y, ..."
            && BodyText(d.body) == "EXPAND" + ("(WHAT(X, Y)" + (("RPC_FE2_" + Decimal(k - 1)) + ("(WHAT, X, __VA_ARGS__))" + "")))
  {
    var d := LadderDef(Pair, k);
    var b := d.body;
    assert b[1..][1..][1..][1..] == [];
    assert BodyText(b[1..][1..][1..]) == "(WHAT, X, __VA_ARGS__))" + "";
    assert BodyText(b[1..][1..]) == ("RPC_FE2_" + Decimal(k - 1)) + ("(WHAT, X, __VA_ARGS__))" + "");
    assert "WHAT" + ", " == "WHAT, ";
    assert "X" + ", " == "X, ";
    assert "X, " + "Y" == "X, Y";
    assert "WHAT, " + "X, Y" == "WHAT, X, Y";
    assert "WHAT, X, Y" + ", ..." == "WHAT, X, Y, ...";
  }

  lemma Fe2Joins()
    ensures "#define " + "RPC_FE2_" == "#define RPC_FE2_"
    ensures "(" + "WHAT, X, Y, ..." + ")" + " " + "EXPAND" + "(WHAT(X, Y)" + "RPC_FE2_" == Fe2Middle
    ensures "(WHAT, X, __VA_ARGS__))" + "\n" == Fe2End
  {
    assert "(" + "WHAT, X, Y, ..." == "(WHAT, X, Y, ...";
    assert "(WHAT, X, Y, ..." + ")" == "(WHAT, X, Y, ...)";
    assert "(WHAT, X, Y, ...)" + " " == "(WHAT, X, Y, ...) ";
    assert "(WHAT, X, Y, ...) " + "EXPAND" == "(WHAT, X, Y, ...) EXPAND";
    assert "(WHAT, X, Y, ...) EXPAND" + "(WHAT(X, Y)" == "(WHAT, X, Y, ...) EXPAND(WHAT(X, Y)";
    assert "(WHAT, X, Y, ...) EXPAND(WHAT(X, Y)" + "RPC_FE2_" == "(WHAT, X, Y, ...) EXPAND(WHAT(X, Y)RPC_FE2_";
  }

  /** Each line of either ladder is rendered as the header writes it. */
  lemma LadderLineRendered(f: Family, k: nat)
    ensures ItemText(Def(LadderDef(f, k), "\n")) == LadderLine(f, k)
  {
    if f == Single {
      if k == 0 { FeLine0Rendered(); } else if k == 1 { FeLine1Rendered(); } else { FeForwardRendered(k); }
    } else {
      if k == 0 { Fe2Line0Rendered(); } else if k == 1 { Fe2Line1Rendered(); }
      else if k == 2 { Fe2Line2Rendered(); } else { Fe2ForwardRendered(k); }
    }
  }

  /** The generator's lines for levels 0 to m of a ladder are the header's. */
  lemma {:induction false} LadderRunRendered(f: Family, m: nat)
    ensures FileText(LadderRun(f, m)) == Lines(f, m)
  {
    LadderLineRendered(f, m);
    LadderRunStep(f, m);
    if m > 0 {
      LadderRunRendered(f, m - 1);
    }
  }

  /** Rendering levels 0 to m adds level m's line to the rendering of the levels below. */
  lemma LadderRunStep(f: Family, m: nat)
    ensures m == 0 ==> FileText(LadderRun(f, m)) == ItemText(Def(LadderDef(f, m), "\n"))
    ensures m > 0 ==> FileText(LadderRun(f, m)) == FileText(LadderRun(f, m - 1)) + ItemText(Def(LadderDef(f, m), "\n"))
  {
    var item := Def(LadderDef(f, m), "\n");
    if m == 0 {
      assert LadderRun(f, 0) == [item];
    } else {
      assert LadderRun(f, m) == LadderRun(f, m - 1) + [item];
      FileTextAppend(LadderRun(f, m - 1), [item]);
    }
  }

  lemma {:induction false} FileTextAppend(a: seq<Item>, b: seq<Item>)
    ensures FileText(a + b) == FileText(a) + FileText(b)
  {
    if |a| > 0 {
      assert (a + b)[1..] == a[1..] + b;
      FileTextAppend(a[1..], b);
    } else {
      assert a + b == b;
    }
  }

  /**
   * A rendered forwarding line, regrouped so that the literal pieces around
   * its two numerals are joined.
   */
  lemma LineShape(k1: string, k2: string, dk: string, pt: string, e: string, b2: string, b3: string,
                  dp: string, b4: string, nl: string)
    ensures k1 + (k2 + dk) + "(" + pt + ")" + (" " + (e + (b2 + ((b3 + dp) + (b4 + ""))))) + nl
              == (k1 + k2) + dk + ("(" + pt + ")" + " " + e + b2 + b3) + dp + (b4 + nl)
  {
  }

  /** The generator renders line 3 (EXPAND) and the blank line under it as the header does. */
  lemma ExpandRendered()
    ensures ItemText(ExpandItem()) == ExpandLine
  {
    var d := Define(Expand, ["x"], NoRest, [Text("x")]);
    assert ParamsText(d.params, d.rest) == "x";
    assert BodyText(d.body) == "x";
    assert "#define " + "EXPAND" == "#define EXPAND";
    assert "#define EXPAND" + "(" == "#define EXPAND(";
    assert "x" + ")" == "x)";
    assert " " + "x" == " x";
    assert "x)" + " x" == "x) x";
    assert "#define EXPAND(" + "x) x" == "#define EXPAND(x) x";
    assert "#define EXPAND(x) x" + "\n\n" == "#define EXPAND(x) x\n\n";
  }

  /** RPC_GET_MACRO's parameters from _i on, followed by NAME, are Placeholder(i, n) + "NAME". */
  lemma {:induction false} PlaceholdersJoined(ps: seq<string>, i: nat, n: nat)
    requires |ps| == n + 1 && forall k :: 0 <= k <= n ==> ps[k] == "_" + Decimal(k)
    requires i <= n + 1
    ensures Join(ps[i..] + ["NAME"], ", ") == Placeholder(i, n) + "NAME"
    decreases n + 1 - i
  {
    if i == n + 1 {
      assert ps[i..] + ["NAME"] == ["NAME"];
    } else {
      PlaceholdersJoined(ps, i + 1, n);
      SliceCons(ps, i, "NAME");
      JoinCons(ps[i], ps[i + 1..] + ["NAME"], ", ");
      PlaceholderStep(i, n);
    }
  }

  lemma SliceCons<X>(xs: seq<X>, i: nat, x: X)
    requires i < |xs|
    ensures xs[i..] + [x] == [xs[i]] + (xs[i + 1..] + [x])
  {
  }

  lemma PlaceholderStep(i: nat, n: nat)
    requires i <= n
    ensures Placeholder(i, n) + "NAME" == "_" + Decimal(i) + ", " + (Placeholder(i + 1, n) + "NAME")
  {
  }

  lemma PlaceholdersSpelled(n: nat)
    ensures |Placeholders(n)| == n + 1 && forall k :: 0 <= k <= n ==> Placeholders(n)[k] == "_" + Decimal(k)
  {
  }

  /** Joining a non-empty list after a first element puts one separator between them. */
  lemma JoinCons(x: string, xs: seq<string>, sep: string)
    requires |xs| > 0
    ensures Join([x] + xs, sep) == x + sep + Join(xs, sep)
  {
    assert ([x] + xs)[1..] == xs;
  }

  /** The generator renders RPC_GET_MACRO (line 69 at depth 30) as the header does. */
  lemma GetMacroRendered(n: nat)
    ensures ItemText(Def(GetMacroDef(n), "\n")) == GetMacroLine(n)
  {
    var d := GetMacroDef(n);
    var p := Placeholder(0, n);
    GetMacroParams(n);
    assert BodyText(d.body) == "NAME";
    GetMacroShape("#define ", "RPC_GET_MACRO", p, "NAME", ", ...", "NAME", "\n");
    GetMacroJoins();
  }

  lemma GetMacroParams(n: nat)
    ensures ParamsText(GetMacroDef(n).params, GetMacroDef(n).rest) == Placeholder(0, n) + "NAME" + ", ..."
  {
    PlaceholdersSpelled(n);
    PlaceholdersJoined(Placeholders(n), 0, n);
    assert Placeholders(n)[0..] == Placeholders(n);
  }

  lemma GetMacroJoins()
    ensures "#define " + "RPC_GET_MACRO" + "(" == "#define RPC_GET_MACRO("
    ensures "NAME" + ", ..." + ")" + " " + "NAME" + "\n" == "NAME, ...) NAME\n"
  {
    assert "#define " + "RPC_GET_MACRO" == "#define RPC_GET_MACRO";
    assert "#define RPC_GET_MACRO" + "(" == "#define RPC_GET_MACRO(";
    assert "NAME" + ", ..." == "NAME, ...";
    assert "NAME, ..." + ")" == "NAME, ...)";
    assert "NAME, ...)" + " " == "NAME, ...) ";
    assert "NAME, ...) " + "NAME" == "NAME, ...) NAME";
    assert "NAME, ...) NAME" + "\n" == "NAME, ...) NAME\n";
  }

  lemma GetMacroShape(a: string, b: string, p: string, c: string, r: string, e: string, nl: string)
    ensures a + b + "(" + (p + c + r) + ")" + (" " + e) + nl == (a + b + "(") + p + (c + r + ")" + " " + e + nl)
  {
  }

  lemma {:induction false} BodyTextAppend(a: seq<Piece>, b: seq<Piece>)
    ensures BodyText(a + b) == BodyText(a) + BodyText(b)
  {
    if |a| > 0 {
      assert (a + b)[1..] == a[1..] + b;
      BodyTextAppend(a[1..], b);
    } else {
      assert a + b == b;
    }
  }

  /** The candidate list a selector hands to RPC_GET_MACRO reads Pk, ..., P1 with separators. */
  lemma {:induction false} DescendingRendered(f: Family, k: nat)
    ensures BodyText(Descending(f, k)) == Downward(LadderPrefix(f), k)
  {
    if k > 0 {
      var two: seq<Piece> := [Use(Ladder(f, k)), Text(", ")];
      BodyTextAppend(two, Descending(f, k - 1));
      assert two[1..][1..] == [];
      assert BodyText(two) == LadderPrefix(f) + Decimal(k) + ", ";
      DescendingRendered(f, k - 1);
    }
  }

  /** The generator renders RPC_FOR_EACH and RPC_FOR_EACH2 (lines 70 and 71 at depth 30) as the header does. */
  lemma ForEachRendered(f: Family, n: nat)
    ensures ItemText(Def(ForEachDef(f, n), "\n"))
              == ForEachLine(if f == Single then "RPC_FOR_EACH" else "RPC_FOR_EACH2", LadderPrefix(f), n)
  {
    var d := ForEachDef(f, n);
    var px := LadderPrefix(f);
    ForEachBody(f, n);
    assert ParamsText(d.params, d.rest) == "ACTION, ..." by {
      assert "ACTION" + ", ..." == "ACTION, ...";
    }
    ForEachShape("#define ", Name(ForEach(f)), "ACTION, ...", ForEachCall, Downward(px, n), px, SelectorEnd);
    ForEachJoins();
  }

  /** A selector's body as text: the call of RPC_GET_MACRO, the candidates, and level 0. */
  lemma ForEachBody(f: Family, n: nat)
    ensures BodyText(ForEachDef(f, n).body) == ForEachCall + Downward(LadderPrefix(f), n) + (LadderPrefix(f) + SelectorEnd)
  {
    var head: seq<Piece> := [Use(Expand), Text("("), Use(GetMacro), Text("(_0, __VA_ARGS__, ")];
    var tail: seq<Piece> := [Use(Ladder(f, 0)), Text(")(ACTION, __VA_ARGS__))")];
    assert ForEachDef(f, n).body == head + Descending(f, n) + tail;
    BodyTextAppend(head + Descending(f, n), tail);
    BodyTextAppend(head, Descending(f, n));
    SelectorHead();
    SelectorTail(f);
    DescendingRendered(f, n);
  }

  /** What a selector writes after its candidates: level 0 and the call's arguments. */
  const SelectorEnd: string := "0)(ACTION, __VA_ARGS__))"

  lemma SelectorHead()
    ensures BodyText([Use(Expand), Text("("), Use(GetMacro), Text("(_0, __VA_ARGS__, ")]) == ForEachCall
  {
    var h: seq<Piece> := [Use(Expand), Text("("), Use(GetMacro), Text("(_0, __VA_ARGS__, ")];
    assert h[1..][1..][1..][1..] == [];
    assert BodyText(h[1..][1..][1..]) == "(_0, __VA_ARGS__, " + "";
    assert BodyText(h[1..][1..]) == "RPC_GET_MACRO" + ("(_0, __VA_ARGS__, " + "");
    assert BodyText(h[1..]) == "(" + ("RPC_GET_MACRO" + ("(_0, __VA_ARGS__, " + ""));
    Regroup4("EXPAND", "(", "RPC_GET_MACRO", "(_0, __VA_ARGS__, ");
    SelectorHeadJoins();
  }

  lemma Regroup4(a: string, b: string, c: string, d: string)
    ensures a + (b + (c + (d + ""))) == a + b + c + d
  {
  }

  lemma SelectorHeadJoins()
    ensures "EXPAND" + "(" + "RPC_GET_MACRO" + "(_0, __VA_ARGS__, " == ForEachCall
  {
    assert "EXPAND" + "(" == "EXPAND(";
    assert "RPC_GET_MACRO" + "(_0, __VA_ARGS__, " == "RPC_GET_MACRO(_0, __VA_ARGS__, ";
    Regroup3("EXPAND" + "(", "RPC_GET_MACRO", "(_0, __VA_ARGS__, ");
  }

  lemma Regroup3(a: string, b: string, c: string)
    ensures a + b + c == a + (b + c)
  {
  }

  lemma SelectorTail(f: Family)
    ensures BodyText([Use(Ladder(f, 0)), Text(")(ACTION, __VA_ARGS__))")]) == LadderPrefix(f) + SelectorEnd
  {
    var t: seq<Piece> := [Use(Ladder(f, 0)), Text(")(ACTION, __VA_ARGS__))")];
    assert t[1..][1..] == [];
    assert BodyText(t[1..]) == ")(ACTION, __VA_ARGS__))" + "";
    assert Name(Ladder(f, 0)) == LadderPrefix(f) + "0" by {
      assert Decimal(0) == "0";
    }
    SelectorTailJoins(LadderPrefix(f));
  }

  lemma SelectorTailJoins(px: string)
    ensures px + "0" + (")(ACTION, __VA_ARGS__))" + "") == px + SelectorEnd
  {
    assert ")(ACTION, __VA_ARGS__))" + "" == ")(ACTION, __VA_ARGS__))";
    assert "0" + ")(ACTION, __VA_ARGS__))" == SelectorEnd;
    assert px + "0" + ")(ACTION, __VA_ARGS__))" == px + ("0" + ")(ACTION, __VA_ARGS__))");
  }

  lemma ForEachShape(k: string, name: string, pt: string, h: string, dw: string, px: string, t: string)
    ensures k + name + "(" + pt + ")" + (" " + (h + dw + (px + t))) + "\n" == k + name + ("(" + pt + ")" + " ") + h + dw + px + (t + "\n")
  {
  }

  /** The fixed text around a selector's candidate list. */
  lemma ForEachJoins()
    ensures "(" + "ACTION, ..." + ")" + " " == ForEachParams
    ensures SelectorEnd + "\n" == ForEachClose
  {
    assert "(" + "ACTION, ..." == "(ACTION, ...";
    assert "(ACTION, ..." + ")" == "(ACTION, ...)";
    assert "(ACTION, ...)" + " " == "(ACTION, ...) ";
  }

  /** The blank line and the three selector lines (lines 68 to 71 at depth 30). */
  lemma SelectorDefsRendered(n: nat)
    ensures FileText(SelectorDefs(n))
              == "\n" + GetMacroLine(n) + ForEachLine("RPC_FOR_EACH", "RPC_FE_", n) + ForEachLine("RPC_FOR_EACH2", "RPC_FE2_", n)
  {
    var w := SelectorDefs(n);
    FileText4(w);
    assert ItemText(w[0]) == "\n";
    GetMacroRendered(n);
    ForEachRendered(Single, n);
    ForEachRendered(Pair, n);
    Substitute4(ItemText(w[0]), ItemText(w[1]), ItemText(w[2]), ItemText(w[3]), "\n", GetMacroLine(n),
                ForEachLine("RPC_FOR_EACH", "RPC_FE_", n), ForEachLine("RPC_FOR_EACH2", "RPC_FE2_", n));
  }

  lemma Substitute4(a: string, b: string, c: string, d: string, a': string, b': string, c': string, d': string)
    requires a == a' && b == b' && c == c' && d == d'
    ensures a + b + c + d == a' + b' + c' + d'
  {
  }

  lemma FileText4(w: seq<Item>)
    requires |w| == 4
    ensures FileText(w) == ItemText(w[0]) + ItemText(w[1]) + ItemText(w[2]) + ItemText(w[3])
  {
    FileTextHead(w);
    FileTextHead(w[1..]);
    FileTextHead(w[2..]);
    assert w[1..][1..] == w[2..] && w[2..][1..] == w[3..];
    FileText1(w[3]);
    assert w[3..] == [w[3]];
    Nest4(ItemText(w[0]), ItemText(w[1]), ItemText(w[2]), ItemText(w[3]));
  }

  lemma FileTextHead(w: seq<Item>)
    requires |w| > 0
    ensures FileText(w) == ItemText(w[0]) + FileText(w[1..])
  {
  }

  lemma Nest4(a: string, b: string, c: string, d: string)
    ensures a + (b + (c + d)) == a + b + c + d
  {
  }

  lemma FileTextCons(x: Item, xs: seq<Item>)
    ensures FileText([x] + xs) == ItemText(x) + FileText(xs)
  {
    assert ([x] + xs)[1..] == xs;
  }

  lemma FileText1(a: Item)
    ensures FileText([a]) == ItemText(a)
  {
    assert [a][1..] == [];
  }

  lemma FileText5(a: seq<Item>, b: seq<Item>, c: seq<Item>, d: seq<Item>, e: seq<Item>)
    ensures FileText(a + b + c + d + e) == FileText(a) + FileText(b) + FileText(c) + FileText(d) + FileText(e)
  {
    FileTextAppend(a + b + c + d, e);
    FileTextAppend(a + b + c, d);
    FileTextAppend(a + b, c);
    FileTextAppend(a, b);
  }

  /** The ladder part of the header as text, piece by piece. */
  lemma HelperLaddersPieces(n: nat)
    requires n >= 2
    ensures FileText(HelperLadders(n))
              == ItemText(ExpandItem()) + FileText(LadderRun(Single, n)) + "\n" + FileText(LadderRun(Pair, n)) + FileText(SelectorDefs(n))
  {
    HelperLaddersSplit(n);
    FileText5([ExpandItem()], LadderRun(Single, n), [Blank], LadderRun(Pair, n), SelectorDefs(n));
    FileText1(ExpandItem());
    FileText1(Blank);
  }

  lemma HelperLaddersSplit(n: nat)
    requires n >= 2
    ensures HelperLadders(n) == [ExpandItem()] + LadderRun(Single, n) + [Blank] + LadderRun(Pair, n) + SelectorDefs(n)
  {
    assert TopLevel(Single, n) == n && TopLevel(Pair, n) == n;
  }

  /**
   * Lines 3 to 71 of a header generated for depth n >= 2, as the generator
   * renders them, are the transcribed text; the checked-in header is depth 30.
   */
  lemma HelperLaddersRendered(n: nat)
    requires n >= 2
    ensures FileText(HelperLadders(n)) == LadderText(n)
    ensures FileText(Front(n)[2..|Front(n)| - 1]) == LadderText(n)
  {
    HelperLaddersAreGenerated(n);
    HelperLaddersPieces(n);
    ExpandRendered();
    LadderRunRendered(Single, n);
    LadderRunRendered(Pair, n);
    SelectorDefsRendered(n);
    Regroup8(ExpandLine, Lines(Single, n), "\n", Lines(Pair, n), "\n", GetMacroLine(n),
             ForEachLine("RPC_FOR_EACH", "RPC_FE_", n), ForEachLine("RPC_FOR_EACH2", "RPC_FE2_", n));
  }

  lemma Regroup8(a: string, b: string, c: string, d: string, e: string, f: string, g: string, h: string)
    ensures a + b + c + d + (e + f + g + h) == a + b + c + d + e + f + g + h
  {
  }
}

=== FILE: impl_exceptions.dfy ===
/**
 * The exception hierarchy of the modular generation of the library,
 * include/impl/rpc_exceptions.hpp. Its exception_type differs from the
 * single-header one: it has no function_bind, and it names its members
 * func_not_found and signature_mismatch.
 */
module ImplExceptions {
  import opened Wrappers
  import opened CStrings

  /** The enumerators of exception_type, in declaration order. */
  datatype ExceptionType =
    | NoError | FuncNotFound | RemoteExec | Serialization | Deserialization
    | SignatureMismatch | ClientSend | ClientReceive | ServerSend
    | ServerReceive | RpcObjectMismatch | CallbackInstall | CallbackMissing

  /** static_cast<int> of an enumerator: its position in the declaration. */
  function ExceptionCode(t: ExceptionType): (c: int)
    ensures 0 <= c <= 12
  {
    match t
    case NoError => 0
    case FuncNotFound => 1
    case RemoteExec => 2
    case Serialization => 3
    case Deserialization => 4
    case SignatureMismatch => 5
    case ClientSend => 6
    case ClientReceive => 7
    case ServerSend => 8
    case ServerReceive => 9
    case RpcObjectMismatch => 10
    case CallbackInstall => 11
    case CallbackMissing => 12
  }

  /** The enumerator an integer stands for, if it stands for one. */
  function ExceptionTypeOf(c: int): (r: Option<ExceptionType>)
    ensures r.Some? ==> ExceptionCode(r.value) == c
    ensures 0 <= c <= 12 ==> r.Some?
  {
    if c == 0 then Some(NoError)
    else if c == 1 then Some(FuncNotFound)
    else if c == 2 then Some(RemoteExec)
    else if c == 3 then Some(Serialization)
    else if c == 4 then Some(Deserialization)
    else if c == 5 then Some(SignatureMismatch)
    else if c == 6 then Some(ClientSend)
    else if c == 7 then Some(ClientReceive)
    else if c == 8 then Some(ServerSend)
    else if c == 9 then Some(ServerReceive)
    else if c == 10 then Some(RpcObjectMismatch)
    else if c == 11 then Some(CallbackInstall)
    else if c == 12 then Some(CallbackMissing)
    else None
  }

  /** The numbering is a bijection between the enumerators and 0..12. */
  lemma ExceptionNumbering(t: ExceptionType, u: ExceptionType, c: int)
    ensures ExceptionTypeOf(ExceptionCode(t)) == Some(t)
    ensures ExceptionCode(t) == ExceptionCode(u) ==> t == u
    ensures (exists v :: ExceptionCode(v) == c) <==> 0 <= c <= 12
  {
    if 0 <= c <= 12 {
      assert ExceptionCode(ExceptionTypeOf(c).value) == c;
    }
  }

  /** rpc_exception and the twelve classes derived from it. */
  datatype ExceptionClass =
    | RpcExceptionClass | FunctionNotFound | RemoteExecError
    | SerializationError | DeserializationError | FunctionMismatch
    | ClientSendError | ClientReceiveError | ServerSendError
    | ServerReceiveError | RpcObjectMismatchClass | CallbackInstallError
    | CallbackMissingError

  /** The type each derived class passes to rpc_exception's constructor; none for the base class. */
  function ClassTag(cls: ExceptionClass): (t: Option<ExceptionType>)
    ensures t.None? <==> cls == RpcExceptionClass
    ensures t.Some? ==> t.value != NoError
  {
    match cls
    case RpcExceptionClass => None
    case FunctionNotFound => Some(FuncNotFound)
    case RemoteExecError => Some(RemoteExec)
    case SerializationError => Some(Serialization)
    case DeserializationError => Some(Deserialization)
    case FunctionMismatch => Some(SignatureMismatch)
    case ClientSendError => Some(ClientSend)
    case ClientReceiveError => Some(ClientReceive)
    case ServerSendError => Some(ServerSend)
    case ServerReceiveError => Some(ServerReceive)
    case RpcObjectMismatchClass => Some(RpcObjectMismatch)
    case CallbackInstallError => Some(CallbackInstall)
    case CallbackMissingError => Some(CallbackMissing)
  }

  /** The class that carries each non-none type: the inverse of ClassTag. */
  function ClassFor(t: ExceptionType): (cls: ExceptionClass)
    requires t != NoError
    ensures ClassTag(cls) == Some(t)
  {
    match t
    case FuncNotFound => FunctionNotFound
    case RemoteExec => RemoteExecError
    case Serialization => SerializationError
    case Deserialization => DeserializationError
    case SignatureMismatch => FunctionMismatch
    case ClientSend => ClientSendError
    case ClientReceive => ClientReceiveError
    case ServerSend => ServerSendError
    case ServerReceive => ServerReceiveError
    case RpcObjectMismatch => RpcObjectMismatchClass
    case CallbackInstall => CallbackInstallError
    case CallbackMissing => CallbackMissingError
  }

  /** Every derived class is the class for its own tag, so no two derived classes share a tag. */
  lemma ClassTagsDistinct(a: ExceptionClass, b: ExceptionClass)
    requires a != RpcExceptionClass
    ensures ClassFor(ClassTag(a).value) == a
    ensures ClassTag(a) == ClassTag(b) ==> a == b
  {
  }

  /** A thrown exception: its most-derived class, what() and get_type(). */
  datatype RpcException = RpcException(cls: ExceptionClass, what: string, etype: int)

  /**
   * rpc_exception(mesg, type): get_type() returns the type it was built with
   * and what() the message. Nothing here checks the type.
   */
  function MakeRpcException(mesg: string, t: int): (e: RpcException)
    ensures e.cls == RpcExceptionClass && e.what == mesg && e.etype == t
  {
    RpcException(RpcExceptionClass, mesg, t)
  }

  /** A derived class built from a std::string: the message, and the class's fixed tag. */
  function Raise(cls: ExceptionClass, mesg: string): (e: RpcException)
    requires cls != RpcExceptionClass
    ensures e.cls == cls && e.what == mesg
    ensures ExceptionTypeOf(e.etype) == ClassTag(cls)
  {
    RpcException(cls, mesg, ExceptionCode(ClassTag(cls).value))
  }

  /** A derived class built from a const char*. */
  function RaiseFromCString(cls: ExceptionClass, mesg: seq<char>): (e: RpcException)
    requires cls != RpcExceptionClass
    ensures e == Raise(cls, CString(mesg))
  {
    RpcException(cls, CString(mesg), ExceptionCode(ClassTag(cls).value))
  }

  /**
   * The const char* constructor given a string's c_str() builds the same
   * exception as the std::string constructor given the string itself.
   */
  lemma {:induction false} CStringConstructorAgrees(cls: ExceptionClass, mesg: string)
    requires cls != RpcExceptionClass
    requires '\0' !in mesg
    ensures RaiseFromCString(cls, mesg + ['\0']) == Raise(cls, mesg)
  {
    CStringOfTerminated(mesg);
  }
}

=== FILE: impl_exec_func.dfy ===
/**
 * detail::exec_func of the modular generation, include/impl/detail/exec_func.hpp:
 * how the outcome of calling a bound function replaces the request object.
 */
module ImplExec {
  import opened Wrappers
  import opened Values
  import opened ImplExceptions
  import opened ImplKinds
  import opened ImplTypes
  import opened ImplObject
  import opened CStrings

  /**
   * What calling the bound function on an argument tuple does: it returns
   * (no value for void R, and the tuple as the call left it, since arguments
   * taken by reference are written through) or throws a std::exception.
   */
  datatype CallOutcome = Returned(ret: Option<Value>, argsAfter: Args) | Threw(what: string)

  /**
   * A function as exec_func calls it: the adapter's read of a request's tuple
   * as the function's parameter types, and what the call does.
   */
  datatype Callable = Callable(readArgs: ArgsReader, call: Args -> CallOutcome)

  /**
   * exec_func: read the arguments as the function's parameter types (outside
   * the try, so what that read throws escapes as it is), the name and the
   * bound flag, call, and replace the object by a result of the variant
   * `isCallback` selects. A std::exception from the call becomes
   * remote_exec_error with the same message and leaves the object as it was
   * (`Err`).
   */
  function ExecFunc(isCallback: bool, f: Callable, m: Message): (r: Result<Message, RpcException>)
    ensures var a := GetArgs(m, f.readArgs); a.Err? ==> r == Err(a.error)
    ensures var a := GetArgs(m, f.readArgs);
            a.Ok? && f.call(a.value).Threw? ==> r == Err(Raise(RemoteExecError, CStr(f.call(a.value).what)))
    ensures var a := GetArgs(m, f.readArgs); r.Ok? <==> a.Ok? && f.call(a.value).Returned?
    ensures r.Ok? ==> r.value.funcName == m.funcName && IsResultType(Type(r.value))
    ensures r.Ok? ==> (IsCallbackType(Type(r.value)) <==> isCallback)
    ensures r.Ok? ==> (r.value.ResultWBindMsg? <==> HasBoundArgs(m) == Ok(true))
    ensures r.Ok? ==> r.value.result == f.call(GetArgs(m, f.readArgs).value).ret
    ensures r.Ok? && r.value.ResultWBindMsg? ==> r.value.args == f.call(GetArgs(m, f.readArgs).value).argsAfter
  {
    match GetArgs(m, f.readArgs)
    case Err(e) => Err(e)
    case Ok(args) =>
      var funcName := m.funcName;
      // get_args succeeded, so has_bound_args applies to this kind as well
      var bound := HasBoundArgs(m).value;
      match f.call(args)
      case Threw(what) => Err(Raise(RemoteExecError, CStr(what)))
      case Returned(ret, argsAfter) =>
        if bound then Ok(ResultWBindMsg(isCallback, funcName, ret, argsAfter))
        else Ok(ResultMsg(isCallback, funcName, ret))
  }

  /**
   * Reading the reply back: get_result<R> reads the call's return value as R
   * and, when the request asked for bound arguments, the reply stores the
   * tuple as the call left it; without bound arguments get_args throws.
   */
  lemma ExecFuncReplyReadsBack(isCallback: bool, f: Callable, m: Message, rt: ResultType)
    requires ExecFunc(isCallback, f, m).Ok?
    ensures GetResult(ExecFunc(isCallback, f, m).value, rt) == ReadAs(rt, f.call(GetArgs(m, f.readArgs).value).ret)
    ensures HasBoundArgs(m) == Ok(true)
            ==> StoredArgs(ExecFunc(isCallback, f, m).value) == Ok(f.call(GetArgs(m, f.readArgs).value).argsAfter)
    ensures HasBoundArgs(m) == Ok(false) ==> StoredArgs(ExecFunc(isCallback, f, m).value).Err?
  {
  }

  /**
   * Arguments the adapter refuses (function_mismatch) escape exec_func as
   * they are: the function is not called and the request is left in place.
   */
  lemma RefusedArgumentsEscape(isCallback: bool, f: Callable, m: Message, mesg: string)
    requires CarriesArgs(Type(m)) && f.readArgs(m.args) == Err(Raise(FunctionMismatch, mesg))
    ensures ExecFunc(isCallback, f, m) == Err(Raise(FunctionMismatch, mesg))
    ensures ExecFunc(isCallback, f, m).error.etype == ExceptionCode(SignatureMismatch)
  {
  }
}

=== FILE: impl_rpc_object.dfy ===
/**
 * The rpc_type enumeration of the modular generation, declared in
 * include/impl/rpc_object.hpp. It is kept in a module of its own because the
 * records (ImplTypes) write it and rpc_object (ImplObject) reads it.
 */
module ImplKinds {
  import opened Wrappers

  /** The enumerators of rpc_type, in declaration order. */
  datatype RpcType =
    | CallbackInstallRequest | CallbackError | CallbackRequest | CallbackResult
    | CallbackResultWBind | FuncError | FuncRequest | FuncResult | FuncResultWBind

  /** static_cast<int> of an rpc_type enumerator. */
  function RpcTypeCode(t: RpcType): (c: int)
    ensures 0 <= c <= 8
  {
    match t
    case CallbackInstallRequest => 0
    case CallbackError => 1
    case CallbackRequest => 2
    case CallbackResult => 3
    case CallbackResultWBind => 4
    case FuncError => 5
    case FuncRequest => 6
    case FuncResult => 7
    case FuncResultWBind => 8
  }

  /** The rpc_type an integer stands for, if it stands for one. */
  function RpcTypeOf(c: int): (r: Option<RpcType>)
    ensures r.Some? ==> RpcTypeCode(r.value) == c
    ensures 0 <= c <= 8 ==> r.Some?
  {
    if c == 0 then Some(CallbackInstallRequest)
    else if c == 1 then Some(CallbackError)
    else if c == 2 then Some(CallbackRequest)
    else if c == 3 then Some(CallbackResult)
    else if c == 4 then Some(CallbackResultWBind)
    else if c == 5 then Some(FuncError)
    else if c == 6 then Some(FuncRequest)
    else if c == 7 then Some(FuncResult)
    else if c == 8 then Some(FuncResultWBind)
    else None
  }

  /** The numbering runs from callback_install_request = 0 to func_result_w_bind = 8 without gaps. */
  lemma RpcTypeCodeRoundTrip(t: RpcType, u: RpcType)
    ensures RpcTypeOf(RpcTypeCode(t)) == Some(t)
    ensures RpcTypeCode(t) == RpcTypeCode(u) ==> t == u
  {
  }

  /** The five callback kinds are numbered first. */
  predicate IsCallbackType(t: RpcType)
  {
    RpcTypeCode(t) <= RpcTypeCode(CallbackResultWBind)
  }

  predicate IsResultType(t: RpcType)
  {
    t == FuncResult || t == FuncResultWBind || t == CallbackResult || t == CallbackResultWBind
  }

  predicate IsErrorType(t: RpcType)
  {
    t == FuncError || t == CallbackError
  }

  /** The kinds that carry an argument tuple: requests and results with bound arguments. */
  predicate CarriesArgs(t: RpcType)
  {
    t == FuncRequest || t == FuncResultWBind || t == CallbackRequest || t == CallbackResultWBind
  }
}

/**
 * rpc_object of the modular generation, include/impl/rpc_object.hpp: the
 * accessors and which message kinds each of them accepts. The object is
 * modelled by the record it holds.
 */
module ImplObject {
  import opened Wrappers
  import opened Values
  import opened ImplExceptions
  import opened ImplKinds
  import opened ImplTypes

  const MismatchMessage: string := "Invalid rpc_object type detected"

  /** What every accessor throws on a kind it does not apply to. */
  function Mismatch(): (e: RpcException)
    ensures e.cls == RpcObjectMismatchClass && e.etype == ExceptionCode(RpcObjectMismatch)
  {
    Raise(RpcObjectMismatchClass, MismatchMessage)
  }

  /**
   * parse_bytes: the adapter's from_bytes either yields a serial object or
   * throws; a throw becomes an empty optional, anything else is wrapped unchanged.
   */
  function ParseBytes(fromBytes: Result<Message, RpcException>): (r: Option<Message>)
    ensures r.Some? <==> fromBytes.Ok?
    ensures r.Some? ==> r.value == fromBytes.value
  {
    match fromBytes
    case Ok(m) => Some(m)
    case Err(_) => None
  }

  /**
   * Bytes an adapter wrote for an object parse back to that object when its
   * from_bytes reads its own to_bytes back; bytes it refuses parse to nothing,
   * whatever it threw.
   */
  lemma ParseBytesAfterToBytes<B>(toBytes: Message -> B, fromBytes: B -> Result<Message, RpcException>, m: Message, junk: B)
    requires fromBytes(toBytes(m)) == Ok(m)
    ensures ParseBytes(fromBytes(toBytes(m))) == Some(m)
    ensures fromBytes(junk).Err? ==> ParseBytes(fromBytes(junk)) == None
  {
  }

  /**
   * Serial::get_request<IsCallback, Args...>: the serial adapter reads a
   * stored argument tuple as the declared parameter types, or throws (the
   * adapters throw function_mismatch when a value or the count does not fit
   * the types).
   */
  type ArgsReader = Args -> Result<Args, RpcException>

  /**
   * The R of get_result<R>: void, which reads nothing, or a type the serial
   * adapter reads the stored result as (Serial::get_result<IsCallback, R>),
   * throwing when the stored result does not fit it.
   */
  datatype ResultType = Void | Typed(read: Option<Value> -> Result<Value, RpcException>)

  /** A stored result read as R: nothing for void R, otherwise the adapter's read. */
  function ReadAs(rt: ResultType, stored: Option<Value>): Result<Option<Value>, RpcException>
  {
    match rt
    case Void => Ok(None)
    case Typed(read) =>
      match read(stored)
      case Ok(v) => Ok(Some(v))
      case Err(e) => Err(e)
  }

  /**
   * get_result<R>: the stored value read as R for the four result kinds, the
   * error's own exception for the two error kinds, rpc_object_mismatch for
   * the rest.
   */
  function GetResult(m: Message, rt: ResultType): (r: Result<Option<Value>, RpcException>)
    ensures r.Ok? ==> IsResultType(Type(m))
    ensures IsResultType(Type(m)) ==> m.ResultMsg? || m.ResultWBindMsg?
    ensures IsResultType(Type(m)) && rt.Void? ==> r == Ok(None)
    ensures IsResultType(Type(m)) && rt.Typed? ==> (r.Ok? <==> rt.read(m.result).Ok?)
    ensures IsResultType(Type(m)) && rt.Typed? && r.Ok? ==> r.value == Some(rt.read(m.result).value)
    ensures IsResultType(Type(m)) && rt.Typed? && r.Err? ==> r.error == rt.read(m.result).error
    ensures IsErrorType(Type(m)) ==> m.ErrorMsg? && r == Err(RpcThrow(m.exceptType, m.errMesg))
    ensures !IsResultType(Type(m)) && !IsErrorType(Type(m)) ==> r == Err(Mismatch())
  {
    match m
    case ResultMsg(_, _, result) => ReadAs(rt, result)
    case ResultWBindMsg(_, _, result, _) => ReadAs(rt, result)
    case ErrorMsg(_, _, exceptType, errMesg) => Err(RpcThrow(exceptType, errMesg))
    case RequestMsg(_, _, _, _) => Err(Mismatch())
    case InstallMsg(_, _) => Err(Mismatch())
  }

  /** The kind check of get_args: the stored tuple, for requests and results with bound arguments only. */
  function StoredArgs(m: Message): (r: Result<Args, RpcException>)
    ensures r.Ok? <==> CarriesArgs(Type(m))
    ensures r.Ok? ==> (m.RequestMsg? || m.ResultWBindMsg?) && r.value == m.args
    ensures r.Err? ==> r.error == Mismatch()
  {
    match m
    case RequestMsg(_, _, _, args) => Ok(args)
    case ResultWBindMsg(_, _, _, args) => Ok(args)
    case _ => Err(Mismatch())
  }

  /**
   * get_args<Args...>: on a kind that carries a tuple, the adapter's read of
   * it as the declared types (which may throw); rpc_object_mismatch on the
   * other kinds.
   */
  function GetArgs(m: Message, read: ArgsReader): (r: Result<Args, RpcException>)
    ensures CarriesArgs(Type(m)) ==> (m.RequestMsg? || m.ResultWBindMsg?) && r == read(m.args)
    ensures !CarriesArgs(Type(m)) ==> r == Err(Mismatch())
  {
    match StoredArgs(m)
    case Err(e) => Err(e)
    case Ok(args) => read(args)
  }

  /** is_callback_uninstall: false for every kind but an install request, whose flag it reports. */
  function IsCallbackUninstall(m: Message): (b: bool)
    ensures Type(m) != CallbackInstallRequest ==> !b
    ensures Type(m) == CallbackInstallRequest ==> (b <==> m.isUninstall)
  {
    match m
    case InstallMsg(_, isUninstall) => isUninstall
    case _ => false
  }

  /** get_error_type: the stored except_type, for the two error kinds only. */
  function GetErrorType(m: Message): (r: Result<int, RpcException>)
    ensures r.Ok? <==> IsErrorType(Type(m))
    ensures r.Ok? ==> m.ErrorMsg? && r.value == m.exceptType
    ensures r.Err? ==> r.error == Mismatch()
  {
    match m
    case ErrorMsg(_, _, exceptType, _) => Ok(exceptType)
    case _ => Err(Mismatch())
  }

  /** get_error_mesg: the stored err_mesg, for the two error kinds only. */
  function GetErrorMesg(m: Message): (r: Result<string, RpcException>)
    ensures r.Ok? <==> IsErrorType(Type(m))
    ensures r.Ok? ==> m.ErrorMsg? && r.value == m.errMesg
    ensures r.Err? ==> r.error == Mismatch()
  {
    match m
    case ErrorMsg(_, _, _, errMesg) => Ok(errMesg)
    case _ => Err(Mismatch())
  }

  /**
   * has_bound_args: true for the two w_bind kinds, the adapter's reading of
   * the flag for the two request kinds, rpc_object_mismatch otherwise.
   */
  function HasBoundArgs(m: Message): (r: Result<bool, RpcException>)
    ensures r.Ok? <==> CarriesArgs(Type(m))
    ensures (Type(m) == FuncRequest || Type(m) == CallbackRequest) ==> m.RequestMsg? && r == Ok(m.bindArgs)
    ensures (Type(m) == FuncResultWBind || Type(m) == CallbackResultWBind) ==> r == Ok(true)
    ensures r.Err? ==> r.error == Mismatch()
  {
    match m
    case RequestMsg(_, _, bindArgs, _) => Ok(bindArgs)
    case ResultWBindMsg(_, _, _, _) => Ok(true)
    case _ => Err(Mismatch())
  }

  /** is_error: the kind is func_error or callback_error. */
  function IsError(m: Message): (b: bool)
    ensures b <==> IsErrorType(Type(m))
  {
    m.ErrorMsg?
  }

  /**
   * The accessor tables agree: get_args and has_bound_args apply to the same
   * kinds; get_error_type, get_error_mesg and is_error to the same kinds; and
   * get_result returns exactly on the kinds that are neither errors nor requests.
   */
  lemma AccessorTablesAgree(m: Message)
    ensures StoredArgs(m).Ok? <==> HasBoundArgs(m).Ok?
    ensures GetErrorType(m).Ok? <==> IsError(m)
    ensures GetErrorMesg(m).Ok? <==> IsError(m)
    ensures GetResult(m, Void).Ok? <==> !IsError(m) && !m.RequestMsg? && !m.InstallMsg?
  {
  }
}

=== FILE: impl_rpc_types.dfy ===
/**
 * The message records of the modular generation, include/impl/detail/rpc_types.hpp:
 * rpc_request, rpc_result, rpc_result_w_bind, rpc_error and
 * callback_install_request, the field schema each serialize() overload writes,
 * and rpc_throw.
 */
module ImplTypes {
  import opened Wrappers
  import opened Values
  import opened ImplExceptions
  import opened CStrings
  import opened ImplKinds

  /**
   * The records, each for function calls or callbacks (install requests are
   * always callbacks). A result of void R has no value (`result == None`).
   */
  datatype Message =
    | RequestMsg(isCallback: bool, funcName: string, bindArgs: bool, args: Args)
    | ResultMsg(isCallback: bool, funcName: string, result: Option<Value>)
    | ResultWBindMsg(isCallback: bool, funcName: string, result: Option<Value>, args: Args)
    | ErrorMsg(isCallback: bool, funcName: string, exceptType: int, errMesg: string)
    | InstallMsg(funcName: string, isUninstall: bool)

  /** rpc_request's constructor; bind_args is false unless the caller passes it. */
  function MakeRequest(isCallback: bool, funcName: string, args: Args, bindArgs: bool := false): (m: Message)
    ensures m.RequestMsg? && m.isCallback == isCallback && m.funcName == funcName && m.args == args
    ensures m.bindArgs == bindArgs
  {
    RequestMsg(isCallback, funcName, bindArgs, args)
  }

  /** Omitting bind_args gives a request that does not ask for its arguments back. */
  lemma RequestDefaultsUnbound(isCallback: bool, funcName: string, args: Args)
    ensures !MakeRequest(isCallback, funcName, args).bindArgs
    ensures !InstallRequest(funcName).isUninstall
    ensures DefaultError(isCallback).exceptType == ExceptionCode(NoError)
  {
  }

  /** callback_install_request's constructor: an install, not an uninstall. */
  function InstallRequest(funcName: string): (m: Message)
    ensures m.InstallMsg? && m.funcName == funcName
  {
    InstallMsg(funcName, false)
  }

  /** A default-constructed rpc_error: no name, type none, no message. */
  function DefaultError(isCallback: bool): (m: Message)
    ensures m.ErrorMsg? && m.funcName == "" && m.errMesg == ""
  {
    ErrorMsg(isCallback, "", ExceptionCode(NoError), "")
  }

  /**
   * rpc_error built from a caught rpc_exception: its get_type() and what().
   * what() is a const char*, so the stored message stops at the first NUL.
   */
  function ErrorOf(isCallback: bool, funcName: string, e: RpcException): (m: Message)
    ensures m.ErrorMsg? && m.isCallback == isCallback && m.funcName == funcName
    ensures m.exceptType == e.etype && m.errMesg == CStr(e.what)
    ensures '\0' !in e.what ==> m.errMesg == e.what
  {
    ErrorMsg(isCallback, funcName, e.etype, CStr(e.what))
  }

  /** The kind an rpc_object built from the record reports through type(). */
  function Type(m: Message): (t: RpcType)
    ensures IsCallbackType(t) <==> (m.InstallMsg? || m.isCallback)
  {
    match m
    case RequestMsg(cb, _, _, _) => if cb then CallbackRequest else FuncRequest
    case ResultMsg(cb, _, _) => if cb then CallbackResult else FuncResult
    case ResultWBindMsg(cb, _, _, _) => if cb then CallbackResultWBind else FuncResultWBind
    case ErrorMsg(cb, _, _, _) => if cb then CallbackError else FuncError
    case InstallMsg(_, _) => CallbackInstallRequest
  }

  /**
   * rpc_throw: the class that carries the error's except_type, with the
   * error's message; none and any value outside the enumeration give a plain
   * rpc_exception of type none.
   */
  function RpcThrow(exceptType: int, errMesg: string): (e: RpcException)
    ensures e.what == errMesg
    ensures 1 <= exceptType <= 12 ==> e.etype == exceptType && e.cls == ClassFor(ExceptionTypeOf(exceptType).value)
    ensures !(1 <= exceptType <= 12) ==> e == MakeRpcException(errMesg, ExceptionCode(NoError))
  {
    match ExceptionTypeOf(exceptType)
    case Some(FuncNotFound) => Raise(FunctionNotFound, errMesg)
    case Some(RemoteExec) => Raise(RemoteExecError, errMesg)
    case Some(Serialization) => Raise(SerializationError, errMesg)
    case Some(Deserialization) => Raise(DeserializationError, errMesg)
    case Some(SignatureMismatch) => Raise(FunctionMismatch, errMesg)
    case Some(ClientSend) => Raise(ClientSendError, errMesg)
    case Some(ClientReceive) => Raise(ClientReceiveError, errMesg)
    case Some(ServerSend) => Raise(ServerSendError, errMesg)
    case Some(ServerReceive) => Raise(ServerReceiveError, errMesg)
    case Some(RpcObjectMismatch) => Raise(RpcObjectMismatchClass, errMesg)
    case Some(CallbackInstall) => Raise(CallbackInstallError, errMesg)
    case Some(CallbackMissing) => Raise(CallbackMissingError, errMesg)
    case _ => MakeRpcException(errMesg, ExceptionCode(NoError))
  }

  /**
   * Turning a caught exception into an error record and throwing it again
   * gives back an exception of the same class and type, whose message is the
   * original one up to its first NUL (so the same exception when the message
   * holds no NUL). A plain rpc_exception built with another type comes back
   * as the class that carries that type, or as a plain one of type none when
   * the type is outside the enumeration.
   */
  lemma ErrorRethrowsSameException(isCallback: bool, funcName: string, e: RpcException)
    requires e.cls != RpcExceptionClass ==> ExceptionTypeOf(e.etype) == ClassTag(e.cls)
    ensures e.cls != RpcExceptionClass || e.etype == ExceptionCode(NoError) ==>
      RpcThrow(ErrorOf(isCallback, funcName, e).exceptType, ErrorOf(isCallback, funcName, e).errMesg) == e.(what := CStr(e.what))
    ensures (e.cls != RpcExceptionClass || e.etype == ExceptionCode(NoError)) && '\0' !in e.what ==>
      RpcThrow(ErrorOf(isCallback, funcName, e).exceptType, ErrorOf(isCallback, funcName, e).errMesg) == e
    ensures e.cls == RpcExceptionClass && 1 <= e.etype <= 12 ==>
      var back := RpcThrow(ErrorOf(isCallback, funcName, e).exceptType, ErrorOf(isCallback, funcName, e).errMesg);
      back.cls == ClassFor(ExceptionTypeOf(e.etype).value) && back.etype == e.etype && back.what == CStr(e.what)
    ensures e.cls == RpcExceptionClass && !(0 <= e.etype <= 12) ==>
      RpcThrow(ErrorOf(isCallback, funcName, e).exceptType, ErrorOf(isCallback, funcName, e).errMesg)
        == MakeRpcException(CStr(e.what), ExceptionCode(NoError))
  {
    if e.cls != RpcExceptionClass {
      ClassTagsDistinct(e.cls, e.cls);
    }
  }

  // ---------------------------------------------------------------------------
  // Field schemas

  datatype FieldValue =
    | IntField(i: int)
    | StringField(s: string)
    | BoolField(b: bool)
    | TupleField(items: Args)
    | ObjectField(v: Value)

  /** One as_int/as_string/as_bool/as_tuple/as_object call: a key and its value. */
  datatype Field = Field(key: string, value: FieldValue)

  function Keys(fs: seq<Field>): (ks: seq<string>)
    ensures |ks| == |fs|
    ensures forall i :: 0 <= i < |fs| ==> ks[i] == fs[i].key
  {
    if |fs| == 0 then [] else [fs[0].key] + Keys(fs[1..])
  }

  /** The fields written for a result value, absent for void R. */
  function ResultFields(result: Option<Value>): seq<Field>
  {
    match result
    case None => []
    case Some(v) => [Field("result", ObjectField(v))]
  }

  /** The sequence of fields serialize() writes for a record, in call order. */
  function Serialize(m: Message): (fs: seq<Field>)
    ensures |fs| >= 2
    ensures fs[0] == Field("type", IntField(RpcTypeCode(Type(m))))
    ensures fs[1] == Field("func_name", StringField(m.funcName))
  {
    var head := [Field("type", IntField(RpcTypeCode(Type(m)))), Field("func_name", StringField(m.funcName))];
    match m
    case RequestMsg(_, _, bindArgs, args) =>
      head + [Field("bind_args", BoolField(bindArgs)), Field("args", TupleField(args))]
    case ResultMsg(_, _, result) =>
      head + ResultFields(result)
    case ResultWBindMsg(_, _, result, args) =>
      head + [Field("bind_args", BoolField(true)), Field("args", TupleField(args))] + ResultFields(result)
    case ErrorMsg(_, _, exceptType, errMesg) =>
      head + [Field("except_type", IntField(exceptType)), Field("err_mesg", StringField(errMesg))]
    case InstallMsg(_, isUninstall) =>
      head + [Field("is_uninstall", BoolField(isUninstall))]
  }

  /** Reading a result value back: no field, or exactly one "result" object. */
  function ReadResult(rest: seq<Field>): (r: Option<Option<Value>>)
    ensures r.Some? ==> ResultFields(r.value) == rest
  {
    if |rest| == 0 then Some(None)
    else if |rest| == 1 && rest[0].key == "result" && rest[0].value.ObjectField? then Some(Some(rest[0].value.v))
    else None
  }

  /** The inverse of Serialize: the record a sequence of fields describes. */
  function Deserialize(fs: seq<Field>): (r: Option<Message>)
    ensures r.Some? ==> Serialize(r.value) == fs
  {
    if |fs| < 2 || fs[0].key != "type" || !fs[0].value.IntField?
       || fs[1].key != "func_name" || !fs[1].value.StringField?
    then None
    else
      var name := fs[1].value.s;
      var rest := fs[2..];
      assert fs == fs[..2] + rest;
      match RpcTypeOf(fs[0].value.i)
      case None => None
      case Some(t) =>
        var cb := IsCallbackType(t);
        if t == FuncRequest || t == CallbackRequest then
          if |rest| == 2 && rest[0].key == "bind_args" && rest[0].value.BoolField?
             && rest[1].key == "args" && rest[1].value.TupleField?
          then Some(RequestMsg(cb, name, rest[0].value.b, rest[1].value.items))
          else None
        else if t == FuncResult || t == CallbackResult then
          match ReadResult(rest)
          case None => None
          case Some(result) => Some(ResultMsg(cb, name, result))
        else if t == FuncResultWBind || t == CallbackResultWBind then
          if |rest| >= 2 && rest[0] == Field("bind_args", BoolField(true))
             && rest[1].key == "args" && rest[1].value.TupleField?
          then
            match ReadResult(rest[2..])
            case None => None
            case Some(result) => Some(ResultWBindMsg(cb, name, result, rest[1].value.items))
          else None
        else if t == FuncError || t == CallbackError then
          if |rest| == 2 && rest[0].key == "except_type" && rest[0].value.IntField?
             && rest[1].key == "err_mesg" && rest[1].value.StringField?
          then Some(ErrorMsg(cb, name, rest[0].value.i, rest[1].value.s))
          else None
        else
          if |rest| == 1 && rest[0].key == "is_uninstall" && rest[0].value.BoolField?
          then Some(InstallMsg(name, rest[0].value.b))
          else None
  }

  /** Every record is read back from the fields it is written as. */
  lemma SerializeRoundTrip(m: Message)
    ensures Deserialize(Serialize(m)) == Some(m)
  {
    var fs := Serialize(m);
    RpcTypeCodeRoundTrip(Type(m), Type(m));
    match m
    case RequestMsg(_, _, _, _) =>
    case ResultMsg(_, _, result) =>
      assert fs[2..] == ResultFields(result);
    case ResultWBindMsg(_, _, result, _) =>
      assert fs[2..][2..] == ResultFields(result);
    case ErrorMsg(_, _, _, _) =>
    case InstallMsg(_, _) =>
  }

  /** A request writes type (function or callback kind), func_name, bind_args and args, in that order. */
  lemma RequestFieldOrder(isCallback: bool, name: string, bindArgs: bool, args: Args)
    ensures Keys(Serialize(RequestMsg(isCallback, name, bindArgs, args)))
         == ["type", "func_name", "bind_args", "args"]
    ensures Serialize(RequestMsg(isCallback, name, bindArgs, args))[0].value.i
         == RpcTypeCode(if isCallback then CallbackRequest else FuncRequest)
  {
  }

  /** A result writes "result" exactly when R is not void. */
  lemma ResultFieldPresence(isCallback: bool, name: string, result: Option<Value>)
    ensures "result" in Keys(Serialize(ResultMsg(isCallback, name, result))) <==> result.Some?
  {
    var ks := Keys(Serialize(ResultMsg(isCallback, name, result)));
    if result.None? {
      assert ks == ["type", "func_name"];
    } else {
      assert ks[2] == "result";
    }
  }

  /**
   * A result_w_bind always writes bind_args = true, then args, then the
   * result of a non-void R; for void R it is written exactly as a request
   * with bind_args set, apart from the kind.
   */
  lemma WBindFieldsExtendRequest(isCallback: bool, name: string, result: Option<Value>, args: Args)
    ensures Serialize(ResultWBindMsg(isCallback, name, result, args))[2] == Field("bind_args", BoolField(true))
    ensures Serialize(ResultWBindMsg(isCallback, name, result, args))[1..]
         == Serialize(RequestMsg(isCallback, name, true, args))[1..] + ResultFields(result)
  {
  }

  /** An error writes type, func_name, except_type and err_mesg. */
  lemma ErrorFieldOrder(isCallback: bool, name: string, exceptType: int, errMesg: string)
    ensures Keys(Serialize(ErrorMsg(isCallback, name, exceptType, errMesg)))
         == ["type", "func_name", "except_type", "err_mesg"]
  {
  }
}

=== FILE: rapidjson.dfy ===
/**
 * include/adapters/rpc_rapidjson.hpp: the rapidjson adapter of the modular
 * generation (its exceptions are those of include/impl/rpc_exceptions.hpp).
 * Messages are JSON documents; the adapter checks each value against the
 * C++ type it should become, reads integers into types of a given width, and
 * maps standard containers, optionals, pairs, tuples, maps and multimaps to
 * JSON and back.
 *
 * JSON text (rapidjson's reader and writer) is not modelled: the adapter is
 * given the parsed document, or nothing when parsing failed.
 */
module RapidJson {
  import opened Wrappers
  import opened ImplExceptions
  import opened CStrings
  import opened CppInt
  import opened Seqs

  /**
   * A rapidjson::Value. An integral number is kept with its value (rapidjson
   * holds it when it fits in int64 or uint64); any other number is a double,
   * kept as an opaque number together with whether it fits a float. An
   * object is its member list, in order; names may repeat.
   */
  datatype RValue =
    | RNull
    | RBool(b: bool)
    | RNumber(n: int)
    | RReal(d: int, fitsFloat: bool)
    | RString(s: string)
    | RArray(items: seq<RValue>)
    | RObject(members: seq<Member>)

  datatype Member = Member(name: string, value: RValue)

  const Int32Min: int := -0x8000_0000
  const Int32End: int := 0x8000_0000
  const Uint32End: int := 0x1_0000_0000
  const Int64Min: int := -0x8000_0000_0000_0000
  const Int64End: int := 0x8000_0000_0000_0000
  const Uint64End: int := 0x1_0000_0000_0000_0000

  /** IsInt, IsUint, IsInt64, IsUint64: the number fits the type. */
  predicate IsInt(v: RValue) { v.RNumber? && Int32Min <= v.n < Int32End }
  predicate IsUint(v: RValue) { v.RNumber? && 0 <= v.n < Uint32End }
  predicate IsInt64(v: RValue) { v.RNumber? && Int64Min <= v.n < Int64End }
  predicate IsUint64(v: RValue) { v.RNumber? && 0 <= v.n < Uint64End }

  /** IsDouble holds for non-integral numbers, IsFloat for those that also fit a float. */
  predicate IsDouble(v: RValue) { v.RReal? }
  predicate IsFloat(v: RValue) { v.RReal? && v.fitsFloat }

  /** A number rapidjson can hold as an integer. */
  predicate Representable(v: RValue) { v.RNumber? ==> Int64Min <= v.n < Uint64End }

  /**
   * The C++ types validate_arg tells apart. Integers carry signedness and
   * width in bits (int is taken to be 32 bits wide).
   */
  datatype RType =
    | OptionalT(inner: RType)
    | BoolT
    | SignedT(bits: nat)
    | UnsignedT(bits: nat)
    | FloatT
    | DoubleT
    | StringT
    | MapT
    | ContainerT
    | ObjectT

  predicate IntegerWidth(bits: nat) { bits == 8 || bits == 16 || bits == 32 || bits == 64 }

  /** validate_arg: the kind of JSON value each C++ type accepts. */
  predicate ValidateArg(t: RType, v: RValue)
  {
    match t
    case OptionalT(inner) => v.RNull? || ValidateArg(inner, v)
    case BoolT => v.RBool?
    case SignedT(bits) => if bits < 64 then IsInt(v) else IsInt64(v)
    case UnsignedT(bits) => if bits < 64 then IsUint(v) else IsUint64(v)
    case FloatT => IsFloat(v)
    case DoubleT => IsDouble(v)
    case StringT => v.RString?
    case MapT => v.RObject?
    case ContainerT => v.RArray?
    case ObjectT => !v.RNull?
  }

  /**
   * The kind mismatch_message reports, tested in the order the source tests
   * them. A narrower test after a wider one never fires: every int is an
   * int64, every uint a uint64 and every float a double, so "int", "uint"
   * and "float" are never reported, and "unknown" only for a number
   * rapidjson cannot hold as an integer.
   */
  function KindName(v: RValue): (name: string)
    ensures name != "int" && name != "uint" && name != "float"
    ensures Representable(v) ==> name != "unknown"
    ensures v.RNumber? && Representable(v) ==> (name == "int64" <==> v.n < Int64End)
  {
    if v.RNull? then "null"
    else if IsInt64(v) then "int64"
    else if IsInt(v) then "int"
    else if IsUint64(v) then "uint64"
    else if IsUint(v) then "uint"
    else if IsDouble(v) then "double"
    else if IsFloat(v) then "float"
    else if v.RBool? then "bool"
    else if v.RString? then "string"
    else if v.RArray? then "array"
    else if v.RObject? then "object"
    else "unknown"
  }

  /** mismatch_message: the expected type's name followed by the kind found. */
  function MismatchMessage(expectType: string, v: RValue): (mesg: string)
  {
    "rapidjson expected type: " + expectType + ", got type: " + KindName(v)
  }

  /** For a fixed expected type, the message names the kind found and nothing else. */
  lemma MismatchMessageDeterminedByKind(expectType: string, v: RValue, w: RValue)
    ensures MismatchMessage(expectType, v) == MismatchMessage(expectType, w) <==> KindName(v) == KindName(w)
  {
    var head := "rapidjson expected type: " + expectType + ", got type: ";
    if MismatchMessage(expectType, v) == MismatchMessage(expectType, w) {
      assert (head + KindName(v))[|head|..] == KindName(v);
      assert (head + KindName(w))[|head|..] == KindName(w);
    }
  }

  /**
   * parse_arg's check: a value validate_arg refuses throws function_mismatch
   * naming the expected type; otherwise the value goes on to the deserializer.
   */
  function ParseArg(typeId: RType -> string, t: RType, v: RValue): (r: Result<RValue, RpcException>)
    ensures r.Ok? <==> ValidateArg(t, v)
    ensures r.Ok? ==> r.value == v
    ensures r.Err? ==> r.error == Raise(FunctionMismatch, MismatchMessage(typeId(t), v))
  {
    if !ValidateArg(t, v) then Err(Raise(FunctionMismatch, MismatchMessage(typeId(t), v)))
    else Ok(v)
  }

  const CountMismatchMessage := "Argument count mismatch"

  /** The result of parse_args: the value and the argument counter afterwards. */
  datatype Parsed = Parsed(value: RValue, next: nat)

  /**
   * parse_args: a value that is not an array is parsed itself; otherwise the
   * element at the counter is, and the counter advances.
   */
  function ParseArgs(typeId: RType -> string, t: RType, arr: RValue, index: nat): (r: Result<Parsed, RpcException>)
    ensures arr.RArray? && index >= |arr.items| ==> r == Err(Raise(FunctionMismatch, CountMismatchMessage))
    ensures arr.RArray? && index < |arr.items| ==>
              (r.Ok? <==> ValidateArg(t, arr.items[index])) && (r.Ok? ==> r.value == Parsed(arr.items[index], index + 1))
    ensures !arr.RArray? ==> (r.Ok? <==> ValidateArg(t, arr)) && (r.Ok? ==> r.value == Parsed(arr, index))
    ensures r.Err? ==> r.error.cls == FunctionMismatch
  {
    if !arr.RArray? then
      match ParseArg(typeId, t, arr)
      case Err(e) => Err(e)
      case Ok(v) => Ok(Parsed(v, index))
    else if index >= |arr.items| then Err(Raise(FunctionMismatch, CountMismatchMessage))
    else
      match ParseArg(typeId, t, arr.items[index])
      case Err(e) => Err(e)
      case Ok(v) => Ok(Parsed(v, index + 1))
  }

  /** parse_args once per tuple element, in order, threading the counter through. */
  function TupleArgs(typeId: RType -> string, types: seq<RType>, arr: RValue, counter: nat): (r: Result<seq<RValue>, RpcException>)
    ensures r.Ok? ==> |r.value| == |types|
    ensures r.Err? ==> r.error.cls == FunctionMismatch
    decreases |types|
  {
    if types == [] then Ok([])
    else match ParseArgs(typeId, types[0], arr, counter)
      case Err(e) => Err(e)
      case Ok(p) =>
        match TupleArgs(typeId, types[1..], arr, p.next)
        case Err(e) => Err(e)
        case Ok(rest) => Ok([p.value] + rest)
  }

  /** Every element from position k on is accepted by its type. */
  predicate AcceptedFrom(types: seq<RType>, items: seq<RValue>, k: nat)
  {
    k + |types| <= |items| && forall i :: 0 <= i < |types| ==> ValidateArg(types[i], items[k + i])
  }

  /**
   * Reading a tuple from an array with enough elements succeeds exactly when
   * every element is accepted, and then yields those elements in order.
   */
  lemma {:induction false} TupleArgsReadsInOrder(typeId: RType -> string, types: seq<RType>, items: seq<RValue>, k: nat)
    requires k + |types| <= |items|
    ensures TupleArgs(typeId, types, RArray(items), k).Ok? <==> AcceptedFrom(types, items, k)
    ensures TupleArgs(typeId, types, RArray(items), k).Ok? ==> TupleArgs(typeId, types, RArray(items), k).value == items[k..k + |types|]
    decreases |types|
  {
    if types != [] {
      var first := ParseArgs(typeId, types[0], RArray(items), k);
      var rest := TupleArgs(typeId, types[1..], RArray(items), k + 1);
      TupleArgsReadsInOrder(typeId, types[1..], items, k + 1);
      AcceptedFromCons(types, items, k);
      if AcceptedFrom(types, items, k) {
        assert first == Ok(Parsed(items[k], k + 1));
        assert rest.Ok? && rest.value == items[k + 1..k + 1 + |types[1..]|];
        assert items[k..k + |types|] == [items[k]] + rest.value;
      } else {
        assert first.Err? || rest.Err?;
      }
    }
  }

  /** Every element from k on is accepted exactly when the first is and every one after it is. */
  lemma AcceptedFromCons(types: seq<RType>, items: seq<RValue>, k: nat)
    requires types != [] && k + |types| <= |items|
    ensures AcceptedFrom(types, items, k) <==> ValidateArg(types[0], items[k]) && AcceptedFrom(types[1..], items, k + 1)
  {
    if AcceptedFrom(types, items, k) {
      assert ValidateArg(types[0], items[k + 0]);
      forall i | 0 <= i < |types[1..]|
        ensures ValidateArg(types[1..][i], items[k + 1 + i])
      {
        assert ValidateArg(types[i + 1], items[k + (i + 1)]);
      }
    }
    if AcceptedFrom(types[1..], items, k + 1) && ValidateArg(types[0], items[k]) {
      forall i | 0 <= i < |types|
        ensures ValidateArg(types[i], items[k + i])
      {
        if i > 0 {
          assert ValidateArg(types[1..][i - 1], items[k + 1 + (i - 1)]);
        }
      }
    }
  }

  const InvalidArgCount := "rapidjson: invalid number of args"

  /**
   * as_tuple for std::tuple: the array must have exactly one element per
   * type (function_mismatch otherwise), and each is then parsed in order.
   * GetArray on a value that is not an array stops on rapidjson's assertion.
   */
  function AsTuple(typeId: RType -> string, types: seq<RType>, v: RValue): (r: Checked<seq<RValue>, RpcException>)
    ensures r.AssertionFails? <==> !v.RArray?
    ensures v.RArray? && |v.items| != |types| ==> r == Throws(Raise(FunctionMismatch, InvalidArgCount))
    ensures r.Returns? <==> v.RArray? && |v.items| == |types| && AcceptedFrom(types, v.items, 0)
    ensures r.Returns? ==> r.value == v.items
    ensures r.Throws? ==> r.error.cls == FunctionMismatch
  {
    if !v.RArray? then AssertionFails
    else if |v.items| != |types| then Throws(Raise(FunctionMismatch, InvalidArgCount))
    else
      TupleArgsReadsInOrder(typeId, types, v.items, 0);
      assert v.items[0..|types|] == v.items;
      match TupleArgs(typeId, types, v, 0)
      case Err(e) => Throws(e)
      case Ok(vs) => Returns(vs)
  }

  /**
   * The getter as_int reads a type with accepts the value: GetInt or GetUint
   * for types up to 32 bits, GetInt64 or GetUint64 for wider ones, by sign.
   */
  predicate GetterAccepts(signed: bool, bits: nat, v: RValue)
  {
    if signed then (if bits <= 32 then IsInt(v) else IsInt64(v))
    else (if bits <= 32 then IsUint(v) else IsUint64(v))
  }

  /**
   * as_int for a non-enum integer: types narrower than int read GetInt or
   * GetUint and cast; int and wider read with Get<T>. Reading a number the
   * getter does not accept stops on rapidjson's assertion.
   */
  function AsInt(signed: bool, bits: nat, v: RValue): (r: Checked<int, RpcException>)
    requires IntegerWidth(bits)
    ensures r.Returns? <==> GetterAccepts(signed, bits, v)
    ensures r.Returns? ==> v.RNumber? && InTypeRange(signed, bits, r.value)
    ensures r.Returns? ==> (r.value - v.n) % Pow2(bits) == 0
    ensures r.Returns? && InTypeRange(signed, bits, v.n) ==> r.value == v.n
    ensures r.Throws? == false
  {
    if !GetterAccepts(signed, bits, v) then AssertionFails
    else if bits < 32 then Returns(Narrow(signed, bits, v.n))
    else
      assert Pow2(32) == Uint32End && Pow2(64) == Uint64End by { Pow2Values(); }
      Returns(v.n)
  }

  lemma Pow2Values()
    ensures Pow2(8) == 0x100 && Pow2(16) == 0x1_0000
    ensures Pow2(32) == Uint32End && Pow2(64) == Uint64End
  {
    Pow2Of8();
    Pow2Of16();
    Pow2Of32();
    Pow2Of64();
  }

  /**
   * An integer argument: validate_arg, then as_int. Types narrower than 64
   * bits accept every int (or unsigned) rapidjson holds, so a value outside
   * an 8- or 16-bit type's range is accepted and arrives cut to its low bits.
   */
  function ParseInt(typeId: RType -> string, signed: bool, bits: nat, v: RValue): (r: Result<int, RpcException>)
    requires IntegerWidth(bits)
    ensures var t := if signed then SignedT(bits) else UnsignedT(bits);
            r.Ok? <==> ValidateArg(t, v)
    ensures r.Ok? ==> v.RNumber? && InTypeRange(signed, bits, r.value)
    ensures r.Ok? ==> (r.value - v.n) % Pow2(bits) == 0
    ensures r.Ok? && InTypeRange(signed, bits, v.n) ==> r.value == v.n
    ensures r.Err? ==> r.error.cls == FunctionMismatch
  {
    var t := if signed then SignedT(bits) else UnsignedT(bits);
    match ParseArg(typeId, t, v)
    case Err(e) => Err(e)
    case Ok(_) =>
      match AsInt(signed, bits, v)
      case Returns(n) => Ok(n)
      case _ => assert false; Ok(0)
  }

  /** Any integer of the parameter's own type, written as the serializer writes it, is read back. */
  lemma IntRoundTrip(typeId: RType -> string, signed: bool, bits: nat, n: int)
    requires IntegerWidth(bits) && InTypeRange(signed, bits, n)
    ensures ParseInt(typeId, signed, bits, RNumber(n)) == Ok(n)
  {
    InRangeValidates(signed, bits, n);
  }

  /** A number in the parameter type's own range passes validate_arg for that type. */
  lemma InRangeValidates(signed: bool, bits: nat, n: int)
    requires IntegerWidth(bits) && InTypeRange(signed, bits, n)
    ensures ValidateArg(if signed then SignedT(bits) else UnsignedT(bits), RNumber(n))
  {
    if bits == 8 {
      Pow2Of8();
    } else if bits == 16 {
      Pow2Of16();
    } else if bits == 32 {
      Pow2Of32();
    } else {
      Pow2Of64();
    }
  }

  /**
   * An accepted integer arrives as static_cast to the parameter's type makes
   * it: the number itself for int and wider, and the number wrapped into the
   * type's range for narrower types.
   */
  lemma ParseIntIsStaticCast(typeId: RType -> string, signed: bool, bits: nat, v: RValue)
    requires IntegerWidth(bits)
    requires ParseInt(typeId, signed, bits, v).Ok?
    ensures bits < 32 ==> ParseInt(typeId, signed, bits, v).value == Narrow(signed, bits, v.n)
    ensures bits >= 32 ==> ParseInt(typeId, signed, bits, v).value == v.n
  {
    var r := ParseInt(typeId, signed, bits, v).value;
    assert AsInt(signed, bits, v) == Returns(r);
    if bits < 32 {
      var w := Narrow(signed, bits, v.n);
      CongruentDifference(r, w, v.n, Pow2(bits));
      CongruentInRangeEqual(signed, bits, r, w);
    }
  }

  /** 300 sent for a uint8_t parameter is accepted and arrives as 44. */
  lemma NarrowArgumentWraps(typeId: RType -> string)
    ensures ParseInt(typeId, false, 8, RNumber(300)) == Ok(44)
  {
    Pow2Values();
  }

  /**
   * as_array on the serializer side: an array (reserved to the container's
   * size where it has one) to which each element, converted, is pushed to
   * the back in iteration order.
   */
  method AsArray<X>(xs: seq<X>, push: X -> RValue) returns (arr: RValue)
    ensures arr.RArray? && arr.items == Map(xs, push)
  {
    var items: seq<RValue> := [];
    var i := 0;
    while i < |xs|
      invariant 0 <= i <= |xs|
      invariant items == Map(xs[..i], push)
    {
      items := items + [push(xs[i])];
      i := i + 1;
    }
    assert xs[..|xs|] == xs;
    arr := RArray(items);
  }

  /** A container written and read back with inverse element conversions is unchanged. */
  lemma ArrayRoundTrip<X>(xs: seq<X>, push: X -> RValue, read: RValue -> X)
    requires forall i :: 0 <= i < |xs| ==> read(push(xs[i])) == xs[i]
    ensures Map(Map(xs, push), read) == xs
  {
  }

  /** The exception std::array reading throws: std::out_of_range with its message. */
  datatype OutOfRange = OutOfRange(what: string)

  const ArrayOutOfBounds := "JSON array out of bounds"

  /** as_array for std::array<T, N>: the array must have exactly N elements. */
  function AsStdArray<X>(size: nat, v: RValue, read: RValue -> X): (r: Checked<seq<X>, OutOfRange>)
    ensures r.AssertionFails? <==> !v.RArray?
    ensures r.Throws? <==> v.RArray? && |v.items| != size
    ensures r.Throws? ==> r.error == OutOfRange(ArrayOutOfBounds)
    ensures r.Returns? ==> |r.value| == size && r.value == Map(v.items, read)
  {
    if !v.RArray? then AssertionFails
    else if |v.items| != size then Throws(OutOfRange(ArrayOutOfBounds))
    else Returns(Map(v.items, read))
  }

  /**
   * as_array for std::forward_list: the array is walked from its last
   * element to its first, each converted element pushed to the front. The
   * list ends up in the array's order, as every other container does.
   */
  method AsForwardList<X>(items: seq<RValue>, read: RValue -> X) returns (list: seq<X>)
    ensures list == Map(items, read)
  {
    list := [];
    var i := |items|;
    while i > 0
      invariant 0 <= i <= |items|
      invariant list == Map(items[i..], read)
    {
      i := i - 1;
      list := [read(items[i])] + list;
      assert items[i..] == [items[i]] + items[i + 1..];
    }
    assert items[0..] == items;
  }

  /** as_optional on the serializer side: null when empty, else the value. */
  function SerializeOptional<X>(o: Option<X>, push: X -> RValue): (v: RValue)
  {
    match o
    case None => RNull
    case Some(x) => push(x)
  }

  /** as_optional on the deserializer side: null is empty, anything else is parsed. */
  function DeserializeOptional<X, E>(v: RValue, parse: RValue -> Result<X, E>): (r: Result<Option<X>, E>)
    ensures v.RNull? ==> r == Ok(None)
    ensures !v.RNull? ==> (r.Ok? <==> parse(v).Ok?)
    ensures !v.RNull? && r.Ok? ==> r.value == Some(parse(v).value)
  {
    if v.RNull? then Ok(None)
    else match parse(v)
      case Err(e) => Err(e)
      case Ok(x) => Ok(Some(x))
  }

  /** An optional whose value is not written as null comes back as it was sent. */
  lemma OptionalRoundTrip<X, E>(o: Option<X>, push: X -> RValue, parse: RValue -> Result<X, E>)
    requires o.Some? ==> !push(o.value).RNull? && parse(push(o.value)) == Ok(o.value)
    ensures DeserializeOptional(SerializeOptional(o, push), parse) == Ok(o)
  {
  }

  /**
   * An optional holding an empty optional is written as null and so comes
   * back empty: the two levels cannot be told apart in JSON.
   */
  lemma NestedOptionalCollapses<X, E>(push: X -> RValue, parse: RValue -> Result<Option<X>, E>)
    ensures var sent: Option<Option<X>> := Some(None);
            var pushInner := (o: Option<X>) => SerializeOptional(o, push);
            DeserializeOptional(SerializeOptional(sent, pushInner), parse) == Ok(None)
  {
  }

  /** FindMember: the first member with that name. */
  function Lookup(members: seq<Member>, name: string): (r: Option<RValue>)
    ensures r.None? <==> forall m :: m in members ==> m.name != name
    ensures r.Some? ==> Member(name, r.value) in members
    ensures |members| > 0 && members[0].name == name ==> r == Some(members[0].value)
    ensures r.Some? ==> exists i :: FirstNamed(members, name, i) && members[i].value == r.value
  {
    if |members| == 0 then None
    else if members[0].name == name then
      assert FirstNamed(members, name, 0);
      Some(members[0].value)
    else
      assert forall m :: m in members ==> m == members[0] || m in members[1..];
      var r := Lookup(members[1..], name);
      assert r.Some? ==> exists i :: FirstNamed(members, name, i) && members[i].value == r.value by {
        if r.Some? {
          var i :| FirstNamed(members[1..], name, i) && members[1..][i].value == r.value;
          FirstNamedCons(members, name, i);
        }
      }
      r
  }

  /** Member i is the first one named `name`: it has the name and no earlier one does. */
  predicate FirstNamed(members: seq<Member>, name: string, i: int)
  {
    0 <= i < |members| && members[i].name == name && forall j :: 0 <= j < i ==> members[j].name != name
  }

  lemma FirstNamedCons(members: seq<Member>, name: string, i: int)
    requires |members| > 0 && members[0].name != name
    requires FirstNamed(members[1..], name, i)
    ensures FirstNamed(members, name, i + 1) && members[i + 1] == members[1..][i]
  {
    forall j | 0 <= j < i + 1
      ensures members[j].name != name
    {
      if j > 0 { assert members[j] == members[1..][j - 1]; }
    }
  }

  /** as_tuple for std::pair on the serializer side: an object with first and second. */
  function SerializePair<A, B>(a: A, b: B, pushA: A -> RValue, pushB: B -> RValue): (v: RValue)
    ensures v.RObject? && Lookup(v.members, "first") == Some(pushA(a))
    ensures Lookup(v.members, "second") == Some(pushB(b))
  {
    RObject([Member("first", pushA(a)), Member("second", pushB(b))])
  }

  /**
   * as_tuple for std::pair on the deserializer side: first, then second,
   * each through parse_arg. A missing member stops on rapidjson's assertion.
   */
  function DeserializePair<A, B>(v: RValue, parseA: RValue -> Result<A, RpcException>, parseB: RValue -> Result<B, RpcException>)
    : (r: Checked<(A, B), RpcException>)
    ensures !v.RObject? ==> r.AssertionFails?
    ensures r.Returns? ==> v.RObject? && Lookup(v.members, "first").Some? && Lookup(v.members, "second").Some?
                           && parseA(Lookup(v.members, "first").value) == Ok(r.value.0)
                           && parseB(Lookup(v.members, "second").value) == Ok(r.value.1)
  {
    if !v.RObject? then AssertionFails
    else match Lookup(v.members, "first")
      case None => AssertionFails
      case Some(fv) =>
        match parseA(fv)
        case Err(e) => Throws(e)
        case Ok(a) =>
          match Lookup(v.members, "second")
          case None => AssertionFails
          case Some(sv) =>
            match parseB(sv)
            case Err(e) => Throws(e)
            case Ok(b) => Returns((a, b))
  }

  /** A pair comes back as it was sent when each half does. */
  lemma PairRoundTrip<A, B>(a: A, b: B, pushA: A -> RValue, pushB: B -> RValue,
                            parseA: RValue -> Result<A, RpcException>, parseB: RValue -> Result<B, RpcException>)
    requires parseA(pushA(a)) == Ok(a) && parseB(pushB(b)) == Ok(b)
    ensures DeserializePair(SerializePair(a, b, pushA, pushB), parseA, parseB) == Returns((a, b))
  {
  }

  /**
   * as_map on the serializer side: one member per entry, named by the key's
   * JSON text.
   */
  function SerializeMap<K, X>(entries: seq<(K, X)>, keyText: K -> string, push: X -> RValue): (v: RValue)
    ensures v.RObject? && |v.members| == |entries|
    ensures forall i :: 0 <= i < |entries| ==> v.members[i] == Member(keyText(entries[i].0), push(entries[i].1))
  {
    RObject(seq(|entries|, i requires 0 <= i < |entries| => Member(keyText(entries[i].0), push(entries[i].1))))
  }

  /**
   * as_map on the deserializer side: each member inserted in order; std::map
   * keeps the first value inserted under a key, so a repeated name is
   * ignored after its first occurrence.
   */
  function InsertMembers<K, X>(m: map<K, X>, members: seq<Member>, keyOf: string -> K, read: RValue -> X): (r: map<K, X>)
    ensures r.Keys == m.Keys + (set i | 0 <= i < |members| :: keyOf(members[i].name))
    ensures forall k :: k in m ==> r[k] == m[k]
    ensures forall i :: 0 <= i < |members| && FirstKeyed(m, members, keyOf, i) ==> r[keyOf(members[i].name)] == read(members[i].value)
    decreases |members|
  {
    if |members| == 0 then m
    else
      var k := keyOf(members[0].name);
      var m' := if k in m then m else m[k := read(members[0].value)];
      KeysOfMembers(members, keyOf);
      var r := InsertMembers(m', members[1..], keyOf, read);
      assert forall i :: 0 <= i < |members| && FirstKeyed(m, members, keyOf, i) ==> r[keyOf(members[i].name)] == read(members[i].value) by {
        forall i | 0 <= i < |members| && FirstKeyed(m, members, keyOf, i)
          ensures r[keyOf(members[i].name)] == read(members[i].value)
        {
          if i > 0 {
            FirstKeyedCons(m, m', members, keyOf, i);
          }
        }
      }
      r
  }

  /**
   * Member i is the first to bring its key into m: the key is not in m and no
   * earlier member has it.
   */
  predicate FirstKeyed<K, X>(m: map<K, X>, members: seq<Member>, keyOf: string -> K, i: int)
  {
    0 <= i < |members| && keyOf(members[i].name) !in m
    && forall j :: 0 <= j < i ==> keyOf(members[j].name) != keyOf(members[i].name)
  }

  lemma FirstKeyedCons<K, X>(m: map<K, X>, m': map<K, X>, members: seq<Member>, keyOf: string -> K, i: int)
    requires 0 < i && FirstKeyed(m, members, keyOf, i)
    requires m'.Keys == m.Keys + {keyOf(members[0].name)}
    ensures FirstKeyed(m', members[1..], keyOf, i - 1) && members[1..][i - 1] == members[i]
  {
    forall j | 0 <= j < i - 1
      ensures keyOf(members[1..][j].name) != keyOf(members[i].name)
    {
      assert members[1..][j] == members[j + 1];
    }
  }

  /** The keys of a member list: the first member's and the rest's. */
  lemma KeysOfMembers<K>(members: seq<Member>, keyOf: string -> K)
    requires |members| > 0
    ensures (set i | 0 <= i < |members| :: keyOf(members[i].name))
            == {keyOf(members[0].name)} + (set i | 0 <= i < |members[1..]| :: keyOf(members[1..][i].name))
  {
    forall i | 0 <= i < |members|
      ensures keyOf(members[i].name) in {keyOf(members[0].name)} + (set i | 0 <= i < |members[1..]| :: keyOf(members[1..][i].name))
    {
      if i > 0 { assert members[i] == members[1..][i - 1]; }
    }
    forall i | 0 <= i < |members[1..]|
      ensures keyOf(members[1..][i].name) in (set i | 0 <= i < |members| :: keyOf(members[i].name))
    {
      assert members[1..][i] == members[i + 1];
    }
  }

  /** The whole of as_map: the object's members inserted into an empty map. */
  function DeserializeMap<K, X>(v: RValue, keyOf: string -> K, read: RValue -> X): (r: Checked<map<K, X>, RpcException>)
    ensures r.AssertionFails? <==> !v.RObject?
    ensures r.Returns? ==> r.value == InsertMembers(map[], v.members, keyOf, read)
  {
    if !v.RObject? then AssertionFails else Returns(InsertMembers(map[], v.members, keyOf, read))
  }

  /** Of two members with the same name, the first one's value is kept. */
  lemma RepeatedMemberKeepsFirst<K, X>(name: string, a: RValue, b: RValue, keyOf: string -> K, read: RValue -> X)
    ensures var r := DeserializeMap(RObject([Member(name, a), Member(name, b)]), keyOf, read);
            r.Returns? && r.value == map[keyOf(name) := read(a)]
  {
    var members := [Member(name, a), Member(name, b)];
    var m1 := map[keyOf(name) := read(a)];
    assert members[1..] == [Member(name, b)];
    assert InsertMembers(m1, [Member(name, b)], keyOf, read) == m1 by {
      assert [Member(name, b)][1..] == [];
    }
  }

  /**
   * A map with distinct keys, written and read back with inverse key and
   * value conversions, maps every key to its value and holds nothing else.
   */
  lemma {:induction false} MapRoundTrip<K, X>(entries: seq<(K, X)>, keyText: K -> string, push: X -> RValue,
                                             keyOf: string -> K, read: RValue -> X)
    requires forall i, j :: 0 <= i < j < |entries| ==> entries[i].0 != entries[j].0
    requires forall i :: 0 <= i < |entries| ==> keyOf(keyText(entries[i].0)) == entries[i].0 && read(push(entries[i].1)) == entries[i].1
    ensures var r := DeserializeMap(SerializeMap(entries, keyText, push), keyOf, read);
            r.Returns? && r.value.Keys == (set i | 0 <= i < |entries| :: entries[i].0)
            && forall i :: 0 <= i < |entries| ==> r.value[entries[i].0] == entries[i].1
  {
    var members := SerializeMap(entries, keyText, push).members;
    InsertDistinct(map[], members, entries, keyText, push, keyOf, read);
  }

  lemma {:induction false} InsertDistinct<K, X>(m: map<K, X>, members: seq<Member>, entries: seq<(K, X)>,
                                               keyText: K -> string, push: X -> RValue, keyOf: string -> K, read: RValue -> X)
    requires |members| == |entries|
    requires forall i :: 0 <= i < |entries| ==> members[i] == Member(keyText(entries[i].0), push(entries[i].1))
    requires forall i, j :: 0 <= i < j < |entries| ==> entries[i].0 != entries[j].0
    requires forall i :: 0 <= i < |entries| ==> keyOf(keyText(entries[i].0)) == entries[i].0 && read(push(entries[i].1)) == entries[i].1
    requires forall i :: 0 <= i < |entries| ==> entries[i].0 !in m
    ensures var r := InsertMembers(m, members, keyOf, read);
            r.Keys == m.Keys + (set i | 0 <= i < |entries| :: entries[i].0)
            && forall i :: 0 <= i < |entries| ==> r[entries[i].0] == entries[i].1
    decreases |members|
  {
    var r := InsertMembers(m, members, keyOf, read);
    assert (set i | 0 <= i < |members| :: keyOf(members[i].name)) == (set i | 0 <= i < |entries| :: entries[i].0) by {
      forall i | 0 <= i < |entries|
        ensures keyOf(members[i].name) == entries[i].0
      {
      }
    }
    if |members| > 0 {
      var k := entries[0].0;
      assert keyOf(members[0].name) == k;
      var m' := m[k := read(members[0].value)];
      InsertDistinct(m', members[1..], entries[1..], keyText, push, keyOf, read);
      forall i | 0 <= i < |entries|
        ensures r[entries[i].0] == entries[i].1
      {
        if i > 0 {
          assert entries[i] == entries[1..][i - 1];
        }
      }
    }
  }

  /** The members of a multimap's object while it is being built: a name and its array so far. */
  datatype Group = Group(key: string, items: seq<RValue>)

  /** The index of the group with that name, if any (HasMember and operator[]). */
  function IndexOf(groups: seq<Group>, key: string): (r: Option<nat>)
    ensures r.Some? ==> r.value < |groups| && groups[r.value].key == key
    ensures r.None? <==> forall j :: 0 <= j < |groups| ==> groups[j].key != key
    decreases |groups|
  {
    if |groups| == 0 then None
    else if groups[|groups| - 1].key == key then Some(|groups| - 1)
    else
      assert forall j :: 0 <= j < |groups| - 1 ==> groups[j] == groups[..|groups| - 1][j];
      IndexOf(groups[..|groups| - 1], key)
  }

  /**
   * One step of as_multimap on the serializer side: add an empty array under
   * the key unless the object has one, then push the value onto it.
   */
  function AddPair(groups: seq<Group>, key: string, item: RValue): (r: seq<Group>)
    ensures IndexOf(groups, key).None? ==> r == groups + [Group(key, [item])]
    ensures IndexOf(groups, key).Some? ==>
              var i := IndexOf(groups, key).value;
              r == groups[i := Group(key, groups[i].items + [item])]
  {
    match IndexOf(groups, key)
    case None => groups + [Group(key, [item])]
    case Some(i) => groups[i := Group(key, groups[i].items + [item])]
  }

  /** The groups as_multimap builds from the entries (key text, written value) in iteration order. */
  function GroupPairs(q: seq<(string, RValue)>): (groups: seq<Group>)
    decreases |q|
  {
    if |q| == 0 then []
    else AddPair(GroupPairs(q[..|q| - 1]), q[|q| - 1].0, q[|q| - 1].1)
  }

  /** One group read back: its name paired with each element of its array. */
  function Spread(g: Group): (q: seq<(string, RValue)>)
    ensures |q| == |g.items| && forall i :: 0 <= i < |g.items| ==> q[i] == (g.key, g.items[i])
  {
    seq(|g.items|, i requires 0 <= i < |g.items| => (g.key, g.items[i]))
  }

  /** as_multimap on the deserializer side: every member's array, in member order. */
  function Expand(groups: seq<Group>): (q: seq<(string, RValue)>)
    decreases |groups|
  {
    if |groups| == 0 then [] else Expand(groups[..|groups| - 1]) + Spread(groups[|groups| - 1])
  }

  /** Entries with the same key are adjacent, as std::multimap iterates them. */
  predicate Contiguous(q: seq<(string, RValue)>)
  {
    forall i, j, k :: 0 <= i < j < k < |q| && q[i].0 == q[k].0 ==> q[j].0 == q[i].0
  }

  predicate DistinctKeys(groups: seq<Group>)
  {
    forall i, j :: 0 <= i < j < |groups| ==> groups[i].key != groups[j].key
  }

  /** The property grouping keeps while it consumes a contiguous sequence. */
  predicate GroupedAs(q: seq<(string, RValue)>, groups: seq<Group>)
  {
    Expand(groups) == q
    && DistinctKeys(groups)
    && (|q| > 0 ==> |groups| > 0 && groups[|groups| - 1].key == q[|q| - 1].0)
    && (forall j :: 0 <= j < |groups| ==> exists i :: 0 <= i < |q| && q[i].0 == groups[j].key)
  }

  /**
   * Grouping entries whose equal keys are adjacent and reading the groups
   * back gives the entries in their original order.
   */
  lemma {:induction false} GroupThenExpand(q: seq<(string, RValue)>)
    requires Contiguous(q)
    ensures GroupedAs(q, GroupPairs(q))
    decreases |q|
  {
    if |q| > 0 {
      var p := q[..|q| - 1];
      var x := q[|q| - 1];
      assert q == p + [x];
      ContiguousPrefix(q);
      GroupThenExpand(p);
      var groups := GroupPairs(p);
      if IndexOf(groups, x.0).None? {
        GroupStepNew(p, x, groups);
      } else {
        var i := IndexOf(groups, x.0).value;
        var j :| 0 <= j < |p| && p[j].0 == groups[i].key;
        LastKeyRepeats(q, j);
        GroupStepExisting(p, x, groups);
      }
    }
  }

  lemma ContiguousPrefix(q: seq<(string, RValue)>)
    requires Contiguous(q) && |q| > 0
    ensures Contiguous(q[..|q| - 1])
  {
    var p := q[..|q| - 1];
    forall i, j, k | 0 <= i < j < k < |p| && p[i].0 == p[k].0
      ensures p[j].0 == p[i].0
    {
      assert q[i] == p[i] && q[j] == p[j] && q[k] == p[k];
    }
  }

  /** When the last key already occurred earlier, contiguity puts it right before the end as well. */
  lemma LastKeyRepeats(q: seq<(string, RValue)>, j: int)
    requires Contiguous(q) && 0 <= j < |q| - 1 && q[j].0 == q[|q| - 1].0
    ensures q[|q| - 2].0 == q[|q| - 1].0
  {
  }

  /** Adding an entry under a key not seen before opens a new group at the end. */
  lemma GroupStepNew(p: seq<(string, RValue)>, x: (string, RValue), groups: seq<Group>)
    requires GroupedAs(p, groups) && IndexOf(groups, x.0).None?
    ensures GroupedAs(p + [x], AddPair(groups, x.0, x.1))
  {
    var q := p + [x];
    var r := AddPair(groups, x.0, x.1);
    assert r == groups + [Group(x.0, [x.1])];
    assert r[..|r| - 1] == groups;
    assert Spread(Group(x.0, [x.1])) == [x];
    assert Expand(r) == q;
    forall i | 0 <= i < |r|
      ensures exists k :: 0 <= k < |q| && q[k].0 == r[i].key
    {
      if i < |groups| {
        var k :| 0 <= k < |p| && p[k].0 == groups[i].key;
        assert q[k] == p[k];
      } else {
        assert q[|q| - 1].0 == r[i].key;
      }
    }
  }

  /** Adding an entry under the key of the last group extends that group. */
  lemma GroupStepExisting(p: seq<(string, RValue)>, x: (string, RValue), groups: seq<Group>)
    requires GroupedAs(p, groups) && |p| > 0 && p[|p| - 1].0 == x.0
    ensures GroupedAs(p + [x], AddPair(groups, x.0, x.1))
  {
    var q := p + [x];
    var last := |groups| - 1;
    assert IndexOf(groups, x.0).Some?;
    assert IndexOf(groups, x.0).value == last;
    var g := Group(x.0, groups[last].items + [x.1]);
    var r := AddPair(groups, x.0, x.1);
    assert r == groups[last := g];
    assert r[..last] == groups[..last];
    assert Spread(g) == Spread(groups[last]) + [x];
    assert Expand(r) == Expand(groups[..last]) + Spread(g);
    assert Expand(groups) == Expand(groups[..last]) + Spread(groups[last]);
    forall k | 0 <= k < |r|
      ensures exists k' :: 0 <= k' < |q| && q[k'].0 == r[k].key
    {
      assert r[k].key == groups[k].key;
      var k' :| 0 <= k' < |p| && p[k'].0 == groups[k].key;
      assert q[k'] == p[k'];
    }
  }

  /**
   * as_multimap on the serializer side: one array member per key text, in
   * order of first appearance, each holding that key's values in iteration
   * order.
   */
  function SerializeMultimap<K, X>(entries: seq<(K, X)>, keyText: K -> string, push: X -> RValue): (v: RValue)
    ensures v.RObject?
  {
    var q := seq(|entries|, i requires 0 <= i < |entries| => (keyText(entries[i].0), push(entries[i].1)));
    var groups := GroupPairs(q);
    RObject(seq(|groups|, i requires 0 <= i < |groups| => Member(groups[i].key, RArray(groups[i].items))))
  }

  /** The groups an object's members describe, when every member is an array. */
  function MembersAsGroups(members: seq<Member>): (r: Option<seq<Group>>)
    ensures r.Some? <==> forall i :: 0 <= i < |members| ==> members[i].value.RArray?
    ensures r.Some? ==> |r.value| == |members|
                        && forall i :: 0 <= i < |members| ==> r.value[i] == Group(members[i].name, members[i].value.items)
  {
    if forall i :: 0 <= i < |members| ==> members[i].value.RArray? then
      Some(seq(|members|, i requires 0 <= i < |members| && members[i].value.RArray? => Group(members[i].name, members[i].value.items)))
    else None
  }

  /** as_multimap on the deserializer side; a member that is not an array stops on an assertion. */
  function DeserializeMultimap<K, X>(v: RValue, keyOf: string -> K, read: RValue -> X): (r: Checked<seq<(K, X)>, RpcException>)
    ensures r.Returns? <==> v.RObject? && MembersAsGroups(v.members).Some?
    ensures r.Returns? ==> var q := Expand(MembersAsGroups(v.members).value);
                           |r.value| == |q| && forall i :: 0 <= i < |q| ==> r.value[i] == (keyOf(q[i].0), read(q[i].1))
  {
    if !v.RObject? then AssertionFails
    else match MembersAsGroups(v.members)
      case None => AssertionFails
      case Some(groups) =>
        var q := Expand(groups);
        Returns(seq(|q|, i requires 0 <= i < |q| => (keyOf(q[i].0), read(q[i].1))))
  }

  /**
   * A multimap whose equal keys are adjacent (as std::multimap iterates them)
   * comes back with its entries in the same order.
   */
  lemma MultimapRoundTrip<K, X>(entries: seq<(K, X)>, keyText: K -> string, push: X -> RValue,
                                keyOf: string -> K, read: RValue -> X)
    requires forall i, j :: 0 <= i < j < |entries| && keyText(entries[i].0) == keyText(entries[j].0) ==>
               forall k :: i < k < j ==> keyText(entries[k].0) == keyText(entries[i].0)
    requires forall i :: 0 <= i < |entries| ==> keyOf(keyText(entries[i].0)) == entries[i].0 && read(push(entries[i].1)) == entries[i].1
    ensures DeserializeMultimap(SerializeMultimap(entries, keyText, push), keyOf, read) == Returns(entries)
  {
    var q := seq(|entries|, i requires 0 <= i < |entries| => (keyText(entries[i].0), push(entries[i].1)));
    assert Contiguous(q) by {
      forall i, j, k | 0 <= i < j < k < |q| && q[i].0 == q[k].0
        ensures q[j].0 == q[i].0
      {
      }
    }
    GroupThenExpand(q);
    var groups := GroupPairs(q);
    var v := SerializeMultimap(entries, keyText, push);
    assert MembersAsGroups(v.members).value == groups;
    var r := DeserializeMultimap(v, keyOf, read);
    assert r.value == entries;
  }

  const ParseErrorMessage := "rapidjson: parsing error occurred"
  const NoFuncNameMessage := "rapidjson: field \"func_name\" not found"

  /**
   * from_bytes on a parsed document (None when parsing failed): parse errors
   * and a missing or non-string func_name throw deserialization_error; a
   * document that is not an object stops on FindMember's assertion.
   */
  function FromBytes(parsed: Option<RValue>): (r: Checked<RValue, RpcException>)
    ensures parsed.None? ==> r == Throws(Raise(DeserializationError, ParseErrorMessage))
    ensures r.AssertionFails? <==> parsed.Some? && !parsed.value.RObject?
    ensures r.Returns? <==> parsed.Some? && parsed.value.RObject?
                            && Lookup(parsed.value.members, "func_name").Some?
                            && Lookup(parsed.value.members, "func_name").value.RString?
    ensures r.Returns? ==> r.value == parsed.value
    ensures r.Throws? ==> r.error.cls == DeserializationError
  {
    match parsed
    case None => Throws(Raise(DeserializationError, ParseErrorMessage))
    case Some(doc) =>
      if !doc.RObject? then AssertionFails
      else match Lookup(doc.members, "func_name")
        case None => Throws(Raise(DeserializationError, NoFuncNameMessage))
        case Some(name) => if !name.RString? then Throws(Raise(DeserializationError, NoFuncNameMessage)) else Returns(doc)
  }

  /** operator[] then a getter: a missing member or one of another kind stops on an assertion. */
  function Field(doc: RValue, name: string): (r: Option<RValue>)
    ensures r.Some? <==> doc.RObject? && Lookup(doc.members, name).Some?
    ensures r.Some? ==> r.value == Lookup(doc.members, name).value
  {
    if doc.RObject? then Lookup(doc.members, name) else None
  }

  /** get_func_name: the func_name string up to its first NUL. */
  function GetFuncName(doc: RValue): (r: Checked<string, RpcException>)
    ensures r.Returns? <==> Field(doc, "func_name").Some? && Field(doc, "func_name").value.RString?
    ensures r.Returns? ==> r.value == CStr(Field(doc, "func_name").value.s)
    ensures !r.Throws?
  {
    match Field(doc, "func_name")
    case Some(RString(s)) => Returns(CStr(s))
    case _ => AssertionFails
  }

  /** Whatever from_bytes accepts has a function name to read. */
  lemma FromBytesThenFuncName(parsed: Option<RValue>)
    requires FromBytes(parsed).Returns?
    ensures GetFuncName(FromBytes(parsed).value).Returns?
  {
  }

  /** get_type: the type member read with GetInt and cast to rpc_type. */
  function GetType(doc: RValue): (r: Checked<int, RpcException>)
    ensures r.Returns? <==> Field(doc, "type").Some? && IsInt(Field(doc, "type").value)
    ensures r.Returns? ==> r.value == Field(doc, "type").value.n
    ensures !r.Throws?
  {
    match Field(doc, "type")
    case Some(v) => if IsInt(v) then Returns(v.n) else AssertionFails
    case None => AssertionFails
  }

  /** has_bound_args: the bind_args member read with GetBool. */
  function HasBoundArgs(doc: RValue): (r: Checked<bool, RpcException>)
    ensures r.Returns? <==> Field(doc, "bind_args").Some? && Field(doc, "bind_args").value.RBool?
    ensures r.Returns? ==> r.value == Field(doc, "bind_args").value.b
    ensures !r.Throws?
  {
    match Field(doc, "bind_args")
    case Some(RBool(b)) => Returns(b)
    case _ => AssertionFails
  }
}

=== FILE: rpc.dfy ===
/**
 * The single-header generation of the library, include/rpc.hpp (namespace
 * rpc_hpp): the exception_type and rpc_type enumerations with their
 * validators, the exception classes, the message records and the field
 * schema each is serialized with, rpc_object's accessors and exec_func.
 *
 * An rpc_object is modelled by the message record it holds: the serial
 * adapter is assumed to store and return the fields it was given (the
 * adapters are modelled separately, where they inspect bytes themselves).
 *
 * Several accessors here (RpcTypeCode, RpcTypeOf, Type, GetArgs,
 * GetErrorType, GetErrorMesg, HasBoundArgs, IsError, ExecFunc) read the same
 * as their counterparts in include/impl/rpc_object.hpp and
 * include/impl/detail/exec_func.hpp (modules ImplKinds, ImplObject and
 * ImplExec). They are stated again over this header's own enumerations and
 * records, because the two generations differ in their exception
 * enumeration and in what a message carries.
 */
module Rpc {
  import opened Wrappers
  import opened Values
  import opened CStrings

  // ---------------------------------------------------------------------------
  // exception_type and validate_exception_type

  /** The enumerators of exception_type, in declaration order. */
  datatype ExceptionType =
    | NoError | FunctionMissing | RemoteExec | Serialization | Deserialization
    | FunctionBind | FuncSignatureMismatch | ClientSend | ClientReceive
    | ServerSend | ServerReceive | RpcObjectMismatch | CallbackInstall
    | CallbackMissing

  /** static_cast<int> of an enumerator: its position in the declaration. */
  function ExceptionCode(t: ExceptionType): (c: int)
    ensures 0 <= c <= 13
  {
    match t
    case NoError => 0
    case FunctionMissing => 1
    case RemoteExec => 2
    case Serialization => 3
    case Deserialization => 4
    case FunctionBind => 5
    case FuncSignatureMismatch => 6
    case ClientSend => 7
    case ClientReceive => 8
    case ServerSend => 9
    case ServerReceive => 10
    case RpcObjectMismatch => 11
    case CallbackInstall => 12
    case CallbackMissing => 13
  }

  /** The enumerator an integer stands for, if it stands for one. */
  function ExceptionTypeOf(c: int): (r: Option<ExceptionType>)
    ensures r.Some? ==> ExceptionCode(r.value) == c
    ensures 0 <= c <= 13 ==> r.Some?
  {
    if c == 0 then Some(NoError)
    else if c == 1 then Some(FunctionMissing)
    else if c == 2 then Some(RemoteExec)
    else if c == 3 then Some(Serialization)
    else if c == 4 then Some(Deserialization)
    else if c == 5 then Some(FunctionBind)
    else if c == 6 then Some(FuncSignatureMismatch)
    else if c == 7 then Some(ClientSend)
    else if c == 8 then Some(ClientReceive)
    else if c == 9 then Some(ServerSend)
    else if c == 10 then Some(ServerReceive)
    else if c == 11 then Some(RpcObjectMismatch)
    else if c == 12 then Some(CallbackInstall)
    else if c == 13 then Some(CallbackMissing)
    else None
  }

  /** validate_exception_type: the value lies between none and callback_missing. */
  predicate ValidateExceptionType(c: int)
  {
    ExceptionCode(NoError) <= c <= ExceptionCode(CallbackMissing)
  }

  /** An integer passes validate_exception_type exactly when some enumerator has it as its value. */
  lemma ValidExceptionTypeIsEnumerator(c: int)
    ensures ValidateExceptionType(c) <==> exists t :: ExceptionCode(t) == c
  {
    if ValidateExceptionType(c) {
      var t := ExceptionTypeOf(c).value;
      assert ExceptionCode(t) == c;
    }
  }

  /** Distinct enumerators have distinct values, and reading a value back gives its enumerator. */
  lemma ExceptionCodeRoundTrip(t: ExceptionType, u: ExceptionType)
    ensures ExceptionTypeOf(ExceptionCode(t)) == Some(t)
    ensures ExceptionCode(t) == ExceptionCode(u) ==> t == u
  {
  }

  // ---------------------------------------------------------------------------
  // The exception classes

  /** rpc_exception and the thirteen classes derived from it. */
  datatype ExceptionClass =
    | RpcExceptionClass | FunctionMissingError | RemoteExecError
    | SerializationError | DeserializationError | FunctionBindError
    | FunctionMismatchError | ClientSendError | ClientReceiveError
    | ServerSendError | ServerReceiveError | ObjectMismatchError
    | CallbackInstallError | CallbackMissingError

  /**
   * The type each derived class passes to rpc_exception's constructor; the
   * base class takes its type from the caller and has no fixed one.
   */
  function ClassTag(cls: ExceptionClass): (t: Option<ExceptionType>)
    ensures t.None? <==> cls == RpcExceptionClass
    ensures t.Some? ==> t.value != NoError
  {
    match cls
    case RpcExceptionClass => None
    case FunctionMissingError => Some(FunctionMissing)
    case RemoteExecError => Some(RemoteExec)
    case SerializationError => Some(Serialization)
    case DeserializationError => Some(Deserialization)
    case FunctionBindError => Some(FunctionBind)
    case FunctionMismatchError => Some(FuncSignatureMismatch)
    case ClientSendError => Some(ClientSend)
    case ClientReceiveError => Some(ClientReceive)
    case ServerSendError => Some(ServerSend)
    case ServerReceiveError => Some(ServerReceive)
    case ObjectMismatchError => Some(RpcObjectMismatch)
    case CallbackInstallError => Some(CallbackInstall)
    case CallbackMissingError => Some(CallbackMissing)
  }

  /** A thrown exception: its most-derived class, what() and get_type(). */
  datatype RpcException = RpcException(cls: ExceptionClass, what: string, etype: int)

  /** Throwing a derived class with a message: the message is kept and the tag is the class's. */
  function Raise(cls: ExceptionClass, mesg: string): (e: RpcException)
    requires cls != RpcExceptionClass
    ensures e.cls == cls && e.what == mesg
    ensures ValidateExceptionType(e.etype)
    ensures ExceptionTypeOf(e.etype) == ClassTag(cls)
  {
    RpcException(cls, mesg, ExceptionCode(ClassTag(cls).value))
  }

  /** rpc_exception's own constructor, whose postcondition demands a valid type. */
  function MakeRpcException(mesg: string, t: int): (e: RpcException)
    requires ValidateExceptionType(t)
    ensures e.cls == RpcExceptionClass && e.what == mesg && e.etype == t
  {
    RpcException(RpcExceptionClass, mesg, t)
  }

  /**
   * detail::rpc_throw: the class selected by the error's except_type, carrying
   * the error's message; none selects the base class itself.
   */
  function RpcThrow(exceptType: int, errMesg: string): (e: RpcException)
    requires ValidateExceptionType(exceptType)
    ensures e.etype == exceptType && e.what == errMesg
    ensures e.cls == RpcExceptionClass <==> exceptType == ExceptionCode(NoError)
    ensures e.cls != RpcExceptionClass ==> ClassTag(e.cls) == ExceptionTypeOf(exceptType)
  {
    match ExceptionTypeOf(exceptType).value
    case FunctionMissing => Raise(FunctionMissingError, errMesg)
    case RemoteExec => Raise(RemoteExecError, errMesg)
    case Serialization => Raise(SerializationError, errMesg)
    case Deserialization => Raise(DeserializationError, errMesg)
    case FunctionBind => Raise(FunctionBindError, errMesg)
    case FuncSignatureMismatch => Raise(FunctionMismatchError, errMesg)
    case ClientSend => Raise(ClientSendError, errMesg)
    case ClientReceive => Raise(ClientReceiveError, errMesg)
    case ServerSend => Raise(ServerSendError, errMesg)
    case ServerReceive => Raise(ServerReceiveError, errMesg)
    case RpcObjectMismatch => Raise(ObjectMismatchError, errMesg)
    case CallbackInstall => Raise(CallbackInstallError, errMesg)
    case CallbackMissing => Raise(CallbackMissingError, errMesg)
    case NoError => MakeRpcException(errMesg, exceptType)
  }

  // ---------------------------------------------------------------------------
  // rpc_type and validate_rpc_type

  /** The enumerators of rpc_type, in declaration order. */
  datatype RpcType =
    | CallbackInstallRequest | CallbackError | CallbackRequest | CallbackResult
    | CallbackResultWBind | FuncError | FuncRequest | FuncResult | FuncResultWBind

  /** static_cast<int> of an rpc_type enumerator. */
  function RpcTypeCode(t: RpcType): (c: int)
    ensures 0 <= c <= 8
  {
    match t
    case CallbackInstallRequest => 0
    case CallbackError => 1
    case CallbackRequest => 2
    case CallbackResult => 3
    case CallbackResultWBind => 4
    case FuncError => 5
    case FuncRequest => 6
    case FuncResult => 7
    case FuncResultWBind => 8
  }

  /** The rpc_type an integer stands for, if it stands for one. */
  function RpcTypeOf(c: int): (r: Option<RpcType>)
    ensures r.Some? ==> RpcTypeCode(r.value) == c
    ensures 0 <= c <= 8 ==> r.Some?
  {
    if c == 0 then Some(CallbackInstallRequest)
    else if c == 1 then Some(CallbackError)
    else if c == 2 then Some(CallbackRequest)
    else if c == 3 then Some(CallbackResult)
    else if c == 4 then Some(CallbackResultWBind)
    else if c == 5 then Some(FuncError)
    else if c == 6 then Some(FuncRequest)
    else if c == 7 then Some(FuncResult)
    else if c == 8 then Some(FuncResultWBind)
    else None
  }

  /** validate_rpc_type: the value lies between callback_install_request and func_result_w_bind. */
  predicate ValidateRpcType(c: int)
  {
    RpcTypeCode(CallbackInstallRequest) <= c <= RpcTypeCode(FuncResultWBind)
  }

  /** An integer passes validate_rpc_type exactly when some rpc_type has it as its value. */
  lemma ValidRpcTypeIsEnumerator(c: int)
    ensures ValidateRpcType(c) <==> exists t :: RpcTypeCode(t) == c
  {
    if ValidateRpcType(c) {
      var t := RpcTypeOf(c).value;
      assert RpcTypeCode(t) == c;
    }
  }

  /** Distinct kinds have distinct values, and reading a value back gives its kind. */
  lemma RpcTypeCodeRoundTrip(t: RpcType, u: RpcType)
    ensures RpcTypeOf(RpcTypeCode(t)) == Some(t)
    ensures RpcTypeCode(t) == RpcTypeCode(u) ==> t == u
  {
  }

  /** The five callback kinds are numbered first. */
  predicate IsCallbackType(t: RpcType)
  {
    RpcTypeCode(t) <= RpcTypeCode(CallbackResultWBind)
  }

  predicate IsResultType(t: RpcType)
  {
    t == FuncResult || t == FuncResultWBind || t == CallbackResult || t == CallbackResultWBind
  }

  predicate IsErrorType(t: RpcType)
  {
    t == FuncError || t == CallbackError
  }

  /** The kinds that carry an argument tuple: requests and results with bound arguments. */
  predicate CarriesArgs(t: RpcType)
  {
    t == FuncRequest || t == FuncResultWBind || t == CallbackRequest || t == CallbackResultWBind
  }

  // ---------------------------------------------------------------------------
  // The message records an rpc_object is built from

  /**
   * rpc_request, rpc_result, rpc_result_w_bind, rpc_error (each for function
   * calls or callbacks) and callback_install_request. A result of void R has
   * no value (`result == None`).
   */
  datatype Message =
    | RequestMsg(isCallback: bool, funcName: string, bindArgs: bool, args: Args)
    | ResultMsg(isCallback: bool, funcName: string, result: Option<Value>)
    | ResultWBindMsg(isCallback: bool, funcName: string, result: Option<Value>, args: Args)
    | ErrorMsg(isCallback: bool, funcName: string, exceptType: int, errMesg: string)
    | InstallMsg(funcName: string, isUninstall: bool)

  /** rpc_error's invariant: except_type holds a valid exception_type. */
  predicate WellFormed(m: Message)
  {
    m.ErrorMsg? ==> ValidateExceptionType(m.exceptType)
  }

  /**
   * rpc_error built from a caught exception, keeping its type and what().
   * what() is a const char*, so the stored message stops at the first NUL.
   * Throwing the error again gives an exception of the same type, and of the
   * same message when that message holds no NUL.
   */
  function ErrorOf(isCallback: bool, funcName: string, e: RpcException): (m: Message)
    ensures m.ErrorMsg? && m.isCallback == isCallback && m.funcName == funcName
    ensures m.exceptType == e.etype && m.errMesg == CStr(e.what)
    ensures ValidateExceptionType(e.etype) ==> WellFormed(m)
    ensures ValidateExceptionType(e.etype) ==> RpcThrow(m.exceptType, m.errMesg).etype == e.etype
    ensures ValidateExceptionType(e.etype) ==> RpcThrow(m.exceptType, m.errMesg).what == CStr(e.what)
    ensures ValidateExceptionType(e.etype) && '\0' !in e.what ==> RpcThrow(m.exceptType, m.errMesg).what == e.what
  {
    ErrorMsg(isCallback, funcName, e.etype, CStr(e.what))
  }

  /** The kind an rpc_object built from the record reports through type(). */
  function Type(m: Message): (t: RpcType)
    ensures IsCallbackType(t) <==> (m.InstallMsg? || m.isCallback)
  {
    match m
    case RequestMsg(cb, _, _, _) => if cb then CallbackRequest else FuncRequest
    case ResultMsg(cb, _, _) => if cb then CallbackResult else FuncResult
    case ResultWBindMsg(cb, _, _, _) => if cb then CallbackResultWBind else FuncResultWBind
    case ErrorMsg(cb, _, _, _) => if cb then CallbackError else FuncError
    case InstallMsg(_, _) => CallbackInstallRequest
  }

  // ---------------------------------------------------------------------------
  // Field schemas (detail::serialize for each record)

  datatype FieldValue =
    | IntField(i: int)
    | StringField(s: string)
    | BoolField(b: bool)
    | TupleField(items: Args)
    | ObjectField(v: Value)

  /** One as_int/as_string/as_bool/as_tuple/as_object call: a key and its value. */
  datatype Field = Field(key: string, value: FieldValue)

  function Keys(fs: seq<Field>): (ks: seq<string>)
    ensures |ks| == |fs|
    ensures forall i :: 0 <= i < |fs| ==> ks[i] == fs[i].key
  {
    if |fs| == 0 then [] else [fs[0].key] + Keys(fs[1..])
  }

  /** The fields written for a result value, absent for void R. */
  function ResultFields(result: Option<Value>): seq<Field>
  {
    match result
    case None => []
    case Some(v) => [Field("result", ObjectField(v))]
  }

  /** The sequence of fields serialize() writes for a record, in call order. */
  function Serialize(m: Message): (fs: seq<Field>)
    ensures |fs| >= 2
    ensures fs[0] == Field("type", IntField(RpcTypeCode(Type(m))))
    ensures fs[1] == Field("func_name", StringField(m.funcName))
  {
    var head := [Field("type", IntField(RpcTypeCode(Type(m)))), Field("func_name", StringField(m.funcName))];
    match m
    case RequestMsg(_, _, bindArgs, args) =>
      head + [Field("bind_args", BoolField(bindArgs)), Field("args", TupleField(args))]
    case ResultMsg(_, _, result) =>
      head + ResultFields(result)
    case ResultWBindMsg(_, _, result, args) =>
      head + [Field("bind_args", BoolField(true)), Field("args", TupleField(args))] + ResultFields(result)
    case ErrorMsg(_, _, exceptType, errMesg) =>
      head + [Field("except_type", IntField(exceptType)), Field("err_mesg", StringField(errMesg))]
    case InstallMsg(_, isUninstall) =>
      head + [Field("is_uninstall", BoolField(isUninstall))]
  }

  /** Reading a result value back: no field, or exactly one "result" object. */
  function ReadResult(rest: seq<Field>): (r: Option<Option<Value>>)
    ensures r.Some? ==> ResultFields(r.value) == rest
  {
    if |rest| == 0 then Some(None)
    else if |rest| == 1 && rest[0].key == "result" && rest[0].value.ObjectField? then Some(Some(rest[0].value.v))
    else None
  }

  /**
   * The inverse of Serialize: the record a sequence of fields describes,
   * reading the kind from "type" and the remaining fields in schema order.
   */
  function Deserialize(fs: seq<Field>): (r: Option<Message>)
    ensures r.Some? ==> Serialize(r.value) == fs
  {
    if |fs| < 2 || fs[0].key != "type" || !fs[0].value.IntField?
       || fs[1].key != "func_name" || !fs[1].value.StringField?
    then None
    else
      var name := fs[1].value.s;
      var rest := fs[2..];
      assert fs == fs[..2] + rest;
      match RpcTypeOf(fs[0].value.i)
      case None => None
      case Some(t) =>
        var cb := IsCallbackType(t);
        if t == FuncRequest || t == CallbackRequest then
          if |rest| == 2 && rest[0].key == "bind_args" && rest[0].value.BoolField?
             && rest[1].key == "args" && rest[1].value.TupleField?
          then Some(RequestMsg(cb, name, rest[0].value.b, rest[1].value.items))
          else None
        else if t == FuncResult || t == CallbackResult then
          match ReadResult(rest)
          case None => None
          case Some(result) => Some(ResultMsg(cb, name, result))
        else if t == FuncResultWBind || t == CallbackResultWBind then
          if |rest| >= 2 && rest[0] == Field("bind_args", BoolField(true))
             && rest[1].key == "args" && rest[1].value.TupleField?
          then
            match ReadResult(rest[2..])
            case None => None
            case Some(result) => Some(ResultWBindMsg(cb, name, result, rest[1].value.items))
          else None
        else if t == FuncError || t == CallbackError then
          if |rest| == 2 && rest[0].key == "except_type" && rest[0].value.IntField?
             && rest[1].key == "err_mesg" && rest[1].value.StringField?
          then Some(ErrorMsg(cb, name, rest[0].value.i, rest[1].value.s))
          else None
        else
          if |rest| == 1 && rest[0].key == "is_uninstall" && rest[0].value.BoolField?
          then Some(InstallMsg(name, rest[0].value.b))
          else None
  }

  /** Every record is read back from the fields it is written as. */
  lemma SerializeRoundTrip(m: Message)
    ensures Deserialize(Serialize(m)) == Some(m)
  {
    var fs := Serialize(m);
    RpcTypeCodeRoundTrip(Type(m), Type(m));
    assert fs[2..] == Serialize(m)[2..];
    match m
    case RequestMsg(_, _, _, _) =>
    case ResultMsg(_, _, result) =>
      assert fs[2..] == ResultFields(result);
    case ResultWBindMsg(_, _, result, _) =>
      assert fs[2..][2..] == ResultFields(result);
    case ErrorMsg(_, _, _, _) =>
    case InstallMsg(_, _) =>
  }

  /**
   * Each constructor of rpc_object writes the record's kind into "type", so
   * type() reports the record's kind, the callback variant exactly when the
   * record is a callback one.
   */
  lemma ConstructorsYieldKind(m: Message)
    ensures RpcTypeOf(Serialize(m)[0].value.i) == Some(Type(m))
    ensures m.RequestMsg? ==> Type(m) == (if m.isCallback then CallbackRequest else FuncRequest)
    ensures m.ResultMsg? ==> Type(m) == (if m.isCallback then CallbackResult else FuncResult)
    ensures m.ResultWBindMsg? ==> Type(m) == (if m.isCallback then CallbackResultWBind else FuncResultWBind)
    ensures m.ErrorMsg? ==> Type(m) == (if m.isCallback then CallbackError else FuncError)
    ensures m.InstallMsg? ==> Type(m) == CallbackInstallRequest
  {
    RpcTypeCodeRoundTrip(Type(m), Type(m));
  }

  /** A request writes type, func_name, bind_args and args, in that order. */
  lemma RequestFieldOrder(isCallback: bool, name: string, bindArgs: bool, args: Args)
    ensures Keys(Serialize(RequestMsg(isCallback, name, bindArgs, args)))
         == ["type", "func_name", "bind_args", "args"]
  {
  }

  /**
   * A result_w_bind of void R is written like a request with bind_args set,
   * differing only in the kind; a non-void one appends the result.
   */
  lemma WBindFieldsExtendRequest(isCallback: bool, name: string, result: Option<Value>, args: Args)
    ensures Serialize(ResultWBindMsg(isCallback, name, result, args))[1..]
         == Serialize(RequestMsg(isCallback, name, true, args))[1..] + ResultFields(result)
  {
  }

  /** A result of void R writes only type and func_name. */
  lemma VoidResultOmitsResult(isCallback: bool, name: string)
    ensures Keys(Serialize(ResultMsg(isCallback, name, None))) == ["type", "func_name"]
  {
  }

  /** An error writes type, func_name, except_type and err_mesg. */
  lemma ErrorFieldOrder(isCallback: bool, name: string, exceptType: int, errMesg: string)
    ensures Keys(Serialize(ErrorMsg(isCallback, name, exceptType, errMesg)))
         == ["type", "func_name", "except_type", "err_mesg"]
  {
  }

  // ---------------------------------------------------------------------------
  // rpc_object

  const MismatchMessage: string := "RPC error: invalid rpc_object type detected"

  /** What every accessor throws when called on a kind it does not apply to. */
  function Mismatch(): (e: RpcException)
    ensures e.cls == ObjectMismatchError && e.etype == ExceptionCode(RpcObjectMismatch)
  {
    Raise(ObjectMismatchError, MismatchMessage)
  }

  /**
   * What Serial::from_bytes yields, as parse_bytes inspects it: whether the
   * serial object is empty, the integer its type field holds (the JSON
   * adapters read it without checking it), and the record its other fields
   * hold.
   */
  datatype SerialObject = SerialObject(isEmpty: bool, typeCode: int, record: Message)

  /**
   * parse_bytes: a throwing from_bytes gives an empty optional (the function
   * is noexcept); an object that is empty or whose type names no rpc_type
   * fails the postconditions; any other object is wrapped.
   */
  function ParseBytes(fromBytes: Result<SerialObject, string>): (r: Checked<Option<SerialObject>, RpcException>)
    ensures !r.Throws?
    ensures r == Returns(None) <==> fromBytes.Err?
    ensures r.AssertionFails? <==> fromBytes.Ok? && (fromBytes.value.isEmpty || !ValidateRpcType(fromBytes.value.typeCode))
    ensures r.Returns? && r.value.Some? ==> r.value.value == fromBytes.value && !r.value.value.isEmpty
    ensures r.Returns? && r.value.Some? ==> RpcTypeOf(r.value.value.typeCode).Some?
  {
    match fromBytes
    case Err(_) => Returns(None)
    case Ok(o) =>
      if o.isEmpty || !ValidateRpcType(o.typeCode) then AssertionFails
      else Returns(Some(o))
  }

  /**
   * An object an rpc_object constructor wrote (not empty, its type field the
   * record's kind) passes parse_bytes unchanged; a type field holding an
   * integer past the last enumerator fails its postcondition.
   */
  lemma ParseBytesChecksStoredType(m: Message, code: int)
    ensures ParseBytes(Ok(SerialObject(false, RpcTypeCode(Type(m)), m))) == Returns(Some(SerialObject(false, RpcTypeCode(Type(m)), m)))
    ensures code > RpcTypeCode(FuncResultWBind) ==> ParseBytes(Ok(SerialObject(false, code, m))).AssertionFails?
  {
  }

  /** An exception as the library throws it: rpc_exception's constructor keeps its type valid. */
  type ValidException = e: RpcException | ValidateExceptionType(e.etype)
    witness RpcException(RpcExceptionClass, "", 0)

  /** Something thrown: an rpc_exception, or another std::exception with its what(). */
  datatype Thrown = RpcThrown(e: RpcException) | StdThrown(what: string)

  /** A thrown rpc_exception has a valid type, as its constructor keeps it. */
  type ValidThrown = t: Thrown | t.RpcThrown? ==> ValidateExceptionType(t.e.etype)
    witness StdThrown("")

  /**
   * Serial::get_request<IsCallback, Args...>: the serial adapter reads a
   * stored argument tuple as the declared parameter types, or throws. The
   * adapters throw function_mismatch_error when a value or the count does not
   * fit the types, and their container reads may throw other std::exceptions
   * (std::out_of_range for a JSON array longer than a std::array).
   */
  type ArgsReader = Args -> Result<Args, ValidThrown>

  /**
   * The R of get_result<R>: void, which reads nothing, or a type the serial
   * adapter reads the stored result as (Serial::get_result<IsCallback, R>),
   * throwing when the stored result does not fit it.
   */
  datatype ResultType = Void | Typed(read: Option<Value> -> Result<Value, ValidException>)

  /** A stored result read as R: nothing for void R, otherwise the adapter's read. */
  function ReadAs(rt: ResultType, stored: Option<Value>): Result<Option<Value>, RpcException>
  {
    match rt
    case Void => Ok(None)
    case Typed(read) =>
      match read(stored)
      case Ok(v) => Ok(Some(v))
      case Err(e) => Err(e)
  }

  /**
   * get_result<R>: the stored value read as R for the four result kinds, the
   * error's own exception for the two error kinds, object_mismatch_error for
   * the rest.
   */
  function GetResult(m: Message, rt: ResultType): (r: Result<Option<Value>, RpcException>)
    requires WellFormed(m)
    ensures r.Ok? ==> IsResultType(Type(m))
    ensures IsResultType(Type(m)) ==> m.ResultMsg? || m.ResultWBindMsg?
    ensures IsResultType(Type(m)) && rt.Void? ==> r == Ok(None)
    ensures IsResultType(Type(m)) && rt.Typed? ==> (r.Ok? <==> rt.read(m.result).Ok?)
    ensures IsResultType(Type(m)) && rt.Typed? && r.Ok? ==> r.value == Some(rt.read(m.result).value)
    ensures IsResultType(Type(m)) && rt.Typed? && r.Err? ==> r.error == rt.read(m.result).error
    ensures IsErrorType(Type(m)) ==> m.ErrorMsg? && r == Err(RpcThrow(m.exceptType, m.errMesg))
    ensures !IsResultType(Type(m)) && !IsErrorType(Type(m)) ==> r == Err(Mismatch())
  {
    match m
    case ResultMsg(_, _, result) => ReadAs(rt, result)
    case ResultWBindMsg(_, _, result, _) => ReadAs(rt, result)
    case ErrorMsg(_, _, exceptType, errMesg) => Err(RpcThrow(exceptType, errMesg))
    case RequestMsg(_, _, _, _) => Err(Mismatch())
    case InstallMsg(_, _) => Err(Mismatch())
  }

  /** The kind check of get_args: the stored tuple, for requests and results with bound arguments only. */
  function StoredArgs(m: Message): (r: Result<Args, RpcException>)
    ensures r.Ok? <==> CarriesArgs(Type(m))
    ensures r.Ok? ==> (m.RequestMsg? || m.ResultWBindMsg?) && r.value == m.args
    ensures r.Err? ==> r.error == Mismatch()
  {
    match m
    case RequestMsg(_, _, _, args) => Ok(args)
    case ResultWBindMsg(_, _, _, args) => Ok(args)
    case _ => Err(Mismatch())
  }

  /**
   * get_args<Args...>: on a kind that carries a tuple, the adapter's read of
   * it as the declared types (which may throw); object_mismatch_error on the
   * other kinds.
   */
  function GetArgs(m: Message, read: ArgsReader): (r: Result<Args, Thrown>)
    ensures CarriesArgs(Type(m)) ==> (m.RequestMsg? || m.ResultWBindMsg?) && r == read(m.args)
    ensures !CarriesArgs(Type(m)) ==> r == Err(RpcThrown(Mismatch()))
  {
    match StoredArgs(m)
    case Err(e) => Err(RpcThrown(e))
    case Ok(args) => read(args)
  }

  /** is_callback_uninstall: an install request whose is_uninstall flag is set. */
  function IsCallbackUninstall(m: Message): (b: bool)
    ensures b ==> Type(m) == CallbackInstallRequest
    ensures Type(m) == CallbackInstallRequest ==> (b <==> m.isUninstall)
  {
    match m
    case InstallMsg(_, isUninstall) => isUninstall
    case _ => false
  }

  /** get_error_type: the stored except_type, for the two error kinds only. */
  function GetErrorType(m: Message): (r: Result<int, RpcException>)
    ensures r.Ok? <==> IsErrorType(Type(m))
    ensures r.Ok? ==> m.ErrorMsg? && r.value == m.exceptType
    ensures r.Err? ==> r.error == Mismatch()
  {
    match m
    case ErrorMsg(_, _, exceptType, _) => Ok(exceptType)
    case _ => Err(Mismatch())
  }

  /** get_error_mesg: the stored err_mesg, for the two error kinds only. */
  function GetErrorMesg(m: Message): (r: Result<string, RpcException>)
    ensures r.Ok? <==> IsErrorType(Type(m))
    ensures r.Ok? ==> m.ErrorMsg? && r.value == m.errMesg
    ensures r.Err? ==> r.error == Mismatch()
  {
    match m
    case ErrorMsg(_, _, _, errMesg) => Ok(errMesg)
    case _ => Err(Mismatch())
  }

  /**
   * has_bound_args: the adapter's reading of the request's flag for the two
   * request kinds, true for the two w_bind kinds, object_mismatch_error otherwise.
   */
  function HasBoundArgs(m: Message): (r: Result<bool, RpcException>)
    ensures r.Ok? <==> CarriesArgs(Type(m))
    ensures (Type(m) == FuncRequest || Type(m) == CallbackRequest) ==> m.RequestMsg? && r == Ok(m.bindArgs)
    ensures (Type(m) == FuncResultWBind || Type(m) == CallbackResultWBind) ==> r == Ok(true)
    ensures r.Err? ==> r.error == Mismatch()
  {
    match m
    case RequestMsg(_, _, bindArgs, _) => Ok(bindArgs)
    case ResultWBindMsg(_, _, _, _) => Ok(true)
    case _ => Err(Mismatch())
  }

  /** is_error: the kind is func_error or callback_error. */
  function IsError(m: Message): (b: bool)
    ensures b <==> IsErrorType(Type(m))
  {
    m.ErrorMsg?
  }

  /**
   * The accessor tables agree: get_args and has_bound_args are legal on the
   * same kinds, and get_error_type, get_error_mesg and is_error on the same kinds.
   */
  lemma AccessorTablesAgree(m: Message, rt: ResultType)
    ensures StoredArgs(m).Ok? <==> HasBoundArgs(m).Ok?
    ensures GetErrorType(m).Ok? <==> IsError(m)
    ensures GetErrorMesg(m).Ok? <==> IsError(m)
    ensures WellFormed(m) ==> (GetResult(m, rt).Ok? ==> !IsError(m))
  {
  }

  // ---------------------------------------------------------------------------
  // exec_func

  /**
   * What calling the bound function on an argument tuple does: it returns
   * (no value for void R, and the tuple as the call left it, since arguments
   * taken by reference are written through) or throws a std::exception.
   */
  datatype CallOutcome = Returned(ret: Option<Value>, argsAfter: Args) | Threw(what: string)

  /**
   * A function as exec_func calls it: the adapter's read of a request's tuple
   * as the function's parameter types, and what the call does.
   */
  datatype Callable = Callable(readArgs: ArgsReader, call: Args -> CallOutcome)

  /**
   * detail::exec_func: read the arguments as the function's parameter types
   * (outside the try, so what that read throws escapes as it is), the name and
   * the bound flag, call, and replace the object by a result of the callback
   * or function variant chosen by `isCallback`; any std::exception from the
   * call becomes remote_exec_error, built from its what() as a const char*.
   */
  function ExecFunc(isCallback: bool, f: Callable, m: Message): (r: Result<Message, Thrown>)
    ensures var a := GetArgs(m, f.readArgs); a.Err? ==> r == Err(a.error)
    ensures var a := GetArgs(m, f.readArgs);
            a.Ok? && f.call(a.value).Threw? ==> r == Err(RpcThrown(Raise(RemoteExecError, CStr(f.call(a.value).what))))
    ensures var a := GetArgs(m, f.readArgs); r.Ok? <==> a.Ok? && f.call(a.value).Returned?
    ensures r.Ok? ==> r.value.funcName == m.funcName && IsResultType(Type(r.value))
    ensures r.Ok? ==> (IsCallbackType(Type(r.value)) <==> isCallback)
    ensures r.Ok? ==> (r.value.ResultWBindMsg? <==> HasBoundArgs(m) == Ok(true))
    ensures r.Ok? ==> r.value.result == f.call(GetArgs(m, f.readArgs).value).ret
    ensures r.Ok? && r.value.ResultWBindMsg? ==> r.value.args == f.call(GetArgs(m, f.readArgs).value).argsAfter
  {
    match GetArgs(m, f.readArgs)
    case Err(e) => Err(e)
    case Ok(args) =>
      var funcName := m.funcName;
      // get_args succeeded, so has_bound_args applies to this kind as well
      var bound := HasBoundArgs(m).value;
      match f.call(args)
      case Threw(what) => Err(RpcThrown(Raise(RemoteExecError, CStr(what))))
      case Returned(ret, argsAfter) =>
        if bound then Ok(ResultWBindMsg(isCallback, funcName, ret, argsAfter))
        else Ok(ResultMsg(isCallback, funcName, ret))
  }
}

=== FILE: rpc_client.dfy ===
/**
 * include/rpc_client.hpp: client_interface's calls (call_func,
 * call_func_w_bind, call_header_func_impl), its receive loop, and its local
 * callback map (install_callback, uninstall_callback, dispatch_callback).
 *
 * Transport is abstract: what the client sends is recorded as a sequence of
 * objects, and what it receives is a given sequence of incoming items (a
 * receive that throws, bytes that do not parse, or a parsed object). Sends
 * are taken to succeed.
 */
module RpcClient {
  import opened Wrappers
  import opened Values
  import opened ImplExceptions
  import opened ImplKinds
  import opened ImplTypes
  import opened ImplObject
  import opened ImplExec
  import opened ForEach
  import opened CStrings

  /**
   * A locally installed callback: the read of a request's tuple as its
   * parameter types, and what calling it does.
   */
  type Handler = Callable

  /** m_callback_map. */
  type CallbackMap = map<string, Handler>

  /** One receive(): it throws a std::exception, or yields bytes that parse or do not. */
  datatype Incoming = ReceiveFailed(what: string) | Unparseable | Parsed(m: Message)

  /** Something that escapes a client call: an rpc_exception or another std::exception. */
  datatype Thrown = RpcThrown(e: RpcException) | StdThrown(what: string)

  /** has_callback: a local handler is registered under the name. */
  predicate HasCallback(callbacks: CallbackMap, name: string)
  {
    name in callbacks
  }

  function NotFoundMessage(name: string): string
  {
    "RPC error: Called function: \"" + name + "\" not found"
  }

  /**
   * dispatch_callback: run the local handler registered under the object's
   * name through exec_func (an rpc_exception becomes a callback_error under
   * the name), or answer with a function_not_found callback_error naming it.
   */
  function DispatchCallback(callbacks: CallbackMap, m: Message): (r: Message)
    ensures r.funcName == m.funcName
    ensures m.funcName !in callbacks ==> r.ErrorMsg? && r.isCallback
    ensures m.funcName !in callbacks ==> r.exceptType == ExceptionCode(FuncNotFound) && r.errMesg == CStr(NotFoundMessage(m.funcName))
    ensures m.funcName in callbacks && ExecFunc(true, callbacks[m.funcName], m).Ok?
            ==> r == ExecFunc(true, callbacks[m.funcName], m).value
    ensures m.funcName in callbacks && ExecFunc(true, callbacks[m.funcName], m).Err?
            ==> r == ErrorOf(true, m.funcName, ExecFunc(true, callbacks[m.funcName], m).error)
  {
    if m.funcName in callbacks then
      match ExecFunc(true, callbacks[m.funcName], m)
      case Ok(reply) => reply
      case Err(ex) => ErrorOf(true, m.funcName, ex)
    else ErrorOf(true, m.funcName, Raise(FunctionNotFound, NotFoundMessage(m.funcName)))
  }

  /** How a receive loop ends: with a reply, with a throw, or still waiting for input. */
  datatype LoopEnd = Replied(m: Message) | Failed(e: RpcException) | Waiting

  /** The loop's end, the objects it sent back, and how many incoming items it used. */
  datatype Loop = Loop(end: LoopEnd, sent: seq<Message>, used: nat)

  const InvalidObject: string := "Invalid RPC object received"

  /** The kinds that end a call: a function result or a function error. */
  predicate EndsCall(t: RpcType)
  {
    t == FuncResult || t == FuncResultWBind || t == FuncError
  }

  /** The kinds the loop answers through dispatch_callback when callbacks are enabled. */
  predicate IsServerCall(t: RpcType)
  {
    t == CallbackRequest || t == FuncRequest
  }

  /**
   * recv_loop: receive one item; a function result or error ends the call; a
   * request is answered through dispatch_callback, the answer sent, and the
   * loop goes on (with callbacks enabled; without them a request is a
   * mismatch like the callback install, result and error kinds). A receive
   * that throws or bytes that do not parse give client_receive_error.
   */
  function RecvLoop(callbacks: CallbackMap, enabled: bool, incoming: seq<Incoming>): (r: Loop)
    decreases |incoming|
    ensures r.used <= |incoming|
    ensures r.end.Waiting? <==> r.used == |incoming| && |r.sent| == |incoming|
    ensures !r.end.Waiting? ==> r.used == |r.sent| + 1
    ensures |r.sent| <= r.used
    ensures AnswersEach(callbacks, incoming, r.sent)
    ensures !enabled ==> r.sent == []
    ensures r.end.Replied? ==> incoming[r.used - 1] == Parsed(r.end.m) && EndsCall(Type(r.end.m))
    ensures r.end.Failed? ==> r.end.e.cls == ClientReceiveError || r.end.e.cls == RpcObjectMismatchClass
    ensures !r.end.Waiting? ==> !Answered(enabled, incoming[r.used - 1]) && r.end == Stop(incoming[r.used - 1])
  {
    if |incoming| == 0 then Loop(Waiting, [], 0)
    else if Answered(enabled, incoming[0]) then
      var rest := RecvLoop(callbacks, enabled, incoming[1..]);
      assert !rest.end.Waiting? ==> incoming[rest.used] == incoming[1..][rest.used - 1];
      AnswersEachCons(callbacks, incoming, rest.sent);
      Loop(rest.end, [DispatchCallback(callbacks, incoming[0].m)] + rest.sent, rest.used + 1)
    else Loop(Stop(incoming[0]), [], 1)
  }

  /** An answered request followed by answers to the items after it answers each in turn. */
  lemma AnswersEachCons(callbacks: CallbackMap, incoming: seq<Incoming>, sent: seq<Message>)
    requires |incoming| > 0 && incoming[0].Parsed? && IsServerCall(Type(incoming[0].m))
    requires AnswersEach(callbacks, incoming[1..], sent)
    ensures AnswersEach(callbacks, incoming, [DispatchCallback(callbacks, incoming[0].m)] + sent)
  {
    var all := [DispatchCallback(callbacks, incoming[0].m)] + sent;
    forall i | 0 <= i < |all|
      ensures AnswerOf(callbacks, incoming[i], all[i])
    {
      if i > 0 {
        assert incoming[i] == incoming[1..][i - 1] && all[i] == sent[i - 1];
      }
    }
  }

  /**
   * `sent` answers the first |sent| incoming items, in order: each was a
   * request and its answer is what dispatch_callback made of it.
   */
  predicate AnswersEach(callbacks: CallbackMap, incoming: seq<Incoming>, sent: seq<Message>)
  {
    |sent| <= |incoming| && forall i :: 0 <= i < |sent| ==> AnswerOf(callbacks, incoming[i], sent[i])
  }

  /** `answer` is what dispatch_callback makes of `item`, a received request. */
  predicate AnswerOf(callbacks: CallbackMap, item: Incoming, answer: Message)
  {
    item.Parsed? && IsServerCall(Type(item.m)) && answer == DispatchCallback(callbacks, item.m)
  }

  /** How the loop ends on an item it does not answer. */
  function Stop(item: Incoming): (end: LoopEnd)
    ensures !end.Waiting?
    ensures end.Replied? <==> item.Parsed? && EndsCall(Type(item.m))
    ensures end.Replied? ==> item == Parsed(end.m)
    ensures end.Failed? ==> end.e.cls == ClientReceiveError || end.e.cls == RpcObjectMismatchClass
    ensures item.ReceiveFailed? ==> end == Failed(Raise(ClientReceiveError, CStr(item.what)))
    ensures item.Unparseable? ==> end == Failed(Raise(ClientReceiveError, InvalidObject))
    ensures item.Parsed? && !EndsCall(Type(item.m)) ==> end == Failed(Raise(RpcObjectMismatchClass, MismatchMessage))
  {
    match item
    case ReceiveFailed(what) => Failed(Raise(ClientReceiveError, CStr(what)))
    case Unparseable => Failed(Raise(ClientReceiveError, InvalidObject))
    case Parsed(m) =>
      if EndsCall(Type(m)) then Replied(m)
      else Failed(Raise(RpcObjectMismatchClass, MismatchMessage))
  }

  /** An incoming item the loop answers and then goes on reading. */
  predicate Answered(enabled: bool, item: Incoming)
  {
    enabled && item.Parsed? && IsServerCall(Type(item.m))
  }

  /**
   * The loop ends at the first item that is not a request it can answer, and
   * everything before that item was a request it answered.
   */
  lemma {:induction false} RecvLoopStopsAtFirstNonRequest(callbacks: CallbackMap, enabled: bool, incoming: seq<Incoming>, k: nat)
    requires k < |incoming| && !Answered(enabled, incoming[k])
    requires forall i :: 0 <= i < k ==> Answered(enabled, incoming[i])
    ensures RecvLoop(callbacks, enabled, incoming).used == k + 1
    ensures RecvLoop(callbacks, enabled, incoming).end.Replied? <==> incoming[k].Parsed? && EndsCall(Type(incoming[k].m))
  {
    if k > 0 {
      var rest := incoming[1..];
      assert Answered(enabled, incoming[0]);
      forall i | 0 <= i < k - 1
        ensures Answered(enabled, rest[i])
      {
        assert rest[i] == incoming[i + 1];
      }
      assert rest[k - 1] == incoming[k];
      RecvLoopStopsAtFirstNonRequest(callbacks, enabled, rest, k - 1);
    }
  }

  /** What a call sent, and how it ended. */
  datatype CallResult = CallResult(sent: seq<Message>, end: LoopEnd, args: seq<Dest>)

  /**
   * call_func: send a function request with bind_args false, then run the
   * receive loop; the reply is returned as it is, error or not.
   */
  function CallFunc(callbacks: CallbackMap, enabled: bool, name: string, args: Args, incoming: seq<Incoming>): (r: CallResult)
    ensures |r.sent| >= 1 && r.sent[0] == RequestMsg(false, name, false, args)
    ensures r.sent[1..] == RecvLoop(callbacks, enabled, incoming).sent
    ensures r.end == RecvLoop(callbacks, enabled, incoming).end
  {
    var loop := RecvLoop(callbacks, enabled, incoming);
    CallResult([MakeRequest(false, name, args)] + loop.sent, loop.end, [])
  }

  function DestValues(dest: seq<Dest>): (vs: Args)
    ensures |vs| == |dest| && forall i :: 0 <= i < |dest| ==> vs[i] == dest[i].value
  {
    if |dest| == 0 then [] else [dest[0].value] + DestValues(dest[1..])
  }

  /**
   * call_func_w_bind: send a function request with bind_args true, run the
   * receive loop, then read the reply's arguments and write them back into
   * the caller's reference arguments with tuple_bind. Reading arguments from
   * a reply that has none (a func_result or func_error) throws
   * rpc_object_mismatch; a reply tuple that does not fit the caller's types
   * fails in the serial adapter's read (`read`), whose exception escapes.
   */
  function CallFuncWBind(callbacks: CallbackMap, enabled: bool, name: string, dest: seq<Dest>,
                         incoming: seq<Incoming>, read: ArgsReader): (r: CallResult)
    requires ReadsTuple(read, |dest|)
    ensures |r.sent| >= 1 && r.sent[0] == RequestMsg(false, name, true, DestValues(dest))
    ensures r.sent[1..] == RecvLoop(callbacks, enabled, incoming).sent
    ensures r.end.Replied? ==> r.end == RecvLoop(callbacks, enabled, incoming).end
    ensures r.end.Replied? ==> Type(r.end.m) == FuncResultWBind && r.end.m.ResultWBindMsg?
    ensures r.end.Replied? ==> read(r.end.m.args).Ok? && BoundFrom(r.args, dest, read(r.end.m.args).value)
    ensures !r.end.Replied? ==> r.args == dest
    ensures var loop := RecvLoop(callbacks, enabled, incoming);
            !loop.end.Replied? ==> r.end == loop.end
    ensures var loop := RecvLoop(callbacks, enabled, incoming);
            loop.end.Replied? ==> (r.end, r.args) == BindReply(loop.end.m, dest, read)
  {
    var loop := RecvLoop(callbacks, enabled, incoming);
    var sent := [MakeRequest(false, name, DestValues(dest), true)] + loop.sent;
    if loop.end.Replied? then
      var bound := BindReply(loop.end.m, dest, read);
      CallResult(sent, bound.0, bound.1)
    else CallResult(sent, loop.end, dest)
  }

  /**
   * `out` is `dest` with each non-const reference argument overwritten by the
   * reply's value at its position, and every other argument left as it was.
   */
  predicate BoundFrom(out: seq<Dest>, dest: seq<Dest>, vals: seq<Value>)
  {
    |out| == |dest| && |vals| == |dest|
    && (forall i :: 0 <= i < |dest| && dest[i].isRefArg ==> out[i].value == vals[i])
    && (forall i :: 0 <= i < |dest| && !dest[i].isRefArg ==> out[i] == dest[i])
  }

  /**
   * get_args<Args...> for the caller's own argument types gives one value per
   * argument whenever it returns.
   */
  ghost predicate ReadsTuple(read: ArgsReader, n: nat)
  {
    forall a :: read(a).Ok? ==> |read(a).value| == n
  }

  /**
   * The tail of call_func_w_bind once a reply has come: read its arguments as
   * the caller's types and bind them into the reference arguments, or fail
   * (rpc_object_mismatch for a kind without arguments, the adapter's own
   * exception for arguments that do not fit) and leave them.
   */
  function BindReply(m: Message, dest: seq<Dest>, read: ArgsReader): (r: (LoopEnd, seq<Dest>))
    requires ReadsTuple(read, |dest|)
    ensures r.0.Replied? <==> CarriesArgs(Type(m)) && read(m.args).Ok?
    ensures r.0.Replied? ==> r.0.m == m && (m.RequestMsg? || m.ResultWBindMsg?) && BoundFrom(r.1, dest, read(m.args).value)
    ensures !CarriesArgs(Type(m)) ==> r == (Failed(Mismatch()), dest)
    ensures CarriesArgs(Type(m)) && read(m.args).Err? ==> r == (Failed(read(m.args).error), dest)
  {
    match GetArgs(m, read)
    case Err(e) => (Failed(e), dest)
    case Ok(replyArgs) => (Replied(m), TupleBind(replyArgs, dest))
  }

  /**
   * A func_error answering call_func_w_bind does not come back as the reply:
   * reading its arguments throws rpc_object_mismatch instead.
   */
  lemma WBindErrorReplySurfacesAsMismatch(callbacks: CallbackMap, enabled: bool, name: string, dest: seq<Dest>,
                                          reply: Message, read: ArgsReader)
    requires ReadsTuple(read, |dest|)
    requires Type(reply) == FuncError
    ensures CallFuncWBind(callbacks, enabled, name, dest, [Parsed(reply)], read).end == Failed(Mismatch())
  {
    assert RecvLoop(callbacks, enabled, [Parsed(reply)]).end == Replied(reply);
  }

  /**
   * call_header_func_impl: the w_bind path exactly when some argument is a
   * non-const lvalue reference.
   */
  function CallHeaderFunc(callbacks: CallbackMap, enabled: bool, name: string, dest: seq<Dest>,
                          incoming: seq<Incoming>, read: ArgsReader): (r: CallResult)
    requires ReadsTuple(read, |dest|)
    ensures |r.sent| >= 1 && r.sent[0].RequestMsg? && (r.sent[0].bindArgs <==> HasRefArgs(dest))
    ensures r.sent[0].funcName == name && r.sent[0].args == DestValues(dest)
    ensures HasRefArgs(dest) ==> r == CallFuncWBind(callbacks, enabled, name, dest, incoming, read)
    ensures !HasRefArgs(dest) ==> r == CallFunc(callbacks, enabled, name, DestValues(dest), incoming)
  {
    if HasRefArgs(dest) then CallFuncWBind(callbacks, enabled, name, dest, incoming, read)
    else CallFunc(callbacks, enabled, name, DestValues(dest), incoming)
  }

  /**
   * A call whose receive loop ends with a reply: without reference arguments
   * the reply is returned as it is and nothing is bound; with them the reply
   * is returned only if it is a func_result_w_bind whose arguments read as
   * the caller's types, and those values are bound into the reference
   * arguments; any other reply fails and leaves the arguments. Either way
   * the request goes first, then the loop's answers to callbacks.
   */
  lemma CallHeaderFuncReply(callbacks: CallbackMap, enabled: bool, name: string, dest: seq<Dest>,
                            incoming: seq<Incoming>, read: ArgsReader)
    requires ReadsTuple(read, |dest|)
    requires RecvLoop(callbacks, enabled, incoming).end.Replied?
    ensures var r := CallHeaderFunc(callbacks, enabled, name, dest, incoming, read);
            r.sent == [RequestMsg(false, name, HasRefArgs(dest), DestValues(dest))] + RecvLoop(callbacks, enabled, incoming).sent
    ensures var r := CallHeaderFunc(callbacks, enabled, name, dest, incoming, read);
            !HasRefArgs(dest) ==> r.end == RecvLoop(callbacks, enabled, incoming).end && r.args == []
    ensures var r := CallHeaderFunc(callbacks, enabled, name, dest, incoming, read);
            var reply := RecvLoop(callbacks, enabled, incoming).end.m;
            HasRefArgs(dest) ==> (r.end == Replied(reply) <==> reply.ResultWBindMsg? && read(reply.args).Ok?)
    ensures var r := CallHeaderFunc(callbacks, enabled, name, dest, incoming, read);
            var reply := RecvLoop(callbacks, enabled, incoming).end.m;
            HasRefArgs(dest) && r.end.Replied? ==> BoundFrom(r.args, dest, read(reply.args).value)
    ensures var r := CallHeaderFunc(callbacks, enabled, name, dest, incoming, read);
            HasRefArgs(dest) && !r.end.Replied? ==> r.end.Failed? && r.args == dest
  {
  }

  /**
   * The common case of a call answered at once by a function result or
   * error: the request is the only object sent, and the reply is returned
   * and bound exactly as above.
   */
  lemma CallHeaderFuncSingleReply(callbacks: CallbackMap, enabled: bool, name: string, dest: seq<Dest>,
                                  reply: Message, read: ArgsReader)
    requires ReadsTuple(read, |dest|)
    requires EndsCall(Type(reply))
    ensures var r := CallHeaderFunc(callbacks, enabled, name, dest, [Parsed(reply)], read);
            r.sent == [RequestMsg(false, name, HasRefArgs(dest), DestValues(dest))]
    ensures var r := CallHeaderFunc(callbacks, enabled, name, dest, [Parsed(reply)], read);
            !HasRefArgs(dest) ==> r.end == Replied(reply) && r.args == []
    ensures var r := CallHeaderFunc(callbacks, enabled, name, dest, [Parsed(reply)], read);
            HasRefArgs(dest) ==> (r.end == Replied(reply) <==> reply.ResultWBindMsg? && read(reply.args).Ok?)
  {
    SingleReplyLoop(callbacks, enabled, reply);
    CallHeaderFuncReply(callbacks, enabled, name, dest, [Parsed(reply)], read);
  }

  /** A function result or error received first ends the loop at once, with nothing sent. */
  lemma SingleReplyLoop(callbacks: CallbackMap, enabled: bool, reply: Message)
    requires EndsCall(Type(reply))
    ensures RecvLoop(callbacks, enabled, [Parsed(reply)]) == Loop(Replied(reply), [], 1)
  {
    assert !Answered(enabled, Parsed(reply));
  }

  /** The client's callback map and what an install or uninstall sent and returned. */
  datatype InstallResult = InstallResult(callbacks: CallbackMap, sent: seq<Message>, outcome: Result<Message, Thrown>)

  const InstallFailure: string := "server did not respond to callback_install_request"
  const UninstallFailure: string := "server did not respond to callback_install_request (uninstall)"

  /** The server acknowledged an install or uninstall by echoing a callback_install_request. */
  predicate Acknowledged(reply: Incoming)
  {
    reply.Parsed? && Type(reply.m) == CallbackInstallRequest
  }

  /**
   * install_callback_impl: try_emplace the local handler (a name already
   * present keeps its first handler), send the install request, and return
   * it if the server echoes an install request; otherwise throw
   * callback_install_error. A receive that throws is not caught. The local
   * handler stays registered even when the server refuses.
   */
  function InstallCallback(callbacks: CallbackMap, name: string, f: Handler, reply: Incoming): (r: InstallResult)
    ensures r.sent == [InstallMsg(name, false)]
    ensures name in r.callbacks && r.callbacks.Keys == callbacks.Keys + {name}
    ensures name in callbacks ==> r.callbacks == callbacks
    ensures name !in callbacks ==> r.callbacks[name] == f
    ensures forall other :: other in callbacks && other != name ==> r.callbacks[other] == callbacks[other]
    ensures r.outcome.Ok? <==> Acknowledged(reply)
    ensures r.outcome.Ok? ==> r.outcome.value == InstallMsg(name, false)
    ensures reply.ReceiveFailed? ==> r.outcome == Err(StdThrown(reply.what))
    ensures !reply.ReceiveFailed? && !Acknowledged(reply)
            ==> r.outcome == Err(RpcThrown(Raise(CallbackInstallError, InstallFailure)))
  {
    var callbacks' := if name in callbacks then callbacks else callbacks[name := f];
    var cb := InstallRequest(name);
    var outcome :=
      match reply
      case ReceiveFailed(what) => Err(StdThrown(what))
      case Unparseable => Err(RpcThrown(Raise(CallbackInstallError, InstallFailure)))
      case Parsed(m) =>
        if Type(m) == CallbackInstallRequest then Ok(cb)
        else Err(RpcThrown(Raise(CallbackInstallError, InstallFailure)));
    InstallResult(callbacks', [cb], outcome)
  }

  /**
   * uninstall_callback as written: set is_uninstall, send, and throw
   * callback_install_error unless the server echoes an install request. The
   * local callback map is left as it is.
   */
  function UninstallCallback(callbacks: CallbackMap, cb: Message, reply: Incoming): (r: InstallResult)
    requires cb.InstallMsg?
    ensures r.sent == [cb.(isUninstall := true)] && IsCallbackUninstall(r.sent[0])
    ensures r.callbacks == callbacks
    ensures r.outcome.Ok? <==> Acknowledged(reply)
    ensures reply.ReceiveFailed? ==> r.outcome == Err(StdThrown(reply.what))
    ensures !reply.ReceiveFailed? && !Acknowledged(reply)
            ==> r.outcome == Err(RpcThrown(Raise(CallbackInstallError, UninstallFailure)))
  {
    var request := cb.(isUninstall := true);
    var outcome :=
      match reply
      case ReceiveFailed(what) => Err(StdThrown(what))
      case Unparseable => Err(RpcThrown(Raise(CallbackInstallError, UninstallFailure)))
      case Parsed(m) =>
        if Type(m) == CallbackInstallRequest then Ok(request)
        else Err(RpcThrown(Raise(CallbackInstallError, UninstallFailure)));
    InstallResult(callbacks, [request], outcome)
  }

  /**
   * As written, uninstalling a callback and installing another handler under
   * the same name leaves the first handler in place: the server accepts the
   * new install, but a call of that name still runs the old handler.
   */
  lemma ReinstallKeepsUninstalledHandler(callbacks: CallbackMap, name: string, first: Handler, second: Handler,
                                         ack: Message, call: Message)
    requires name !in callbacks
    requires Type(ack) == CallbackInstallRequest
    requires call.funcName == name
    ensures var i1 := InstallCallback(callbacks, name, first, Parsed(ack));
            var u := UninstallCallback(i1.callbacks, i1.outcome.value, Parsed(ack));
            var i2 := InstallCallback(u.callbacks, name, second, Parsed(ack));
            i1.outcome.Ok? && u.outcome.Ok? && i2.outcome.Ok?
            && HasCallback(u.callbacks, name)
            && DispatchCallback(i2.callbacks, call) == DispatchCallback(map[name := first], call)
  {
  }

  /**
   * uninstall_callback corrected: the same exchange with the server, and the
   * local handler is removed as well.
   */
  function UninstallCallbackCorrected(callbacks: CallbackMap, cb: Message, reply: Incoming): (r: InstallResult)
    requires cb.InstallMsg?
    ensures r.sent == UninstallCallback(callbacks, cb, reply).sent
    ensures r.outcome == UninstallCallback(callbacks, cb, reply).outcome
    ensures r.callbacks == callbacks - {cb.funcName}
  {
    var written := UninstallCallback(callbacks, cb, reply);
    InstallResult(callbacks - {cb.funcName}, written.sent, written.outcome)
  }

  /**
   * With the corrected uninstall, installing another handler under the name
   * makes later calls of that name run the new handler.
   */
  lemma ReinstallAfterCorrectedUninstallRunsNewHandler(callbacks: CallbackMap, name: string, first: Handler,
                                                       second: Handler, ack: Message, call: Message)
    requires name !in callbacks
    requires Type(ack) == CallbackInstallRequest
    requires call.funcName == name
    ensures var i1 := InstallCallback(callbacks, name, first, Parsed(ack));
            var u := UninstallCallbackCorrected(i1.callbacks, i1.outcome.value, Parsed(ack));
            var i2 := InstallCallback(u.callbacks, name, second, Parsed(ack));
            i1.outcome.Ok? && u.outcome.Ok? && i2.outcome.Ok?
            && !HasCallback(u.callbacks, name)
            && DispatchCallback(i2.callbacks, call) == DispatchCallback(map[name := second], call)
  {
  }
}

=== FILE: rpc_common.dfy ===
/**
 * include/rpc_common.hpp, the namespace rpc_hpp generation: its exception
 * enumeration (ten values, none..server_receive), the classes derived from
 * rpc_exception, and the packed_func record a call travels in: name,
 * arguments, exception flag and message, and, unless the function returns
 * void, an optional result.
 */
module RpcCommon {
  import opened Wrappers
  import opened Values

  /** The enumerators of exception_type, in declaration order. */
  datatype ExceptionType =
    | NoError | FuncNotFound | RemoteExec | Serialization | Deserialization
    | SignatureMismatch | ClientSend | ClientReceive | ServerSend | ServerReceive

  /** static_cast<int> of an enumerator: its position in the declaration. */
  function ExceptionCode(t: ExceptionType): (c: int)
    ensures 0 <= c <= 9
  {
    match t
    case NoError => 0
    case FuncNotFound => 1
    case RemoteExec => 2
    case Serialization => 3
    case Deserialization => 4
    case SignatureMismatch => 5
    case ClientSend => 6
    case ClientReceive => 7
    case ServerSend => 8
    case ServerReceive => 9
  }

  /** The enumerator an integer stands for, if it stands for one. */
  function ExceptionTypeOf(c: int): (r: Option<ExceptionType>)
    ensures r.Some? ==> ExceptionCode(r.value) == c
    ensures 0 <= c <= 9 ==> r.Some?
  {
    if c == 0 then Some(NoError)
    else if c == 1 then Some(FuncNotFound)
    else if c == 2 then Some(RemoteExec)
    else if c == 3 then Some(Serialization)
    else if c == 4 then Some(Deserialization)
    else if c == 5 then Some(SignatureMismatch)
    else if c == 6 then Some(ClientSend)
    else if c == 7 then Some(ClientReceive)
    else if c == 8 then Some(ServerSend)
    else if c == 9 then Some(ServerReceive)
    else None
  }

  /** The numbering is a bijection between the enumerators and 0..9. */
  lemma ExceptionNumbering(t: ExceptionType, u: ExceptionType, c: int)
    ensures ExceptionTypeOf(ExceptionCode(t)) == Some(t)
    ensures ExceptionCode(t) == ExceptionCode(u) ==> t == u
    ensures (exists v :: ExceptionCode(v) == c) <==> 0 <= c <= 9
  {
    if 0 <= c <= 9 {
      assert ExceptionCode(ExceptionTypeOf(c).value) == c;
    }
  }

  /** rpc_exception and the nine classes derived from it. */
  datatype ExceptionClass =
    | RpcExceptionClass | FunctionNotFound | RemoteExecError
    | SerializationError | DeserializationError | FunctionMismatch
    | ClientSendError | ClientReceiveError | ServerSendError | ServerReceiveError

  /** The type each derived class passes to rpc_exception's constructor; none for the base class. */
  function ClassTag(cls: ExceptionClass): (t: Option<ExceptionType>)
    ensures t.None? <==> cls == RpcExceptionClass
    ensures t.Some? ==> t.value != NoError
  {
    match cls
    case RpcExceptionClass => None
    case FunctionNotFound => Some(FuncNotFound)
    case RemoteExecError => Some(RemoteExec)
    case SerializationError => Some(Serialization)
    case DeserializationError => Some(Deserialization)
    case FunctionMismatch => Some(SignatureMismatch)
    case ClientSendError => Some(ClientSend)
    case ClientReceiveError => Some(ClientReceive)
    case ServerSendError => Some(ServerSend)
    case ServerReceiveError => Some(ServerReceive)
  }

  /** A thrown exception: its dynamic class, what() and get_type() (as an int). */
  datatype RpcException = RpcException(cls: ExceptionClass, what: string, etype: int)

  /**
   * Constructing a derived class: its fixed type and the given message. This
   * is the same rule as Rpc.Raise, over rpc_common.hpp's own ten-value
   * exception enumeration.
   */
  function Raise(cls: ExceptionClass, mesg: string): (e: RpcException)
    requires cls != RpcExceptionClass
    ensures e.cls == cls && e.what == mesg
    ensures ExceptionTypeOf(e.etype) == ClassTag(cls)
  {
    RpcException(cls, mesg, ExceptionCode(ClassTag(cls).value))
  }

  /** State shared by every packed_func: name, arguments, exception type (as an int) and message. */
  datatype PackedBase = PackedBase(funcName: string, exceptType: int, errMesg: string, args: Args)

  /**
   * A packed_func: for a function returning a value, the optional result;
   * for the void specialization, nothing more than the shared state.
   */
  datatype PackedFunc =
    | ValuePack(base: PackedBase, result: Option<Value>)
    | VoidPack(base: PackedBase)

  /** The packed_func_base constructor: the exception type starts as none and the message empty. */
  function NewBase(funcName: string, args: Args): (b: PackedBase)
    ensures b.funcName == funcName && b.args == args
    ensures ExceptionTypeOf(b.exceptType) == Some(NoError) && b.errMesg == ""
  {
    PackedBase(funcName, ExceptionCode(NoError), "", args)
  }

  /** packed_func_base's operator bool: no exception is recorded. */
  predicate BaseOk(b: PackedBase)
  {
    b.exceptType == ExceptionCode(NoError)
  }

  /**
   * packed_func's operator bool: a result is present and no exception is
   * recorded; the void specialization inherits the base's test.
   */
  predicate Truthy(p: PackedFunc)
  {
    match p
    case ValuePack(b, result) => result.Some? && BaseOk(b)
    case VoidPack(b) => BaseOk(b)
  }

  /** set_exception: record the type (an enumerator's value, as an int) and the message, leaving the rest alone. */
  function SetException(p: PackedFunc, mesg: string, t: int): (r: PackedFunc)
    ensures r.base.exceptType == t && r.base.errMesg == mesg
    ensures r.base.funcName == p.base.funcName && r.base.args == p.base.args
    ensures r.ValuePack? <==> p.ValuePack?
    ensures r.ValuePack? ==> r.result == p.result
    ensures Truthy(r) <==> t == ExceptionCode(NoError) && (p.ValuePack? ==> p.result.Some?)
  {
    var b := p.base.(exceptType := t, errMesg := mesg);
    match p
    case ValuePack(_, result) => ValuePack(b, result)
    case VoidPack(_) => VoidPack(b)
  }

  /**
   * throw_ex: the class whose type is the recorded one, carrying the
   * recorded message; none and values outside the enumeration give a plain
   * rpc_exception of type none.
   */
  function ThrowEx(b: PackedBase): (e: RpcException)
    ensures e.what == b.errMesg
    ensures 1 <= b.exceptType <= 9 ==> e.etype == b.exceptType && ClassTag(e.cls) == ExceptionTypeOf(b.exceptType)
    ensures !(1 <= b.exceptType <= 9) ==> e.cls == RpcExceptionClass && e.etype == ExceptionCode(NoError)
  {
    match ExceptionTypeOf(b.exceptType)
    case Some(FuncNotFound) => Raise(FunctionNotFound, b.errMesg)
    case Some(RemoteExec) => Raise(RemoteExecError, b.errMesg)
    case Some(Serialization) => Raise(SerializationError, b.errMesg)
    case Some(Deserialization) => Raise(DeserializationError, b.errMesg)
    case Some(SignatureMismatch) => Raise(FunctionMismatch, b.errMesg)
    case Some(ClientSend) => Raise(ClientSendError, b.errMesg)
    case Some(ClientReceive) => Raise(ClientReceiveError, b.errMesg)
    case Some(ServerSend) => Raise(ServerSendError, b.errMesg)
    case Some(ServerReceive) => Raise(ServerReceiveError, b.errMesg)
    case _ => RpcException(RpcExceptionClass, b.errMesg, ExceptionCode(NoError))
  }

  /**
   * get_result: the stored result when the pack is truthy (nothing for the
   * void specialization), otherwise what throw_ex throws, even when no
   * exception is recorded and only the result is missing.
   */
  function GetResult(p: PackedFunc): (r: Result<Option<Value>, RpcException>)
    ensures r.Ok? <==> Truthy(p)
    ensures r.Ok? ==> r.value == (if p.ValuePack? then p.result else None)
    ensures r.Err? ==> r.error == ThrowEx(p.base)
  {
    if Truthy(p) then Ok(if p.ValuePack? then p.result else None)
    else Err(ThrowEx(p.base))
  }

  /** set_result: store the value (for a pack whose function returns one). */
  function SetResult(p: PackedFunc, v: Value): (r: PackedFunc)
    requires p.ValuePack?
    ensures r.ValuePack? && r.base == p.base && r.result == Some(v)
    ensures Truthy(r) <==> BaseOk(p.base)
  {
    p.(result := Some(v))
  }

  /** clear_result: drop the stored value, which makes the pack falsy. */
  function ClearResult(p: PackedFunc): (r: PackedFunc)
    requires p.ValuePack?
    ensures r.ValuePack? && r.base == p.base && r.result.None?
    ensures !Truthy(r)
  {
    p.(result := None)
  }

  /**
   * A fresh pack reads back what it was given: with a result it yields that
   * result, and a void one is truthy from the start.
   */
  lemma FreshPackReadsBack(funcName: string, args: Args, result: Option<Value>)
    ensures GetResult(ValuePack(NewBase(funcName, args), result)) ==
            (if result.Some? then Ok(result) else Err(RpcException(RpcExceptionClass, "", 0)))
    ensures GetResult(VoidPack(NewBase(funcName, args))) == Ok(None)
  {
  }

  /**
   * Recording an exception makes get_result throw the class carrying that
   * type with that message; a later set_result does not clear it.
   */
  lemma ExceptionSurvivesSetResult(p: PackedFunc, mesg: string, t: ExceptionType, v: Value)
    requires p.ValuePack? && t != NoError
    ensures var failed := SetResult(SetException(p, mesg, ExceptionCode(t)), v);
            GetResult(failed).Err? && GetResult(failed).error.what == mesg
            && ExceptionTypeOf(GetResult(failed).error.etype) == Some(t)
            && ClassTag(GetResult(failed).error.cls) == Some(t)
  {
    ExceptionNumbering(t, t, ExceptionCode(t));
  }

  /** set_result then get_result returns the stored value when no exception is recorded. */
  lemma SetResultThenGet(p: PackedFunc, v: Value)
    requires p.ValuePack? && BaseOk(p.base)
    ensures GetResult(SetResult(p, v)) == Ok(Some(v))
    ensures GetResult(ClearResult(SetResult(p, v))).Err?
  {
  }
}

=== FILE: rpc_server.dfy ===
/**
 * include/rpc_server.hpp: server_interface's name-to-handler table (bind,
 * dispatch) and how handle_bytes routes each incoming object, plus
 * callback_server_interface's handling of callback install requests.
 *
 * The bytes in and out are modelled by the parsed object (or its absence, when
 * parse_bytes fails) and by the object the server serializes back. The
 * callback server's install_callback and uninstall_callback are pure virtual;
 * they are parameters here, threading a state `S` of the derived server.
 */
module RpcServer {
  import opened Wrappers
  import opened Values
  import opened Rpc
  import opened CStrings

  /**
   * A bound function: the read of a request's tuple as its parameter types
   * (bind<R, Args...> fixes those types), and what calling it does.
   */
  type Handler = Callable

  /** m_dispatch_table. */
  type Table = map<string, Handler>

  /** The table's invariant: no entry under the empty name. */
  predicate TableInvariant(table: Table)
  {
    "" !in table
  }

  datatype BindOutcome = BindOutcome(table: Table, error: Option<RpcException>)

  /** The message function_bind_error carries when a name is already bound. */
  function BindFailure(name: string): string
  {
    "RPC error: server could not bind function: " + name + "() successfully"
  }

  /**
   * bind / bind_impl: try_emplace the handler under the name; if the name was
   * already bound, the existing entry stays and function_bind_error is thrown.
   * The name must not be empty; a function value is never null here.
   */
  function Bind(table: Table, name: string, f: Handler): (r: BindOutcome)
    requires name != ""
    ensures name in r.table && r.table.Keys == table.Keys + {name}
    ensures name in table ==> r.table == table
    ensures name in table ==> r.error == Some(Raise(FunctionBindError, BindFailure(name)))
    ensures name !in table ==> r.error.None? && r.table[name] == f
    ensures forall other :: other in table && other != name ==> other in r.table && r.table[other] == table[other]
    ensures TableInvariant(table) ==> TableInvariant(r.table)
  {
    if name in table then BindOutcome(table, Some(Raise(FunctionBindError, BindFailure(name))))
    else BindOutcome(table[name := f], None)
  }

  /**
   * The wrapper bind_impl stores: run exec_func for a function call; an
   * rpc_exception it throws becomes a func_error under the request's name.
   * Any other std::exception escapes the wrapper (`Err`, with its what()):
   * the argument read sits outside exec_func's try, so what the adapter's
   * container reads throw is not turned into remote_exec_error.
   */
  function RunBound(f: Handler, m: Message): (r: Result<Message, string>)
    requires Type(m) == FuncRequest
    ensures r.Err? <==> f.readArgs(m.args).Err? && f.readArgs(m.args).error.StdThrown?
    ensures r.Err? ==> r.error == f.readArgs(m.args).error.what
    ensures r.Ok? ==> Type(r.value) == FuncResult || Type(r.value) == FuncResultWBind || Type(r.value) == FuncError
    ensures r.Ok? ==> r.value.funcName == m.funcName && WellFormed(r.value) && !r.value.isCallback
    ensures r.Ok? ==> (r.value.ErrorMsg? <==> f.readArgs(m.args).Err? || f.call(f.readArgs(m.args).value).Threw?)
    ensures f.readArgs(m.args).Err? && f.readArgs(m.args).error.RpcThrown?
            ==> var e := f.readArgs(m.args).error.e;
                r.Ok? && r.value.exceptType == e.etype && r.value.errMesg == CStr(e.what)
    ensures f.readArgs(m.args).Ok? && f.call(f.readArgs(m.args).value).Threw?
            ==> r.Ok? && r.value.exceptType == ExceptionCode(RemoteExec)
                && r.value.errMesg == CStr(f.call(f.readArgs(m.args).value).what)
    ensures f.readArgs(m.args).Ok? && f.call(f.readArgs(m.args).value).Returned?
            ==> var out := f.call(f.readArgs(m.args).value);
                r.Ok? && (r.value.ResultMsg? || r.value.ResultWBindMsg?) && r.value.result == out.ret
                && (r.value.ResultWBindMsg? <==> m.bindArgs)
                && (r.value.ResultWBindMsg? ==> r.value.args == out.argsAfter)
  {
    match ExecFunc(false, f, m)
    case Ok(reply) => Ok(reply)
    case Err(RpcThrown(ex)) => Ok(ErrorOf(false, m.funcName, ex))
    case Err(StdThrown(what)) => Err(what)
  }

  /**
   * Arguments that do not fit the bound function's parameter types (the
   * adapter throws function_mismatch_error) are answered with a
   * func_signature_mismatch error carrying the adapter's message (up to its
   * first NUL), and the function is not called; the client's get_result then
   * throws function_mismatch_error with that message, whatever R it asks for.
   */
  lemma MismatchedArgumentsAnswered(f: Handler, m: Message, mesg: string, rt: ResultType)
    requires Type(m) == FuncRequest
    requires f.readArgs(m.args) == Err(RpcThrown(Raise(FunctionMismatchError, mesg)))
    ensures RunBound(f, m) == Ok(ErrorMsg(false, m.funcName, ExceptionCode(FuncSignatureMismatch), CStr(mesg)))
    ensures GetResult(RunBound(f, m).value, rt) == Err(Raise(FunctionMismatchError, CStr(mesg)))
  {
    var r := RunBound(f, m).value;
    assert r.exceptType == ExceptionCode(FuncSignatureMismatch);
    ExceptionCodeRoundTrip(FuncSignatureMismatch, FuncSignatureMismatch);
  }

  /** The message function_missing_error carries for an unbound name. */
  function MissingMessage(name: string): string
  {
    "RPC error: Called function: " + name + "() not found"
  }

  /** The func_error dispatch makes of a std::exception: no name, type none, its what(). */
  function NamelessError(what: string): (r: Message)
    ensures r.ErrorMsg? && !r.isCallback && r.funcName == "" && WellFormed(r)
    ensures r.exceptType == ExceptionCode(NoError) && r.errMesg == CStr(what)
  {
    ErrorMsg(false, "", ExceptionCode(NoError), CStr(what))
  }

  /**
   * dispatch: run the handler bound to the request's name, or answer with a
   * function_missing func_error naming the function. A std::exception that
   * escapes the handler becomes a func_error with no name and type none.
   * (dispatch's catch of rpc_exception is never reached: the handler's
   * wrapper catches those itself, and building the function_missing error
   * throws nothing.)
   */
  function Dispatch(table: Table, m: Message): (r: Message)
    requires Type(m) == FuncRequest
    ensures Type(r) == FuncResult || Type(r) == FuncResultWBind || Type(r) == FuncError
    ensures WellFormed(r) && !r.isCallback
    ensures r.funcName == m.funcName || (r.ErrorMsg? && r.funcName == "" && r.exceptType == ExceptionCode(NoError))
    ensures m.funcName !in table ==> r.ErrorMsg? && r.funcName == m.funcName
    ensures m.funcName !in table ==> r.exceptType == ExceptionCode(FunctionMissing) && r.errMesg == CStr(MissingMessage(m.funcName))
    ensures m.funcName in table && RunBound(table[m.funcName], m).Ok? ==> r == RunBound(table[m.funcName], m).value
    ensures m.funcName in table && RunBound(table[m.funcName], m).Err?
            ==> r == NamelessError(RunBound(table[m.funcName], m).error)
  {
    if m.funcName in table then
      match RunBound(table[m.funcName], m)
      case Ok(reply) => reply
      case Err(what) => NamelessError(what)
    else ErrorOf(false, m.funcName, Raise(FunctionMissingError, MissingMessage(m.funcName)))
  }

  /**
   * The errors dispatch answers a bound function's request with, in terms of
   * the adapter's read and the call: an rpc_exception from the read keeps the
   * request's name and its type; a call that throws gives remote_exec under
   * the name; any other std::exception from the read loses the name and gets
   * type none. Every message is cut at its first NUL.
   */
  lemma DispatchErrorReplies(table: Table, m: Message)
    requires Type(m) == FuncRequest && m.funcName in table
    ensures var a := table[m.funcName].readArgs(m.args);
            a.Err? && a.error.StdThrown?
            ==> Dispatch(table, m) == ErrorMsg(false, "", ExceptionCode(NoError), CStr(a.error.what))
    ensures var a := table[m.funcName].readArgs(m.args);
            a.Err? && a.error.RpcThrown?
            ==> Dispatch(table, m) == ErrorMsg(false, m.funcName, a.error.e.etype, CStr(a.error.e.what))
    ensures var a := table[m.funcName].readArgs(m.args);
            a.Ok? && table[m.funcName].call(a.value).Threw?
            ==> Dispatch(table, m)
                == ErrorMsg(false, m.funcName, ExceptionCode(RemoteExec), CStr(table[m.funcName].call(a.value).what))
  {
  }

  /** After a successful bind, a request for the name runs the bound function. */
  lemma BindThenDispatch(table: Table, name: string, f: Handler, m: Message)
    requires name != "" && name !in table
    requires Type(m) == FuncRequest && m.funcName == name
    ensures RunBound(f, m).Ok? ==> Dispatch(Bind(table, name, f).table, m) == RunBound(f, m).value
    ensures RunBound(f, m).Err? ==> Dispatch(Bind(table, name, f).table, m) == NamelessError(RunBound(f, m).error)
  {
  }

  /** A failed bind leaves every request answered as before: the first handler stays. */
  lemma RebindKeepsFirst(table: Table, name: string, f: Handler, m: Message)
    requires name != "" && name in table
    requires Type(m) == FuncRequest
    ensures Bind(table, name, f).error.Some?
    ensures Dispatch(Bind(table, name, f).table, m) == Dispatch(table, m)
  {
  }

  /** install_callback and uninstall_callback of a derived callback server, over its state. */
  datatype CallbackHooks<!S> = CallbackHooks(
    install: (S, Message) -> (S, Result<Message, Thrown>),
    uninstall: (S, Message) -> (S, Option<Thrown>))

  const NoCallbacksMessage: string :=
    "RPC error: Invalid rpc_object type detected (NOTE: callbacks are not enabled on this server)"

  /** server_interface::handle_callback_object: callbacks are not enabled. */
  function BaseCallbackReply(): (r: Message)
    ensures r.ErrorMsg? && !r.isCallback && r.funcName == "" && WellFormed(r)
    ensures r.exceptType == ExceptionCode(RpcObjectMismatch)
  {
    ErrorOf(false, "", Raise(ObjectMismatchError, NoCallbacksMessage))
  }

  /**
   * The catch clauses of callback_server_interface::handle_callback_object.
   * Both build the message from what(), so it stops at the first NUL.
   */
  function CallbackCatch(t: Thrown): (r: Message)
    ensures r.ErrorMsg? && r.isCallback && r.funcName == ""
    ensures t.RpcThrown? ==> r.exceptType == t.e.etype && r.errMesg == CStr(t.e.what)
    ensures t.StdThrown? ==> r.exceptType == ExceptionCode(NoError) && r.errMesg == CStr(t.what)
    ensures t.RpcThrown? && '\0' !in t.e.what ==> r.errMesg == t.e.what
    ensures t.StdThrown? && '\0' !in t.what ==> r.errMesg == t.what
  {
    match t
    case RpcThrown(e) => ErrorOf(true, "", e)
    case StdThrown(what) => ErrorMsg(true, "", ExceptionCode(NoError), CStr(what))
  }

  /**
   * handle_callback_object: without callbacks (`hooks == None`) every object
   * gets the base class's mismatch error. A callback server sends install
   * requests to uninstall_callback or install_callback according to
   * is_uninstall (uninstall leaves the object as it is) and everything else
   * to the base class; anything thrown becomes a callback_error with no name.
   */
  function HandleCallbackObject<S>(hooks: Option<CallbackHooks<S>>, s: S, m: Message): (r: (S, Message))
    ensures hooks.None? ==> r == (s, BaseCallbackReply())
    ensures hooks.Some? && Type(m) != CallbackInstallRequest ==> r == (s, BaseCallbackReply())
    ensures hooks.Some? && IsCallbackUninstall(m) ==> r.0 == hooks.value.uninstall(s, m).0
    ensures hooks.Some? && IsCallbackUninstall(m) && hooks.value.uninstall(s, m).1.None? ==> r.1 == m
    ensures hooks.Some? && IsCallbackUninstall(m) && hooks.value.uninstall(s, m).1.Some?
            ==> r.1 == CallbackCatch(hooks.value.uninstall(s, m).1.value)
    ensures hooks.Some? && Type(m) == CallbackInstallRequest && !IsCallbackUninstall(m)
            ==> r.0 == hooks.value.install(s, m).0
    ensures hooks.Some? && Type(m) == CallbackInstallRequest && !IsCallbackUninstall(m) && hooks.value.install(s, m).1.Ok?
            ==> r.1 == hooks.value.install(s, m).1.value
    ensures hooks.Some? && Type(m) == CallbackInstallRequest && !IsCallbackUninstall(m) && hooks.value.install(s, m).1.Err?
            ==> r.1 == CallbackCatch(hooks.value.install(s, m).1.error)
  {
    match hooks
    case None => (s, BaseCallbackReply())
    case Some(h) =>
      if Type(m) == CallbackInstallRequest then
        if IsCallbackUninstall(m) then
          var (s', thrown) := h.uninstall(s, m);
          if thrown.Some? then (s', CallbackCatch(thrown.value)) else (s', m)
        else
          var (s', outcome) := h.install(s, m);
          match outcome
          case Ok(reply) => (s', reply)
          case Err(thrown) => (s', CallbackCatch(thrown))
      else (s, BaseCallbackReply())
  }

  const InvalidObjectMessage: string := "RPC error: Invalid RPC object received"
  const InvalidTypeMessage: string := "RPC error: Invalid rpc_object type detected"

  /** handle_bytes' answer to bytes that do not parse: a nameless server_receive func_error. */
  function UnparsedReply(): (r: Message)
    ensures r.ErrorMsg? && !r.isCallback && r.funcName == "" && WellFormed(r)
    ensures r.exceptType == ExceptionCode(ServerReceive) && r.errMesg == CStr(InvalidObjectMessage)
  {
    ErrorOf(false, "", Raise(ServerReceiveError, InvalidObjectMessage))
  }

  /** handle_bytes' answer to a kind it does not route: an object-mismatch func_error under the name. */
  function InvalidTypeReply(funcName: string): (r: Message)
    ensures r.ErrorMsg? && !r.isCallback && r.funcName == funcName && WellFormed(r)
    ensures r.exceptType == ExceptionCode(RpcObjectMismatch) && r.errMesg == CStr(InvalidTypeMessage)
  {
    ErrorOf(false, funcName, Raise(ObjectMismatchError, InvalidTypeMessage))
  }

  /** The kinds handle_bytes passes to handle_callback_object. */
  predicate RoutedToCallbacks(t: RpcType)
  {
    t == CallbackInstallRequest || t == CallbackResult || t == CallbackResultWBind || t == CallbackError
  }

  /**
   * handle_bytes: an unparseable input gets a server_receive func_error with
   * no name; a func_request is dispatched; the four callback install, result
   * and error kinds go to handle_callback_object; every other kind gets an
   * object-mismatch func_error under the object's name.
   */
  function HandleBytes<S>(hooks: Option<CallbackHooks<S>>, s: S, table: Table, parsed: Option<Message>): (r: (S, Message))
    ensures parsed.None? ==> r.0 == s && r.1.ErrorMsg? && !r.1.isCallback && r.1.funcName == ""
    ensures parsed.None? ==> r.1.exceptType == ExceptionCode(ServerReceive) && r.1.errMesg == CStr(InvalidObjectMessage)
    ensures parsed.Some? && Type(parsed.value) == FuncRequest ==> r == (s, Dispatch(table, parsed.value))
    ensures parsed.Some? && RoutedToCallbacks(Type(parsed.value)) ==> r == HandleCallbackObject(hooks, s, parsed.value)
    ensures parsed.Some? && Type(parsed.value) != FuncRequest && !RoutedToCallbacks(Type(parsed.value))
            ==> r.0 == s && r.1.ErrorMsg? && !r.1.isCallback && r.1.funcName == parsed.value.funcName
                && r.1.exceptType == ExceptionCode(RpcObjectMismatch)
  {
    match parsed
    case None => (s, UnparsedReply())
    case Some(m) =>
      if RoutedToCallbacks(Type(m)) then HandleCallbackObject(hooks, s, m)
      else if Type(m) == FuncRequest then (s, Dispatch(table, m))
      else (s, InvalidTypeReply(m.funcName))
  }

  /**
   * A server without callbacks answers every input with a function reply:
   * a result only for a request naming a bound function, a func_error otherwise.
   */
  lemma PlainServerAnswersWithFunctionKinds(table: Table, parsed: Option<Message>)
    ensures var r := HandleBytes<()>(None, (), table, parsed).1;
            Type(r) == FuncResult || Type(r) == FuncResultWBind || Type(r) == FuncError
    ensures var r := HandleBytes<()>(None, (), table, parsed).1;
            !r.ErrorMsg? ==> parsed.Some? && Type(parsed.value) == FuncRequest && parsed.value.funcName in table
  {
  }

  /**
   * Only a callback server changes its callback state, and only on an install
   * request; every other input leaves the state as it was.
   */
  lemma CallbackStateChangesOnlyOnInstall<S>(hooks: Option<CallbackHooks<S>>, s: S, table: Table, parsed: Option<Message>)
    requires HandleBytes(hooks, s, table, parsed).0 != s
    ensures hooks.Some? && parsed.Some? && Type(parsed.value) == CallbackInstallRequest
  {
  }
}

=== FILE: safe_strcpy.dfy ===
/**
 * include/safe_strcpy.hpp: safe::strcpy, a length-checked strcpy that copies
 * as much of a C string as fits in a buffer of destSize characters, always
 * terminates what it wrote, and returns strlen of the source.
 *
 * Memory is a sequence of characters: `src` is the source buffer (it holds a
 * NUL, as a C string must), `dest` is the destination buffer, of which the
 * first destSize characters are the ones the caller lends.
 */
module SafeStrcpy {
  import opened CStrings

  /** What a call leaves behind: the destination buffer and the returned size. */
  datatype Copy = Copy(dest: seq<char>, len: nat)

  /** strlen: the index of the first NUL. */
  function StrLen(src: seq<char>): (n: nat)
    requires '\0' in src
    ensures n < |src| && src[n] == '\0'
    ensures '\0' !in src[..n]
  {
    |CString(src)|
  }

  /**
   * The pointer overload. When the whole string and its NUL fit below
   * destSize it is copied with its NUL; otherwise, unless destSize is 0, the
   * first destSize - 1 characters are copied and a NUL is put at
   * destSize - 1. The size of src is returned in every case.
   */
  function Strcpy(dest: seq<char>, src: seq<char>, destSize: nat): (r: Copy)
    requires '\0' in src
    requires destSize <= |dest|
    ensures r.len < |src| && src[r.len] == '\0' && '\0' !in src[..r.len]
    ensures |r.dest| == |dest|
    ensures forall i | destSize <= i < |dest| :: r.dest[i] == dest[i]
    ensures destSize == 0 ==> r.dest == dest
    ensures destSize > 0 ==> var k := Min(r.len, destSize - 1);
              r.dest[..k] == src[..k] && r.dest[k] == '\0'
    ensures destSize > 0 ==> forall i | Min(r.len, destSize - 1) < i < |dest| :: r.dest[i] == dest[i]
  {
    var n := StrLen(src);
    if n + 1 < destSize then
      Copy(src[..n + 1] + dest[n + 1..], n)
    else if destSize != 0 then
      Copy(src[..destSize - 1] + ['\0'] + dest[destSize..], n)
    else
      Copy(dest, n)
  }

  /**
   * The array overload: the same steps with destSize fixed to the array's
   * length.
   */
  function StrcpyArray(dest: seq<char>, src: seq<char>): (r: Copy)
    requires '\0' in src
    ensures r == Strcpy(dest, src, |dest|)
  {
    var n := StrLen(src);
    if n + 1 < |dest| then
      Copy(src[..n + 1] + dest[n + 1..], n)
    else if |dest| != 0 then
      Copy(src[..|dest| - 1] + ['\0'] + dest[|dest|..], n)
    else
      Copy(dest, n)
  }

  function Min(a: int, b: int): int { if a <= b then a else b }

  /**
   * Reading the destination back as a C string gives the source, cut to
   * destSize - 1 characters; the copy was cut exactly when the returned size
   * is at least destSize.
   */
  lemma StrcpyReadsBack(dest: seq<char>, src: seq<char>, destSize: nat)
    requires '\0' in src
    requires 0 < destSize <= |dest|
    ensures var r := Strcpy(dest, src, destSize);
            CString(r.dest) == CString(src)[..Min(r.len, destSize - 1)]
    ensures var r := Strcpy(dest, src, destSize);
            CString(r.dest) == CString(src) <==> r.len < destSize
  {
    var r := Strcpy(dest, src, destSize);
    var n := StrLen(src);
    var k := Min(n, destSize - 1);
    assert r.dest[..k] == src[..k];
    assert src[..k] == src[..n][..k];
    assert r.dest[k] == '\0';
    CStringUpTo(r.dest, k);
    assert CString(src) == src[..n];
  }

  /** A buffer whose first NUL is at k reads back as its first k characters. */
  lemma CStringUpTo(buf: seq<char>, k: nat)
    requires k < |buf| && buf[k] == '\0' && '\0' !in buf[..k]
    ensures CString(buf) == buf[..k]
  {
  }
}

=== FILE: seqs.dfy ===
/**
 * Element-wise conversion of a sequence, the shape every adapter loop over a
 * container or an argument tuple has.
 */
module Seqs {

  /** Each element converted by f, in order. */
  function Map<X, Y>(xs: seq<X>, f: X -> Y): (ys: seq<Y>)
    ensures |ys| == |xs| && forall i :: 0 <= i < |xs| ==> ys[i] == f(xs[i])
  {
    seq(|xs|, i requires 0 <= i < |xs| => f(xs[i]))
  }
}

=== FILE: test_server.dfy ===
/**
 * The callback registry of the test suite's server, tests/test_server.hpp:
 * the set of installed callback names, install_callback, uninstall_callback,
 * call_callback_impl and the kind filter of recv_impl. Sending and receiving
 * are modelled by the object sent and the next incoming reply.
 */
module TestServer {
  import opened Wrappers
  import opened Values
  import opened Rpc
  import opened RpcServer
  import opened CStrings

  /** m_installed_callbacks. */
  type Installed = set<string>

  function AlreadyInstalled(name: string): string
  {
    "Test server error: callback " + name + "() is already installed"
  }

  /**
   * install_callback: a new name joins the set and the request object is left
   * as it is, so it is echoed back; a name already present leaves the set as
   * it is and replaces the object by a callback_install callback_error.
   */
  function InstallCallback(installed: Installed, m: Message): (r: (Installed, Result<Message, Thrown>))
    ensures r.0 == installed + {m.funcName}
    ensures m.funcName !in installed ==> r.1 == Ok(m)
    ensures m.funcName in installed ==> r.1.Ok? && r.1.value.ErrorMsg? && r.1.value.isCallback
    ensures m.funcName in installed ==> r.1.value.funcName == m.funcName
    ensures m.funcName in installed ==> r.1.value.exceptType == ExceptionCode(CallbackInstall)
  {
    var name := m.funcName;
    if name in installed then
      (installed, Ok(ErrorOf(true, name, Raise(CallbackInstallError, AlreadyInstalled(name)))))
    else (installed + {name}, Ok(m))
  }

  /** uninstall_callback: the name leaves the set; an absent name changes nothing. */
  function UninstallCallback(installed: Installed, m: Message): (r: (Installed, Option<Thrown>))
    ensures r.0 == installed - {m.funcName} && r.1.None?
    ensures m.funcName !in installed ==> r.0 == installed
  {
    (installed - {m.funcName}, None)
  }

  /** The test server's overrides, as the callback server's hooks. */
  function Hooks(): CallbackHooks<Installed>
  {
    CallbackHooks(InstallCallback, UninstallCallback)
  }

  /**
   * Installing a name through handle_bytes echoes the request the first time,
   * so the client sees a callback_install_request, and answers a second
   * install of the same name with a callback_error.
   */
  lemma InstallTwiceThroughServer(installed: Installed, table: Table, name: string)
    requires name !in installed
    ensures var (s1, r1) := HandleBytes(Some(Hooks()), installed, table, Some(InstallMsg(name, false)));
            s1 == installed + {name} && r1 == InstallMsg(name, false)
            && var (s2, r2) := HandleBytes(Some(Hooks()), s1, table, Some(InstallMsg(name, false)));
               s2 == s1 && Type(r2) == CallbackError && r2.exceptType == ExceptionCode(CallbackInstall)
  {
    var (s1, r1) := HandleBytes(Some(Hooks()), installed, table, Some(InstallMsg(name, false)));
    assert Type(InstallMsg(name, false)) == CallbackInstallRequest;
    assert !IsCallbackUninstall(InstallMsg(name, false));
    assert (s1, r1) == HandleCallbackObject(Some(Hooks()), installed, InstallMsg(name, false));
    assert name in s1;
  }

  /** Uninstalling through handle_bytes removes the name and echoes the request. */
  lemma UninstallThroughServer(installed: Installed, table: Table, name: string)
    ensures HandleBytes(Some(Hooks()), installed, table, Some(InstallMsg(name, true)))
         == (installed - {name}, InstallMsg(name, true))
  {
    assert Type(InstallMsg(name, true)) == CallbackInstallRequest;
    assert IsCallbackUninstall(InstallMsg(name, true));
  }

  /** One receive as the test server sees it. */
  datatype Incoming = ReceiveFailed(what: string) | Unparseable | Parsed(m: Message)

  const InvalidObject: string := "Test server error: invalid RPC object received"
  const InvalidType: string := "Test server error: invalid rpc_object type detected"

  /** The reply kinds recv_impl passes back to its caller. */
  predicate IsCallbackReply(t: RpcType)
  {
    t == CallbackResult || t == CallbackResultWBind || t == CallbackError
  }

  /**
   * recv_impl: a failed receive or unparseable bytes give server_receive_error;
   * of the parsed kinds only callback results and callback errors are accepted,
   * every other kind gives object_mismatch_error.
   */
  function RecvImpl(incoming: Incoming): (r: Result<Message, RpcException>)
    ensures r.Ok? <==> incoming.Parsed? && IsCallbackReply(Type(incoming.m))
    ensures r.Ok? ==> r.value == incoming.m
    ensures incoming.ReceiveFailed? ==> r == Err(Raise(ServerReceiveError, CStr(incoming.what)))
    ensures incoming.Unparseable? ==> r.Err? && r.error.cls == ServerReceiveError
    ensures incoming.Parsed? && !IsCallbackReply(Type(incoming.m)) ==> r.Err? && r.error.cls == ObjectMismatchError
  {
    match incoming
    case ReceiveFailed(what) => Err(Raise(ServerReceiveError, CStr(what)))
    case Unparseable => Err(Raise(ServerReceiveError, InvalidObject))
    case Parsed(m) =>
      if IsCallbackReply(Type(m)) then Ok(m)
      else Err(Raise(ObjectMismatchError, InvalidType))
  }

  function NotInstalled(name: string): string
  {
    "Test server error: callback " + name + "() was called but not installed"
  }

  /** What call_callback_impl sent and how it ended. */
  datatype CallOutcome = CallOutcome(sent: seq<Message>, reply: Result<Message, RpcException>)

  /**
   * call_callback_impl: a callback that is not installed gives
   * callback_missing_error before anything is sent; otherwise the request is
   * sent and the next incoming reply is read through recv_impl.
   */
  function CallCallbackImpl(installed: Installed, request: Message, incoming: Incoming): (r: CallOutcome)
    requires Type(request) == CallbackRequest
    ensures request.funcName !in installed ==> r.sent == []
    ensures request.funcName !in installed ==> r.reply == Err(Raise(CallbackMissingError, NotInstalled(request.funcName)))
    ensures request.funcName in installed ==> r.sent == [request] && r.reply == RecvImpl(incoming)
  {
    if request.funcName !in installed then
      CallOutcome([], Err(Raise(CallbackMissingError, NotInstalled(request.funcName))))
    else CallOutcome([request], RecvImpl(incoming))
  }

  /**
   * A callback can be called only between its install and its uninstall:
   * after uninstalling, calling it sends nothing and fails with
   * callback_missing_error.
   */
  lemma CallAfterUninstallFails(installed: Installed, table: Table, name: string, args: Args, incoming: Incoming)
    ensures var s := HandleBytes(Some(Hooks()), installed, table, Some(InstallMsg(name, true))).0;
            var r := CallCallbackImpl(s, RequestMsg(true, name, false, args), incoming);
            r.sent == [] && r.reply.Err? && r.reply.error.cls == CallbackMissingError
  {
    UninstallThroughServer(installed, table, name);
  }
}

=== FILE: values.dfy ===
/**
 * Argument and return values as the message layer sees them. The library only
 * moves these between tuples, messages and callers; it never inspects them, so
 * a value is an opaque token here.
 */
module Values {

  datatype Value = Value(id: int)

  /** The argument tuple of a request, position by position. */
  type Args = seq<Value>
}

=== FILE: wrappers.dfy ===
/**
 * Small shared wrappers: an optional value (std::optional in the library) and
 * a result that is either a value or a thrown exception object.
 */
module Wrappers {

  datatype Option<T> = None | Some(value: T)
  {
    predicate IsFailure() { None? }

    function UnwrapOr(default: T): (r: T)
      ensures Some? ==> r == value
      ensures None? ==> r == default
    {
      match this
      case None => default
      case Some(v) => v
    }
  }

  /** The outcome of a C++ call that either returns `value` or throws `error`. */
  datatype Result<+T, +E> = Ok(value: T) | Err(error: E)
  {
    predicate IsFailure() { Err? }
  }

  /**
   * The outcome of a call that returns, throws, or stops on one of the
   * library's assertions (or on a third-party library's), which the model
   * does not follow further.
   */
  datatype Checked<T, E> = Returns(value: T) | Throws(error: E) | AssertionFails
}
